=== FILE: README.md ===
# Market-data completeness and self-healing, modelled in Dafny

This project models the data-completeness and self-healing pipeline of the
`market-data` ingestion system. The system fetches OHLCV candles for NSE
symbols from a vendor (Kite) in five timeframes (1M, 5M, 10M, 15M, 1D) and
stores them insert-if-absent. It audits coverage against the NSE trading
calendar and re-fetches what is missing, and it records each audit and heal
as a row of `data_quality_reports`. It raises an alert when healing keeps
falling short, and the dashboard reads those rows back as health, alerts and
metrics.

The model works in these terms:

- A time is an integer number of seconds on the IST wall clock, and a date
  is a day number. The session runs from 09:15:00 (`MarketOpen`) to
  15:30:00 (`MarketClose`).
- The candle tables are maps keyed by (symbol, timeframe, ts). Inserting
  never overwrites, which is what `ON CONFLICT DO NOTHING` gives. The
  `candles` table and the intraday backfill's `ohlcv` table are separate
  maps.
- `data_quality_reports` is an append-only sequence. Its newest row is the
  last one.
- The vendor, the clock, the holiday table and the database listing become
  parameters of the operations that use them. Vendor and database failures
  are values of a `Result` type, named after the Python exception the code
  would raise.

Modules follow the source files:

| Module | What it models |
|---|---|
| `Clock` | seconds, days and weekdays |
| `Timeframes` | the timeframe registry |
| `TimeframeGrid` | bar alignment and session grids |
| `Sorting` | ordered sequences |
| `CandleStore` | the candle writer and the reads the agents make |
| `Validator` | candle validation |
| `TradingCalendar` | trading days |
| `HolidayLoader` | the holiday CSV loader |
| `CivilDate` | date and time text |
| `Normalize` | the vendor payload normaliser |
| `SymbolResolver` | the instrument lookup |
| `KiteClient` | the chunked historical fetch |
| `GapDetector` | gap detection |
| `MarketGuards` | the scheduler's market-hours guard |
| `Orchestrator` | incremental ingestion |
| `Retention` | the retention policy |
| `JobRegistry` | the job registry |
| `JobRunner` | the batch runner and the adaptive back-off wrapper |
| `DailyBackfill` | the daily backfill agent |
| `IntradayBackfill` | the intraday backfill agent |
| `QualityReports` | the report log, streaks and health |
| `CompletenessAgent` | the data completeness agent |
| `QaJob` | the YAML-driven QA job |
| `EodReconciliation` | end-of-day reconciliation |
| `OptionChain` | the option-chain snapshot capture |
| `HealthMetrics` | the lag metrics |
| `Alerts` | the alert endpoints |

## Model

| member | source | states |
|---|---|---|
| Timeframes.RegistryKeys | src/data_ingestion/timeframe_mapper.py:3-29 | the registry knows exactly the five ids 1M, 5M, 10M, 15M and 1D |
| Timeframes.RegistryMinutes | src/data_ingestion/timeframe_mapper.py:3-29 | the step of each id in minutes: 1, 5, 10, 15 and 1440 |
| Timeframes.IntradayMinutesDivideHour | src/data_ingestion/timeframe_mapper.py:3-23 | every intraday step divides sixty minutes |
| Timeframes.KiteMapMirrorsRegistry | src/data_ingestion/timeframe_mapper.py:32-35 | the vendor interval map has the registry's keys and each value is that entry's vendor name |
| Timeframes.Upper | src/data_ingestion/retention.py:12 | upper-casing keeps the length and maps each ASCII lower-case letter to its capital, other characters unchanged |
| Timeframes.UpperIdempotent | src/scheduler/job_registry.py:33 | upper-casing twice is upper-casing once |
| Timeframes.RegistryKeysAreUpper | src/data_ingestion/timeframe_mapper.py:3-29 | every registry id is fixed by upper-casing |
| TimeframeGrid.TimeframeDelta | src/data_ingestion/orchestrator.py:44-53 | unknown id gives ValueError and only then; 1D steps one day; every step is positive |
| TimeframeGrid.DeltaIsRegistryMinutes | src/data_ingestion/orchestrator.py:44-53 | the 1D special case agrees with the registry: every known id steps by its registry minutes |
| TimeframeGrid.StepOf | src/data_ingestion/timeframe_mapper.py:3-23 | an intraday step is one of 60, 300, 600 or 900 seconds |
| TimeframeGrid.AlignToTimeframe | src/data_ingestion/orchestrator.py:56-73 | 1D gives midnight of the same date; intraday gives the latest time not after the input with zero seconds and minute a multiple of the step, within the same hour; an unknown non-1D id is ValueError |
| TimeframeGrid.AlignIsGridFloor | src/data_ingestion/orchestrator.py:67-73 | flooring the minute of the hour equals flooring the instant to the step grid |
| TimeframeGrid.AlignIdempotent | src/data_ingestion/orchestrator.py:56-73 | an aligned time is its own alignment |
| TimeframeGrid.SessionGridMembers | src/qa/intraday_completeness_job.py:64-82 | the expected session grid holds exactly the times on the grid from the open strictly below the close, ascending, and is empty exactly when open is not before close |
| TimeframeGrid.SessionGridSizes | src/qa/intraday_completeness_job.py:64-82 | the 09:15-15:30 session holds 375, 75, 38 and 25 candles for 1M, 5M, 10M and 15M |
| TimeframeGrid.SessionGridAligned | src/data_ingestion/orchestrator.py:56-73 | for 1M, 5M and 15M every expected session time is already aligned |
| TimeframeGrid.TenMinuteGridNotAligned | src/data_ingestion/orchestrator.py:56-73 | the 10M session grid starts at 09:15, which 10-minute alignment moves back to 09:10 |
| Validator.DropDuplicates | src/data_ingestion/validator.py:8 | a row survives exactly when it is the first row with its timestamp |
| Validator.ValidateCandles | src/data_ingestion/validator.py:3-13 | empty input is returned as is; the result is strictly ordered by timestamp, keeps the first row of every timestamp of the input and no other |
| Validator.FirstInStrictBatch | src/data_ingestion/validator.py:8 | in a strictly ordered batch each row is the first with its timestamp |
| Validator.ValidateIdempotent | src/data_ingestion/validator.py:3-13 | validating a validated batch changes nothing |
| CandleStore.InsertIfAbsent | src/data_ingestion/writer.py:24-29 | stored keys keep their rows; a new key takes the first row of the batch with that key; nothing else is added |
| CandleStore.InsertStoredKeysIsNoop | src/data_ingestion/writer.py:24-29 | a batch whose keys are all stored changes nothing |
| CandleStore.InsertIdempotent | src/data_ingestion/writer.py:24-29 | repeating a batch changes nothing more |
| CandleStore.WriteCandles | src/data_ingestion/writer.py:6-33 | an empty frame is a no-op; every row's key is stored afterwards; stored rows are kept; new keys carry the symbol and timeframe and the first matching row |
| CandleStore.WriteCandlesIdempotent | src/data_ingestion/writer.py:6-33 | writing the same frame twice is writing it once |
| CandleStore.InsertOhlcvBatch | src/data_ingestion/insert.py:6-46 | an empty batch is a no-op; every record's key is stored; a conflicting record leaves the stored bar; a new key takes the bar of the first record with that key |
| CandleStore.InsertOhlcvIdempotent | src/data_ingestion/insert.py:6-46 | a retried batch changes nothing more |
| CandleStore.LastTs | src/data_ingestion/orchestrator.py:103 | None exactly when the pair has no rows; otherwise the greatest stored timestamp |
| CandleStore.ScanHalfOpen | src/qa/intraday_completeness_job.py:85-111 | ascending, and holds exactly the stored timestamps of the pair in [lo, hi) |
| CandleStore.ScanBetween | src/agents/data_quality/data_completeness_agent.py:387-405 | ascending, and holds exactly the stored timestamps of the pair in [lo, hi] |
| CandleStore.DatesOf | src/agents/backfill/backfill_agent.py:20-35 | the dates on which the pair has at least one row |
| Retention.RetentionCutoff | src/data_ingestion/retention.py:11-18 | ValueError exactly when the upper-cased id is not a policy key; a cutoff only for 1D, ten years back |
| Retention.IntradayRetentionRaises | src/data_ingestion/retention.py:3-18 | no intraday id, in any case, ever gets a cutoff |
| Retention.FifteenMinuteRetentionRaises | src/data_ingestion/retention.py:3-18 | `15m` and `15M` both raise instead of giving 180 days back |
| Retention.CorrectedRetentionCutoff | src/data_ingestion/retention.py:3-18 | with upper-case policy keys: ValueError exactly for unknown ids, otherwise now minus the policy days, strictly earlier than now |
| Retention.CorrectedRetentionCoversIntraday | src/data_ingestion/retention.py:3-8 | 180, 90 and 30 days for 15M, 5M and 1M in either case; 1D agrees with the written cutoff |
| MarketGuards.IsMarketOpen | src/scheduler/guards.py:11-17 | closed on weekends and outside 09:15-15:30; open on every weekday instant inside it |
| MarketGuards.GuardBoundsInclusive | src/scheduler/guards.py:17 | 09:15:00 and 15:30:00 are open, one second outside either is closed |
| MarketGuards.GuardIgnoresHolidays | src/scheduler/guards.py:11-17 | a weekday exchange holiday inside market hours passes the guard |
| GapDetector.ScanPairs | src/data_ingestion/gap_detector.py:43-53 | at most one gap per consecutive pair; each gap lies between a pair more than 1.5 steps apart, one step in from each end |
| GapDetector.ScanPairsComplete | src/data_ingestion/gap_detector.py:46-51 | every consecutive pair more than 1.5 steps apart is reported |
| GapDetector.ScanPairsSorted | src/data_ingestion/gap_detector.py:40-53 | on sorted input the gaps come out in order of start |
| GapDetector.DetectGaps | src/data_ingestion/gap_detector.py:26-53 | no gaps for an empty frame or an id other than 15M, 5M, 1M after upper-casing; otherwise the gaps of the sorted timestamps, ordered |
| GapDetector.DetectGapsOrderIndependent | src/data_ingestion/gap_detector.py:40 | any permutation of the frame gives the same gaps |
| GapDetector.OneMissingCandle | src/data_ingestion/gap_detector.py:46-51 | candles two steps apart give exactly the one missing candle between them |
| GapDetector.NoGapOnContiguousGrid | src/data_ingestion/gap_detector.py:47 | adjacent grid candles are never a gap |
| GapDetector.AlignedGapsNonEmpty | src/data_ingestion/gap_detector.py:47-50 | on step-aligned timestamps every gap is a non-empty range |
| GapDetector.OvernightIsMarketCloseGap | src/data_ingestion/gap_detector.py:16-23 | a pair from at or after 15:30 to at or before 09:15 is a market-close gap |
| GapDetector.InSessionIsNotMarketCloseGap | src/data_ingestion/gap_detector.py:16-23 | an earlier candle inside the session is never a market-close gap |
| Orchestrator.ResolveStartTs | src/data_ingestion/orchestrator.py:102-113 | one step after the newest stored candle; without one ten years, 7, 3 or 1 days back for 1D, 15M, 5M, 1M; other ids raise |
| Orchestrator.TenMinuteFirstRunRaises | src/data_ingestion/orchestrator.py:23-27 | 10M is registered but its first run raises KeyError |
| Orchestrator.SafeEnd | src/data_ingestion/orchestrator.py:124-130 | three days back for 1D; for intraday at least three candles and at least five minutes back, and exactly one of these; unknown ids raise KeyError |
| Orchestrator.SafeEndBuffers | src/data_ingestion/orchestrator.py:124-130 | the buffers are 5, 15, 30 and 45 minutes |
| Orchestrator.IngestWindow | src/data_ingestion/orchestrator.py:121-151 | both ends are aligned; with a stored candle the window starts at the aligned step after it |
| Orchestrator.FetchGaps | src/data_ingestion/orchestrator.py:170-181 | raises exactly when some gap fetch fails; otherwise holds exactly the candles the gap fetches returned |
| Orchestrator.MergeWithGaps | src/data_ingestion/orchestrator.py:168-183 | raises exactly when a gap re-fetch fails; one request per detected gap; the merge is strictly ordered, holds exactly the timestamps of the first frame and of the gap frames, and keeps for each timestamp the first candle of the first frame followed by the gap frames; every candle came from a request |
| Orchestrator.MergedProvenance | src/data_ingestion/orchestrator.py:181-183 | deduplicating the merged frame keeps only fetched candles |
| Orchestrator.IngestSymbol | src/data_ingestion/orchestrator.py:120-189 | a bad window raises and an empty window does nothing; a failing first fetch raises with its error; an empty frame writes nothing; for 1D a non-empty frame is written as fetched; intraday, the call succeeds exactly when the merge does, and writes the merged batch after one request per gap; the store afterwards is the write of the batch |
| Orchestrator.GapFailureSkipsSymbol | src/data_ingestion/orchestrator.py:169-207 | when a gap re-fetch fails, `ingest_symbol` raises and the loop skips the symbol with nothing written, not even the first fetch |
| Orchestrator.IngestOrSkip | src/data_ingestion/orchestrator.py:203-207 | a symbol that raises leaves the store; otherwise the store is the one its ingest left; only rows of that symbol and timeframe are added |
| Orchestrator.IngestAll | src/data_ingestion/orchestrator.py:203-207 | stored rows are kept and new rows belong to the listed symbols at the job's timeframe |
| Orchestrator.IngestAllWrites | src/data_ingestion/orchestrator.py:203-207 | every candle a symbol's ingest writes, from the store the earlier symbols left, is keyed in the store after the whole loop |
| Orchestrator.IngestAllAppend | src/data_ingestion/orchestrator.py:203-207 | running two symbol lists in turn is running their concatenation |
| Orchestrator.FailureIsolated | src/data_ingestion/orchestrator.py:204-207 | a failing symbol does not stop the later ones |
| Orchestrator.RunIngestionJob | src/data_ingestion/orchestrator.py:192-209 | an unknown job is KeyError and only then; an intraday job outside market hours changes nothing; otherwise the result is the symbol loop at the job's timeframe, so each successful ingest is stored, and only rows of the listed symbols are added |
| Orchestrator.RunBackfill | src/data_ingestion/orchestrator.py:216-254 | unknown non-1D ids raise ValueError; at most one fetch, over the aligned window; a failing fetch raises; nothing is written when the window or the frame is empty; otherwise the frame is written as fetched |
| KiteClient.ChunkWindows | src/data_ingestion/clients/kite_client.py:66-95 | windows tile [start, end) contiguously, each non-empty and at most 2000 days long |
| KiteClient.ChunkCount | src/data_ingestion/clients/kite_client.py:69-73 | the number of requests is the span over 2000 days, rounded up |
| KiteClient.WindowsCover | src/data_ingestion/clients/kite_client.py:69-95 | every instant of the span lies in exactly one window: some window contains it, and any two windows that contain it are the same |
| KiteClient.GetKiteInterval | src/data_ingestion/clients/kite_client.py:114-121 | the vendor interval of a registered id, ValueError otherwise |
| KiteClient.FetchWindows | src/data_ingestion/clients/kite_client.py:69-100 | fails exactly when some window request fails, with that request's error; otherwise holds exactly the rows of all windows |
| KiteClient.FetchByToken | src/data_ingestion/clients/kite_client.py:61-111 | an unknown id raises ValueError; an empty span gives no rows; every row came from a window request |
| KiteClient.FetchCandles | src/data_ingestion/clients/kite_client.py:47-111 | an unresolvable symbol fails before any request; otherwise the token's chunked fetch |
| SymbolResolver.MatchesOf | src/data_ingestion/symbol_resolver.py:30-33 | no rows exactly when no instrument matches; two or more exactly when two distinct instruments match |
| SymbolResolver.ResolveSymbol | src/data_ingestion/symbol_resolver.py:18-46 | ValueError exactly when no instrument matches, RuntimeError exactly when several do, otherwise the token of a matching row |
| SymbolResolver.ResolveUnique | src/data_ingestion/symbol_resolver.py:35-46 | with a unique match the token is that instrument's |
| JobRegistry.GetJobConfig | src/scheduler/job_registry.py:31-34 | unknown job is KeyError and only then; other fields copied; the timeframe is the upper-case form of the entry's and is registered |
| JobRegistry.JobTimeframes | src/scheduler/job_registry.py:3-28 | the four jobs resolve to 1D, 15M, 5M and 1M with their tiers and retention |
| JobRegistry.RunTypeMatchesTimeframe | src/scheduler/job_registry.py:3-28 | a job runs intraday exactly when its timeframe is intraday |
| JobRunner.Chunked | src/scheduler/job_runner.py:21-23 | chunks concatenate back to the list; every chunk is non-empty and full-size except possibly the last |
| JobRunner.ChunkCount | src/scheduler/job_runner.py:21-23 | there are ceil(n / size) chunks |
| JobRunner.SleepOnlyBetweenBatches | src/scheduler/job_runner.py:70 | the sleep guard holds for every batch but the last |
| JobRunner.OnSuccess | src/scheduler/job_runner.py:49-54 | the streak resets and the pause drops by at most the recovery step, never below the floor |
| JobRunner.OnError | src/scheduler/job_runner.py:56-67 | the streak grows by one; the pause becomes the old pause plus the step times the new streak, or the ceiling if that is less, so it never shrinks |
| JobRunner.ErrorsBackOff | src/scheduler/job_runner.py:56-67 | k errors in a row from streak e raise the pause by the step times k·e + k(k+1)/2, capped at the ceiling, and the streak by k |
| JobRunner.SuccessesRecover | src/scheduler/job_runner.py:49-54 | k successes reduce the pause by k recovery steps down to the floor |
| JobRunner.FullRecovery | src/scheduler/job_runner.py:15-18 | nineteen successes bring any pause back to the floor |
| JobRunner.FourErrorsSaturate | src/scheduler/job_runner.py:63-67 | four errors after a success reach the ceiling from any pause |
| JobRunner.Throttled | src/scheduler/job_runner.py:38-67 | the throttle carried across batches starts at the floor with no streak, stays within floor and ceiling, has a zero streak after a success and a positive one after an error |
| JobRunner.RunBatches | src/scheduler/job_runner.py:41-71 | one entry per batch in order with its outcome; each pause is the delay of the throttle after the batches so far; a pause follows every batch but the last; the final throttle is the one after all batches |
| JobRunner.JobWrapper | src/scheduler/job_runner.py:26-75 | one attempt per chunk in order, each recording whether it succeeded; each pause is the delay of the throttle after the chunks so far, within floor and ceiling; a pause follows exactly the batches with `batch_no * BATCH_SIZE < len(symbols)`, that is every batch but the last |
| TradingCalendar.IsTradingDay | src/agents/calendar/market_holiday_agent.py:19-42 | closed on Saturday and Sunday whatever the table says, closed on a date listed for this exchange, open on every other weekday |
| TradingCalendar.OtherExchangesIrrelevant | src/agents/calendar/market_holiday_agent.py:31-40 | rows of other exchanges never change the answer |
| TradingCalendar.HolidaysForYear | src/agents/calendar/market_holiday_agent.py:44-60 | ascending, and holds exactly the listed dates of that exchange and year |
| TradingCalendar.HolidaysForYearOnePerRow | src/agents/calendar/market_holiday_agent.py:44-60 | with the primary key in force the listing has one date per row |
| TradingCalendar.TradingDaysBetween | src/agents/backfill/backfill_agent.py:36-42 | ascending, and holds exactly the trading days of [lo, hi]; empty when lo > hi |
| HolidayLoader.Strip | src/agents/calendar/load_market_holidays.py:12 | an infix of the input, obtained by removing only the given characters, that neither starts nor ends with one of them |
| HolidayLoader.Clean | src/agents/calendar/load_market_holidays.py:8-12 | a missing cell is empty; otherwise the result is an infix of the cell with only Python whitespace and double quotes removed from its ends, and it neither starts nor ends with a double quote |
| HolidayLoader.StripIdempotent | src/agents/calendar/load_market_holidays.py:12 | stripping a stripped cell changes nothing |
| HolidayLoader.ClassifyRow | src/agents/calendar/load_market_holidays.py:37-56 | a row too short for both columns is skipped; an accepted row is an NSE holiday whose date parses as DD/MM/YYYY from the cleaned date cell and whose description is the cleaned occasion cell |
| HolidayLoader.PrimaryKeyMakesWellKeyed | src/agents/calendar/load_market_holidays.py:57-74 | a table keyed by (exchange, date) never lists a date twice for one exchange |
| HolidayLoader.LoadRows | src/agents/calendar/load_market_holidays.py:35-76 | skipped counts the rejected rows; existing rows are kept; inserted counts the new keys; the key stays primary |
| HolidayLoader.LoadedRowProvenance | src/agents/calendar/load_market_holidays.py:57-74 | every added row is the holiday of one accepted line |
| HolidayLoader.LoadedKeysCover | src/agents/calendar/load_market_holidays.py:57-74 | the key of every accepted line is present afterwards |
| HolidayLoader.LoadHolidays | src/agents/calendar/load_market_holidays.py:15-82 | an empty file fails reading the header, and only then StopIteration; a header without Date or Occasion is RuntimeError and only then; inserted counts the new rows and existing rows are kept |
| HolidayLoader.LoadedHolidayFromFile | src/agents/calendar/load_market_holidays.py:35-76 | every added row is an NSE holiday read from a data line of the file |
| HolidayLoader.ReloadInsertsNothing | src/agents/calendar/load_market_holidays.py:57-76 | loading the same file again inserts nothing |
| HolidayLoader.ReloadKeys | src/agents/calendar/load_market_holidays.py:57-76 | running the insert loop over its own result adds no key |
| HolidayLoader.CleanAll | src/agents/calendar/load_market_holidays.py:24 | one cleaned header per cell, in order |
| DailyBackfill.MissingTradingDays | src/agents/backfill/backfill_agent.py:16-44 | ascending, and holds exactly the trading days of [start, end] without a 1D candle; empty when start > end |
| DailyBackfill.KeepMissing | src/agents/backfill/backfill_agent.py:38-42 | keeps order, and holds exactly the given days that are not present |
| DailyBackfill.BackfillDaily | src/agents/backfill/backfill_agent.py:46-70 | heals the first min(n, 5) missing days in order, one request per healed day over 09:15-15:30 of that day |
| DailyBackfill.ThrottleKeepsAllIff | src/agents/backfill/backfill_agent.py:57 | the throttle keeps every day exactly when at most five are missing |
| DailyBackfill.NoRequestForRemainingDays | src/agents/backfill/backfill_agent.py:57-68 | no request is made for a day left to a later run |
| DailyBackfill.HealedThenRemaining | src/agents/backfill/backfill_agent.py:57 | healed and remaining days together are the missing days |
| IntradayBackfill.KeepRecent | src/agents/backfill/intraday_backfill_agent.py:122-129 | keeps each candle dated on or after the cutoff three days back and on a trading day exactly as often as given, and no other |
| IntradayBackfill.FilterRecentTradingDays | src/agents/backfill/intraday_backfill_agent.py:116-131 | ascending, and holds each candle no older than three days on a trading day exactly as often as given |
| IntradayBackfill.CandleRecords | src/agents/backfill/intraday_backfill_agent.py:78-96 | fails exactly when the vendor call for [ts, ts + step) fails; every record carries the symbol and timeframe |
| IntradayBackfill.HealEach | src/agents/backfill/intraday_backfill_agent.py:75-104 | earlier rows are kept; new rows are of the symbol and timeframe; no inserted count means nothing changed; the run fails exactly when some vendor call fails; every record of every candle fetched before a failure is keyed in the table |
| IntradayBackfill.InsertIfAny | src/agents/backfill/intraday_backfill_agent.py:98-102 | an empty batch changes nothing; otherwise the batch insert of the records, so every record's key is stored and existing rows are kept; new rows are of the symbol and timeframe |
| IntradayBackfill.SummaryStatus | src/agents/backfill/intraday_backfill_agent.py:106-111 | COMPLETE exactly when something was inserted, PARTIAL exactly when a run inserted nothing, NOOP exactly when nothing was missing |
| IntradayBackfill.Cap | src/agents/backfill/intraday_backfill_agent.py:63 | the first min(n, 200) candles, in order |
| IntradayBackfill.BackfillMissingCandles | src/agents/backfill/intraday_backfill_agent.py:39-111 | unsupported id and empty input return their summaries untouched; all-old input is skipped as too old; a run attempts the capped recent candles, and when it ends without error every normalised record of every attempted candle is keyed in the table; the table changes only on COMPLETE and only for this pair |
| IntradayBackfill.CompleteIffSomeRecords | src/agents/backfill/intraday_backfill_agent.py:90-107 | COMPLETE exactly when some attempted candle yielded a normalised record; a vendor row that normalisation drops does not count |
| IntradayBackfill.SkippedCountsDroppedAndOverflow | src/agents/backfill/intraday_backfill_agent.py:57-63 | skipped counts both the candles the filter dropped and those beyond the cap |
| Normalize.ParseCandleTime | src/data_ingestion/normalize.py:31-41 | a time of day without a base date fails; with one it falls on the base date |
| Normalize.NormalizeOne | src/data_ingestion/normalize.py:22-55 | a missing or empty time, an unreadable price or volume skips the candle; a record carries the symbol, timeframe, the four prices, the volume or 0 when absent, and the parsed time |
| Normalize.NormalizeCandles | src/data_ingestion/normalize.py:6-57 | every record comes from one readable input candle, every readable candle gives a record, and there are no more records than candles |
| Normalize.NormalizeAppend | src/data_ingestion/normalize.py:22-57 | normalising two batches in turn is normalising their concatenation |
| Normalize.BadCandleSkipped | src/data_ingestion/normalize.py:54-55 | an unreadable candle is dropped and the others kept, in order |
| Normalize.TimeOfDayOnBaseDate | src/data_ingestion/normalize.py:35-39 | `HH:MM:SS` on a base date is that instant |
| Normalize.FullStampIgnoresBase | src/data_ingestion/normalize.py:31-34 | a full `DD-MM-YYYY HH:MM:SS` stamp is that instant whatever the base date |
| CivilDate.DaysInMonth | src/agents/calendar/load_market_holidays.py:50-52 | 28 to 31 days; February has 29 exactly in a leap year |
| CivilDate.ParseDmy | src/agents/calendar/load_market_holidays.py:50-52 | only a valid calendar date is accepted |
| CivilDate.ParseYmd | src/qa/intraday_completeness_job.py:48-58 | only a valid calendar date is accepted |
| CivilDate.ParseHms | src/data_ingestion/normalize.py:38 | a parsed time of day lies within the day |
| CivilDate.DmyRoundTrip | src/agents/calendar/load_market_holidays.py:50-52 | formatting a valid date as `DD/MM/YYYY` and parsing it back gives the date |
| CivilDate.YmdRoundTrip | src/qa/intraday_completeness_job.py:48-58 | formatting a valid date as `YYYY-MM-DD` and parsing it back gives the date |
| CivilDate.HmsRoundTrip | src/data_ingestion/normalize.py:38 | formatting a time of day and parsing it back gives its seconds |
| OptionChain.RoundTo5m | src/options/capture_intraday_option_chain_5m.py:31-33 | the latest time not after the input, within the same hour, with zero seconds and a minute that is a multiple of five |
| OptionChain.RoundTo5mIsAlign5M | src/options/capture_intraday_option_chain_5m.py:31-33 | rounding agrees with the ingestor's 5M alignment |
| OptionChain.RoundTo5mIdempotent | src/options/capture_intraday_option_chain_5m.py:31-33 | a rounded slot rounds to itself |
| OptionChain.ChainMarketOpen | src/options/capture_intraday_option_chain_5m.py:36-37 | open exactly from 09:15 to 15:30 inclusive, on any day |
| OptionChain.ChainIgnoresWeekday | src/options/capture_intraday_option_chain_5m.py:36-37 | a weekend instant in market hours passes the capture's test but not the scheduler's |
| OptionChain.ChainAgreesOnWeekdays | src/options/capture_intraday_option_chain_5m.py:36-37 | on weekdays the two market-hours tests agree |
| OptionChain.SpotSymbol | src/options/capture_intraday_option_chain_5m.py:73-81 | a quote symbol exactly for NIFTY and BANKNIFTY, ValueError otherwise |
| OptionChain.BuildRows | src/options/capture_intraday_option_chain_5m.py:150-169 | exactly one row per quoted contract, stamped with the slot, the underlying and the spot price |
| OptionChain.InsertChain | src/options/capture_intraday_option_chain_5m.py:84-108 | an empty list is a no-op; stored rows are kept; the keys afterwards are the old keys plus the rows' keys; each new key holds the quote of its first row |
| OptionChain.InsertChainIdempotent | src/options/capture_intraday_option_chain_5m.py:84-108 | capturing the same slot twice stores nothing new |
| OptionChain.UnderlyingRows | src/options/capture_intraday_option_chain_5m.py:129-169 | every row is filed under the slot and the underlying; every quoted contract of the nearest expiry gives a row |
| OptionChain.CaptureEach | src/options/capture_intraday_option_chain_5m.py:128-175 | stored rows are kept; the loop fails exactly when some read fails, with the first failing read's error; new rows are of the slot and of an underlying reached with every read so far successful, and hold the quote of the first row with that key among that underlying's rows; every row of every underlying read before a failure is keyed afterwards |
| OptionChain.CaptureChain | src/options/capture_intraday_option_chain_5m.py:115-177 | nothing outside market hours; a failing NIFTY read raises with nothing stored; a failing BANKNIFTY read raises after the NIFTY rows are stored and adds nothing else; otherwise both underlyings' rows are keyed under the current five-minute slot; rows are never overwritten and each new row holds the quote its underlying's row loop built for that contract |
| HealthMetrics.AllowedLag | src/monitoring/health_metrics.py:7-12 | the listed allowance, 60 minutes otherwise, at least 2 |
| HealthMetrics.TruncMinutes | src/monitoring/health_metrics.py:47 | whole minutes of the lag rounded toward zero, for past and future stamps alike |
| HealthMetrics.CheckOne | src/monitoring/health_metrics.py:41-55 | no data exactly when there is no last candle; otherwise the truncated lag, OK exactly within the allowance |
| HealthMetrics.OkIffWithinAllowance | src/monitoring/health_metrics.py:47-50 | OK exactly while the candle is less than one minute past its allowance |
| HealthMetrics.UpperCaseIdsGetDefault | src/monitoring/health_metrics.py:7-12 | the registry's upper-case ids 1M, 5M, 15M fall back to the 60-minute default; 1D gets a day |
| HealthMetrics.CheckHealth | src/monitoring/health_metrics.py:30-57 | one line per symbol and timeframe in the given order, each the check of that pair's newest candle |
| QualityReports.Persist | src/agents/data_quality/data_completeness_agent.py:410-437 | exactly one row is appended with the given fields and no notes, and earlier rows are untouched; ids stay the insertion sequence |
| QualityReports.FilterMembers | src/agents/data_quality/data_completeness_agent.py:185-192 | the rows of the log that match the selector |
| QualityReports.Newest | src/agents/data_quality/data_completeness_agent.py:185-192 | at most `limit` rows, each a matching row of the log |
| QualityReports.NewestIsReversedFilter | src/agents/data_quality/data_completeness_agent.py:185-192 | newest-first with a limit is the reversed filter cut at the limit |
| QualityReports.NewestComplete | src/agents/data_quality/data_completeness_agent.py:185-192 | a matching row is returned unless `limit` newer matching rows exist |
| QualityReports.LeadingPartials | src/agents/data_quality/data_completeness_agent.py:193-199 | the count of PARTIAL statuses before the first other status: all of them are PARTIAL and the next one, if any, is not |
| QualityReports.DailyPartialStreak | src/agents/data_quality/data_completeness_agent.py:183-200 | never more than eight, never more than the symbol's `auto_backfill` rows |
| QualityReports.IntradayPartialStreak | src/agents/data_quality/data_completeness_agent.py:338-356 | never more than five, never more than the pair's `intraday_backfill` rows |
| QualityReports.DailyStreakAfterAppend | src/agents/data_quality/data_completeness_agent.py:183-200 | a new PARTIAL row makes the streak exactly one more than before, capped at the eight rows read; any other status resets it to zero |
| QualityReports.IntradayStreakAfterAppend | src/agents/data_quality/data_completeness_agent.py:338-356 | a new PARTIAL row makes the streak exactly one more than before, capped at the five rows read; any other status resets it to zero |
| QualityReports.DailyStreakIgnoresOtherRows | src/agents/data_quality/data_completeness_agent.py:185-192 | rows of other kinds or symbols do not move the streak |
| QualityReports.DailyEscalationIff | src/agents/data_quality/data_completeness_agent.py:167-181 | the daily alert threshold is passed exactly when the four newest `auto_backfill` rows of the symbol are all PARTIAL |
| QualityReports.IntradayEscalationIff | src/agents/data_quality/data_completeness_agent.py:318-323 | the intraday threshold is reached exactly when the three newest `intraday_backfill` rows of the pair are all PARTIAL |
| QualityReports.LatestStatus | dashboard/api/health.py:12-23 | None exactly when the group has no row; otherwise the status of a row of the group with no newer row in it |
| QualityReports.LastStatus | dashboard/api/health.py:27-43 | None exactly when no row names the symbol and check (and timeframe); otherwise the status of a row that does, with no later such row |
| QualityReports.Health | dashboard/api/health.py:25-45 | one entry per symbol that a row names; each field holds the status of the last row that sets it, so a later timeframe overwrites coverage and backfill, and freshness has one status per timeframe |
| QualityReports.LastTimeframeWins | dashboard/api/health.py:12-40 | on the query's rows, the last row of a symbol and daily check is absent exactly when there is no such report, and otherwise is the newest status of the group whose timeframe sorts last |
| QualityReports.HealthOfLatest | dashboard/api/health.py:12-45 | on the query's rows for a log: one entry per symbol with a report; freshness has one status per timeframe with a freshness report, the newest of its group; coverage and backfill show the newest status of the group whose timeframe sorts last, none when there is no such report |
| QualityReports.HealthIgnoresOtherChecks | dashboard/api/health.py:36-43 | a row of a check the summary does not show changes nothing for a symbol already listed |
| Alerts.AckAsWritten | dashboard/api/alerts.py:68-110 | success exactly when a RAISED row has the id; that row becomes ACKED, its notes unchanged |
| Alerts.Ack | dashboard/api/alerts.py:68-110 | success exactly when a RAISED row has the id; only that row changes, to ACKED, with owner and time recorded |
| Alerts.Resolve | dashboard/api/alerts.py:116-160 | success exactly when a RAISED or ACKED row has the id; only that row changes, to RESOLVED, with resolver, time and note recorded |
| Alerts.AutoResolveIntraday | src/agents/data_quality/data_completeness_agent.py:358-368 | exactly the open intraday alerts of the pair become RESOLVED; every other row is unchanged |
| Alerts.OnlyThatIdChanges | dashboard/api/alerts.py:90-91 | no operation touches a row with another id |
| Alerts.ResolvedIsTerminal | dashboard/api/alerts.py:139-140 | no operation moves a RESOLVED row |
| Alerts.AckIdempotent | dashboard/api/alerts.py:90-103 | a second ack of the same id reports nothing found and changes nothing |
| Alerts.ResolveIdempotent | dashboard/api/alerts.py:139-152 | a second resolve of the same id reports nothing found and changes nothing |
| Alerts.RaisedRowsBareKept | dashboard/api/alerts.py:80-92 | every operation keeps RAISED rows free of notes |
| Alerts.AckAsWrittenLosesOwner | dashboard/api/alerts.py:85-89 | the written ack reports success but records no owner, where the intended one does |
| Alerts.ActiveAlerts | dashboard/api/alerts.py:12-32 | exactly the RAISED or ACKED daily-backfill alerts, newest first |
| Alerts.ActiveAlertsExcludeIntraday | dashboard/api/alerts.py:27 | intraday alerts never appear on the active list |
| Alerts.AlertHistory | dashboard/api/alerts.py:38-62 | a limit outside [1, 1000] is rejected and only then; otherwise at most `limit` daily-backfill alerts, newest first |
| Alerts.DefaultAlertHistory | dashboard/api/alerts.py:39-41 | the default limit of 100 passes validation: the newest hundred daily-backfill alerts at most |
| CompletenessAgent.ExtendsTrans | src/agents/data_quality/data_completeness_agent.py:52-60 | consecutive checks compose: the log of the whole run extends the log before it |
| CompletenessAgent.NewRowsChain | src/agents/data_quality/data_completeness_agent.py:264-336 | the rows two consecutive steps append are still about the pair and of the allowed kinds |
| CompletenessAgent.ReportedKept | src/agents/data_quality/data_completeness_agent.py:52-60 | a report made by an earlier step is still in the log after later steps |
| CompletenessAgent.ExpectedDays | src/agents/data_quality/data_completeness_agent.py:84-89 | the first date is not after the last; the count is at most the days of the range and at least one when either end is a trading day |
| CompletenessAgent.ExpectedDaysCountsTradingDays | src/agents/data_quality/data_completeness_agent.py:84-89 | the expected-day walk counts the trading days between the first and last 1D candle dates |
| CompletenessAgent.CoverageReport | src/agents/data_quality/data_completeness_agent.py:91-118 | appends one `daily_coverage` row for the symbol on 1D; PASS exactly when there are at least as many 1D candles as trading days in their range, FAIL otherwise |
| CompletenessAgent.DailyHealReport | src/agents/data_quality/data_completeness_agent.py:142-165 | appends one `auto_backfill` row: COMPLETE exactly when at most five days are missing, PARTIAL exactly when more; the healed days are a prefix of at most five and remaining counts the rest |
| CompletenessAgent.EscalateDaily | src/agents/data_quality/data_completeness_agent.py:167-181 | appends an alert exactly when the newest heal is PARTIAL and the symbol's streak exceeds three; the alert is RAISED on the symbol's 1D |
| CompletenessAgent.DailyAlertIffFourPartials | src/agents/data_quality/data_completeness_agent.py:167-200 | an alert follows a PARTIAL heal exactly when the symbol's four newest `auto_backfill` rows are all PARTIAL |
| CompletenessAgent.AutoBackfillAndAlert | src/agents/data_quality/data_completeness_agent.py:126-181 | no missing day exactly when the log is unchanged; otherwise the heal report then the escalation, at most two rows, all about the symbol's 1D |
| CompletenessAgent.CheckDailyCoverage | src/agents/data_quality/data_completeness_agent.py:65-121 | no 1D candles exactly when nothing happens; otherwise the coverage report, and on FAIL the heal; the candles are never written |
| CompletenessAgent.CoverageFailImpliesMissing | src/agents/data_quality/data_completeness_agent.py:99-140 | a coverage FAIL always leaves at least one trading day without a candle |
| CompletenessAgent.FreshnessThreshold | src/agents/data_quality/data_completeness_agent.py:225-226 | every threshold is positive |
| CompletenessAgent.CheckFreshness | src/agents/data_quality/data_completeness_agent.py:205-241 | no candles exactly when nothing happens; otherwise one `freshness` row, PASS exactly when the newest candle lies within the threshold before now |
| CompletenessAgent.ExpectedCandles | src/agents/data_quality/data_completeness_agent.py:373-385 | never empty; the i-th time is the open plus i steps, all before the close, ascending |
| CompletenessAgent.ActualCandles | src/agents/data_quality/data_completeness_agent.py:387-405 | the pair's stored times from the first grid time to one step past the last, both ends included, ascending |
| CompletenessAgent.MissingCandles | src/agents/data_quality/data_completeness_agent.py:269-278 | ascending, and exactly the grid times of the date with no stored candle |
| CompletenessAgent.CompletenessReport | src/agents/data_quality/data_completeness_agent.py:279-294 | appends one `intraday_completeness` row: PASS exactly when no grid time is missing, FAIL otherwise |
| CompletenessAgent.CompletenessPassIff | src/agents/data_quality/data_completeness_agent.py:278-279 | a date passes exactly when every grid time has a stored candle |
| CompletenessAgent.EscalateIntraday | src/agents/data_quality/data_completeness_agent.py:317-336 | appends an alert exactly when the newest heal is PARTIAL and the pair's streak reaches three |
| CompletenessAgent.IntradayAlertIffThreePartials | src/agents/data_quality/data_completeness_agent.py:318-356 | an alert follows a PARTIAL heal exactly when the pair's three newest `intraday_backfill` rows are all PARTIAL |
| CompletenessAgent.RecordHeal | src/agents/data_quality/data_completeness_agent.py:308-336 | appends the `intraday_backfill` row carrying the healer's status and summary, then the escalation |
| CompletenessAgent.HealAndEscalate | src/agents/data_quality/data_completeness_agent.py:300-336 | the candles are untouched; only this pair's healer rows and reports are added; on success the healer's summary is reported |
| CompletenessAgent.CheckDate | src/agents/data_quality/data_completeness_agent.py:264-267 | a non-trading date changes nothing; a trading date is audited |
| CompletenessAgent.CheckTradingDate | src/agents/data_quality/data_completeness_agent.py:269-336 | the completeness report comes first; on PASS the pair's open intraday alerts are resolved, on FAIL the heal follows |
| CompletenessAgent.OnPass | src/agents/data_quality/data_completeness_agent.py:296-298 | resolves the pair's open intraday alerts and appends nothing beyond the report |
| CompletenessAgent.NewestDates | src/agents/data_quality/data_completeness_agent.py:253-262 | at most five candle dates of the pair, newest first, and every date left out is older than all those listed |
| CompletenessAgent.CheckDates | src/agents/data_quality/data_completeness_agent.py:264-336 | completeness rows land only on listed trading days; without an error every trading day listed is audited |
| CompletenessAgent.CheckIntraday | src/agents/data_quality/data_completeness_agent.py:246-336 | an unregistered timeframe changes nothing; otherwise only the newest five candle dates are audited, each trading day among them when no error occurs |
| CompletenessAgent.AuditPair | src/agents/data_quality/data_completeness_agent.py:52-60 | a 1D pair gets the coverage check and never touches the healer table; any other pair the freshness then the completeness check |
| CompletenessAgent.AuditDailyPair | src/agents/data_quality/data_completeness_agent.py:56-57 | the candle and healer tables are unchanged and nothing raises; only daily-kind rows of the symbol are appended; a symbol with 1D candles gets its `daily_coverage` report |
| CompletenessAgent.AuditIntradayPair | src/agents/data_quality/data_completeness_agent.py:58-60 | the candle table is unchanged; only intraday-kind rows of the pair are appended; the healer table grows only for that pair; a pair with candles gets its `freshness` report |
| CompletenessAgent.Run | src/agents/data_quality/data_completeness_agent.py:43-60 | the candles are never written; every report is about a pair with candles and of a kind its timeframe calls for; without an error every pair gets its coverage or freshness report |
| QaJob.NormalizeSymbols | src/qa/intraday_completeness_job.py:26-45 | a `symbols` entry must be a list and is returned as is; otherwise `symbol` is wrapped in a list; otherwise ValueError; ValueError exactly in these two failures |
| QaJob.StringSymbols | src/qa/intraday_completeness_job.py:247-249 | the names exactly when every entry is a string, one per entry in order |
| QaJob.Pick | src/qa/intraday_completeness_job.py:226-227 | the first key's value when it is truthy, otherwise the second key's value, or nothing |
| QaJob.ParseDate | src/qa/intraday_completeness_job.py:48-58 | a datetime gives its date, a date itself, a string only when it is `YYYY-MM-DD`; anything else is ValueError |
| QaJob.ParseDateRoundTrip | src/qa/intraday_completeness_job.py:56-57 | a date written as `YYYY-MM-DD` parses back to that date |
| QaJob.ParsedIsTruthy | src/qa/intraday_completeness_job.py:226-232 | every value that parses is truthy, so a parsed bound never trips the missing-bound check |
| QaJob.HmRoundTrip | src/qa/intraday_completeness_job.py:237-238 | `HH:MM` parses back to its seconds of the day |
| QaJob.ParseTimeOfDay | src/qa/intraday_completeness_job.py:237-238 | a string parses exactly when it is `HH:MM` or `HH:MM:SS`, to a time within the day; a malformed string is ValueError; a non-string is TypeError |
| QaJob.MarketTime | src/qa/intraday_completeness_job.py:237-238 | no `market` section or no such key is KeyError; a section that is not a mapping is TypeError; otherwise the parsed time of that key |
| QaJob.Checks | src/qa/intraday_completeness_job.py:221 | no `checks` gives the empty mapping; a `checks` that is not a mapping is AttributeError, and only then |
| QaJob.DailyMissingDays | src/qa/intraday_completeness_job.py:144-176 | zero for an empty range, and never more than the days of the range |
| QaJob.DailyMissingDaysCounts | src/qa/intraday_completeness_job.py:144-176 | the daily count is the number of trading days of the range with no candle on their date |
| QaJob.DayWindowEmptyIff | src/qa/intraday_completeness_job.py:154-166 | the midnight-to-midnight window is empty exactly when no stored candle falls on that date |
| QaJob.DailyMissingDaysZeroIff | src/qa/intraday_completeness_job.py:178-189 | a symbol passes exactly when every trading day of the range has a candle |
| QaJob.DailyQaAgreesWithBackfill | src/qa/intraday_completeness_job.py:144-176 | on 1D the QA count is the number of days the daily backfill agent finds missing |
| QaJob.AllDailyPass | src/qa/intraday_completeness_job.py:137-194 | the verdict holds exactly when every symbol passes |
| QaJob.DailyCheck | src/qa/intraday_completeness_job.py:117-194 | succeeds exactly when both bounds parse, otherwise ValueError; the verdict holds exactly when every symbol has a candle on every trading day of the range |
| QaJob.ExpectedCandles | src/qa/intraday_completeness_job.py:64-82 | 1D is ValueError; a list or mapping id is TypeError; an unknown id is KeyError; a known intraday id gives the ascending session grid, empty exactly when the open is not before the close |
| QaJob.MissingSlots | src/qa/intraday_completeness_job.py:267-277 | ascending; exactly the expected times with no stored candle; empty exactly when all are stored; as long as the grid exactly when none is |
| QaJob.SymbolTotal | src/qa/intraday_completeness_job.py:253-299 | fails exactly when the range holds a trading day and the id or session is not usable, with the session's error |
| QaJob.DayCount | src/qa/intraday_completeness_job.py:277-292 | a trading day adds nothing exactly when it has no missing candle, or the whole day is missing and full-day gaps are allowed |
| QaJob.SymbolTotalZeroIff | src/qa/intraday_completeness_job.py:253-312 | a symbol's total is zero exactly when every trading day of the range is acceptable |
| QaJob.AllIntradayPass | src/qa/intraday_completeness_job.py:247-317 | fails exactly when there is a symbol, a trading day in range and an unusable id or session; otherwise the verdict holds exactly when every symbol is complete |
| QaJob.RunQa | src/qa/intraday_completeness_job.py:200-317 | bad symbols are ValueError; no timeframe is KeyError; non-string symbols are TypeError; 1D goes to the daily check; a bad `checks` is AttributeError; a disabled check passes; a missing bound is ValueError; a malformed bound is ValueError; a missing or malformed market time raises its KeyError or TypeError; otherwise the verdict is that of the symbol loop |
| QaJob.IntradayVerdict | src/qa/intraday_completeness_job.py:221-317 | on a well-formed intraday configuration the job succeeds and passes exactly when every symbol is complete |
| EodReconciliation.TradingDayWindow | src/data_ingestion/eod_reconciliation.py:19-29 | 09:15:00 and 15:30:00 of the same date as now, in that order |
| EodReconciliation.Attempts | src/data_ingestion/eod_reconciliation.py:58-59 | three attempts per symbol; exactly the pairs of a listed symbol and 15M, 5M or 1M |
| EodReconciliation.AttemptsOnce | src/data_ingestion/eod_reconciliation.py:58-59 | distinct symbols give distinct attempts |
| EodReconciliation.Attempt | src/data_ingestion/eod_reconciliation.py:60-81 | stored rows are kept; every candle of a successful fetch is stored; new rows come from that fetch |
| EodReconciliation.Reconcile | src/data_ingestion/eod_reconciliation.py:58-81 | stored rows are kept; every candle a successful fetch returns is stored; every new row came from an attempted, successful, non-empty fetch |
| EodReconciliation.AsWrittenReconcilesNothing | src/data_ingestion/eod_reconciliation.py:61-67 | with the fetch called as written every attempt raises and the table is left as it was |
| EodReconciliation.RunEod | src/data_ingestion/eod_reconciliation.py:32-100 | before 16:00 nothing happens; otherwise the candles are today's reconciliation, then the audit reports only on reconciled pairs and, unless it failed, reports on every one |

## Left out

- I/O is not modelled: database connections and cursors, YAML and CSV file
  reading, logging, and the printed summaries (`_print_qa_summary`). Each
  operation receives the table contents or parsed rows it would read and
  returns what it would write.
- Sleeping and rate limiting (`time.sleep`, the client's rate limiter) are
  not modelled. They change timing only; the model does record where a pause
  happens (`JobRunner.SleepOnlyBetweenBatches`).
- The orchestrator's command-line entry point is not modelled, and neither
  are the frontend, the dashboard's app wiring, the scripts, or the
  option-instrument loaders. `src/data_ingestion/fetcher.py` is not part of
  this model; its fetch is a parameter.
- Time-zone conversion is not modelled. UTC and IST timestamps are treated
  as the same wall clock, and sub-second parts are dropped.
- Prices and volumes are opaque integers, not floats.
- Two roundings in the completeness agent's reports are not modelled:
  `coverage_pct` (data_completeness_agent.py:110-112, including its 0.0 when
  nothing is expected) and the freshness report's `round(lag_min, 2)`
  (data_completeness_agent.py:238). The reports carry the counts and the lag
  in seconds that these are computed from. The lag monitor's own truncation
  to whole minutes is modelled (`HealthMetrics.TruncMinutes`).
- `strptime` is modelled for zero-padded fields only. `time.fromisoformat`
  is modelled for `HH:MM` and `HH:MM:SS` only.
- Some calls in the source cannot work as written:
  - `MarketHolidayAgent.is_trading_day` is called unbound.
  - `backfill_agent` calls `ingest_symbol` with keywords it does not take.
  - `IntradayBackfillAgent` uses `self.client`, which is never set.

  Each of these is modelled as the call evidently intended, with the
  calendar, the fetch or the vendor passed in, and nothing is claimed about
  the call sites themselves. The EOD job's fetch is the exception: it is
  modelled both ways (see Findings).
- `CompletenessAgent.CheckDailyCoverage`: the daily heal's effect on the
  candles table is not modelled. The model records the heal plan: the days
  healed, one ingest request per day, and the report row.
- `CompletenessAgent.AutoBackfillAndAlert`: same as `CheckDailyCoverage`. The
  requests are planned and reported, not applied to the table.
- `Orchestrator.IngestAll`: its own contract bounds which keys the loop may
  add and keeps the stored rows. Which keys it does add depends on the
  store each symbol starts from, and is stated separately by
  `Orchestrator.IngestAllWrites`.
- `QualityReports.Health`: the query's rows are a parameter, described by
  `IsLatest`, not computed. The outer `SELECT` has no `ORDER BY`, and the
  model takes the rows in the order of the `DISTINCT ON`'s `ORDER BY`. Text is
  compared by code point, as in the `C` collation. A database with another
  collation may order timeframes differently, and so may show another
  group's status for daily coverage and auto-backfill.
- `Timeframes.Upper` and `Timeframes.Lower` map ASCII letters only. Python's
  `str.upper` and `str.lower` also map other letters. The timeframe ids the
  source lists are all ASCII.
- `QaJob.RunQa`: a symbol that is not a string is rejected up front with
  TypeError, where Python would pass it on to the database driver. A YAML
  document whose top level is not a mapping is not modelled.
- `EodReconciliation.RunEod`: the agent reads the clock again for itself. The
  model uses the job's `now` for that reading too.
- Concurrency is not modelled. Two agents racing on the same streak of
  reports are out of scope.
- Convergence of healing over repeated runs is not proved. The model proves
  what one run does.

## Findings

| source | as written | input that shows it | evidently intended | confidence | as-written member | corrected member |
|---|---|---|---|---|---|---|
| src/data_ingestion/retention.py:3-18 | the intraday policy keys are lower case (`15m`, `5m`, `1m`) but the id is upper-cased before the lookup, so every intraday id raises ValueError | `retention_cutoff("15m", now)` | 180, 90 and 30 days back for 15M, 5M and 1M | not executed | Retention.FifteenMinuteRetentionRaises | Retention.CorrectedRetentionCoversIntraday |
| dashboard/api/alerts.py:85-89 | `jsonb_set` is given the path `{acknowledged_by,acknowledged_at}`, which names one nested key, not two keys; on a row whose details lack `acknowledged_by` nothing is set, yet the endpoint reports success | acknowledging a RAISED alert whose details are empty | `acknowledged_by` and `acknowledged_at` are both recorded on the row | not executed | Alerts.AckAsWrittenLosesOwner | Alerts.Ack |
| src/data_ingestion/eod_reconciliation.py:61-67 | `fetch_candles` is called with an `api=` keyword it does not accept, so every attempt raises TypeError, which the loop's handler logs and skips (the `get_api` import at line 7 fails as well) | any symbol list after 16:00 | every fetched candle of today's session is written | not executed | EodReconciliation.AsWrittenReconcilesNothing | EodReconciliation.Reconcile |

=== FILE: alerts.dfy ===
/** The alert lifecycle RAISED → ACKED → RESOLVED, as the dashboard's ack and
    resolve endpoints and the auditor's auto-resolve apply it to the report
    log, and the two alert listings. */
module Alerts {
  import opened Wrappers
  import opened QualityReports

  /** The lifecycle steps a row may take: stay, ack a raised alert, or resolve
      an open one. */
  predicate LegalStep(a: Status, b: Status) {
    a == b || (a == Raised && b == Acked) || (a in {Raised, Acked} && b == Resolved)
  }

  /** Every row keeps its id and its place and takes a legal step. */
  predicate LegalUpdate(before: Log, after: Log) {
    && |after| == |before|
    && forall i :: 0 <= i < |before| ==>
         after[i].id == before[i].id && after[i].symbol == before[i].symbol &&
         after[i].timeframe == before[i].timeframe && after[i].checkType == before[i].checkType &&
         after[i].details == before[i].details && LegalStep(before[i].status, after[i].status)
  }

  /** The endpoint's answer: the updated id, or the "not found or already …"
      message. */
  datatype Response = Updated(id: nat) | NotFound(message: string)

  datatype Outcome = Outcome(log: Log, response: Response)

  predicate CanAck(r: Report, id: nat) {
    r.id == id && r.status == Raised
  }

  predicate CanResolve(r: Report, id: nat) {
    r.id == id && r.status in {Raised, Acked}
  }

  /** `acknowledge_alert` as written: the `jsonb_set` path
      `{acknowledged_by,acknowledged_at}` names a nested key under
      `acknowledged_by`, which a raised alert does not have, so PostgreSQL
      returns `details` unaltered and only the status changes. */
  function AckAsWritten(log: Log, id: nat): (o: Outcome)
    ensures o.response.Updated? <==> exists i :: 0 <= i < |log| && CanAck(log[i], id)
    ensures LegalUpdate(log, o.log)
    ensures forall i :: 0 <= i < |log| ==> o.log[i].notes == log[i].notes
    ensures forall i :: 0 <= i < |log| ==> (o.log[i].status == Acked <==> log[i].status == Acked || CanAck(log[i], id))
  {
    var updated := seq(|log|, i requires 0 <= i < |log| =>
      if CanAck(log[i], id) then log[i].(status := Acked) else log[i]);
    if exists i :: 0 <= i < |log| && CanAck(log[i], id) then Outcome(updated, Updated(id))
    else Outcome(log, NotFound("Alert not found or already acknowledged"))
  }

  /** `acknowledge_alert` with the owner recorded as the endpoint reports it:
      RAISED → ACKED for the row with that id, `acknowledged_by` and
      `acknowledged_at` written into its details. */
  function Ack(log: Log, id: nat, user: string, at: string): (o: Outcome)
    ensures o.response.Updated? <==> exists i :: 0 <= i < |log| && CanAck(log[i], id)
    ensures o.response.Updated? ==> o.response.id == id
    ensures LegalUpdate(log, o.log)
    ensures forall i :: 0 <= i < |log| && !CanAck(log[i], id) ==> o.log[i] == log[i]
    ensures forall i :: 0 <= i < |log| && CanAck(log[i], id) ==>
              o.log[i].status == Acked && o.log[i].notes.Keys == log[i].notes.Keys + {"acknowledged_by", "acknowledged_at"} &&
              o.log[i].notes["acknowledged_by"] == user && o.log[i].notes["acknowledged_at"] == at
  {
    var updated := seq(|log|, i requires 0 <= i < |log| =>
      if CanAck(log[i], id)
      then log[i].(status := Acked, notes := log[i].notes["acknowledged_by" := user]["acknowledged_at" := at])
      else log[i]);
    if exists i :: 0 <= i < |log| && CanAck(log[i], id) then Outcome(updated, Updated(id))
    else Outcome(log, NotFound("Alert not found or already acknowledged"))
  }

  /** `resolve_alert`: RAISED or ACKED → RESOLVED for the row with that id,
      with the resolver, the time and the note merged into its details. */
  function Resolve(log: Log, id: nat, user: string, at: string, note: string): (o: Outcome)
    ensures o.response.Updated? <==> exists i :: 0 <= i < |log| && CanResolve(log[i], id)
    ensures o.response.Updated? ==> o.response.id == id
    ensures LegalUpdate(log, o.log)
    ensures forall i :: 0 <= i < |log| && !CanResolve(log[i], id) ==> o.log[i] == log[i]
    ensures forall i :: 0 <= i < |log| && CanResolve(log[i], id) ==>
              o.log[i].status == Resolved &&
              o.log[i].notes.Keys == log[i].notes.Keys + {"resolved_by", "resolved_at", "resolution_note"} &&
              o.log[i].notes["resolved_by"] == user && o.log[i].notes["resolved_at"] == at &&
              o.log[i].notes["resolution_note"] == note
  {
    var updated := seq(|log|, i requires 0 <= i < |log| =>
      if CanResolve(log[i], id)
      then log[i].(status := Resolved,
                   notes := log[i].notes["resolved_by" := user]["resolved_at" := at]["resolution_note" := note])
      else log[i]);
    if exists i :: 0 <= i < |log| && CanResolve(log[i], id) then Outcome(updated, Updated(id))
    else Outcome(log, NotFound("Alert not found or already resolved"))
  }

  /** `_resolve_intraday_alert_if_any`: every open intraday alert of the pair
      becomes RESOLVED; nothing else changes. */
  function AutoResolveIntraday(log: Log, symbol: string, timeframe: string): (r: Log)
    ensures LegalUpdate(log, r)
    ensures forall i :: 0 <= i < |log| ==>
              if log[i].symbol == symbol && log[i].timeframe == timeframe &&
                 log[i].checkType == IntradayBackfillAlert && log[i].status in {Raised, Acked}
              then r[i] == log[i].(status := Resolved)
              else r[i] == log[i]
  {
    seq(|log|, i requires 0 <= i < |log| =>
      if log[i].symbol == symbol && log[i].timeframe == timeframe &&
         log[i].checkType == IntradayBackfillAlert && log[i].status in {Raised, Acked}
      then log[i].(status := Resolved)
      else log[i])
  }

  /** No operation touches a row with another id. */
  lemma OnlyThatIdChanges(log: Log, id: nat, user: string, at: string, note: string)
    ensures forall i :: 0 <= i < |log| && log[i].id != id ==>
              Ack(log, id, user, at).log[i] == log[i] && Resolve(log, id, user, at, note).log[i] == log[i]
  {
  }

  /** RESOLVED is terminal: no operation moves a resolved row. */
  lemma ResolvedIsTerminal(log: Log, i: nat, id: nat, user: string, at: string, note: string, symbol: string,
                           timeframe: string)
    requires i < |log| && log[i].status == Resolved
    ensures Ack(log, id, user, at).log[i] == log[i]
    ensures Resolve(log, id, user, at, note).log[i] == log[i]
    ensures AutoResolveIntraday(log, symbol, timeframe)[i] == log[i]
  {
  }

  /** A second ack of the same id finds nothing to do and changes nothing. */
  lemma AckIdempotent(log: Log, id: nat, user: string, at: string, user2: string, at2: string)
    ensures var once := Ack(log, id, user, at);
      Ack(once.log, id, user2, at2) == Outcome(once.log, NotFound("Alert not found or already acknowledged"))
  {
  }

  lemma ResolveIdempotent(log: Log, id: nat, user: string, at: string, note: string, user2: string, at2: string,
                          note2: string)
    ensures var once := Resolve(log, id, user, at, note);
      Resolve(once.log, id, user2, at2, note2) == Outcome(once.log, NotFound("Alert not found or already resolved"))
  {
  }

  /** A raised row carries no notes: the dashboard only writes notes while
      moving a row out of RAISED. */
  predicate RaisedRowsBare(log: Log) {
    forall i :: 0 <= i < |log| && log[i].status == Raised ==> log[i].notes == map[]
  }

  lemma RaisedRowsBareKept(log: Log, id: nat, user: string, at: string, note: string, symbol: string,
                           timeframe: string)
    requires RaisedRowsBare(log)
    ensures RaisedRowsBare(Ack(log, id, user, at).log)
    ensures RaisedRowsBare(AckAsWritten(log, id).log)
    ensures RaisedRowsBare(Resolve(log, id, user, at, note).log)
    ensures RaisedRowsBare(AutoResolveIntraday(log, symbol, timeframe))
  {
    AckKeepsRaisedBare(log, id, user, at);
    AckAsWrittenKeepsRaisedBare(log, id);
    ResolveKeepsRaisedBare(log, id, user, at, note);
    AutoResolveKeepsRaisedBare(log, symbol, timeframe);
  }

  lemma AckKeepsRaisedBare(log: Log, id: nat, user: string, at: string)
    requires RaisedRowsBare(log)
    ensures RaisedRowsBare(Ack(log, id, user, at).log)
  {
    var a := Ack(log, id, user, at).log;
    forall i | 0 <= i < |a| && a[i].status == Raised
      ensures a[i].notes == map[]
    {
      assert !CanAck(log[i], id);
    }
  }

  lemma AckAsWrittenKeepsRaisedBare(log: Log, id: nat)
    requires RaisedRowsBare(log)
    ensures RaisedRowsBare(AckAsWritten(log, id).log)
  {
    var w := AckAsWritten(log, id).log;
    forall i | 0 <= i < |w| && w[i].status == Raised
      ensures w[i].notes == map[]
    {
      assert w[i].notes == log[i].notes;
    }
  }

  lemma ResolveKeepsRaisedBare(log: Log, id: nat, user: string, at: string, note: string)
    requires RaisedRowsBare(log)
    ensures RaisedRowsBare(Resolve(log, id, user, at, note).log)
  {
    var r := Resolve(log, id, user, at, note).log;
    forall i | 0 <= i < |r| && r[i].status == Raised
      ensures r[i].notes == map[]
    {
      assert !CanResolve(log[i], id);
    }
  }

  lemma AutoResolveKeepsRaisedBare(log: Log, symbol: string, timeframe: string)
    requires RaisedRowsBare(log)
    ensures RaisedRowsBare(AutoResolveIntraday(log, symbol, timeframe))
  {
  }

  lemma RaisedRowsBarePersist(log: Log, symbol: string, timeframe: string, checkType: CheckType, status: Status,
                              details: Details)
    requires RaisedRowsBare(log)
    ensures RaisedRowsBare(Persist(log, symbol, timeframe, checkType, status, details))
  {
  }

  /** The ack as written reports success but records no owner, where the
      intended ack records both the owner and the time. */
  lemma AckAsWrittenLosesOwner(log: Log, i: nat, user: string, at: string)
    requires i < |log| && log[i].status == Raised && RaisedRowsBare(log)
    ensures AckAsWritten(log, log[i].id).response.Updated?
    ensures "acknowledged_by" !in AckAsWritten(log, log[i].id).log[i].notes
    ensures Ack(log, log[i].id, user, at).log[i].notes["acknowledged_by"] == user
  {
  }

  const ActiveStatuses: set<Status> := {Raised, Acked}

  function ActiveSelector(): Selector {
    Selector(None, None, AutoBackfillAlert, Some(ActiveStatuses))
  }

  function HistorySelector(): Selector {
    Selector(None, None, AutoBackfillAlert, None)
  }

  /** `get_active_alerts`: open daily-backfill alerts, newest first. */
  function ActiveAlerts(log: Log): (r: Log)
    ensures forall x :: x in r <==> x in log && x.checkType == AutoBackfillAlert && x.status in ActiveStatuses
    ensures r == Reverse(Filter(log, ActiveSelector()))
  {
    NewestIsReversedFilter(log, ActiveSelector(), |log|);
    FilterMembers(log, ActiveSelector());
    ReverseMembers(Filter(log, ActiveSelector()));
    Newest(log, ActiveSelector(), |log|)
  }

  /** Intraday alerts never appear on the active list. */
  lemma ActiveAlertsExcludeIntraday(log: Log, x: Report)
    requires x in ActiveAlerts(log)
    ensures x.checkType != IntradayBackfillAlert
  {
  }

  const DefaultHistoryLimit: int := 100
  const MaxHistoryLimit: int := 1000

  /** `get_alert_history`: the query parameter must lie in [1, 1000]; then
      the newest `limit` daily-backfill alerts of any status. */
  function AlertHistory(log: Log, limit: int): (r: Result<Log>)
    ensures r.Err? <==> limit < 1 || limit > MaxHistoryLimit
    ensures r.Err? ==> r.error == RequestValidation
    ensures r.Ok? ==> |r.value| <= limit && forall x :: x in r.value ==> x in log && x.checkType == AutoBackfillAlert
    ensures r.Ok? ==> r.value == Take(Reverse(Filter(log, HistorySelector())), limit)
  {
    if limit < 1 || limit > MaxHistoryLimit then Err(RequestValidation)
    else
      NewestIsReversedFilter(log, HistorySelector(), limit);
      Ok(Newest(log, HistorySelector(), limit))
  }

  /** `get_alert_history` without a `limit` parameter: the query default
      passes validation and yields the newest hundred alerts. */
  function DefaultAlertHistory(log: Log): (r: Log)
    ensures |r| <= DefaultHistoryLimit
    ensures r == Take(Reverse(Filter(log, HistorySelector())), DefaultHistoryLimit)
    ensures forall x :: x in r ==> x in log && x.checkType == AutoBackfillAlert
  {
    AlertHistory(log, DefaultHistoryLimit).value
  }
}

=== FILE: auditor.dfy ===
/** The data completeness agent: one audit run over every (symbol, timeframe)
    pair in `candles`. Daily pairs get a coverage check and, on failure, the
    throttled daily heal with escalation; intraday pairs get a freshness
    check and a completeness check of their newest trading days, with the
    intraday heal, escalation and auto-resolve. */
module CompletenessAgent {
  import opened Wrappers
  import opened Clock
  import opened Sorting
  import opened Timeframes
  import opened TimeframeGrid
  import opened CandleStore
  import opened TradingCalendar
  import opened QualityReports
  import opened Alerts
  import opened DailyBackfill
  import opened IntradayBackfill

  /** The three tables one run reads and writes. */
  datatype Tables = Tables(candles: Store, ohlcv: Store, log: Log)

  /** What the agent takes from outside: the holiday table, the clock and
      the vendor the intraday healer calls. */
  datatype Env = Env(table: HolidayTable, now: Ts, vendor: Vendor)

  /** The tables after a step, and the error that aborted it, if any. */
  datatype Audit = Audit(tables: Tables, error: Option<Error>)

  const DailyKinds: set<CheckType> := {DailyCoverage, AutoBackfill, AutoBackfillAlert}
  const IntradayKinds: set<CheckType> := {Freshness, IntradayCompleteness, IntradayBackfill, IntradayBackfillAlert}

  // ------------------------------------------------------------------
  // How a run may change the report log
  // ------------------------------------------------------------------

  /** The log only grows, and the rows it had take legal lifecycle steps. */
  predicate Extends(before: Log, after: Log) {
    |after| >= |before| && LegalUpdate(before, after[..|before|])
  }

  lemma ExtendsTrans(a: Log, b: Log, c: Log)
    requires Extends(a, b) && Extends(b, c)
    ensures Extends(a, c)
  {
    assert c[..|b|][..|a|] == c[..|a|];
  }

  /** Every row appended after `before` is about this pair and of one of
      these kinds. */
  predicate NewRowsOf(before: Log, after: Log, symbol: string, timeframe: string, kinds: set<CheckType>) {
    forall i :: |before| <= i < |after| ==>
      after[i].symbol == symbol && after[i].timeframe == timeframe && after[i].checkType in kinds
  }

  /** Appending rows without touching the old ones extends the log. */
  lemma AppendExtends(before: Log, after: Log)
    requires |after| >= |before| && after[..|before|] == before
    ensures Extends(before, after)
  {
  }

  /** The rows appended by two consecutive steps. */
  lemma NewRowsChain(a: Log, b: Log, c: Log, symbol: string, timeframe: string, kinds: set<CheckType>)
    requires |a| <= |b| && Extends(b, c)
    requires NewRowsOf(a, b, symbol, timeframe, kinds) && NewRowsOf(b, c, symbol, timeframe, kinds)
    ensures NewRowsOf(a, c, symbol, timeframe, kinds)
  {
    forall i | |a| <= i < |c|
      ensures c[i].symbol == symbol && c[i].timeframe == timeframe && c[i].checkType in kinds
    {
      if i < |b| {
        assert c[..|b|][i] == c[i];
      }
    }
  }

  /** A prefix of a prefix is a prefix. */
  lemma PrefixChain(a: Log, b: Log, c: Log)
    requires |a| <= |b| <= |c| && b[..|a|] == a && c[..|b|] == b
    ensures c[..|a|] == a
  {
    assert c[..|b|][..|a|] == c[..|a|];
  }

  /** Some row appended after `before` is a report of this kind on this pair. */
  predicate Reported(before: Log, after: Log, symbol: string, timeframe: string, kind: CheckType) {
    exists i :: |before| <= i < |after| && after[i].symbol == symbol && after[i].timeframe == timeframe &&
                after[i].checkType == kind
  }

  lemma ReportedKept(a: Log, b: Log, c: Log, symbol: string, timeframe: string, kind: CheckType)
    requires Reported(a, b, symbol, timeframe, kind) && Extends(b, c)
    ensures Reported(a, c, symbol, timeframe, kind)
  {
    var i :| |a| <= i < |b| && b[i].symbol == symbol && b[i].timeframe == timeframe && b[i].checkType == kind;
    assert c[..|b|][i] == c[i];
  }

  // ------------------------------------------------------------------
  // Daily coverage
  // ------------------------------------------------------------------

  /** `MIN(ts)::date` of the symbol's 1D candles. */
  function FirstDay(candles: Store, symbol: string): Day
    requires TsOf(candles, symbol, Daily) != {}
  {
    DayOf(SetMin(TsOf(candles, symbol, Daily)))
  }

  /** `MAX(ts)::date` of the symbol's 1D candles. */
  function LastDay(candles: Store, symbol: string): Day
    requires TsOf(candles, symbol, Daily) != {}
  {
    DayOf(SetMax(TsOf(candles, symbol, Daily)))
  }

  /** The expected count: the trading days walked from the first to the
      last candle date, both included. */
  function ExpectedDays(candles: Store, table: HolidayTable, symbol: string): (n: nat)
    requires TsOf(candles, symbol, Daily) != {}
    ensures FirstDay(candles, symbol) <= LastDay(candles, symbol)
    ensures n <= LastDay(candles, symbol) - FirstDay(candles, symbol) + 1
    ensures IsTradingDay(table, DefaultExchange, FirstDay(candles, symbol)) ==> n >= 1
    ensures IsTradingDay(table, DefaultExchange, LastDay(candles, symbol)) ==> n >= 1
  {
    |TradingDaysBetween(table, DefaultExchange, FirstDay(candles, symbol), LastDay(candles, symbol))|
  }

  /** The walk counts each trading day of the range once. */
  lemma ExpectedDaysCountsTradingDays(candles: Store, table: HolidayTable, symbol: string)
    requires TsOf(candles, symbol, Daily) != {}
    ensures ExpectedDays(candles, table, symbol) ==
            |set d | FirstDay(candles, symbol) <= d <= LastDay(candles, symbol) && IsTradingDay(table, DefaultExchange, d)|
  {
    var first := FirstDay(candles, symbol);
    var last := LastDay(candles, symbol);
    var days := TradingDaysBetween(table, DefaultExchange, first, last);
    StrictlyIncreasingCard(days);
    assert (set x | x in days) == (set d | first <= d <= last && IsTradingDay(table, DefaultExchange, d));
  }

  /** The `daily_coverage` report: PASS when there are at least as many
      1D candles as trading days in their range. */
  function CoverageReport(log: Log, candles: Store, table: HolidayTable, symbol: string): (r: Log)
    requires TsOf(candles, symbol, Daily) != {}
    ensures |r| == |log| + 1 && r[..|log|] == log
    ensures r[|log|].symbol == symbol && r[|log|].timeframe == Daily && r[|log|].checkType == DailyCoverage
    ensures r[|log|].details ==
            Coverage(ExpectedDays(candles, table, symbol), |TsOf(candles, symbol, Daily)|, FirstDay(candles, symbol),
                     LastDay(candles, symbol))
    ensures r[|log|].status in {Pass, Fail}
    ensures r[|log|].status == Pass <==> |TsOf(candles, symbol, Daily)| >= ExpectedDays(candles, table, symbol)
    ensures WellFormed(log) ==> WellFormed(r)
  {
    var expected := ExpectedDays(candles, table, symbol);
    var actual := |TsOf(candles, symbol, Daily)|;
    Persist(log, symbol, Daily, DailyCoverage, if actual >= expected then Pass else Fail,
            Coverage(expected, actual, FirstDay(candles, symbol), LastDay(candles, symbol)))
  }

  /** The `auto_backfill` report of one heal: COMPLETE when the throttle
      kept every missing day. */
  function DailyHealReport(log: Log, symbol: string, missing: seq<Day>): (r: Log)
    requires |missing| > 0
    ensures |r| == |log| + 1 && r[..|log|] == log
    ensures r[|log|].symbol == symbol && r[|log|].timeframe == Daily && r[|log|].checkType == AutoBackfill
    ensures r[|log|].status == Complete <==> |missing| <= MaxDaysPerRun
    ensures r[|log|].status == Partial <==> |missing| > MaxDaysPerRun
    ensures r[|log|].details.DailyHeal? && |r[|log|].details.healedDays| <= MaxDaysPerRun
    ensures |r[|log|].details.healedDays| <= |missing|
    ensures r[|log|].details.healedDays + missing[|r[|log|].details.healedDays|..] == missing
    ensures r[|log|].details.remaining == |missing| - |r[|log|].details.healedDays|
    ensures WellFormed(log) ==> WellFormed(r)
  {
    var plan := BackfillDaily(missing);
    HealedThenRemaining(missing);
    var status := if |plan.healed| == |missing| then Complete else Partial;
    Persist(log, symbol, Daily, AutoBackfill, status, DailyHeal(plan.healed, |missing| - |plan.healed|, MaxDaysPerRun))
  }

  /** The escalation step: after a PARTIAL heal, an `auto_backfill_alert`
      when the streak now exceeds three. */
  function EscalateDaily(log: Log, symbol: string): (r: Log)
    requires |log| > 0
    ensures |log| <= |r| <= |log| + 1 && r[..|log|] == log
    ensures |r| == |log| + 1 <==> log[|log| - 1].status == Partial && DailyEscalates(DailyPartialStreak(log, symbol))
    ensures |r| == |log| + 1 ==>
              r[|log|].symbol == symbol && r[|log|].timeframe == Daily && r[|log|].checkType == AutoBackfillAlert &&
              r[|log|].status == Raised &&
              r[|log|].details == Escalation(DailyPartialStreak(log, symbol), MaxPartialDays, None)
    ensures WellFormed(log) ==> WellFormed(r)
  {
    var streak := DailyPartialStreak(log, symbol);
    if log[|log| - 1].status == Partial && DailyEscalates(streak) then
      Persist(log, symbol, Daily, AutoBackfillAlert, Raised, Escalation(streak, MaxPartialDays, None))
    else log
  }

  /** A daily alert follows a PARTIAL heal exactly when the symbol's four
      newest `auto_backfill` rows, that heal included, are all PARTIAL. */
  lemma DailyAlertIffFourPartials(log: Log, symbol: string)
    requires |log| > 0 && log[|log| - 1].status == Partial
    ensures var f := Reverse(Filter(log, DailyHealSelector(symbol)));
      |EscalateDaily(log, symbol)| == |log| + 1 <==> |f| >= 4 && forall i :: 0 <= i < 4 ==> f[i].status == Partial
  {
    DailyEscalationIff(log, symbol);
  }

  /** `_auto_backfill_and_alert`: the missing trading days of the range, the
      throttled heal and its report, then the escalation. */
  function AutoBackfillAndAlert(log: Log, candles: Store, table: HolidayTable, symbol: string, first: Day,
                                last: Day): (r: Log)
    ensures |r| >= |log| && r[..|log|] == log
    ensures NewRowsOf(log, r, symbol, Daily, {AutoBackfill, AutoBackfillAlert})
    ensures WellFormed(log) ==> WellFormed(r)
    ensures |r| <= |log| + 2
    ensures MissingTradingDays(candles, table, symbol, first, last) == [] <==> r == log
    ensures |r| > |log| ==> r[..|log| + 1] == DailyHealReport(log, symbol, MissingTradingDays(candles, table, symbol, first, last))
    ensures |r| > |log| ==> r == EscalateDaily(r[..|log| + 1], symbol)
  {
    HealMissingDays(log, symbol, MissingTradingDays(candles, table, symbol, first, last))
  }

  /** The heal of a known list of missing days: nothing when it is empty,
      otherwise its report and the escalation. */
  function HealMissingDays(log: Log, symbol: string, missing: seq<Day>): (r: Log)
    ensures |r| >= |log| && r[..|log|] == log
    ensures NewRowsOf(log, r, symbol, Daily, {AutoBackfill, AutoBackfillAlert})
    ensures WellFormed(log) ==> WellFormed(r)
    ensures |r| <= |log| + 2
    ensures missing == [] <==> r == log
    ensures |r| > |log| ==> |missing| > 0 && r[..|log| + 1] == DailyHealReport(log, symbol, missing)
    ensures |r| > |log| ==> r == EscalateDaily(r[..|log| + 1], symbol)
  {
    if |missing| == 0 then log
    else
      var log1 := DailyHealReport(log, symbol, missing);
      var r := EscalateDaily(log1, symbol);
      PrefixChain(log, log1, r);
      assert NewRowsOf(log, log1, symbol, Daily, {AutoBackfill, AutoBackfillAlert});
      AppendExtends(log1, r);
      NewRowsChain(log, log1, r, symbol, Daily, {AutoBackfill, AutoBackfillAlert});
      r
  }

  /** `_check_daily_coverage`: nothing without 1D candles; otherwise the
      coverage report, and on FAIL the daily heal, which then always finds
      at least one missing day. */
  function CheckDailyCoverage(t: Tables, table: HolidayTable, symbol: string): (r: Tables)
    ensures r.candles == t.candles && r.ohlcv == t.ohlcv
    ensures Extends(t.log, r.log) && NewRowsOf(t.log, r.log, symbol, Daily, DailyKinds)
    ensures WellFormed(t.log) ==> WellFormed(r.log)
    ensures TsOf(t.candles, symbol, Daily) == {} <==> r == t
    ensures TsOf(t.candles, symbol, Daily) != {} ==>
              && |r.log| > |t.log|
              && r.log[..|t.log| + 1] == CoverageReport(t.log, t.candles, table, symbol)
              && (r.log[|t.log|].status == Pass ==> |r.log| == |t.log| + 1)
              && (r.log[|t.log|].status == Fail ==>
                    && |r.log| > |t.log| + 1
                    && r.log == AutoBackfillAndAlert(r.log[..|t.log| + 1], t.candles, table, symbol,
                                                     FirstDay(t.candles, symbol), LastDay(t.candles, symbol)))
  {
    if TsOf(t.candles, symbol, Daily) == {} then t
    else
      var log1 := CoverageReport(t.log, t.candles, table, symbol);
      var log2 := if log1[|t.log|].status == Fail
                  then AutoBackfillAndAlert(log1, t.candles, table, symbol, FirstDay(t.candles, symbol),
                                            LastDay(t.candles, symbol))
                  else log1;
      CoverageThenHeal(t.log, log1, log2, symbol);
      assert log1[|t.log|].status == Fail ==> |log2| > |t.log| + 1 by {
        if log1[|t.log|].status == Fail {
          CoverageFailImpliesMissing(t.candles, table, symbol);
        }
      }
      Tables(t.candles, t.ohlcv, log2)
  }

  /** The coverage row followed by the heal's rows extends the log with
      daily rows of the symbol only. */
  lemma CoverageThenHeal(log: Log, log1: Log, log2: Log, symbol: string)
    requires |log1| == |log| + 1 && log1[..|log|] == log
    requires log1[|log|].symbol == symbol && log1[|log|].timeframe == Daily && log1[|log|].checkType == DailyCoverage
    requires |log2| >= |log1| && log2[..|log1|] == log1
    requires NewRowsOf(log1, log2, symbol, Daily, {AutoBackfill, AutoBackfillAlert})
    ensures log2[..|log|] == log && Extends(log, log2)
    ensures NewRowsOf(log, log2, symbol, Daily, DailyKinds)
  {
    PrefixChain(log, log1, log2);
    AppendExtends(log, log2);
    forall i | |log| <= i < |log2|
      ensures log2[i].symbol == symbol && log2[i].timeframe == Daily && log2[i].checkType in DailyKinds
    {
      if i == |log| {
        assert log2[i] == log1[i];
      }
    }
  }

  /** Candles can share a date, never the other way round. */
  lemma {:induction false} DayImageCard(s: set<Ts>)
    ensures |set t | t in s :: DayOf(t)| <= |s|
    decreases |s|
  {
    if s != {} {
      NonEmptyHasElement(s);
      var x :| x in s;
      var rest := s - {x};
      DayImageCard(rest);
      assert (set t | t in s :: DayOf(t)) == (set t | t in rest :: DayOf(t)) + {DayOf(x)};
    }
  }

  /** A FAIL always leaves the heal something to do: fewer candles than
      trading days means some trading day of the range has no candle. */
  lemma CoverageFailImpliesMissing(candles: Store, table: HolidayTable, symbol: string)
    requires TsOf(candles, symbol, Daily) != {}
    requires |TsOf(candles, symbol, Daily)| < ExpectedDays(candles, table, symbol)
    ensures MissingTradingDays(candles, table, symbol, FirstDay(candles, symbol), LastDay(candles, symbol)) != []
  {
    var first := FirstDay(candles, symbol);
    var last := LastDay(candles, symbol);
    var days := TradingDaysBetween(table, DefaultExchange, first, last);
    var missing := MissingTradingDays(candles, table, symbol, first, last);
    if missing == [] {
      var dates := DatesOf(candles, symbol, Daily);
      assert (set x | x in days) <= dates;
      SubsetCard((set x | x in days), dates);
      StrictlyIncreasingCard(days);
      DayImageCard(TsOf(candles, symbol, Daily));
      assert false;
    }
  }

  // ------------------------------------------------------------------
  // Intraday freshness
  // ------------------------------------------------------------------

  /** The agent's lag thresholds in minutes: 5, 15 and 30 for 1M, 5M and
      15M, one hour for any other timeframe. */
  function FreshnessThreshold(timeframe: string): (m: int)
    ensures m > 0
  {
    if timeframe == "1M" then 5 else if timeframe == "5M" then 15 else if timeframe == "15M" then 30 else 60
  }

  /** `_check_intraday_freshness`: nothing without candles; otherwise a
      `freshness` report whose lag is clamped at zero, PASS exactly when
      some candle of the pair lies within the threshold before `now`. */
  function CheckFreshness(t: Tables, now: Ts, symbol: string, timeframe: string): (r: Tables)
    ensures r.candles == t.candles && r.ohlcv == t.ohlcv
    ensures Extends(t.log, r.log) && NewRowsOf(t.log, r.log, symbol, timeframe, {Freshness})
    ensures WellFormed(t.log) ==> WellFormed(r.log)
    ensures TsOf(t.candles, symbol, timeframe) == {} <==> r == t
    ensures TsOf(t.candles, symbol, timeframe) != {} ==>
              && |r.log| == |t.log| + 1
              && r.log[|t.log|].details.Lag?
              && r.log[|t.log|].details.lagSeconds >= 0
              && r.log[|t.log|].details.thresholdMinutes == FreshnessThreshold(timeframe)
              && r.log[|t.log|].details.lastTs in TsOf(t.candles, symbol, timeframe)
              && (forall x :: x in TsOf(t.candles, symbol, timeframe) ==> x <= r.log[|t.log|].details.lastTs)
              && r.log[|t.log|].status in {Pass, Fail}
              && (r.log[|t.log|].status == Pass <==>
                    exists x :: x in TsOf(t.candles, symbol, timeframe) && now - x <= Minutes(FreshnessThreshold(timeframe)))
  {
    match LastTs(t.candles, symbol, timeframe)
    case None => t
    case Some(last) =>
      var lag := if now - last > 0 then now - last else 0;
      var threshold := FreshnessThreshold(timeframe);
      var status := if lag <= Minutes(threshold) then Pass else Fail;
      var log1 := Persist(t.log, symbol, timeframe, Freshness, status, Lag(last, lag, threshold));
      AppendExtends(t.log, log1);
      Tables(t.candles, t.ohlcv, log1)
  }

  // ------------------------------------------------------------------
  // Intraday completeness
  // ------------------------------------------------------------------

  /** The grid step of a registered timeframe, in seconds. */
  function Step(timeframe: string): (s: int)
    requires timeframe in Registry
    ensures s > 0
  {
    RegistryKeys();
    RegistryMinutes();
    Minutes(Registry[timeframe].minutes)
  }

  /** `_expected_intraday_candles`: 09:15, 09:15 + step, … strictly before
      15:30 on the trade date; never empty. */
  function ExpectedCandles(d: Day, timeframe: string): (g: seq<Ts>)
    requires timeframe in Registry
    ensures |g| > 0
    ensures forall i :: 0 <= i < |g| ==> g[i] == At(d, MarketOpen) + i * Step(timeframe) && g[i] < At(d, MarketClose)
    ensures forall x :: x in g ==> g[0] <= x <= g[|g| - 1]
  {
    var step := Step(timeframe);
    var g := SessionGrid(d, step, MarketOpen, MarketClose);
    DivAtLeastOne(MarketClose - MarketOpen + step - 1, step);
    forall x | x in g
      ensures g[0] <= x <= g[|g| - 1]
    {
      var i :| 0 <= i < |g| && g[i] == x;
      MulMono(0, i, step);
      MulMono(i, |g| - 1, step);
    }
    g
  }

  /** `_fetch_intraday_candles`: the stored times from the first grid time
      to one step past the last, both ends included. */
  function ActualCandles(candles: Store, symbol: string, timeframe: string, d: Day): (a: seq<Ts>)
    requires timeframe in Registry
    ensures StrictlyIncreasing(a)
  {
    var g := ExpectedCandles(d, timeframe);
    ScanBetween(candles, symbol, timeframe, g[0], g[|g| - 1] + Step(timeframe))
  }

  /** `sorted(set(expected) - set(actual))`: exactly the grid times with no
      stored candle, ascending. */
  function MissingCandles(candles: Store, symbol: string, timeframe: string, d: Day): (m: seq<Ts>)
    requires timeframe in Registry
    ensures StrictlyIncreasing(m)
    ensures forall x :: x in m <==> x in ExpectedCandles(d, timeframe) && x !in TsOf(candles, symbol, timeframe)
  {
    var g := ExpectedCandles(d, timeframe);
    var a := ActualCandles(candles, symbol, timeframe, d);
    Ascending(set x | x in g && x !in a)
  }

  /** The `intraday_completeness` report of one trade date. */
  function CompletenessReport(log: Log, candles: Store, symbol: string, timeframe: string, d: Day): (r: Log)
    requires timeframe in Registry
    ensures |r| == |log| + 1 && r[..|log|] == log
    ensures r[|log|].symbol == symbol && r[|log|].timeframe == timeframe
    ensures r[|log|].checkType == IntradayCompleteness
    ensures r[|log|].details ==
            Completeness(d, |ExpectedCandles(d, timeframe)|, |ActualCandles(candles, symbol, timeframe, d)|,
                         |MissingCandles(candles, symbol, timeframe, d)|)
    ensures r[|log|].status in {Pass, Fail}
    ensures r[|log|].status == Pass <==> MissingCandles(candles, symbol, timeframe, d) == []
    ensures WellFormed(log) ==> WellFormed(r)
  {
    var missing := MissingCandles(candles, symbol, timeframe, d);
    Persist(log, symbol, timeframe, IntradayCompleteness, if |missing| == 0 then Pass else Fail,
            Completeness(d, |ExpectedCandles(d, timeframe)|, |ActualCandles(candles, symbol, timeframe, d)|, |missing|))
  }

  /** A date passes exactly when every grid time has a stored candle. */
  lemma CompletenessPassIff(log: Log, candles: Store, symbol: string, timeframe: string, d: Day)
    requires timeframe in Registry
    ensures CompletenessReport(log, candles, symbol, timeframe, d)[|log|].status == Pass <==>
            forall x :: x in ExpectedCandles(d, timeframe) ==> x in TsOf(candles, symbol, timeframe)
  {
    var missing := MissingCandles(candles, symbol, timeframe, d);
    if missing != [] {
      assert missing[0] in missing;
    }
  }

  /** The details of an `intraday_backfill` report: the healer's summary. */
  function HealDetails(s: HealSummary): Details {
    match s
    case Unsupported => IntradayHeal(Some("unsupported timeframe"), 0, 0, 0)
    case NothingMissing => IntradayHeal(None, 0, 0, 0)
    case TooOld => IntradayHeal(Some("too_old"), 0, 0, 0)
    case Ran(attempted, inserted, skipped) => IntradayHeal(None, attempted, inserted, skipped)
  }

  /** The intraday escalation step: after a PARTIAL heal, an
      `intraday_backfill_alert` when the pair's streak reaches three. */
  function EscalateIntraday(log: Log, symbol: string, timeframe: string, d: Day): (r: Log)
    requires |log| > 0
    ensures |log| <= |r| <= |log| + 1 && r[..|log|] == log
    ensures |r| == |log| + 1 <==>
              log[|log| - 1].status == Partial && IntradayEscalates(IntradayPartialStreak(log, symbol, timeframe))
    ensures |r| == |log| + 1 ==>
              r[|log|].symbol == symbol && r[|log|].timeframe == timeframe &&
              r[|log|].checkType == IntradayBackfillAlert && r[|log|].status == Raised &&
              r[|log|].details == Escalation(IntradayPartialStreak(log, symbol, timeframe), MaxIntradayPartialRuns, Some(d))
    ensures WellFormed(log) ==> WellFormed(r)
  {
    var streak := IntradayPartialStreak(log, symbol, timeframe);
    if log[|log| - 1].status == Partial && IntradayEscalates(streak) then
      Persist(log, symbol, timeframe, IntradayBackfillAlert, Raised,
              Escalation(streak, MaxIntradayPartialRuns, Some(d)))
    else log
  }

  /** Keys already in `ohlcv` keep their rows; new keys belong to one of
      the allowed pairs. */
  predicate OhlcvGrowsWithin(before: Store, after: Store, allowed: set<(string, string)>) {
    && (forall k :: k in before ==> k in after && after[k] == before[k])
    && (forall k :: k in after && k !in before ==> (k.symbol, k.timeframe) in allowed)
  }

  /** An intraday alert follows a PARTIAL heal exactly when the pair's three
      newest `intraday_backfill` rows, that heal included, are all PARTIAL. */
  lemma IntradayAlertIffThreePartials(log: Log, symbol: string, timeframe: string, d: Day)
    requires |log| > 0 && log[|log| - 1].status == Partial
    ensures var f := Reverse(Filter(log, IntradayHealSelector(symbol, timeframe)));
      |EscalateIntraday(log, symbol, timeframe, d)| == |log| + 1 <==>
        |f| >= 3 && forall i :: 0 <= i < 3 ==> f[i].status == Partial
  {
    IntradayEscalationIff(log, symbol, timeframe);
  }

  /** The `intraday_backfill` report of a heal that returned, then the
      escalation. */
  function RecordHeal(log: Log, symbol: string, timeframe: string, d: Day, s: HealSummary): (r: Log)
    ensures |r| > |log| && r[..|log|] == log
    ensures r[|log|].checkType == IntradayBackfill && r[|log|].status == SummaryStatus(s)
    ensures r[|log|].details == HealDetails(s)
    ensures r == EscalateIntraday(r[..|log| + 1], symbol, timeframe, d)
    ensures NewRowsOf(log, r, symbol, timeframe, {IntradayBackfill, IntradayBackfillAlert})
    ensures WellFormed(log) ==> WellFormed(r)
  {
    var log1 := Persist(log, symbol, timeframe, IntradayBackfill, SummaryStatus(s), HealDetails(s));
    var log2 := EscalateIntraday(log1, symbol, timeframe, d);
    assert log2[..|log1|][..|log|] == log2[..|log|];
    log2
  }

  /** Healing a FAIL: the intraday healer over the missing times, its
      report, then the escalation. A vendor error aborts with what the
      healer had already stored. */
  method HealAndEscalate(t: Tables, env: Env, symbol: string, timeframe: string, d: Day, missing: seq<Ts>)
    returns (r: Audit)
    ensures r.tables.candles == t.candles
    ensures |r.tables.log| >= |t.log| && r.tables.log[..|t.log|] == t.log
    ensures NewRowsOf(t.log, r.tables.log, symbol, timeframe, {IntradayBackfill, IntradayBackfillAlert})
    ensures WellFormed(t.log) ==> WellFormed(r.tables.log)
    ensures OhlcvGrowsWithin(t.ohlcv, r.tables.ohlcv, {(symbol, timeframe)})
    ensures var heal := BackfillMissingCandles(t.ohlcv, env.table, DayOf(env.now), env.vendor, symbol, timeframe, missing);
      && r.tables.ohlcv == heal.ohlcv
      && (r.error.Some? <==> heal.summary.Err?)
      && (heal.summary.Err? ==> r.tables.log == t.log && r.error == Some(heal.summary.error))
      && (heal.summary.Ok? ==>
            && |r.tables.log| > |t.log|
            && r.tables.log[|t.log|].checkType == IntradayBackfill
            && r.tables.log[|t.log|].status == SummaryStatus(heal.summary.value)
            && r.tables.log[|t.log|].details == HealDetails(heal.summary.value))
  {
    var heal := BackfillMissingCandles(t.ohlcv, env.table, DayOf(env.now), env.vendor, symbol, timeframe, missing);
    r := AfterHeal(t, heal, symbol, timeframe, d);
  }

  /** What the agent does with the healer's outcome: an error aborts with
      the rows already stored; a summary is reported and escalated. */
  function AfterHeal(t: Tables, heal: HealRun, symbol: string, timeframe: string, d: Day): (r: Audit)
    requires OhlcvGrowsWithin(t.ohlcv, heal.ohlcv, {(symbol, timeframe)})
    ensures r.tables.candles == t.candles && r.tables.ohlcv == heal.ohlcv
    ensures |r.tables.log| >= |t.log| && r.tables.log[..|t.log|] == t.log
    ensures NewRowsOf(t.log, r.tables.log, symbol, timeframe, {IntradayBackfill, IntradayBackfillAlert})
    ensures WellFormed(t.log) ==> WellFormed(r.tables.log)
    ensures r.error.Some? <==> heal.summary.Err?
    ensures heal.summary.Err? ==> r.tables.log == t.log && r.error == Some(heal.summary.error)
    ensures heal.summary.Ok? ==>
              && |r.tables.log| > |t.log|
              && r.tables.log[|t.log|].checkType == IntradayBackfill
              && r.tables.log[|t.log|].status == SummaryStatus(heal.summary.value)
              && r.tables.log[|t.log|].details == HealDetails(heal.summary.value)
  {
    match heal.summary
    case Err(e) => Audit(Tables(t.candles, heal.ohlcv, t.log), Some(e))
    case Ok(s) => Audit(Tables(t.candles, heal.ohlcv, RecordHeal(t.log, symbol, timeframe, d, s)), None)
  }

  /** Every open intraday alert of the pair among the old rows is RESOLVED;
      every other old row is as it was. */
  predicate ResolvesPair(before: Log, after: Log, symbol: string, timeframe: string) {
    && |after| >= |before|
    && forall i :: 0 <= i < |before| ==>
         after[i] == if before[i].symbol == symbol && before[i].timeframe == timeframe &&
                        before[i].checkType == IntradayBackfillAlert && before[i].status in {Raised, Acked}
                     then before[i].(status := Resolved)
                     else before[i]
  }

  /** Some `intraday_completeness` report appended after `before` is about
      trade date `d`. */
  predicate Audited(before: Log, after: Log, d: Day) {
    exists i :: |before| <= i < |after| && after[i].checkType == IntradayCompleteness &&
                after[i].details.Completeness? && after[i].details.tradeDate == d
  }

  /** Every `intraday_completeness` report appended after `before` is about
      a trading day among `dates`. */
  predicate CompletenessRowsWithin(before: Log, after: Log, table: HolidayTable, dates: seq<Day>) {
    forall i :: |before| <= i < |after| && after[i].checkType == IntradayCompleteness ==>
      after[i].details.Completeness? && after[i].details.tradeDate in dates &&
      IsTradingDay(table, DefaultExchange, after[i].details.tradeDate)
  }

  /** The loop body for one trade date: skipped on a non-trading day. */
  method CheckDate(t: Tables, env: Env, symbol: string, timeframe: string, d: Day) returns (r: Audit)
    requires timeframe in Registry
    ensures r.tables.candles == t.candles
    ensures Extends(t.log, r.tables.log) && NewRowsOf(t.log, r.tables.log, symbol, timeframe, IntradayKinds)
    ensures WellFormed(t.log) ==> WellFormed(r.tables.log)
    ensures OhlcvGrowsWithin(t.ohlcv, r.tables.ohlcv, {(symbol, timeframe)})
    ensures !IsTradingDay(env.table, DefaultExchange, d) ==> r == Audit(t, None)
    ensures IsTradingDay(env.table, DefaultExchange, d) ==> Audited(t.log, r.tables.log, d)
    ensures CompletenessRowsWithin(t.log, r.tables.log, env.table, [d])
  {
    if !IsTradingDay(env.table, DefaultExchange, d) {
      AppendExtends(t.log, t.log);
      return Audit(t, None);
    }
    r := CheckTradingDate(t, env, symbol, timeframe, d);
    OneReportWithin(t.log, r.tables.log, env.table, d);
  }

  /** A day's audit appends one completeness report, for that day, and
      otherwise only heal rows. */
  lemma OneReportWithin(before: Log, after: Log, table: HolidayTable, d: Day)
    requires IsTradingDay(table, DefaultExchange, d)
    requires |after| > |before|
    requires after[|before|].checkType == IntradayCompleteness
    requires after[|before|].details.Completeness? && after[|before|].details.tradeDate == d
    requires forall i :: |before| < i < |after| ==> after[i].checkType in {IntradayBackfill, IntradayBackfillAlert}
    ensures Audited(before, after, d)
    ensures CompletenessRowsWithin(before, after, table, [d])
  {
  }

  /** One trading day: the completeness report, then on PASS the
      auto-resolve and on FAIL the heal. */
  method CheckTradingDate(t: Tables, env: Env, symbol: string, timeframe: string, d: Day) returns (r: Audit)
    requires timeframe in Registry && IsTradingDay(env.table, DefaultExchange, d)
    ensures r.tables.candles == t.candles
    ensures Extends(t.log, r.tables.log) && NewRowsOf(t.log, r.tables.log, symbol, timeframe, IntradayKinds)
    ensures WellFormed(t.log) ==> WellFormed(r.tables.log)
    ensures OhlcvGrowsWithin(t.ohlcv, r.tables.ohlcv, {(symbol, timeframe)})
    ensures |r.tables.log| > |t.log|
    ensures r.tables.log[|t.log|] == CompletenessReport(t.log, t.candles, symbol, timeframe, d)[|t.log|]
    ensures forall i :: |t.log| < i < |r.tables.log| ==>
              r.tables.log[i].checkType in {IntradayBackfill, IntradayBackfillAlert}
    ensures r.tables.log[|t.log|].status == Pass ==>
              && r.error.None? && r.tables.ohlcv == t.ohlcv && |r.tables.log| == |t.log| + 1
              && ResolvesPair(t.log, r.tables.log, symbol, timeframe)
    ensures r.tables.log[|t.log|].status == Fail ==>
              && r.tables.log[..|t.log|] == t.log
              && (r.error.None? ==> |r.tables.log| > |t.log| + 1 && r.tables.log[|t.log| + 1].checkType == IntradayBackfill)
  {
    var missing := MissingCandles(t.candles, symbol, timeframe, d);
    var log1 := CompletenessReport(t.log, t.candles, symbol, timeframe, d);
    if missing == [] {
      r := OnPass(t, log1, symbol, timeframe);
    } else {
      r := HealAndEscalate(Tables(t.candles, t.ohlcv, log1), env, symbol, timeframe, d, missing);
      AppendAfterReport(t.log, log1, r.tables.log, symbol, timeframe);
    }
  }

  /** After a PASS report: the pair's open intraday alerts are resolved. */
  function OnPass(t: Tables, log1: Log, symbol: string, timeframe: string): (r: Audit)
    requires |log1| == |t.log| + 1 && log1[..|t.log|] == t.log
    requires log1[|t.log|].symbol == symbol && log1[|t.log|].timeframe == timeframe
    requires log1[|t.log|].checkType == IntradayCompleteness
    ensures r.error.None? && r.tables.candles == t.candles && r.tables.ohlcv == t.ohlcv
    ensures |r.tables.log| == |t.log| + 1 && r.tables.log[|t.log|] == log1[|t.log|]
    ensures Extends(t.log, r.tables.log) && NewRowsOf(t.log, r.tables.log, symbol, timeframe, IntradayKinds)
    ensures ResolvesPair(t.log, r.tables.log, symbol, timeframe)
    ensures WellFormed(log1) ==> WellFormed(r.tables.log)
  {
    var log2 := AutoResolveIntraday(log1, symbol, timeframe);
    assert log2[..|log1|] == log2;
    AppendExtends(t.log, log1);
    ExtendsTrans(t.log, log1, log2);
    Audit(Tables(t.candles, t.ohlcv, log2), None)
  }

  /** Rows appended after the completeness report, seen from before it. */
  lemma AppendAfterReport(log: Log, log1: Log, c: Log, symbol: string, timeframe: string)
    requires |log1| == |log| + 1 && log1[..|log|] == log
    requires log1[|log|].symbol == symbol && log1[|log|].timeframe == timeframe
    requires log1[|log|].checkType == IntradayCompleteness
    requires |c| >= |log1| && c[..|log1|] == log1
    requires NewRowsOf(log1, c, symbol, timeframe, {IntradayBackfill, IntradayBackfillAlert})
    ensures c[..|log|] == log && Extends(log, c)
    ensures NewRowsOf(log, c, symbol, timeframe, IntradayKinds)
    ensures c[|log|] == log1[|log|]
    ensures forall i :: |log| < i < |c| ==> c[i].checkType in {IntradayBackfill, IntradayBackfillAlert}
  {
    assert c[..|log1|][..|log|] == c[..|log|];
    AppendExtends(log, c);
    forall i | |log| <= i < |c|
      ensures c[i].symbol == symbol && c[i].timeframe == timeframe && c[i].checkType in IntradayKinds
    {
      if i == |log| {
        assert c[..|log1|][i] == c[i];
      }
    }
  }

  /** `SELECT DISTINCT ts::date … ORDER BY trade_date DESC LIMIT 5`: the
      newest five candle dates of the pair, newest first. */
  function NewestDates(candles: Store, symbol: string, timeframe: string): (r: seq<Day>)
    ensures |r| <= 5
    ensures forall i, j :: 0 <= i < j < |r| ==> r[i] > r[j]
    ensures forall x :: x in r ==> x in DatesOf(candles, symbol, timeframe)
    ensures forall x :: x in DatesOf(candles, symbol, timeframe) && x !in r ==>
              |r| == 5 && forall y :: y in r ==> x < y
  {
    Largest(DatesOf(candles, symbol, timeframe), 5)
  }

  /** The facts of two consecutive steps of the date loop combined. */
  lemma DateStepsChain(a: Tables, b: Tables, c: Tables, table: HolidayTable, symbol: string, timeframe: string,
                       ds1: seq<Day>, ds2: seq<Day>, ds: seq<Day>)
    requires Extends(a.log, b.log) && NewRowsOf(a.log, b.log, symbol, timeframe, IntradayKinds)
    requires Extends(b.log, c.log) && NewRowsOf(b.log, c.log, symbol, timeframe, IntradayKinds)
    requires OhlcvGrowsWithin(a.ohlcv, b.ohlcv, {(symbol, timeframe)})
    requires OhlcvGrowsWithin(b.ohlcv, c.ohlcv, {(symbol, timeframe)})
    requires CompletenessRowsWithin(a.log, b.log, table, ds1) && CompletenessRowsWithin(b.log, c.log, table, ds2)
    requires forall x :: x in ds1 || x in ds2 ==> x in ds
    ensures Extends(a.log, c.log) && NewRowsOf(a.log, c.log, symbol, timeframe, IntradayKinds)
    ensures OhlcvGrowsWithin(a.ohlcv, c.ohlcv, {(symbol, timeframe)})
    ensures CompletenessRowsWithin(a.log, c.log, table, ds)
    ensures forall d :: Audited(a.log, b.log, d) || Audited(b.log, c.log, d) ==> Audited(a.log, c.log, d)
  {
    ExtendsTrans(a.log, b.log, c.log);
    NewRowsChain(a.log, b.log, c.log, symbol, timeframe, IntradayKinds);
    forall i | |a.log| <= i < |c.log| && c.log[i].checkType == IntradayCompleteness
      ensures c.log[i].details.Completeness? && c.log[i].details.tradeDate in ds &&
              IsTradingDay(table, DefaultExchange, c.log[i].details.tradeDate)
    {
      if i < |b.log| {
        assert c.log[..|b.log|][i] == c.log[i];
      }
    }
    forall d | Audited(a.log, b.log, d) || Audited(b.log, c.log, d)
      ensures Audited(a.log, c.log, d)
    {
      if Audited(a.log, b.log, d) {
        var i :| |a.log| <= i < |b.log| && b.log[i].checkType == IntradayCompleteness &&
                 b.log[i].details.Completeness? && b.log[i].details.tradeDate == d;
        assert c.log[..|b.log|][i] == c.log[i];
      }
    }
  }

  /** The loop over the trade dates; a heal error ends it. */
  method CheckDates(t: Tables, env: Env, symbol: string, timeframe: string, dates: seq<Day>) returns (r: Audit)
    requires timeframe in Registry
    ensures r.tables.candles == t.candles
    ensures Extends(t.log, r.tables.log) && NewRowsOf(t.log, r.tables.log, symbol, timeframe, IntradayKinds)
    ensures WellFormed(t.log) ==> WellFormed(r.tables.log)
    ensures OhlcvGrowsWithin(t.ohlcv, r.tables.ohlcv, {(symbol, timeframe)})
    ensures CompletenessRowsWithin(t.log, r.tables.log, env.table, dates)
    ensures r.error.None? ==>
              forall d :: d in dates && IsTradingDay(env.table, DefaultExchange, d) ==> Audited(t.log, r.tables.log, d)
  {
    r := Audit(t, None);
    AppendExtends(t.log, t.log);
    var k := 0;
    while k < |dates|
      invariant 0 <= k <= |dates|
      invariant r.error.None? && r.tables.candles == t.candles
      invariant Extends(t.log, r.tables.log) && NewRowsOf(t.log, r.tables.log, symbol, timeframe, IntradayKinds)
      invariant WellFormed(t.log) ==> WellFormed(r.tables.log)
      invariant OhlcvGrowsWithin(t.ohlcv, r.tables.ohlcv, {(symbol, timeframe)})
      invariant CompletenessRowsWithin(t.log, r.tables.log, env.table, dates[..k])
      invariant forall d :: d in dates[..k] && IsTradingDay(env.table, DefaultExchange, d) ==>
                  Audited(t.log, r.tables.log, d)
    {
      var a := CheckDate(r.tables, env, symbol, timeframe, dates[k]);
      DateStepsChain(t, r.tables, a.tables, env.table, symbol, timeframe, dates[..k], [dates[k]], dates[..k + 1]);
      if a.error.Some? {
        return a;
      }
      assert dates[..k + 1] == dates[..k] + [dates[k]];
      r := a;
      k := k + 1;
    }
    assert dates[..k] == dates;
  }

  /** `_check_intraday_completeness`: nothing for a timeframe outside the
      registry; otherwise the loop over the newest five candle dates. */
  method CheckIntraday(t: Tables, env: Env, symbol: string, timeframe: string) returns (r: Audit)
    ensures r.tables.candles == t.candles
    ensures Extends(t.log, r.tables.log) && NewRowsOf(t.log, r.tables.log, symbol, timeframe, IntradayKinds)
    ensures WellFormed(t.log) ==> WellFormed(r.tables.log)
    ensures OhlcvGrowsWithin(t.ohlcv, r.tables.ohlcv, {(symbol, timeframe)})
    ensures timeframe !in Registry ==> r == Audit(t, None)
    ensures CompletenessRowsWithin(t.log, r.tables.log, env.table, NewestDates(t.candles, symbol, timeframe))
    ensures timeframe in Registry && r.error.None? ==>
              forall d :: d in NewestDates(t.candles, symbol, timeframe) && IsTradingDay(env.table, DefaultExchange, d) ==>
                Audited(t.log, r.tables.log, d)
  {
    if timeframe !in Registry {
      AppendExtends(t.log, t.log);
      return Audit(t, None);
    }
    r := CheckDates(t, env, symbol, timeframe, NewestDates(t.candles, symbol, timeframe));
  }

  // ------------------------------------------------------------------
  // The run over all pairs
  // ------------------------------------------------------------------

  /** The report every audited pair is sure to receive. */
  function FirstReportOf(timeframe: string): CheckType {
    if timeframe == Daily then DailyCoverage else Freshness
  }

  /** The intraday pairs of the candle store: those the healer may write. */
  function IntradayPairs(candles: Store): set<(string, string)> {
    set p | p in Pairs(candles) && p.1 != Daily
  }

  /** Every row appended after `before` is about one of the pairs, of a
      kind its timeframe calls for. */
  predicate Dispatched(before: Log, after: Log, pairs: set<(string, string)>) {
    forall i :: |before| <= i < |after| ==>
      && (after[i].symbol, after[i].timeframe) in pairs
      && (after[i].timeframe == Daily ==> after[i].checkType in DailyKinds)
      && (after[i].timeframe != Daily ==> after[i].checkType in IntradayKinds)
  }

  lemma PairHasCandles(candles: Store, p: (string, string))
    requires p in Pairs(candles)
    ensures TsOf(candles, p.0, p.1) != {}
  {
    var k :| k in candles.Keys && (k.symbol, k.timeframe) == p;
    assert k.ts in TsOf(candles, p.0, p.1);
  }

  /** The body of the loop in `run`: a 1D pair gets the coverage check, any
      other pair the freshness check and then the completeness check. */
  method AuditPair(t: Tables, env: Env, symbol: string, timeframe: string) returns (r: Audit)
    ensures r.tables.candles == t.candles
    ensures Extends(t.log, r.tables.log) && Dispatched(t.log, r.tables.log, {(symbol, timeframe)})
    ensures WellFormed(t.log) ==> WellFormed(r.tables.log)
    ensures timeframe == Daily ==> r.error.None? && r.tables.ohlcv == t.ohlcv
    ensures OhlcvGrowsWithin(t.ohlcv, r.tables.ohlcv, if timeframe == Daily then {} else {(symbol, timeframe)})
    ensures r.error.None? && TsOf(t.candles, symbol, timeframe) != {} ==>
              Reported(t.log, r.tables.log, symbol, timeframe, FirstReportOf(timeframe))
  {
    if timeframe == Daily {
      r := AuditDailyPair(t, env, symbol);
      NewRowsDispatched(t.log, r.tables.log, symbol, timeframe, DailyKinds);
    } else {
      r := AuditIntradayPair(t, env, symbol, timeframe);
      NewRowsDispatched(t.log, r.tables.log, symbol, timeframe, IntradayKinds);
    }
  }

  /** A 1D pair: the coverage check and its heal. */
  method AuditDailyPair(t: Tables, env: Env, symbol: string) returns (r: Audit)
    ensures r.tables.candles == t.candles && r.tables.ohlcv == t.ohlcv && r.error.None?
    ensures Extends(t.log, r.tables.log) && NewRowsOf(t.log, r.tables.log, symbol, Daily, DailyKinds)
    ensures WellFormed(t.log) ==> WellFormed(r.tables.log)
    ensures TsOf(t.candles, symbol, Daily) != {} ==> Reported(t.log, r.tables.log, symbol, Daily, DailyCoverage)
  {
    var c := CheckDailyCoverage(t, env.table, symbol);
    r := Audit(c, None);
    if TsOf(t.candles, symbol, Daily) != {} {
      assert c.log[|t.log|].checkType == DailyCoverage;
    }
  }

  /** An intraday pair: the freshness check, then the completeness check.
      The freshness report is written before anything can abort. */
  method AuditIntradayPair(t: Tables, env: Env, symbol: string, timeframe: string) returns (r: Audit)
    ensures r.tables.candles == t.candles
    ensures Extends(t.log, r.tables.log) && NewRowsOf(t.log, r.tables.log, symbol, timeframe, IntradayKinds)
    ensures WellFormed(t.log) ==> WellFormed(r.tables.log)
    ensures OhlcvGrowsWithin(t.ohlcv, r.tables.ohlcv, {(symbol, timeframe)})
    ensures TsOf(t.candles, symbol, timeframe) != {} ==> Reported(t.log, r.tables.log, symbol, timeframe, Freshness)
  {
    var f := CheckFreshness(t, env.now, symbol, timeframe);
    r := CheckIntraday(f, env, symbol, timeframe);
    ExtendsTrans(t.log, f.log, r.tables.log);
    NewRowsChain(t.log, f.log, r.tables.log, symbol, timeframe, IntradayKinds);
    if TsOf(t.candles, symbol, timeframe) != {} {
      assert f.log[|t.log|].checkType == Freshness;
      ReportedKept(t.log, f.log, r.tables.log, symbol, timeframe, Freshness);
    }
  }

  /** Rows of one pair, of the kinds its timeframe calls for, are dispatched
      to that pair. */
  lemma NewRowsDispatched(before: Log, after: Log, symbol: string, timeframe: string, kinds: set<CheckType>)
    requires NewRowsOf(before, after, symbol, timeframe, kinds)
    requires timeframe == Daily ==> kinds <= DailyKinds
    requires timeframe != Daily ==> kinds <= IntradayKinds
    ensures Dispatched(before, after, {(symbol, timeframe)})
  {
  }

  /** The facts of two consecutive steps of the pair loop combined. */
  lemma PairStepsChain(a: Tables, b: Tables, c: Tables, p1: set<(string, string)>, p2: set<(string, string)>,
                       pairs: set<(string, string)>, o1: set<(string, string)>, o2: set<(string, string)>,
                       allowed: set<(string, string)>)
    requires Extends(a.log, b.log) && Dispatched(a.log, b.log, p1)
    requires Extends(b.log, c.log) && Dispatched(b.log, c.log, p2)
    requires p1 <= pairs && p2 <= pairs
    requires OhlcvGrowsWithin(a.ohlcv, b.ohlcv, o1) && OhlcvGrowsWithin(b.ohlcv, c.ohlcv, o2)
    requires o1 <= allowed && o2 <= allowed
    ensures Extends(a.log, c.log) && Dispatched(a.log, c.log, pairs)
    ensures OhlcvGrowsWithin(a.ohlcv, c.ohlcv, allowed)
    ensures forall symbol, timeframe, kind :: Reported(a.log, b.log, symbol, timeframe, kind) ==>
              Reported(a.log, c.log, symbol, timeframe, kind)
    ensures forall symbol, timeframe, kind :: Reported(b.log, c.log, symbol, timeframe, kind) ==>
              Reported(a.log, c.log, symbol, timeframe, kind)
  {
    ExtendsTrans(a.log, b.log, c.log);
    forall i | |a.log| <= i < |c.log|
      ensures && (c.log[i].symbol, c.log[i].timeframe) in pairs
              && (c.log[i].timeframe == Daily ==> c.log[i].checkType in DailyKinds)
              && (c.log[i].timeframe != Daily ==> c.log[i].checkType in IntradayKinds)
    {
      if i < |b.log| {
        assert c.log[..|b.log|][i] == c.log[i];
      }
    }
    forall symbol, timeframe, kind | Reported(a.log, b.log, symbol, timeframe, kind)
      ensures Reported(a.log, c.log, symbol, timeframe, kind)
    {
      ReportedKept(a.log, b.log, c.log, symbol, timeframe, kind);
    }
    forall symbol, timeframe, kind | Reported(b.log, c.log, symbol, timeframe, kind)
      ensures Reported(a.log, c.log, symbol, timeframe, kind)
    {
      var i :| |b.log| <= i < |c.log| && c.log[i].symbol == symbol && c.log[i].timeframe == timeframe &&
               c.log[i].checkType == kind;
    }
  }

  /** `run`: every distinct (symbol, timeframe) pair of `candles`, in the
      order the query returned them. The candles are never written; every
      report lands on a pair that has candles, with the kind its timeframe
      calls for; and unless a heal error aborts the run, every pair gets its
      coverage or freshness report. */
  method Run(t: Tables, env: Env, order: seq<(string, string)>) returns (r: Audit)
    requires forall p :: p in order <==> p in Pairs(t.candles)
    requires forall i, j :: 0 <= i < j < |order| ==> order[i] != order[j]
    ensures r.tables.candles == t.candles
    ensures Extends(t.log, r.tables.log) && Dispatched(t.log, r.tables.log, Pairs(t.candles))
    ensures WellFormed(t.log) ==> WellFormed(r.tables.log)
    ensures OhlcvGrowsWithin(t.ohlcv, r.tables.ohlcv, IntradayPairs(t.candles))
    ensures r.error.None? ==>
              forall p :: p in Pairs(t.candles) ==> Reported(t.log, r.tables.log, p.0, p.1, FirstReportOf(p.1))
  {
    r := Audit(t, None);
    AppendExtends(t.log, t.log);
    var k := 0;
    while k < |order|
      invariant 0 <= k <= |order|
      invariant r.error.None? && r.tables.candles == t.candles
      invariant Extends(t.log, r.tables.log) && Dispatched(t.log, r.tables.log, Pairs(t.candles))
      invariant WellFormed(t.log) ==> WellFormed(r.tables.log)
      invariant OhlcvGrowsWithin(t.ohlcv, r.tables.ohlcv, IntradayPairs(t.candles))
      invariant forall p :: p in order[..k] ==> Reported(t.log, r.tables.log, p.0, p.1, FirstReportOf(p.1))
    {
      var p := order[k];
      assert p in Pairs(t.candles);
      PairHasCandles(t.candles, p);
      var a := AuditPair(r.tables, env, p.0, p.1);
      PairStepsChain(t, r.tables, a.tables, Pairs(t.candles), {p}, Pairs(t.candles), IntradayPairs(t.candles),
                     if p.1 == Daily then {} else {p}, IntradayPairs(t.candles));
      if a.error.Some? {
        return a;
      }
      assert order[..k + 1] == order[..k] + [p];
      r := a;
      k := k + 1;
    }
    assert order[..k] == order;
  }
}

=== FILE: calendar.dfy ===
/** The trading calendar: weekends and the holiday table of one exchange.

    The holiday table is injected as a set of rows; every function here only
    reads it. */
module TradingCalendar {
  import opened Clock
  import opened Sorting

  datatype Holiday = Holiday(exchange: string, date: Day, year: int, description: string)

  type HolidayTable = set<Holiday>

  const DefaultExchange: string := "NSE"

  /** The primary key (exchange, holiday_date): at most one row per exchange and date. */
  predicate WellKeyed(table: HolidayTable) {
    forall a, b :: a in table && b in table && a.exchange == b.exchange && a.date == b.date ==> a == b
  }

  /** `is_trading_day`: closed on Saturday and Sunday whatever the table says,
      closed on a date listed for this exchange, open otherwise. */
  function IsTradingDay(table: HolidayTable, exchange: string, d: Day): (open: bool)
    ensures IsWeekend(d) ==> !open
    ensures (exists h :: h in table && h.exchange == exchange && h.date == d) ==> !open
    ensures !IsWeekend(d) && (forall h :: h in table && h.date == d ==> h.exchange != exchange) ==> open
  {
    if Weekday(d) >= 5 then false
    else !exists h :: h in table && h.exchange == exchange && h.date == d
  }

  /** Holidays of other exchanges never change the answer for this one. */
  lemma OtherExchangesIrrelevant(table: HolidayTable, other: HolidayTable, exchange: string, d: Day)
    requires forall h :: h in other ==> h.exchange != exchange
    ensures IsTradingDay(table + other, exchange, d) == IsTradingDay(table, exchange, d)
  {
  }

  /** `get_holidays_for_year`: the listed dates of one exchange and year, ascending. */
  function HolidaysForYear(table: HolidayTable, exchange: string, year: int): (dates: seq<Day>)
    ensures StrictlyIncreasing(dates)
    ensures forall d :: d in dates <==> exists h :: h in table && h.exchange == exchange && h.year == year && h.date == d
  {
    Ascending(set h | h in table && h.exchange == exchange && h.year == year :: h.date)
  }

  lemma {:induction false} DateImageCard(rows: set<Holiday>)
    requires forall a, b :: a in rows && b in rows && a.date == b.date ==> a == b
    ensures |set h | h in rows :: h.date| == |rows|
    decreases |rows|
  {
    if rows != {} {
      var x :| x in rows;
      var rest := rows - {x};
      DateImageCard(rest);
      var img := set h | h in rows :: h.date;
      var imgRest := set h | h in rest :: h.date;
      assert img == imgRest + {x.date};
      assert x.date !in imgRest;
    }
  }

  /** With the primary key in force, the year listing has one entry per row. */
  lemma HolidaysForYearOnePerRow(table: HolidayTable, exchange: string, year: int)
    requires WellKeyed(table)
    ensures |HolidaysForYear(table, exchange, year)|
         == |set h | h in table && h.exchange == exchange && h.year == year|
  {
    var rows := set h | h in table && h.exchange == exchange && h.year == year;
    DateImageCard(rows);
    assert (set h | h in table && h.exchange == exchange && h.year == year :: h.date) == (set h | h in rows :: h.date);
  }

  /** The `while d <= last: ... d += 1` walk: the trading days of [lo, hi], ascending. */
  function TradingDaysBetween(table: HolidayTable, exchange: string, lo: Day, hi: Day): (days: seq<Day>)
    ensures StrictlyIncreasing(days)
    ensures forall d :: d in days <==> lo <= d <= hi && IsTradingDay(table, exchange, d)
    ensures lo > hi ==> days == []
    ensures lo <= hi ==> |days| <= hi - lo + 1
    decreases hi - lo
  {
    if lo > hi then []
    else
      var rest := TradingDaysBetween(table, exchange, lo + 1, hi);
      assert forall k :: 0 <= k < |rest| ==> rest[k] in rest;
      if IsTradingDay(table, exchange, lo) then [lo] + rest else rest
  }
}

=== FILE: candle_store.dfy ===
/** Persisted candles as maps keyed by the natural key (symbol, timeframe, ts).

    Two tables share this shape but are kept apart by callers: `candles`
    (written by the writer, read by the auditor and the ingestor) and `ohlcv`
    (written by the intraday backfill). Prices are floats in the source; the
    model carries them as opaque integers. */
module CandleStore {
  import opened Wrappers
  import opened Clock
  import opened Sorting

  datatype Bar = Bar(open: int, high: int, low: int, close: int, volume: int)

  /** One row of a fetched frame: `ts, open, high, low, close, volume`. */
  datatype Candle = Candle(ts: Ts, bar: Bar)

  datatype Key = Key(symbol: string, timeframe: string, ts: Ts)

  /** One row offered to a keyed table. */
  datatype Entry<K, V> = Entry(key: K, value: V)

  type Row = Entry<Key, Bar>

  type Store = map<Key, Bar>

  /** The value of the first entry of `rows` with key `k`, if any. */
  function FirstValue<K(==), V>(rows: seq<Entry<K, V>>, k: K): Option<V> {
    if |rows| == 0 then None
    else if rows[0].key == k then Some(rows[0].value)
    else FirstValue(rows[1..], k)
  }

  lemma {:induction false} FirstValueSome<K, V>(rows: seq<Entry<K, V>>, k: K)
    ensures FirstValue(rows, k).Some? <==> exists i :: 0 <= i < |rows| && rows[i].key == k
  {
    if |rows| > 0 {
      FirstValueSome(rows[1..], k);
      if rows[0].key != k {
        assert forall i :: 1 <= i < |rows| ==> rows[i] == rows[1..][i - 1];
      }
    }
  }

  function KeysOf<K, V>(rows: seq<Entry<K, V>>): set<K> {
    set i | 0 <= i < |rows| :: rows[i].key
  }

  /** `INSERT ... ON CONFLICT DO NOTHING` applied row by row: a key already
      stored keeps its value, and a new key takes the value of its first row. */
  function InsertIfAbsent<K(==), V>(store: map<K, V>, rows: seq<Entry<K, V>>): (r: map<K, V>)
    ensures r.Keys == store.Keys + KeysOf(rows)
    ensures forall k :: k in store ==> r[k] == store[k]
    ensures forall k :: k in r && k !in store ==> FirstValue(rows, k) == Some(r[k])
    decreases |rows|
  {
    if |rows| == 0 then store
    else
      var head := rows[0];
      var next := if head.key in store then store else store[head.key := head.value];
      var r := InsertIfAbsent(next, rows[1..]);
      assert KeysOf(rows) == {head.key} + KeysOf(rows[1..]) by {
        forall k | k in KeysOf(rows) ensures k in {head.key} + KeysOf(rows[1..]) {
          var i :| 0 <= i < |rows| && rows[i].key == k;
          if i > 0 {
            assert rows[1..][i - 1].key == k;
          }
        }
        forall k | k in KeysOf(rows[1..]) ensures k in KeysOf(rows) {
          var i :| 0 <= i < |rows[1..]| && rows[1..][i].key == k;
          assert rows[i + 1].key == k;
        }
      }
      r
  }

  /** Inserting rows whose keys are all stored already changes nothing. */
  lemma InsertStoredKeysIsNoop<K, V>(store: map<K, V>, rows: seq<Entry<K, V>>)
    requires KeysOf(rows) <= store.Keys
    ensures InsertIfAbsent(store, rows) == store
  {
    var r := InsertIfAbsent(store, rows);
    assert r.Keys == store.Keys;
  }

  /** Repeating a batch leaves the table as the first insert left it. */
  lemma InsertIdempotent<K, V>(store: map<K, V>, rows: seq<Entry<K, V>>)
    ensures InsertIfAbsent(InsertIfAbsent(store, rows), rows) == InsertIfAbsent(store, rows)
  {
    InsertStoredKeysIsNoop(InsertIfAbsent(store, rows), rows);
  }

  lemma {:induction false} FirstValueWitness<K, V>(rows: seq<Entry<K, V>>, k: K, v: V)
    requires FirstValue(rows, k) == Some(v)
    ensures exists i :: 0 <= i < |rows| && rows[i] == Entry(k, v)
  {
    if rows[0].key != k {
      FirstValueWitness(rows[1..], k, v);
      var i :| 0 <= i < |rows[1..]| && rows[1..][i] == Entry(k, v);
      assert rows[i + 1] == Entry(k, v);
    }
  }

  function RowsOf(symbol: string, timeframe: string, batch: seq<Candle>): (rows: seq<Row>)
    ensures |rows| == |batch|
    ensures forall i :: 0 <= i < |batch| ==> rows[i] == Entry(Key(symbol, timeframe, batch[i].ts), batch[i].bar)
  {
    seq(|batch|, i requires 0 <= i < |batch| => Entry(Key(symbol, timeframe, batch[i].ts), batch[i].bar))
  }

  /** `write_candles`: every row of the batch is stored under the given symbol
      and timeframe unless its key is present; an empty batch is a no-op. */
  function WriteCandles(store: Store, symbol: string, timeframe: string, batch: seq<Candle>): (r: Store)
    ensures |batch| == 0 ==> r == store
    ensures forall i :: 0 <= i < |batch| ==> Key(symbol, timeframe, batch[i].ts) in r
    ensures forall k :: k in store ==> k in r && r[k] == store[k]
    ensures forall k :: k in r && k !in store ==>
              k.symbol == symbol && k.timeframe == timeframe &&
              exists i :: 0 <= i < |batch| && batch[i] == Candle(k.ts, r[k])
    ensures forall k :: k in r && k !in store ==> FirstValue(RowsOf(symbol, timeframe, batch), k) == Some(r[k])
  {
    if |batch| == 0 then store
    else
      var rows := RowsOf(symbol, timeframe, batch);
      var r := InsertIfAbsent(store, rows);
      assert forall i :: 0 <= i < |batch| ==> rows[i].key in KeysOf(rows);
      forall k | k in r && k !in store
        ensures k.symbol == symbol && k.timeframe == timeframe
        ensures exists i :: 0 <= i < |batch| && batch[i] == Candle(k.ts, r[k])
      {
        FirstValueWitness(rows, k, r[k]);
        var i :| 0 <= i < |rows| && rows[i] == Entry(k, r[k]);
        assert batch[i] == Candle(k.ts, r[k]);
      }
      r
  }

  lemma WriteCandlesIdempotent(store: Store, symbol: string, timeframe: string, batch: seq<Candle>)
    ensures WriteCandles(WriteCandles(store, symbol, timeframe, batch), symbol, timeframe, batch)
         == WriteCandles(store, symbol, timeframe, batch)
  {
    if |batch| > 0 {
      InsertIdempotent(store, RowsOf(symbol, timeframe, batch));
    }
  }

  /** A normalised vendor record as `insert_ohlcv_batch` receives it. */
  datatype OhlcvRecord = OhlcvRecord(symbol: string, timeframe: string, candleTs: Ts, bar: Bar)

  function RecordRows(records: seq<OhlcvRecord>): (rows: seq<Row>)
    ensures |rows| == |records|
    ensures forall i :: 0 <= i < |records| ==>
              rows[i] == Entry(Key(records[i].symbol, records[i].timeframe, records[i].candleTs), records[i].bar)
  {
    seq(|records|, i requires 0 <= i < |records| =>
      Entry(Key(records[i].symbol, records[i].timeframe, records[i].candleTs), records[i].bar))
  }

  /** `insert_ohlcv_batch`: insert-if-absent on (symbol, timeframe, candle_ts);
      an empty batch is a no-op, a conflicting record leaves the stored bar,
      and a new key takes the bar of its first record. */
  function InsertOhlcvBatch(store: Store, records: seq<OhlcvRecord>): (r: Store)
    ensures |records| == 0 ==> r == store
    ensures forall i :: 0 <= i < |records| ==>
              Key(records[i].symbol, records[i].timeframe, records[i].candleTs) in r
    ensures forall k :: k in store ==> k in r && r[k] == store[k]
    ensures forall k :: k in r && k !in store ==>
              exists i :: 0 <= i < |records| && records[i] == OhlcvRecord(k.symbol, k.timeframe, k.ts, r[k])
    ensures forall k :: k in r && k !in store ==> FirstValue(RecordRows(records), k) == Some(r[k])
  {
    if |records| == 0 then store
    else
      var rows := RecordRows(records);
      var r := InsertIfAbsent(store, rows);
      assert forall i :: 0 <= i < |records| ==> rows[i].key in KeysOf(rows);
      forall k | k in r && k !in store
        ensures exists i :: 0 <= i < |records| && records[i] == OhlcvRecord(k.symbol, k.timeframe, k.ts, r[k])
      {
        FirstValueWitness(rows, k, r[k]);
        var i :| 0 <= i < |rows| && rows[i] == Entry(k, r[k]);
        assert records[i] == OhlcvRecord(k.symbol, k.timeframe, k.ts, r[k]);
      }
      r
  }

  lemma InsertOhlcvIdempotent(store: Store, records: seq<OhlcvRecord>)
    ensures InsertOhlcvBatch(InsertOhlcvBatch(store, records), records) == InsertOhlcvBatch(store, records)
  {
    if |records| > 0 {
      InsertIdempotent(store, RecordRows(records));
    }
  }

  /** The timestamps stored for one (symbol, timeframe) pair. */
  function TsOf(store: Store, symbol: string, timeframe: string): set<Ts> {
    set k | k in store.Keys && k.symbol == symbol && k.timeframe == timeframe :: k.ts
  }

  /** The distinct (symbol, timeframe) pairs present (`SELECT DISTINCT symbol, timeframe`). */
  function Pairs(store: Store): set<(string, string)> {
    set k | k in store.Keys :: (k.symbol, k.timeframe)
  }

  /** `MAX(ts)` for one pair; `None` when the pair has no rows. */
  function LastTs(store: Store, symbol: string, timeframe: string): (r: Option<Ts>)
    ensures r.None? <==> TsOf(store, symbol, timeframe) == {}
    ensures r.Some? ==> r.value in TsOf(store, symbol, timeframe)
    ensures r.Some? ==> forall t :: t in TsOf(store, symbol, timeframe) ==> t <= r.value
  {
    var ts := TsOf(store, symbol, timeframe);
    if ts == {} then None else Some(SetMax(ts))
  }

  /** `ts >= lo AND ts < hi ORDER BY ts`. */
  function ScanHalfOpen(store: Store, symbol: string, timeframe: string, lo: Ts, hi: Ts): (r: seq<Ts>)
    ensures StrictlyIncreasing(r)
    ensures forall t :: t in r <==> t in TsOf(store, symbol, timeframe) && lo <= t < hi
  {
    Ascending(set t | t in TsOf(store, symbol, timeframe) && lo <= t < hi)
  }

  /** `ts BETWEEN lo AND hi ORDER BY ts`: both ends inclusive. */
  function ScanBetween(store: Store, symbol: string, timeframe: string, lo: Ts, hi: Ts): (r: seq<Ts>)
    ensures StrictlyIncreasing(r)
    ensures forall t :: t in r <==> t in TsOf(store, symbol, timeframe) && lo <= t <= hi
  {
    Ascending(set t | t in TsOf(store, symbol, timeframe) && lo <= t <= hi)
  }

  /** `SELECT DISTINCT ts::date` for one pair. */
  function DatesOf(store: Store, symbol: string, timeframe: string): (r: set<Day>)
    ensures forall d :: d in r <==> exists t :: t in TsOf(store, symbol, timeframe) && DayOf(t) == d
  {
    set t | t in TsOf(store, symbol, timeframe) :: DayOf(t)
  }
}

=== FILE: civil.dfy ===
/** Proleptic Gregorian dates and the fixed-width text forms the vendor feed,
    the holiday file and the QA configuration use.

    `strptime` also accepts one-digit day, month, hour and minute fields; the
    parsers here accept the zero-padded forms only. */
module CivilDate {
  import opened Wrappers
  import opened Clock

  predicate IsLeap(y: int) {
    y % 4 == 0 && (y % 100 != 0 || y % 400 == 0)
  }

  function DaysInMonth(y: int, m: int): (n: int)
    requires 1 <= m <= 12
    ensures 28 <= n <= 31
    ensures m == 2 ==> (n == 29 <==> IsLeap(y))
  {
    if m == 2 then (if IsLeap(y) then 29 else 28)
    else if m in {4, 6, 9, 11} then 30
    else 31
  }

  /** The dates `datetime.date` accepts: years 1 to 9999. */
  predicate ValidDate(y: int, m: int, d: int) {
    1 <= y <= 9999 && 1 <= m <= 12 && 1 <= d <= DaysInMonth(y, m)
  }

  /** Days from 1970-01-01 to the given civil date, by the era method
      (eras of 400 years, years starting in March). */
  function DayNumber(y: int, m: int, d: int): Day {
    var y1 := if m <= 2 then y - 1 else y;
    var era := y1 / 400;
    var yoe := y1 - era * 400;
    var mp := if m > 2 then m - 3 else m + 9;
    var doy := (153 * mp + 2) / 5 + d - 1;
    var doe := yoe * 365 + yoe / 4 - yoe / 100 + doy;
    era * 146097 + doe - 719468
  }

  /** The origin is day 0, and it was a Thursday. */
  lemma EpochIsDayZero()
    ensures DayNumber(1970, 1, 1) == 0
    ensures Weekday(DayNumber(1970, 1, 1)) == 3
  {
  }

  /** Within a month, consecutive dates have consecutive day numbers. */
  lemma NextDayInMonth(y: int, m: int, d: int)
    ensures DayNumber(y, m, d + 1) == DayNumber(y, m, d) + 1
  {
  }

  predicate IsDigit(c: char) {
    '0' <= c <= '9'
  }

  function DigitChar(n: int): (c: char)
    requires 0 <= n <= 9
    ensures IsDigit(c)
  {
    ['0', '1', '2', '3', '4', '5', '6', '7', '8', '9'][n]
  }

  /** The value of a non-empty run of decimal digits. */
  function ParseDigits(s: string): (r: Option<nat>)
    ensures r.Some? <==> |s| > 0 && forall i :: 0 <= i < |s| ==> IsDigit(s[i])
  {
    if |s| == 0 then None
    else if !IsDigit(s[|s| - 1]) then None
    else if |s| == 1 then Some((s[0] - '0') as nat)
    else
      var p := s[..|s| - 1];
      assert forall i :: 0 <= i < |p| ==> p[i] == s[i];
      match ParseDigits(p)
      case None => None
      case Some(v) => Some(v * 10 + (s[|s| - 1] - '0') as nat)
  }

  lemma DigitCharValue(n: int)
    requires 0 <= n <= 9
    ensures (DigitChar(n) - '0') as int == n
  {
  }

  /** `n` written with exactly `width` digits, zero-padded on the left. */
  function Padded(n: nat, width: nat): (s: string)
    ensures |s| == width
    ensures forall i :: 0 <= i < |s| ==> IsDigit(s[i])
  {
    if width == 0 then ""
    else Padded(n / 10, width - 1) + [DigitChar(n % 10)]
  }

  function Pow10(k: nat): (p: nat)
    ensures p >= 1
  {
    if k == 0 then 1 else 10 * Pow10(k - 1)
  }

  lemma ShiftBound(n: nat, width: nat)
    requires width >= 1 && n < Pow10(width)
    ensures n / 10 < Pow10(width - 1)
  {
  }

  lemma ParseDigitsSnoc(p: string, c: char, v: nat)
    requires |p| >= 1 && IsDigit(c) && ParseDigits(p) == Some(v)
    ensures ParseDigits(p + [c]) == Some(v * 10 + (c - '0') as nat)
  {
    assert (p + [c])[..|p + [c]| - 1] == p;
  }

  /** Reading back a zero-padded number gives the number, when it fits. */
  lemma {:induction false} ParsePadded(n: nat, width: nat)
    requires width >= 1 && n < Pow10(width)
    ensures ParseDigits(Padded(n, width)) == Some(n)
  {
    DigitCharValue(n % 10);
    if width == 1 {
      assert Padded(n, width) == [DigitChar(n)];
    } else {
      ShiftBound(n, width);
      ParsePadded(n / 10, width - 1);
      ParseDigitsSnoc(Padded(n / 10, width - 1), DigitChar(n % 10), n / 10);
    }
  }

  /** A field of `s` at `[at, at + width)` read as a number. */
  function Field(s: string, at: nat, width: nat): Option<nat>
    requires at + width <= |s|
  {
    ParseDigits(s[at..at + width])
  }

  /** `strptime(s, "%d<sep>%m<sep>%Y")` with zero-padded fields: the day, the
      month and the year of a valid date. */
  function ParseDmy(s: string, sep: char): (r: Option<(int, int, int)>)
    ensures r.Some? ==> ValidDate(r.value.2, r.value.1, r.value.0)
  {
    if |s| != 10 || s[2] != sep || s[5] != sep then None
    else
      var d := Field(s, 0, 2);
      var m := Field(s, 3, 2);
      var y := Field(s, 6, 4);
      if d.None? || m.None? || y.None? then None
      else if !ValidDate(y.value, m.value, d.value) then None
      else Some((d.value, m.value, y.value))
  }

  /** `strptime(s, "%Y-%m-%d")` with zero-padded fields. */
  function ParseYmd(s: string): (r: Option<(int, int, int)>)
    ensures r.Some? ==> ValidDate(r.value.0, r.value.1, r.value.2)
  {
    if |s| != 10 || s[4] != '-' || s[7] != '-' then None
    else
      var y := Field(s, 0, 4);
      var m := Field(s, 5, 2);
      var d := Field(s, 8, 2);
      if y.None? || m.None? || d.None? then None
      else if !ValidDate(y.value, m.value, d.value) then None
      else Some((y.value, m.value, d.value))
  }

  /** `strptime(s, "%H:%M:%S")` with zero-padded fields, as seconds of the day. */
  function ParseHms(s: string): (r: Option<int>)
    ensures r.Some? ==> 0 <= r.value < SecondsPerDay
  {
    if |s| != 8 || s[2] != ':' || s[5] != ':' then None
    else
      var h := Field(s, 0, 2);
      var m := Field(s, 3, 2);
      var sec := Field(s, 6, 2);
      if h.None? || m.None? || sec.None? then None
      else if h.value >= 24 || m.value >= 60 || sec.value >= 60 then None
      else Some(h.value * 3600 + m.value * 60 + sec.value)
  }

  function FormatDmy(y: nat, m: nat, d: nat, sep: char): string {
    Padded(d, 2) + [sep] + Padded(m, 2) + [sep] + Padded(y, 4)
  }

  function FormatYmd(y: nat, m: nat, d: nat): string {
    Padded(y, 4) + "-" + Padded(m, 2) + "-" + Padded(d, 2)
  }

  function FormatHms(h: nat, m: nat, s: nat): string {
    Padded(h, 2) + ":" + Padded(m, 2) + ":" + Padded(s, 2)
  }

  /** Formatting a valid date and parsing it back gives the date. */
  lemma DmyRoundTrip(y: nat, m: nat, d: nat, sep: char)
    requires ValidDate(y, m, d) && !IsDigit(sep)
    ensures ParseDmy(FormatDmy(y, m, d, sep), sep) == Some((d, m, y))
  {
    var s := FormatDmy(y, m, d, sep);
    assert s[0..2] == Padded(d, 2);
    assert s[3..5] == Padded(m, 2);
    assert s[6..10] == Padded(y, 4);
    ParsePadded(d, 2);
    ParsePadded(m, 2);
    ParsePadded(y, 4);
  }

  lemma YmdRoundTrip(y: nat, m: nat, d: nat)
    requires ValidDate(y, m, d)
    ensures ParseYmd(FormatYmd(y, m, d)) == Some((y, m, d))
  {
    var s := FormatYmd(y, m, d);
    assert s[0..4] == Padded(y, 4);
    assert s[5..7] == Padded(m, 2);
    assert s[8..10] == Padded(d, 2);
    ParsePadded(y, 4);
    ParsePadded(m, 2);
    ParsePadded(d, 2);
  }

  lemma HmsRoundTrip(h: nat, m: nat, s: nat)
    requires h < 24 && m < 60 && s < 60
    ensures ParseHms(FormatHms(h, m, s)) == Some(h * 3600 + m * 60 + s)
  {
    var t := FormatHms(h, m, s);
    assert Pow10(2) == 100;
    ParsePadded(h, 2);
    ParsePadded(m, 2);
    ParsePadded(s, 2);
    FormatHmsFields(h, m, s);
    ParseHmsOfFields(t, h, m, s);
  }

  lemma FormatHmsFields(h: nat, m: nat, s: nat)
    requires h < 100 && m < 100 && s < 100
    ensures var t := FormatHms(h, m, s);
      && |t| == 8 && t[2] == ':' && t[5] == ':'
      && t[0..2] == Padded(h, 2) && t[3..5] == Padded(m, 2) && t[6..8] == Padded(s, 2)
  {
  }

  lemma ParseHmsOfFields(t: string, h: nat, m: nat, s: nat)
    requires |t| == 8 && t[2] == ':' && t[5] == ':'
    requires Field(t, 0, 2) == Some(h) && Field(t, 3, 2) == Some(m) && Field(t, 6, 2) == Some(s)
    requires h < 24 && m < 60 && s < 60
    ensures ParseHms(t) == Some(h * 3600 + m * 60 + s)
  {
  }
}

=== FILE: clock.dfy ===
/** Wall-clock arithmetic in IST.

    A timestamp is a whole number of seconds since 1970-01-01 00:00 on the IST
    wall clock; a date is a day number counted from the same origin. Time-zone
    conversions between UTC and IST are the identity in this model, and
    sub-second precision is not represented. */
module Clock {

  type Ts = int
  type Day = int

  const SecondsPerMinute: int := 60
  const SecondsPerHour: int := 3600
  const SecondsPerDay: int := 86400

  /** 09:15 and 15:30, the session bounds every component uses, as seconds of the day. */
  const MarketOpen: int := 9 * 3600 + 15 * 60
  const MarketClose: int := 15 * 3600 + 30 * 60

  function DayOf(t: Ts): Day {
    t / SecondsPerDay
  }

  function Midnight(d: Day): Ts {
    d * SecondsPerDay
  }

  function SecondOfDay(t: Ts): int {
    t % SecondsPerDay
  }

  function MinuteOfHour(t: Ts): int {
    (t % SecondsPerHour) / SecondsPerMinute
  }

  function SecondOfMinute(t: Ts): int {
    t % SecondsPerMinute
  }

  /** The instant `secondOfDay` seconds after midnight of day `d`. */
  function At(d: Day, secondOfDay: int): Ts {
    Midnight(d) + secondOfDay
  }

  function Minutes(m: int): int {
    m * SecondsPerMinute
  }

  function Days(n: int): int {
    n * SecondsPerDay
  }

  /** Python's `date.weekday()`: Monday is 0 and Sunday is 6. Day 0 was a Thursday. */
  function Weekday(d: Day): int {
    (d + 3) % 7
  }

  predicate IsWeekend(d: Day) {
    Weekday(d) >= 5
  }

  lemma DayOfAt(d: Day, s: int)
    requires 0 <= s < SecondsPerDay
    ensures DayOf(At(d, s)) == d
    ensures SecondOfDay(At(d, s)) == s
  {
    var t := At(d, s);
    assert t == d * SecondsPerDay + s;
  }

  lemma AtDecompose(t: Ts)
    ensures At(DayOf(t), SecondOfDay(t)) == t
    ensures 0 <= SecondOfDay(t) < SecondsPerDay
  {
  }

  /** An instant falls on day `d` exactly when it lies in [midnight, next midnight). */
  lemma DayWindow(t: Ts, d: Day)
    ensures DayOf(t) == d <==> Midnight(d) <= t < Midnight(d) + SecondsPerDay
  {
    if Midnight(d) <= t < Midnight(d) + SecondsPerDay {
      DayOfAt(d, t - Midnight(d));
    }
  }
}

=== FILE: daily_backfill.dfy ===
/** The daily backfill agent: which trading days lack a 1D candle, and the
    throttle that heals at most five of them per run. */
module DailyBackfill {
  import opened Clock
  import opened Sorting
  import opened CandleStore
  import opened TradingCalendar
  import opened Timeframes

  const MaxDaysPerRun: nat := 5

  /** `get_missing_trading_days`: the NSE trading days of [start, end], in
      order, on which the symbol has no 1D candle. */
  function MissingTradingDays(store: Store, table: HolidayTable, symbol: string, start: Day, end: Day)
    : (r: seq<Day>)
    ensures StrictlyIncreasing(r)
    ensures forall d :: d in r <==>
              start <= d <= end && IsTradingDay(table, DefaultExchange, d) && d !in DatesOf(store, symbol, Daily)
    ensures start > end ==> r == []
  {
    KeepMissing(TradingDaysBetween(table, DefaultExchange, start, end), DatesOf(store, symbol, Daily))
  }

  /** The days of `days` that are not in `present`, in order. */
  function KeepMissing(days: seq<Day>, present: set<Day>): (r: seq<Day>)
    requires StrictlyIncreasing(days)
    ensures StrictlyIncreasing(r)
    ensures forall d :: d in r <==> d in days && d !in present
    ensures |r| <= |days|
  {
    if |days| == 0 then []
    else
      assert StrictlyIncreasing(days[1..]);
      var rest := KeepMissing(days[1..], present);
      assert forall d :: d in rest ==> days[0] < d by {
        forall d | d in rest
          ensures days[0] < d
        {
          var j :| 0 <= j < |days[1..]| && days[1..][j] == d;
          assert days[j + 1] == d;
        }
      }
      if days[0] in present then rest
      else
        var r := [days[0]] + rest;
        assert forall i, j :: 0 <= i < j < |r| ==> r[i] < r[j] by {
          forall i, j | 0 <= i < j < |r|
            ensures r[i] < r[j]
          {
            if i == 0 {
              assert r[j] == rest[j - 1] && rest[j - 1] in rest;
            } else {
              assert r[i] == rest[i - 1] && r[j] == rest[j - 1];
            }
          }
        }
        r
  }

  /** One requested ingest: the session window of one day. */
  datatype DayRequest = DayRequest(day: Day, from: Ts, to: Ts)

  /** What `backfill_daily` does with its input: the days it heals, and one
      ingest request per healed day. */
  datatype HealPlan = HealPlan(healed: seq<Day>, requests: seq<DayRequest>)

  /** `backfill_daily`: the first five missing days, in input order, each
      asked for over 09:15 to 15:30 of that day. */
  function BackfillDaily(missing: seq<Day>): (r: HealPlan)
    ensures |r.healed| == if |missing| < MaxDaysPerRun then |missing| else MaxDaysPerRun
    ensures r.healed == missing[..|r.healed|]
    ensures |r.requests| == |r.healed|
    ensures forall i :: 0 <= i < |r.requests| ==>
              r.requests[i].day == r.healed[i] && DayOf(r.requests[i].from) == r.healed[i] &&
              DayOf(r.requests[i].to) == r.healed[i] && r.requests[i].from < r.requests[i].to
    ensures forall i :: 0 <= i < |r.requests| ==>
              r.requests[i].from == At(r.healed[i], MarketOpen) && r.requests[i].to == At(r.healed[i], MarketClose)
  {
    var healed := if |missing| <= MaxDaysPerRun then missing else missing[..MaxDaysPerRun];
    var requests := seq(|healed|, i requires 0 <= i < |healed| =>
      DayRequest(healed[i], At(healed[i], MarketOpen), At(healed[i], MarketClose)));
    assert forall i :: 0 <= i < |healed| ==>
             DayOf(At(healed[i], MarketOpen)) == healed[i] && DayOf(At(healed[i], MarketClose)) == healed[i] by {
      forall i | 0 <= i < |healed|
        ensures DayOf(At(healed[i], MarketOpen)) == healed[i] && DayOf(At(healed[i], MarketClose)) == healed[i]
      {
        DayOfAt(healed[i], MarketOpen);
        DayOfAt(healed[i], MarketClose);
      }
    }
    HealPlan(healed, requests)
  }

  /** The throttle changes nothing exactly when at most five days are missing. */
  lemma ThrottleKeepsAllIff(missing: seq<Day>)
    ensures BackfillDaily(missing).healed == missing <==> |missing| <= MaxDaysPerRun
  {
  }

  /** No request is made for a day left for a later run when the missing
      days are distinct. */
  lemma NoRequestForRemainingDays(missing: seq<Day>, d: Day)
    requires StrictlyIncreasing(missing)
    requires d in missing[|BackfillDaily(missing).healed|..]
    ensures forall q :: q in BackfillDaily(missing).requests ==> q.day != d
  {
    var r := BackfillDaily(missing);
    var n := |r.healed|;
    var k :| n <= k < |missing| && missing[k] == d;
    forall q | q in r.requests
      ensures q.day != d
    {
      var i :| 0 <= i < |r.requests| && r.requests[i] == q;
      assert q.day == missing[i];
    }
  }

  /** Healed and remaining days together are the missing days. */
  lemma HealedThenRemaining(missing: seq<Day>)
    ensures BackfillDaily(missing).healed + missing[|BackfillDaily(missing).healed|..] == missing
  {
  }
}

=== FILE: eod.dfy ===
/** End-of-day reconciliation: after 16:00 IST, re-fetch today's session
    for every symbol in 15M, 5M and 1M and insert what arrives. Then run the
    data completeness agent over the reconciled tables. A failed fetch, a
    failed write or a failed audit is logged and never stops the job. */
module EodReconciliation {
  import opened Wrappers
  import opened Clock
  import opened CandleStore
  import opened TradingCalendar
  import opened Orchestrator
  import opened IntradayBackfill
  import opened CompletenessAgent

  const IntradayTimeframes: seq<string> := ["15M", "5M", "1M"]

  /** 16:00, before which the job does nothing. */
  const ReconcileAfter: int := 16 * SecondsPerHour

  /** `trading_day_window`: 09:15:00 to 15:30:00 on the date of `now`. */
  function TradingDayWindow(now: Ts): (w: (Ts, Ts))
    ensures DayOf(w.0) == DayOf(now) && DayOf(w.1) == DayOf(now)
    ensures SecondOfDay(w.0) == MarketOpen && SecondOfDay(w.1) == MarketClose
    ensures w.0 < w.1
  {
    DayOfAt(DayOf(now), MarketOpen);
    DayOfAt(DayOf(now), MarketClose);
    (At(DayOf(now), MarketOpen), At(DayOf(now), MarketClose))
  }

  /** The (symbol, timeframe) attempts of the nested loops, symbol-major. */
  function Attempts(symbols: seq<string>): (r: seq<(string, string)>)
    ensures |r| == 3 * |symbols|
    ensures forall p :: p in r <==> p.0 in symbols && p.1 in IntradayTimeframes
  {
    if |symbols| == 0 then []
    else
      var rest := Attempts(symbols[1..]);
      assert forall s :: s in symbols <==> s == symbols[0] || s in symbols[1..];
      [(symbols[0], "15M"), (symbols[0], "5M"), (symbols[0], "1M")] + rest
  }

  /** Distinct symbols give distinct attempts: no pair is attempted twice. */
  lemma {:induction false} AttemptsOnce(symbols: seq<string>)
    requires forall i, j :: 0 <= i < j < |symbols| ==> symbols[i] != symbols[j]
    ensures forall i, j :: 0 <= i < j < |Attempts(symbols)| ==> Attempts(symbols)[i] != Attempts(symbols)[j]
  {
    if |symbols| > 0 {
      var rest := Attempts(symbols[1..]);
      AttemptsOnce(symbols[1..]);
      assert symbols[0] !in symbols[1..] by {
        forall k | 0 <= k < |symbols[1..]|
          ensures symbols[1..][k] != symbols[0]
        {
          assert symbols[1..][k] == symbols[k + 1];
        }
      }
      var head := [(symbols[0], "15M"), (symbols[0], "5M"), (symbols[0], "1M")];
      var r := Attempts(symbols);
      assert r == head + rest;
      forall i, j | 0 <= i < j < |r|
        ensures r[i] != r[j]
      {
        if j >= 3 {
          assert r[j] == rest[j - 3] && r[j] in rest;
          if i < 3 {
            assert r[i].0 == symbols[0];
          } else {
            assert r[i] == rest[i - 3];
          }
        }
      }
    }
  }

  /** The candle `(ts, bar)` came back from a successful fetch of the pair
      of key `k`, which is one of the attempts. */
  predicate Fetched(fetch: Fetch, attempts: seq<(string, string)>, start: Ts, end: Ts, k: Key, bar: Bar) {
    && (k.symbol, k.timeframe) in attempts
    && fetch(k.symbol, k.timeframe, start, end).Ok?
    && Candle(k.ts, bar) in fetch(k.symbol, k.timeframe, start, end).value
  }

  /** One attempt: a failed fetch is caught and an empty one skipped;
      otherwise the frame is written. */
  function Attempt(store: Store, fetch: Fetch, symbol: string, timeframe: string, start: Ts, end: Ts): (r: Store)
    ensures forall k :: k in store ==> k in r && r[k] == store[k]
    ensures fetch(symbol, timeframe, start, end).Ok? ==>
              forall c :: c in fetch(symbol, timeframe, start, end).value ==> Key(symbol, timeframe, c.ts) in r
    ensures forall k :: k in r && k !in store ==>
              k.symbol == symbol && k.timeframe == timeframe && fetch(symbol, timeframe, start, end).Ok? &&
              Candle(k.ts, r[k]) in fetch(symbol, timeframe, start, end).value
  {
    var got := fetch(symbol, timeframe, start, end);
    if got.Err? || got.value == [] then store
    else
      var r := WriteCandles(store, symbol, timeframe, got.value);
      assert forall c :: c in got.value ==> Key(symbol, timeframe, c.ts) in r by {
        forall c | c in got.value
          ensures Key(symbol, timeframe, c.ts) in r
        {
          var i :| 0 <= i < |got.value| && got.value[i] == c;
        }
      }
      r
  }

  /** The reconciliation loop: every attempt is made in turn, whatever the
      earlier ones did. Stored rows are kept, every candle a successful fetch
      returns ends up stored, and nothing else is added. */
  function Reconcile(store: Store, fetch: Fetch, attempts: seq<(string, string)>, start: Ts, end: Ts): (r: Store)
    ensures forall k :: k in store ==> k in r && r[k] == store[k]
    ensures forall p :: p in attempts && fetch(p.0, p.1, start, end).Ok? ==>
              forall c :: c in fetch(p.0, p.1, start, end).value ==> Key(p.0, p.1, c.ts) in r
    ensures forall k :: k in r && k !in store ==> Fetched(fetch, attempts, start, end, k, r[k])
    ensures forall k :: k in r && k !in store ==>
              fetch(k.symbol, k.timeframe, start, end).Ok? && fetch(k.symbol, k.timeframe, start, end).value != []
    decreases |attempts|
  {
    if |attempts| == 0 then store
    else
      var next := Attempt(store, fetch, attempts[0].0, attempts[0].1, start, end);
      var r := Reconcile(next, fetch, attempts[1..], start, end);
      assert forall p :: p in attempts <==> p == attempts[0] || p in attempts[1..];
      r
  }

  /** The fetch as `run_eod_reconciliation` calls it: with an `api` keyword
      argument that `fetch_candles` does not take, so it raises TypeError. */
  function FetchAsWritten(symbol: string, timeframe: string, start: Ts, end: Ts): Result<seq<Candle>> {
    Err(TypeError)
  }

  /** As written, every attempt raises, the handler logs it, and the
      reconciliation leaves the table as it was. */
  lemma {:induction false} AsWrittenReconcilesNothing(store: Store, attempts: seq<(string, string)>, start: Ts, end: Ts)
    ensures Reconcile(store, FetchAsWritten, attempts, start, end) == store
    decreases |attempts|
  {
    if |attempts| > 0 {
      AsWrittenReconcilesNothing(store, attempts[1..], start, end);
    }
  }

  /** What the job did: whether it ran past the guard, the tables it left,
      and whether the audit failed (which is logged, not raised). */
  datatype EodRun = EodRun(ran: bool, tables: Tables, auditFailed: bool)

  /** `SELECT DISTINCT symbol, timeframe` lists every pair once, in some order. */
  ghost predicate Lists(listing: set<(string, string)> -> seq<(string, string)>) {
    forall s: set<(string, string)> ::
      && (forall p :: p in listing(s) <==> p in s)
      && (forall i, j :: 0 <= i < j < |listing(s)| ==> listing(s)[i] != listing(s)[j])
  }

  /** `run_eod_reconciliation`: before 16:00 nothing happens; otherwise the
      session window of today is reconciled for every symbol and intraday
      timeframe, and then the completeness agent audits the reconciled
      tables. */
  method RunEod(symbols: seq<string>, now: Ts, t: Tables, fetch: Fetch, table: HolidayTable, vendor: Vendor,
                listing: set<(string, string)> -> seq<(string, string)>) returns (r: EodRun)
    requires Lists(listing)
    ensures SecondOfDay(now) < ReconcileAfter ==> r == EodRun(false, t, false)
    ensures SecondOfDay(now) >= ReconcileAfter ==>
              var w := TradingDayWindow(now);
              var reconciled := Reconcile(t.candles, fetch, Attempts(symbols), w.0, w.1);
              && r.ran
              && r.tables.candles == reconciled
              && Extends(t.log, r.tables.log)
              && Dispatched(t.log, r.tables.log, Pairs(reconciled))
              && (!r.auditFailed ==>
                    forall p :: p in Pairs(reconciled) ==> Reported(t.log, r.tables.log, p.0, p.1, FirstReportOf(p.1)))
  {
    if SecondOfDay(now) < ReconcileAfter {
      return EodRun(false, t, false);
    }
    var w := TradingDayWindow(now);
    var reconciled := Reconcile(t.candles, fetch, Attempts(symbols), w.0, w.1);
    var before := Tables(reconciled, t.ohlcv, t.log);
    var order := listing(Pairs(reconciled));
    var audit := Run(before, Env(table, now, vendor), order);
    r := EodRun(true, audit.tables, audit.error.Some?);
  }
}

=== FILE: gaps.dfy ===
/** In-stream gap detection over the timestamps of one fetched batch. */
module GapDetector {
  import opened Clock
  import opened Sorting
  import opened Timeframes
  import opened TimeframeGrid

  /** A hole between two fetched candles: the first and the last missing step. */
  datatype Gap = Gap(start: Ts, end: Ts)

  /** `TF_DELTA`: the only timeframes the detector knows, with their steps in seconds. */
  const GapSteps: map<string, int> := map["15M" := 900, "5M" := 300, "1M" := 60]

  /** `ts - prev_ts > 1.5 * step`, kept in integers. */
  predicate Exceeds(prev: Ts, curr: Ts, step: int) {
    2 * (curr - prev) > 3 * step
  }

  function GapAt(s: seq<Ts>, i: int, step: int): Gap
    requires 0 <= i < |s| - 1
  {
    Gap(s[i] + step, s[i + 1] - step)
  }

  function GapStart(g: Gap): int {
    g.start
  }

  /** The loop of `detect_gaps` over already sorted timestamps: one gap per
      consecutive pair that is further apart than one and a half steps. */
  function ScanPairs(s: seq<Ts>, step: int): (gs: seq<Gap>)
    ensures |s| <= 1 ==> gs == []
    ensures |s| >= 1 ==> |gs| <= |s| - 1
    ensures forall g :: g in gs ==>
              exists i :: 0 <= i < |s| - 1 && Exceeds(s[i], s[i + 1], step) && g == GapAt(s, i, step)
    decreases |s|
  {
    if |s| <= 1 then []
    else
      var rest := ScanPairs(s[1..], step);
      forall g | g in rest
        ensures exists i :: 0 <= i < |s| - 1 && Exceeds(s[i], s[i + 1], step) && g == GapAt(s, i, step)
      {
        var i :| 0 <= i < |s[1..]| - 1 && Exceeds(s[1..][i], s[1..][i + 1], step) && g == GapAt(s[1..], i, step);
        assert GapAt(s[1..], i, step) == GapAt(s, i + 1, step);
      }
      if Exceeds(s[0], s[1], step) then
        [GapAt(s, 0, step)] + rest
      else
        rest
  }

  /** Every pair further apart than 1.5 steps is reported. */
  lemma {:induction false} ScanPairsComplete(s: seq<Ts>, step: int, i: int)
    requires 0 <= i < |s| - 1 && Exceeds(s[i], s[i + 1], step)
    ensures GapAt(s, i, step) in ScanPairs(s, step)
    decreases |s|
  {
    if i > 0 {
      ScanPairsComplete(s[1..], step, i - 1);
      assert GapAt(s[1..], i - 1, step) == GapAt(s, i, step);
    }
  }

  /** Every reported gap starts one step after the first timestamp. */
  lemma {:induction false} ScanPairsStartBound(s: seq<Ts>, step: int)
    requires Sorted(s)
    ensures forall g :: g in ScanPairs(s, step) ==> s[0] + step <= g.start
  {
    forall g | g in ScanPairs(s, step)
      ensures s[0] + step <= g.start
    {
      var i :| 0 <= i < |s| - 1 && Exceeds(s[i], s[i + 1], step) && g == GapAt(s, i, step);
      assert s[0] <= s[i];
    }
  }

  /** On sorted input the gaps come out in ascending order of start. */
  lemma {:induction false} ScanPairsSorted(s: seq<Ts>, step: int)
    requires Sorted(s)
    ensures SortedBy(ScanPairs(s, step), GapStart)
    decreases |s|
  {
    if |s| > 1 {
      var rest := ScanPairs(s[1..], step);
      assert Sorted(s[1..]);
      ScanPairsSorted(s[1..], step);
      if Exceeds(s[0], s[1], step) {
        ScanPairsStartBound(s[1..], step);
        SortedByCons(GapAt(s, 0, step), rest, GapStart);
      }
    }
  }

  /** `detect_gaps`: the timeframe is upper-cased; an empty batch or a
      timeframe other than 15M, 5M and 1M gives no gaps; otherwise the
      timestamps are sorted and scanned pairwise. */
  function DetectGaps(ts: seq<Ts>, timeframe: string): (gs: seq<Gap>)
    ensures |ts| == 0 || Upper(timeframe) !in GapSteps ==> gs == []
    ensures |ts| >= 1 ==> |gs| <= |ts| - 1
    ensures SortedBy(gs, GapStart)
    ensures Upper(timeframe) in GapSteps ==>
              forall g :: g in gs <==>
                exists i :: 0 <= i < |ts| - 1 && Exceeds(SortInts(ts)[i], SortInts(ts)[i + 1], GapSteps[Upper(timeframe)])
                            && g == GapAt(SortInts(ts), i, GapSteps[Upper(timeframe)])
  {
    var tf := Upper(timeframe);
    if |ts| == 0 || tf !in GapSteps then []
    else
      var s := SortInts(ts);
      var step := GapSteps[tf];
      ScanPairsSorted(s, step);
      forall i | 0 <= i < |ts| - 1 && Exceeds(s[i], s[i + 1], step)
        ensures GapAt(s, i, step) in ScanPairs(s, step)
      {
        ScanPairsComplete(s, step, i);
      }
      ScanPairs(s, step)
  }

  /** The order in which the batch arrives does not matter: the detector
      sorts before scanning. */
  lemma DetectGapsOrderIndependent(a: seq<Ts>, b: seq<Ts>, timeframe: string)
    requires multiset(a) == multiset(b)
    ensures DetectGaps(a, timeframe) == DetectGaps(b, timeframe)
  {
    assert |a| == |multiset(a)| == |multiset(b)| == |b|;
    SortedPermutationUnique(SortInts(a), SortInts(b));
  }

  /** Two candles two steps apart leave exactly one missing candle between them. */
  lemma OneMissingCandle(t: Ts, timeframe: string)
    requires Upper(timeframe) in GapSteps
    ensures var step := GapSteps[Upper(timeframe)];
      DetectGaps([t, t + 2 * step], timeframe) == [Gap(t + step, t + step)]
  {
    var step := GapSteps[Upper(timeframe)];
    var s := [t, t + 2 * step];
    assert Sorted(s);
    SortedPermutationUnique(SortInts(s), s);
  }

  /** Adjacent candles on the grid are never reported. */
  lemma NoGapOnContiguousGrid(t: Ts, timeframe: string)
    requires Upper(timeframe) in GapSteps
    ensures DetectGaps([t, t + GapSteps[Upper(timeframe)]], timeframe) == []
  {
    var s := [t, t + GapSteps[Upper(timeframe)]];
    assert Sorted(s);
    SortedPermutationUnique(SortInts(s), s);
  }

  /** Two distinct points of the same `step` grid more than 1.5 steps apart
      are at least two steps apart. */
  lemma GridDistance(a: int, b: int, step: int)
    requires step > 0 && a % step == 0 && b % step == 0
    requires Exceeds(a, b, step)
    ensures b - a >= 2 * step
  {
    var d := b / step - a / step;
    assert b - a == d * step;
    MulAtMostOne(d, step);
  }

  /** A multiple `d * step` of a positive step that exceeds one step has `d >= 2`. */
  lemma MulAtMostOne(d: int, step: int)
    requires step > 0
    ensures d <= 0 ==> d * step <= 0
    ensures d == 1 ==> d * step == step
    ensures d >= 2 ==> d * step >= 2 * step
  {
    if d >= 2 {
      MulAtLeast(d - 1, step);
      assert d * step == (d - 1) * step + step;
    }
  }

  /** On step-aligned sorted timestamps every gap found is a non-empty range. */
  lemma ScanPairsAlignedNonEmpty(s: seq<Ts>, step: int)
    requires step > 0
    requires forall i :: 0 <= i < |s| ==> s[i] % step == 0
    ensures forall g :: g in ScanPairs(s, step) ==> g.start <= g.end
  {
    forall g | g in ScanPairs(s, step)
      ensures g.start <= g.end
    {
      var i :| 0 <= i < |s| - 1 && Exceeds(s[i], s[i + 1], step) && g == GapAt(s, i, step);
      GridDistance(s[i], s[i + 1], step);
    }
  }

  /** On step-aligned timestamps every reported gap is a non-empty range. */
  lemma AlignedGapsNonEmpty(ts: seq<Ts>, timeframe: string)
    requires Upper(timeframe) in GapSteps
    requires forall i :: 0 <= i < |ts| ==> ts[i] % GapSteps[Upper(timeframe)] == 0
    ensures forall g :: g in DetectGaps(ts, timeframe) ==> g.start <= g.end
  {
    var step := GapSteps[Upper(timeframe)];
    if |ts| > 0 {
      var s := SortInts(ts);
      forall i | 0 <= i < |s|
        ensures s[i] % step == 0
      {
        assert s[i] in multiset(ts);
        var j :| 0 <= j < |ts| && ts[j] == s[i];
      }
      ScanPairsAlignedNonEmpty(s, step);
    }
  }

  /** `is_market_close_gap`: the earlier candle is at or after 15:30 and the
      later one at or before 09:15, by time of day. */
  predicate IsMarketCloseGap(prev: Ts, curr: Ts) {
    SecondOfDay(prev) >= MarketClose && SecondOfDay(curr) <= MarketOpen
  }

  /** The session close of one day and the session open of another form a
      market-close gap, and so does any pair in the overnight window. */
  lemma OvernightIsMarketCloseGap(d1: Day, s1: int, d2: Day, s2: int)
    requires MarketClose <= s1 < SecondsPerDay && 0 <= s2 <= MarketOpen
    ensures IsMarketCloseGap(At(d1, s1), At(d2, s2))
  {
    DayOfAt(d1, s1);
    DayOfAt(d2, s2);
  }

  /** A pair whose earlier candle lies inside the session is never a
      market-close gap, whatever the later one is. */
  lemma InSessionIsNotMarketCloseGap(d: Day, s: int, curr: Ts)
    requires MarketOpen <= s < MarketClose
    ensures !IsMarketCloseGap(At(d, s), curr)
  {
    DayOfAt(d, s);
  }
}

=== FILE: grid.dfy ===
/** Step lookup, floor-alignment and session-grid generation for a timeframe. */
module TimeframeGrid {
  import opened Wrappers
  import opened Clock
  import opened Timeframes

  /** `_timeframe_delta`: the step of a timeframe, in seconds. The daily
      timeframe is special-cased to one day; unknown ids raise ValueError. */
  function TimeframeDelta(tf: string): (r: Result<int>)
    ensures tf !in Registry <==> r == Err(ValueError)
    ensures r.Ok? ==> r.value > 0
    ensures tf == Daily ==> r == Ok(SecondsPerDay)
  {
    if tf !in Registry then Err(ValueError)
    else if tf == Daily then Ok(Days(1))
    else Ok(Minutes(Registry[tf].minutes))
  }

  /** The daily special case agrees with the registry's 1440 minutes, so every
      known timeframe steps by exactly its registry minute count. */
  lemma DeltaIsRegistryMinutes(tf: string)
    requires tf in Registry
    ensures TimeframeDelta(tf) == Ok(Minutes(Registry[tf].minutes))
  {
  }

  /** The step of a known intraday timeframe in seconds. */
  function StepOf(tf: string): (s: int)
    requires IsIntraday(tf)
    ensures s == Registry[tf].minutes * 60
    ensures s in {60, 300, 600, 900}
  {
    Registry[tf].minutes * 60
  }

  /** `align_to_timeframe`: for 1D, midnight of the same date; otherwise the
      same hour with the minute floored to a multiple of the step and the
      seconds cleared. The daily case is decided before the registry lookup,
      so an unknown id raises only when it is not 1D. */
  function AlignToTimeframe(t: Ts, tf: string): (r: Result<Ts>)
    ensures tf != Daily && tf !in Registry <==> r == Err(ValueError)
    ensures tf == Daily ==> r.Ok? && DayOf(r.value) == DayOf(t) && SecondOfDay(r.value) == 0
    ensures tf == Daily ==> r.Ok? && r.value <= t < r.value + SecondsPerDay
    ensures IsIntraday(tf) ==> r.Ok? && r.value <= t && t - r.value < StepOf(tf)
    ensures IsIntraday(tf) ==> r.Ok? && SecondOfMinute(r.value) == 0
    ensures IsIntraday(tf) ==> r.Ok? && MinuteOfHour(r.value) % Registry[tf].minutes == 0
    ensures IsIntraday(tf) ==> r.Ok? && t - t % SecondsPerHour == r.value - r.value % SecondsPerHour
  {
    if tf == Daily then
      Ok(Midnight(DayOf(t)))
    else if tf !in Registry then
      Err(ValueError)
    else
      var m := Registry[tf].minutes;
      var hourStart := t - t % SecondsPerHour;
      var alignedMinute := (MinuteOfHour(t) / m) * m;
      AlignFacts(t, m);
      Ok(hourStart + alignedMinute * SecondsPerMinute)
  }

  lemma AlignFacts(t: Ts, m: int)
    requires m in {1, 5, 10, 15}
    ensures var r := t - t % SecondsPerHour + ((MinuteOfHour(t) / m) * m) * SecondsPerMinute;
      && r <= t && t - r < m * 60
      && SecondOfMinute(r) == 0
      && MinuteOfHour(r) == (MinuteOfHour(t) / m) * m
      && r % SecondsPerHour == ((MinuteOfHour(t) / m) * m) * SecondsPerMinute
      && r == t - t % (m * 60)
  {
    var hh := t / 3600;
    var q := MinuteOfHour(t);
    var sec := SecondOfMinute(t);
    HourDecompose(t);
    var a := (q / m) * m;
    FloorMinute(q, m);
    var r := hh * 3600 + a * 60;
    assert t - t % SecondsPerHour + a * SecondsPerMinute == r;
    HourCompose(hh, a);
    assert t - r == (q - a) * 60 + sec;
    ScaledSlot(hh, q, m);
    DivUnique(t, m * 60, hh * (60 / m) + q / m, t - r);
  }

  /** The start of a slot of `m` minutes, counted in slots of the day. */
  lemma ScaledSlot(hh: int, q: int, m: int)
    requires m in {1, 5, 10, 15}
    ensures hh * 3600 + ((q / m) * m) * 60 == (hh * (60 / m) + q / m) * (m * 60)
  {
    if m == 1 {
    } else if m == 5 {
      assert (hh * 12 + q / 5) * 300 == hh * 3600 + (q / 5) * 300;
    } else if m == 10 {
      assert (hh * 6 + q / 10) * 600 == hh * 3600 + (q / 10) * 600;
    } else {
      assert (hh * 4 + q / 15) * 900 == hh * 3600 + (q / 15) * 900;
    }
  }

  lemma HourDecompose(t: Ts)
    ensures t == (t / 3600) * 3600 + MinuteOfHour(t) * 60 + SecondOfMinute(t)
    ensures 0 <= MinuteOfHour(t) < 60 && 0 <= SecondOfMinute(t) < 60
    ensures t % SecondsPerHour == MinuteOfHour(t) * 60 + SecondOfMinute(t)
  {
  }

  lemma HourCompose(hh: int, a: int)
    requires 0 <= a < 60
    ensures var r := hh * 3600 + a * 60;
      r % SecondsPerHour == a * 60 && MinuteOfHour(r) == a && SecondOfMinute(r) == 0
  {
    var r := hh * 3600 + a * 60;
    DivUnique(r, 3600, hh, a * 60);
    DivUnique(a * 60, 60, a, 0);
    DivUnique(r, 60, hh * 60 + a, 0);
  }

  lemma FloorMinute(q: int, m: int)
    requires m in {1, 5, 10, 15} && 0 <= q < 60
    ensures 0 <= (q / m) * m <= q && q - (q / m) * m < m
    ensures ((q / m) * m) % m == 0
  {
    DivUnique(q, m, q / m, q % m);
    DivUnique((q / m) * m, m, q / m, 0);
  }

  /** Euclidean division is unique: a quotient and an in-range remainder determine `x / s`. */
  lemma DivUnique(x: int, s: int, q: int, r: int)
    requires s > 0 && 0 <= r < s && x == q * s + r
    ensures x / s == q && x % s == r
  {
    var q0 := x / s;
    var r0 := x % s;
    assert q0 * s + r0 == q * s + r;
    assert (q - q0) * s == r0 - r;
    if q > q0 {
      MulAtLeast(q - q0, s);
    } else if q < q0 {
      MulAtLeast(q0 - q, s);
    }
  }

  lemma {:induction false} MulAtLeast(a: int, s: int)
    requires a >= 1 && s > 0
    ensures a * s >= s
    decreases a
  {
    if a > 1 {
      MulAtLeast(a - 1, s);
      assert a * s == (a - 1) * s + s;
    }
  }

  lemma DivAtLeastOne(a: int, s: int)
    requires s > 0 && a >= s
    ensures a / s >= 1
  {
    var q := (a - s) / s;
    assert (q + 1) * s == q * s + s;
    DivUnique(a, s, q + 1, (a - s) % s);
  }

  lemma MulMono(i: int, n: int, s: int)
    requires 0 <= i <= n && s > 0
    ensures i * s <= n * s
  {
    if i < n {
      MulAtLeast(n - i, s);
      assert n * s - i * s == (n - i) * s;
    }
  }

  /** Flooring the minute of the hour equals flooring the instant to the step
      grid, because every intraday step divides an hour. */
  lemma AlignIsGridFloor(t: Ts, tf: string)
    requires IsIntraday(tf)
    ensures AlignToTimeframe(t, tf) == Ok(t - t % StepOf(tf))
  {
    AlignFacts(t, Registry[tf].minutes);
  }

  lemma AlignIdempotent(t: Ts, tf: string)
    requires AlignToTimeframe(t, tf).Ok?
    ensures AlignToTimeframe(AlignToTimeframe(t, tf).value, tf) == AlignToTimeframe(t, tf)
  {
    var r := AlignToTimeframe(t, tf).value;
    if tf == Daily {
      assert r == DayOf(t) * SecondsPerDay;
      assert DayOf(r) == DayOf(t);
    } else {
      AlignIsGridFloor(t, tf);
      AlignIsGridFloor(r, tf);
      var s := StepOf(tf);
      assert r == (t / s) * s;
      DivUnique(r, s, t / s, 0);
    }
  }

  /** The times `cur, cur + step, ...` strictly below `end`. */
  function GridFrom(cur: Ts, end: Ts, step: int): (g: seq<Ts>)
    requires step > 0
    ensures forall i :: 0 <= i < |g| ==> g[i] == cur + i * step && g[i] < end
    ensures |g| == if cur < end then (end - cur + step - 1) / step else 0
    decreases end - cur
  {
    if cur < end then
      var rest := GridFrom(cur + step, end, step);
      CeilStep(end - cur, step);
      [cur] + rest
    else []
  }

  lemma CeilStep(n: int, step: int)
    requires n > 0 && step > 0
    ensures (n + step - 1) / step == 1 + (if n - step > 0 then (n - step + step - 1) / step else 0)
  {
    if n - step > 0 {
      var m := n - step + step - 1;
      DivUnique(m, step, m / step, m % step);
      DivUnique(m + step, step, m / step + 1, m % step);
    } else {
      DivUnique(n + step - 1, step, 1, n - 1);
    }
  }

  /** The expected candle times of one session: from `open` on day `d`,
      stepping by `step`, strictly below `close`. */
  function SessionGrid(d: Day, step: int, open: int, close: int): (g: seq<Ts>)
    requires step > 0
    ensures forall i :: 0 <= i < |g| ==> g[i] == At(d, open) + i * step && At(d, open) <= g[i] < At(d, close)
    ensures |g| == if open < close then (close - open + step - 1) / step else 0
  {
    GridFrom(At(d, open), At(d, close), step)
  }

  /** The grid times of a session, described without the generator: at or
      after the open, before the close, a whole number of steps past the open. */
  predicate OnSessionGrid(t: Ts, d: Day, step: int, open: int, close: int)
    requires step > 0
  {
    At(d, open) <= t < At(d, close) && (t - At(d, open)) % step == 0
  }

  lemma DivLowerBound(a: int, s: int, k: int)
    requires s > 0 && k * s <= a
    ensures k <= a / s
  {
    var q := a / s;
    if q < k {
      assert (q + 1) * s == q * s + s;
      MulMono(q + 1, k, s);
      assert false;
    }
  }

  /** The generated session grid holds exactly the times on the session grid,
      in increasing order, and is empty exactly when the session is. */
  lemma SessionGridMembers(d: Day, step: int, open: int, close: int)
    requires step > 0
    ensures forall t :: t in SessionGrid(d, step, open, close) <==> OnSessionGrid(t, d, step, open, close)
    ensures forall i, j :: 0 <= i < j < |SessionGrid(d, step, open, close)| ==>
              SessionGrid(d, step, open, close)[i] < SessionGrid(d, step, open, close)[j]
    ensures SessionGrid(d, step, open, close) == [] <==> open >= close
  {
    var g := SessionGrid(d, step, open, close);
    var base := At(d, open);
    forall t
      ensures t in g <==> OnSessionGrid(t, d, step, open, close)
    {
      if t in g {
        var i :| 0 <= i < |g| && g[i] == t;
        DivUnique(t - base, step, i, 0);
      }
      if OnSessionGrid(t, d, step, open, close) {
        var q := (t - base) / step;
        DivUnique(t - base, step, q, 0);
        assert t - base == q * step;
        DivLowerBound(close - open + step - 1, step, q + 1);
        assert g[q] == t;
      }
    }
    forall i, j | 0 <= i < j < |g|
      ensures g[i] < g[j]
    {
      MulMono(i, j, step);
      assert j * step - i * step == (j - i) * step;
      MulAtLeast(j - i, step);
    }
    if open < close {
      DivAtLeastOne(close - open + step - 1, step);
    }
  }

  /** The market session 09:15 to 15:30 holds ceil(375 / minutes) candles:
      375 for 1M, 75 for 5M, 38 for 10M and 25 for 15M. */
  lemma SessionGridSizes(d: Day)
    ensures |SessionGrid(d, 60, MarketOpen, MarketClose)| == 375
    ensures |SessionGrid(d, 300, MarketOpen, MarketClose)| == 75
    ensures |SessionGrid(d, 600, MarketOpen, MarketClose)| == 38
    ensures |SessionGrid(d, 900, MarketOpen, MarketClose)| == 25
  {
  }

  /** For 1M, 5M and 15M every session-grid time is already aligned: 09:15
      lies on their grids. */
  lemma SessionGridAligned(d: Day, tf: string, i: int)
    requires tf in {"1M", "5M", "15M"}
    requires 0 <= i < |SessionGrid(d, StepOf(tf), MarketOpen, MarketClose)|
    ensures AlignToTimeframe(SessionGrid(d, StepOf(tf), MarketOpen, MarketClose)[i], tf)
         == Ok(SessionGrid(d, StepOf(tf), MarketOpen, MarketClose)[i])
  {
    var s := StepOf(tf);
    var g := SessionGrid(d, s, MarketOpen, MarketClose)[i];
    assert g == d * 86400 + 33300 + i * s;
    var k := if s == 60 then 1440 else if s == 300 then 288 else 96;
    var o := if s == 60 then 555 else if s == 300 then 111 else 37;
    GridPointMultiple(d, i, s, k, o);
    DivUnique(g, s, d * k + o + i, 0);
    AlignIsGridFloor(g, tf);
  }

  lemma GridPointMultiple(d: int, i: int, s: int, k: int, o: int)
    requires k * s == 86400 && o * s == 33300
    ensures d * 86400 + 33300 + i * s == (d * k + o + i) * s
  {
    calc {
      (d * k + o + i) * s;
    ==
      d * k * s + o * s + i * s;
    ==
      d * (k * s) + o * s + i * s;
    }
  }

  /** The 10M session grid starts at 09:15, which the clock-aligned
      10-minute floor moves back to 09:10. */
  lemma TenMinuteGridNotAligned(d: Day)
    ensures SessionGrid(d, 600, MarketOpen, MarketClose)[0] == At(d, MarketOpen)
    ensures AlignToTimeframe(At(d, MarketOpen), "10M") == Ok(At(d, MarketOpen) - 300)
  {
    var t := At(d, MarketOpen);
    assert t == (d * 144 + 55) * 600 + 300;
    DivUnique(t, 600, d * 144 + 55, 300);
    AlignIsGridFloor(t, "10M");
  }
}

=== FILE: guards.dfy ===
/** The scheduler's market-hours guard. */
module MarketGuards {
  import opened Clock
  import opened TradingCalendar

  /** `is_market_open`: closed on Saturday and Sunday; on a weekday open from
      09:15 to 15:30 with both ends included. The holiday table is not read. */
  function IsMarketOpen(now: Ts): (open: bool)
    ensures IsWeekend(DayOf(now)) ==> !open
    ensures SecondOfDay(now) < MarketOpen || SecondOfDay(now) > MarketClose ==> !open
    ensures !IsWeekend(DayOf(now)) && MarketOpen <= SecondOfDay(now) <= MarketClose ==> open
  {
    if Weekday(DayOf(now)) >= 5 then false
    else MarketOpen <= SecondOfDay(now) && SecondOfDay(now) <= MarketClose
  }

  /** Both session bounds are inside the guard on a weekday, and one second
      either side of them is outside. */
  lemma GuardBoundsInclusive(d: Day)
    requires !IsWeekend(d)
    ensures IsMarketOpen(At(d, MarketOpen)) && IsMarketOpen(At(d, MarketClose))
    ensures !IsMarketOpen(At(d, MarketOpen - 1)) && !IsMarketOpen(At(d, MarketClose + 1))
  {
    DayOfAt(d, MarketOpen);
    DayOfAt(d, MarketClose);
    DayOfAt(d, MarketOpen - 1);
    DayOfAt(d, MarketClose + 1);
  }

  /** A weekday holiday inside market hours passes the guard although the
      calendar says the exchange is closed. */
  lemma GuardIgnoresHolidays(table: HolidayTable, exchange: string, d: Day, s: int)
    requires !IsWeekend(d) && MarketOpen <= s <= MarketClose
    requires exists h :: h in table && h.exchange == exchange && h.date == d
    ensures IsMarketOpen(At(d, s)) && !IsTradingDay(table, exchange, d)
  {
    DayOfAt(d, s);
  }
}

=== FILE: health_metrics.dfy ===
/** The command-line freshness monitor: the lag of the newest stored candle
    per symbol and timeframe, judged against a per-timeframe allowance. */
module HealthMetrics {
  import opened Wrappers
  import opened Clock
  import opened CandleStore

  /** The allowance table, in minutes. Its keys are written in lower case
      except for the daily one. */
  const AllowedLagMinutes: map<string, int> := map["1m" := 2, "5m" := 7, "15m" := 20, "1D" := 1440]

  const DefaultAllowedLag: int := 60

  function AllowedLag(tf: string): (m: int)
    ensures tf in AllowedLagMinutes ==> m == AllowedLagMinutes[tf]
    ensures tf !in AllowedLagMinutes ==> m == DefaultAllowedLag
    ensures m >= 2
  {
    if tf in AllowedLagMinutes then AllowedLagMinutes[tf] else DefaultAllowedLag
  }

  /** `int(x / 60)`: division truncated toward zero. */
  function TruncMinutes(seconds: int): (m: int)
    ensures seconds >= 0 ==> 0 <= m * 60 <= seconds < (m + 1) * 60
    ensures seconds < 0 ==> (m - 1) * 60 < seconds <= m * 60 <= 0
  {
    if seconds >= 0 then seconds / 60 else -((-seconds) / 60)
  }

  datatype Status = Fresh | Stale

  /** One line of the report: no data, or the lag in minutes and its verdict
      (`OK` is `Fresh`, `WARN` is `Stale`). */
  datatype Line = NoData | Lag(minutes: int, status: Status)

  /** The body of the inner loop for one (symbol, timeframe). */
  function CheckOne(now: Ts, last: Option<Ts>, tf: string): (l: Line)
    ensures last.None? <==> l.NoData?
    ensures l.Lag? ==> l.minutes == TruncMinutes(now - last.value)
    ensures l.Lag? ==> (l.status == Fresh <==> l.minutes <= AllowedLag(tf))
  {
    if last.None? then NoData
    else
      var lag := TruncMinutes(now - last.value);
      Lag(lag, if lag <= AllowedLag(tf) then Fresh else Stale)
  }

  /** In seconds: OK exactly while the candle is less than one minute past
      its allowance; a candle stamped in the future is always OK. */
  lemma OkIffWithinAllowance(now: Ts, last: Ts, tf: string)
    ensures CheckOne(now, Some(last), tf).status == Fresh <==> now - last < (AllowedLag(tf) + 1) * 60
  {
  }

  /** The registry writes `1M`, the allowance table `1m`: an upper-case
      intraday id gets the 60-minute default. */
  lemma UpperCaseIdsGetDefault()
    ensures AllowedLag("1M") == DefaultAllowedLag && AllowedLag("5M") == DefaultAllowedLag
    ensures AllowedLag("15M") == DefaultAllowedLag && AllowedLag("1D") == 1440
  {
  }

  /** `check_health`: one line per symbol and timeframe, in the order given. */
  function CheckHealth(store: Store, now: Ts, symbols: seq<string>, timeframes: seq<string>): (r: seq<seq<Line>>)
    ensures |r| == |symbols|
    ensures forall i :: 0 <= i < |symbols| ==> |r[i]| == |timeframes|
    ensures forall i, j :: 0 <= i < |symbols| && 0 <= j < |timeframes| ==>
              (r[i][j].NoData? <==> TsOf(store, symbols[i], timeframes[j]) == {})
    ensures forall i, j :: 0 <= i < |symbols| && 0 <= j < |timeframes| && r[i][j].Lag? ==>
              exists last :: last in TsOf(store, symbols[i], timeframes[j]) &&
                             (forall t :: t in TsOf(store, symbols[i], timeframes[j]) ==> t <= last) &&
                             r[i][j] == CheckOne(now, Some(last), timeframes[j])
  {
    seq(|symbols|, i requires 0 <= i < |symbols| =>
      seq(|timeframes|, j requires 0 <= j < |timeframes| =>
        CheckOne(now, LastTs(store, symbols[i], timeframes[j]), timeframes[j])))
  }
}

=== FILE: holiday_loader.dfy ===
/** `load_market_holidays`: read the exchange's holiday file and insert one
    NSE row per readable date into the holiday table. The file arrives as its
    CSV records; opening and decoding it is not modelled. */
module HolidayLoader {
  import opened Wrappers
  import opened Clock
  import opened CivilDate
  import opened TradingCalendar

  /** The characters `str.strip()` removes by default: those Python's
      `str.isspace` accepts (bidirectional class WS, B or S, or category Zs). */
  const Whitespace: set<char> := {
    '\U{0009}', '\U{000A}', '\U{000B}', '\U{000C}', '\U{000D}', '\U{001C}', '\U{001D}', '\U{001E}',
    '\U{001F}', '\U{0020}', '\U{0085}', '\U{00A0}', '\U{1680}', '\U{2000}', '\U{2001}', '\U{2002}',
    '\U{2003}', '\U{2004}', '\U{2005}', '\U{2006}', '\U{2007}', '\U{2008}', '\U{2009}', '\U{200A}',
    '\U{2028}', '\U{2029}', '\U{202F}', '\U{205F}', '\U{3000}'
  }

  function StripLeft(s: string, cs: set<char>): (r: string)
    ensures |r| <= |s| && r == s[|s| - |r|..]
    ensures forall k :: 0 <= k < |s| - |r| ==> s[k] in cs
    ensures |r| > 0 ==> r[0] !in cs
    decreases |s|
  {
    if |s| > 0 && s[0] in cs then StripLeft(s[1..], cs) else s
  }

  function StripRight(s: string, cs: set<char>): (r: string)
    ensures |r| <= |s| && r == s[..|r|]
    ensures forall k :: |r| <= k < |s| ==> s[k] in cs
    ensures |r| > 0 ==> r[|r| - 1] !in cs
    decreases |s|
  {
    if |s| > 0 && s[|s| - 1] in cs then StripRight(s[..|s| - 1], cs) else s
  }

  /** `r` is `s` with some characters of `cs` removed from its two ends. */
  predicate StrippedFrom(s: string, r: string, cs: set<char>) {
    exists i, j :: 0 <= i <= j <= |s| && r == s[i..j] &&
                   (forall k :: 0 <= k < i ==> s[k] in cs) && (forall k :: j <= k < |s| ==> s[k] in cs)
  }

  /** `str.strip(chars)`: the longest infix that neither starts nor ends with
      one of `cs`, obtained by removing only characters of `cs`. */
  function Strip(s: string, cs: set<char>): (r: string)
    ensures StrippedFrom(s, r, cs)
    ensures |r| > 0 ==> r[0] !in cs && r[|r| - 1] !in cs
  {
    var left := StripLeft(s, cs);
    var r := StripRight(left, cs);
    var i := |s| - |left|;
    assert r == s[i..i + |r|];
    r
  }

  /** `clean`: no value is the empty cell; otherwise whitespace is stripped,
      then double quotes. */
  function Clean(value: Option<string>): (r: string)
    ensures value.None? ==> r == ""
    ensures |r| > 0 ==> r[0] != '"' && r[|r| - 1] != '"'
    ensures value.Some? ==> StrippedFrom(value.value, r, Whitespace + {'"'})
  {
    if value.None? then ""
    else
      CleanStrips(value.value);
      Strip(Strip(value.value, Whitespace), {'"'})
  }

  lemma CleanStrips(s: string)
    ensures StrippedFrom(s, Strip(Strip(s, Whitespace), {'"'}), Whitespace + {'"'})
  {
    var t := Strip(s, Whitespace);
    StripTwice(s, t, Strip(t, {'"'}), Whitespace, {'"'});
  }

  /** Two strips in a row remove only characters of either set, from the
      two ends. */
  lemma StripTwice(s: string, t: string, r: string, a: set<char>, b: set<char>)
    requires StrippedFrom(s, t, a) && StrippedFrom(t, r, b)
    ensures StrippedFrom(s, r, a + b)
  {
    var i1, j1 :| 0 <= i1 <= j1 <= |s| && t == s[i1..j1] &&
                  (forall k :: 0 <= k < i1 ==> s[k] in a) && (forall k :: j1 <= k < |s| ==> s[k] in a);
    var i2, j2 :| 0 <= i2 <= j2 <= |t| && r == t[i2..j2] &&
                  (forall k :: 0 <= k < i2 ==> t[k] in b) && (forall k :: j2 <= k < |t| ==> t[k] in b);
    SliceOfSlice(s, i1, j1, i2, j2);
    forall k | 0 <= k < i1 + i2
      ensures s[k] in a + b
    {
      if k >= i1 {
        assert s[k] == t[k - i1];
      }
    }
    forall k | i1 + j2 <= k < |s|
      ensures s[k] in a + b
    {
      if k < j1 {
        assert s[k] == t[k - i1];
      }
    }
  }

  lemma SliceOfSlice<T>(s: seq<T>, i1: int, j1: int, i2: int, j2: int)
    requires 0 <= i1 <= j1 <= |s| && 0 <= i2 <= j2 <= j1 - i1
    ensures s[i1..j1][i2..j2] == s[i1 + i2..i1 + j2]
  {
    var t := s[i1..j1];
    assert forall k :: 0 <= k < |t| ==> t[k] == s[i1 + k];
    assert forall k :: 0 <= k < j2 - i2 ==> t[i2..j2][k] == t[i2 + k];
  }

  /** Stripping is idempotent: a stripped cell has nothing left to strip. */
  lemma StripIdempotent(s: string, cs: set<char>)
    ensures Strip(Strip(s, cs), cs) == Strip(s, cs)
  {
    var r := Strip(s, cs);
    var r2 := Strip(r, cs);
    var i, j :| 0 <= i <= j <= |r| && r2 == r[i..j] &&
                (forall k :: 0 <= k < i ==> r[k] in cs) && (forall k :: j <= k < |r| ==> r[k] in cs);
  }

  /** `list.index`: the first position of `x`. */
  function IndexOf(xs: seq<string>, x: string): (r: Option<nat>)
    ensures r.None? <==> x !in xs
    ensures r.Some? ==> r.value < |xs| && xs[r.value] == x && forall k :: 0 <= k < r.value ==> xs[k] != x
  {
    if |xs| == 0 then None
    else if xs[0] == x then Some(0)
    else
      match IndexOf(xs[1..], x)
      case None => None
      case Some(k) => Some(k + 1)
  }

  function Max(a: int, b: int): int {
    if a >= b then a else b
  }

  /** What one data row contributes: nothing, or a holiday of the NSE. */
  datatype RowOutcome = Skip | Accept(holiday: Holiday)

  /** The loop body: a row too short for both columns, an empty or
      starred date cell, or a date not in `DD/MM/YYYY` form is skipped. */
  function ClassifyRow(row: seq<string>, dateAt: nat, occasionAt: nat): (r: RowOutcome)
    ensures |row| <= Max(dateAt, occasionAt) ==> r == Skip
    ensures (|row| > Max(dateAt, occasionAt) &&
             (Clean(Some(row[dateAt])) == "" || Clean(Some(row[dateAt]))[0] == '*')) ==> r == Skip
    ensures r.Accept? ==> r.holiday.exchange == DefaultExchange
    ensures r.Accept? ==> exists y, m, d :: ParseDmy(Clean(Some(row[dateAt])), '/') == Some((d, m, y)) &&
                                            r.holiday.date == DayNumber(y, m, d) && r.holiday.year == y
    ensures r.Accept? ==> r.holiday.description == Clean(Some(row[occasionAt]))
  {
    if |row| == 0 || |row| <= Max(dateAt, occasionAt) then Skip
    else
      var rawDate := Clean(Some(row[dateAt]));
      var occasion := Clean(Some(row[occasionAt]));
      if rawDate == "" || rawDate[0] == '*' then Skip
      else
        match ParseDmy(rawDate, '/')
        case None => Skip
        case Some((d, m, y)) => Accept(Holiday(DefaultExchange, DayNumber(y, m, d), y, occasion))
  }

  /** The `market_holidays` table keyed by its primary key (exchange, holiday_date). */
  type HolidayRows = map<(string, Day), Holiday>

  predicate KeyedByPrimaryKey(rows: HolidayRows) {
    forall k :: k in rows ==> rows[k].exchange == k.0 && rows[k].date == k.1
  }

  /** The rows of the table, as the calendar reads them. */
  function TableOf(rows: HolidayRows): HolidayTable {
    set k | k in rows :: rows[k]
  }

  /** A table keyed by its primary key never holds two rows for one exchange and date. */
  lemma PrimaryKeyMakesWellKeyed(rows: HolidayRows)
    requires KeyedByPrimaryKey(rows)
    ensures WellKeyed(TableOf(rows))
  {
  }

  datatype LoadReport = LoadReport(rows: HolidayRows, inserted: nat, skipped: nat)

  /** The verdict of the row rules on every data line, in file order. */
  function Outcomes(lines: seq<seq<string>>, dateAt: nat, occasionAt: nat): (o: seq<RowOutcome>)
    ensures |o| == |lines|
    ensures forall i :: 0 <= i < |lines| ==> o[i] == ClassifyRow(lines[i], dateAt, occasionAt)
  {
    seq(|lines|, i requires 0 <= i < |lines| => ClassifyRow(lines[i], dateAt, occasionAt))
  }

  function AcceptedCount(outcomes: seq<RowOutcome>): (n: nat)
    ensures n <= |outcomes|
  {
    if |outcomes| == 0 then 0
    else (if outcomes[0].Accept? then 1 else 0) + AcceptedCount(outcomes[1..])
  }

  /** The insert loop: `ON CONFLICT DO NOTHING` keeps the first row of a key,
      `inserted` adds the row count of each insert and `skipped` counts the
      rows set aside. */
  function LoadRows(table: HolidayRows, outcomes: seq<RowOutcome>, inserted: nat, skipped: nat): (r: LoadReport)
    ensures r.skipped == skipped + |outcomes| - AcceptedCount(outcomes)
    ensures table.Keys <= r.rows.Keys && forall k :: k in table ==> r.rows[k] == table[k]
    ensures r.inserted == inserted + |r.rows| - |table|
    ensures KeyedByPrimaryKey(table) ==> KeyedByPrimaryKey(r.rows)
    decreases |outcomes|
  {
    if |outcomes| == 0 then LoadReport(table, inserted, skipped)
    else
      match outcomes[0]
      case Skip => LoadRows(table, outcomes[1..], inserted, skipped + 1)
      case Accept(h) =>
        var key := (h.exchange, h.date);
        if key in table then
          LoadRows(table, outcomes[1..], inserted, skipped)
        else
          InsertFresh(table, h);
          LoadRows(table[key := h], outcomes[1..], inserted + 1, skipped)
  }

  /** Inserting the row of a key not yet present adds exactly one row and
      keeps the table keyed by its primary key. */
  lemma InsertFresh(table: HolidayRows, h: Holiday)
    requires (h.exchange, h.date) !in table
    ensures |table[(h.exchange, h.date) := h]| == |table| + 1
    ensures KeyedByPrimaryKey(table) ==> KeyedByPrimaryKey(table[(h.exchange, h.date) := h])
  {
    var key := (h.exchange, h.date);
    assert table[key := h].Keys == table.Keys + {key};
  }

  /** Every row the loop adds is the holiday of one accepted line. */
  lemma {:induction false} LoadedRowProvenance(table: HolidayRows, outcomes: seq<RowOutcome>, inserted: nat, skipped: nat,
                                               k: (string, Day))
    requires k in LoadRows(table, outcomes, inserted, skipped).rows && k !in table
    ensures exists i :: 0 <= i < |outcomes| && outcomes[i] == Accept(LoadRows(table, outcomes, inserted, skipped).rows[k])
    decreases |outcomes|
  {
    var r := LoadRows(table, outcomes, inserted, skipped);
    var next, ins, sk := LoadRowsNext(table, outcomes, inserted, skipped);
    if k in next {
      assert outcomes[0] == Accept(r.rows[k]);
    } else {
      LoadedRowProvenance(next, outcomes[1..], ins, sk, k);
      var i :| 0 <= i < |outcomes[1..]| && outcomes[1..][i] == Accept(r.rows[k]);
      assert outcomes[i + 1] == outcomes[1..][i];
    }
  }

  /** One step of the loop: the table, insert count and skip count the rest
      of the rows start from, which hold the key of an accepted first row. */
  lemma LoadRowsNext(table: HolidayRows, outcomes: seq<RowOutcome>, inserted: nat, skipped: nat)
    returns (next: HolidayRows, ins: nat, sk: nat)
    requires |outcomes| > 0
    ensures LoadRows(table, outcomes, inserted, skipped) == LoadRows(next, outcomes[1..], ins, sk)
    ensures outcomes[0].Accept? ==> (outcomes[0].holiday.exchange, outcomes[0].holiday.date) in next
    ensures forall k :: k in next && k !in table ==> outcomes[0] == Accept(next[k])
    ensures table.Keys <= next.Keys && forall k :: k in table ==> next[k] == table[k]
  {
    match outcomes[0]
    case Skip =>
      next, ins, sk := table, inserted, skipped + 1;
    case Accept(h) =>
      if (h.exchange, h.date) in table {
        next, ins, sk := table, inserted, skipped;
      } else {
        next, ins, sk := table[(h.exchange, h.date) := h], inserted + 1, skipped;
      }
  }

  /** The key of every accepted line is present once the loop has run. */
  lemma {:induction false} LoadedKeysCover(table: HolidayRows, outcomes: seq<RowOutcome>, inserted: nat, skipped: nat,
                                           i: int)
    requires 0 <= i < |outcomes| && outcomes[i].Accept?
    ensures (outcomes[i].holiday.exchange, outcomes[i].holiday.date) in LoadRows(table, outcomes, inserted, skipped).rows
    decreases |outcomes|
  {
    var next, ins, sk := LoadRowsNext(table, outcomes, inserted, skipped);
    if i > 0 {
      assert outcomes[i] == outcomes[1..][i - 1];
      LoadedKeysCover(next, outcomes[1..], ins, sk, i - 1);
    }
  }

  /** `load_holidays`: the first record is the header, whose cleaned cells
      must name a `Date` and an `Occasion` column; every later record goes
      through the row rules. An empty file fails on reading the header. */
  function LoadHolidays(table: HolidayRows, file: seq<seq<string>>): (r: Result<LoadReport>)
    ensures |file| == 0 <==> r == Err(StopIteration)
    ensures |file| > 0 ==> (r == Err(RuntimeError) <==>
              "Date" !in CleanAll(file[0]) || "Occasion" !in CleanAll(file[0]))
    ensures r.Ok? ==> r.value.inserted == |r.value.rows| - |table| && r.value.skipped <= |file| - 1
    ensures r.Ok? && KeyedByPrimaryKey(table) ==> KeyedByPrimaryKey(r.value.rows)
    ensures r.Ok? ==> forall k :: k in table ==> k in r.value.rows && r.value.rows[k] == table[k]
  {
    if |file| == 0 then Err(StopIteration)
    else
      var headers := CleanAll(file[0]);
      var dateAt := IndexOf(headers, "Date");
      var occasionAt := IndexOf(headers, "Occasion");
      if dateAt.None? || occasionAt.None? then Err(RuntimeError)
      else Ok(LoadRows(table, Outcomes(file[1..], dateAt.value, occasionAt.value), 0, 0))
  }

  /** The column positions a successful load used. */
  function DateColumn(file: seq<seq<string>>): nat
    requires |file| > 0 && "Date" in CleanAll(file[0])
  {
    IndexOf(CleanAll(file[0]), "Date").value
  }

  function OccasionColumn(file: seq<seq<string>>): nat
    requires |file| > 0 && "Occasion" in CleanAll(file[0])
  {
    IndexOf(CleanAll(file[0]), "Occasion").value
  }

  lemma LoadHolidaysUnfold(table: HolidayRows, file: seq<seq<string>>)
    requires LoadHolidays(table, file).Ok?
    ensures |file| > 0 && "Date" in CleanAll(file[0]) && "Occasion" in CleanAll(file[0])
    ensures LoadHolidays(table, file).value
         == LoadRows(table, Outcomes(file[1..], DateColumn(file), OccasionColumn(file)), 0, 0)
  {
  }

  /** Every row the loader adds is an NSE holiday read from a line of the file. */
  lemma LoadedHolidayFromFile(table: HolidayRows, file: seq<seq<string>>, k: (string, Day))
    requires LoadHolidays(table, file).Ok?
    requires k in LoadHolidays(table, file).value.rows && k !in table
    ensures LoadHolidays(table, file).value.rows[k].exchange == DefaultExchange
    ensures exists i :: 1 <= i < |file| &&
              ClassifyRow(file[i], DateColumn(file), OccasionColumn(file)) == Accept(LoadHolidays(table, file).value.rows[k])
  {
    LoadHolidaysUnfold(table, file);
    var h := LoadHolidays(table, file).value.rows[k];
    var dateAt, occasionAt := DateColumn(file), OccasionColumn(file);
    var lines := file[1..];
    var outcomes := Outcomes(lines, dateAt, occasionAt);
    LoadedRowProvenance(table, outcomes, 0, 0, k);
    var i :| 0 <= i < |outcomes| && outcomes[i] == Accept(h);
    assert outcomes[i] == ClassifyRow(lines[i], dateAt, occasionAt);
    assert file[i + 1] == lines[i];
  }

  /** Loading the same file a second time inserts nothing. */
  lemma ReloadInsertsNothing(table: HolidayRows, file: seq<seq<string>>)
    requires KeyedByPrimaryKey(table) && LoadHolidays(table, file).Ok?
    ensures LoadHolidays(LoadHolidays(table, file).value.rows, file).Ok?
    ensures LoadHolidays(LoadHolidays(table, file).value.rows, file).value.inserted == 0
  {
    LoadHolidaysUnfold(table, file);
    var outcomes := Outcomes(file[1..], DateColumn(file), OccasionColumn(file));
    var once := LoadRows(table, outcomes, 0, 0);
    LoadHolidaysUnfold(once.rows, file);
    var twice := LoadRows(once.rows, outcomes, 0, 0);
    ReloadKeys(table, outcomes);
  }

  /** Running the loop again over its own result adds no key. */
  lemma ReloadKeys(table: HolidayRows, outcomes: seq<RowOutcome>)
    requires KeyedByPrimaryKey(table)
    ensures LoadRows(LoadRows(table, outcomes, 0, 0).rows, outcomes, 0, 0).inserted == 0
  {
    var once := LoadRows(table, outcomes, 0, 0);
    var twice := LoadRows(once.rows, outcomes, 0, 0);
    forall k | k in twice.rows
      ensures k in once.rows
    {
      if k !in once.rows {
        LoadedRowProvenance(once.rows, outcomes, 0, 0, k);
        var i :| 0 <= i < |outcomes| && outcomes[i] == Accept(twice.rows[k]);
        LoadedKeysCover(table, outcomes, 0, 0, i);
      }
    }
    assert twice.rows.Keys == once.rows.Keys;
    assert |twice.rows| == |twice.rows.Keys| == |once.rows.Keys| == |once.rows|;
  }

  function CleanAll(cells: seq<string>): (r: seq<string>)
    ensures |r| == |cells|
    ensures forall i :: 0 <= i < |cells| ==> r[i] == Clean(Some(cells[i]))
  {
    seq(|cells|, i requires 0 <= i < |cells| => Clean(Some(cells[i])))
  }

}

=== FILE: intraday_backfill.dfy ===
/** The intraday backfill agent: keep the missing candles of the last three
    days that fall on trading days, cap them at 200, fetch each one from the
    vendor and insert what normalises into the `ohlcv` table. The vendor
    call is a parameter; the pause between calls is left out. */
module IntradayBackfill {
  import opened Wrappers
  import opened Clock
  import opened Sorting
  import opened Timeframes
  import opened CandleStore
  import opened TradingCalendar
  import opened Normalize
  import opened QualityReports

  const MaxLookbackDays: int := 3
  const MaxCandlesPerRun: nat := 200

  /** `get_historical(symbol, timeframe, start, end)`: raw vendor candles. */
  type Vendor = (string, string, Ts, Ts) -> Result<seq<RawCandle>>

  /** A candle the filter keeps: its date is no older than three days before
      today and is an NSE trading day. */
  predicate Recent(table: HolidayTable, today: Day, t: Ts) {
    DayOf(t) >= today - MaxLookbackDays && IsTradingDay(table, DefaultExchange, DayOf(t))
  }

  function KeepRecent(table: HolidayTable, today: Day, candles: seq<Ts>): (r: seq<Ts>)
    ensures |r| <= |candles|
    ensures forall t :: multiset(r)[t] == if Recent(table, today, t) then multiset(candles)[t] else 0
  {
    if |candles| == 0 then []
    else
      var rest := KeepRecent(table, today, candles[1..]);
      assert candles == [candles[0]] + candles[1..];
      assert multiset(candles) == multiset{candles[0]} + multiset(candles[1..]);
      if Recent(table, today, candles[0]) then
        assert multiset([candles[0]] + rest) == multiset{candles[0]} + multiset(rest);
        [candles[0]] + rest
      else rest
  }

  /** `_filter_recent_trading_days`: exactly the recent candles, each as
      often as it was given, in ascending order. */
  function FilterRecentTradingDays(table: HolidayTable, today: Day, candles: seq<Ts>): (r: seq<Ts>)
    ensures Sorted(r)
    ensures forall t :: multiset(r)[t] == if Recent(table, today, t) then multiset(candles)[t] else 0
    ensures forall t :: t in r <==> t in candles && Recent(table, today, t)
    ensures |r| <= |candles|
  {
    var kept := KeepRecent(table, today, candles);
    var r := SortInts(kept);
    assert forall t :: t in r <==> t in candles && Recent(table, today, t) by {
      forall t
        ensures t in r <==> t in candles && Recent(table, today, t)
      {
        assert t in r <==> multiset(r)[t] > 0;
        assert t in candles <==> multiset(candles)[t] > 0;
      }
    }
    r
  }

  /** The vendor rows of one missing candle, normalised on the candle's own
      date: `[ts, ts + step)` with the timeframe in lower case. */
  function CandleRecords(vendor: Vendor, symbol: string, timeframe: string, t: Ts): (r: Result<seq<OhlcvRecord>>)
    requires timeframe in Registry
    ensures vendor(symbol, Lower(timeframe), t, t + Minutes(Registry[timeframe].minutes)).Err? <==> r.Err?
    ensures r.Ok? ==> forall x :: x in r.value ==> x.symbol == symbol && x.timeframe == timeframe
  {
    var raw :- vendor(symbol, Lower(timeframe), t, t + Minutes(Registry[timeframe].minutes));
    if |raw| == 0 then Ok([]) else Ok(NormalizeCandles(raw, symbol, timeframe, Some(DayOf(t))))
  }

  /** The state of the fetch loop: the `ohlcv` table, the running `inserted`
      count, and the exception that ended the loop, if any. */
  datatype Progress = Progress(ohlcv: Store, inserted: nat, error: Option<Error>)

  /** Every record's key is in the table. */
  predicate Keyed(store: Store, records: seq<OhlcvRecord>) {
    forall x :: x in records ==> Key(x.symbol, x.timeframe, x.candleTs) in store
  }

  /** The candles `todo[0]` to `todo[i]` were all fetched without error. */
  predicate FetchedUpTo(vendor: Vendor, symbol: string, timeframe: string, todo: seq<Ts>, i: int)
    requires timeframe in Registry
  {
    0 <= i < |todo| && forall j :: 0 <= j <= i ==> CandleRecords(vendor, symbol, timeframe, todo[j]).Ok?
  }

  /** The fetch loop: each candle in turn; a failed fetch ends the run, and
      the batches inserted before it stay. */
  function HealEach(ohlcv: Store, vendor: Vendor, symbol: string, timeframe: string, todo: seq<Ts>, inserted: nat)
    : (p: Progress)
    requires timeframe in Registry
    ensures forall k :: k in ohlcv ==> k in p.ohlcv && p.ohlcv[k] == ohlcv[k]
    ensures forall k :: k in p.ohlcv && k !in ohlcv ==> k.symbol == symbol && k.timeframe == timeframe
    ensures p.inserted >= inserted
    ensures p.inserted == inserted ==> p.ohlcv == ohlcv
    ensures p.error.None? <==> forall i :: 0 <= i < |todo| ==> CandleRecords(vendor, symbol, timeframe, todo[i]).Ok?
    ensures p.error.None? ==>
              (p.inserted > inserted <==>
                 exists i :: 0 <= i < |todo| && CandleRecords(vendor, symbol, timeframe, todo[i]).Ok? &&
                             |CandleRecords(vendor, symbol, timeframe, todo[i]).value| > 0)
    ensures forall i :: FetchedUpTo(vendor, symbol, timeframe, todo, i) ==>
              Keyed(p.ohlcv, CandleRecords(vendor, symbol, timeframe, todo[i]).value)
    decreases |todo|
  {
    if |todo| == 0 then Progress(ohlcv, inserted, None)
    else
      match CandleRecords(vendor, symbol, timeframe, todo[0])
      case Err(e) => Progress(ohlcv, inserted, Some(e))
      case Ok(records) =>
        var next := InsertIfAny(ohlcv, symbol, timeframe, records);
        var p := HealEach(next, vendor, symbol, timeframe, todo[1..], inserted + |records|);
        HealEachStep(vendor, symbol, timeframe, todo);
        forall i | FetchedUpTo(vendor, symbol, timeframe, todo, i)
          ensures Keyed(p.ohlcv, CandleRecords(vendor, symbol, timeframe, todo[i]).value)
        {
          if i > 0 {
            assert todo[1..][i - 1] == todo[i];
            assert FetchedUpTo(vendor, symbol, timeframe, todo[1..], i - 1) by {
              forall j | 0 <= j <= i - 1
                ensures CandleRecords(vendor, symbol, timeframe, todo[1..][j]).Ok?
              {
                assert todo[1..][j] == todo[j + 1];
              }
            }
          }
        }
        p
  }

  /** A loop that ran to the end has every record of every candle keyed. */
  lemma HealEachStoresAll(ohlcv: Store, vendor: Vendor, symbol: string, timeframe: string, todo: seq<Ts>, inserted: nat)
    requires timeframe in Registry
    requires HealEach(ohlcv, vendor, symbol, timeframe, todo, inserted).error.None?
    ensures forall i :: 0 <= i < |todo| ==>
              CandleRecords(vendor, symbol, timeframe, todo[i]).Ok? &&
              Keyed(HealEach(ohlcv, vendor, symbol, timeframe, todo, inserted).ohlcv,
                    CandleRecords(vendor, symbol, timeframe, todo[i]).value)
  {
    forall i | 0 <= i < |todo|
      ensures CandleRecords(vendor, symbol, timeframe, todo[i]).Ok?
      ensures Keyed(HealEach(ohlcv, vendor, symbol, timeframe, todo, inserted).ohlcv,
                    CandleRecords(vendor, symbol, timeframe, todo[i]).value)
    {
      assert FetchedUpTo(vendor, symbol, timeframe, todo, i);
    }
  }

  /** One batch of the loop: inserted only when non-empty. */
  function InsertIfAny(ohlcv: Store, symbol: string, timeframe: string, records: seq<OhlcvRecord>): (r: Store)
    requires forall x :: x in records ==> x.symbol == symbol && x.timeframe == timeframe
    ensures |records| == 0 ==> r == ohlcv
    ensures forall k :: k in ohlcv ==> k in r && r[k] == ohlcv[k]
    ensures forall k :: k in r && k !in ohlcv ==> k.symbol == symbol && k.timeframe == timeframe
    ensures Keyed(r, records)
    ensures |records| > 0 ==> r == InsertOhlcvBatch(ohlcv, records)
  {
    if |records| == 0 then ohlcv
    else
      var r := InsertOhlcvBatch(ohlcv, records);
      assert forall k :: k in r && k !in ohlcv ==> k.symbol == symbol && k.timeframe == timeframe by {
        forall k | k in r && k !in ohlcv
          ensures k.symbol == symbol && k.timeframe == timeframe
        {
          assert k in KeysOf(RecordRows(records));
          var j :| 0 <= j < |RecordRows(records)| && RecordRows(records)[j].key == k;
          assert records[j] in records;
        }
      }
      r
  }

  /** How the quantifiers over `todo` split into its head and its tail. */
  lemma HealEachStep(vendor: Vendor, symbol: string, timeframe: string, todo: seq<Ts>)
    requires timeframe in Registry && |todo| > 0
    ensures (forall i :: 0 <= i < |todo| ==> CandleRecords(vendor, symbol, timeframe, todo[i]).Ok?) <==>
              CandleRecords(vendor, symbol, timeframe, todo[0]).Ok? &&
              forall i :: 0 <= i < |todo[1..]| ==> CandleRecords(vendor, symbol, timeframe, todo[1..][i]).Ok?
    ensures (exists i :: 0 <= i < |todo| && CandleRecords(vendor, symbol, timeframe, todo[i]).Ok? &&
                         |CandleRecords(vendor, symbol, timeframe, todo[i]).value| > 0) <==>
              (CandleRecords(vendor, symbol, timeframe, todo[0]).Ok? &&
               |CandleRecords(vendor, symbol, timeframe, todo[0]).value| > 0) ||
              exists i :: 0 <= i < |todo[1..]| && CandleRecords(vendor, symbol, timeframe, todo[1..][i]).Ok? &&
                          |CandleRecords(vendor, symbol, timeframe, todo[1..][i]).value| > 0
  {
    assert forall i :: 1 <= i < |todo| ==> todo[i] == todo[1..][i - 1];
    assert todo == [todo[0]] + todo[1..];
  }

  /** The summary the agent returns. */
  datatype HealSummary =
    | Unsupported
    | NothingMissing
    | TooOld
    | Ran(attempted: nat, inserted: nat, skipped: int)

  /** The `status` field of each summary. */
  function SummaryStatus(s: HealSummary): (st: Status)
    ensures st == Complete <==> s.Ran? && s.inserted > 0
    ensures st == Partial <==> s.Ran? && s.inserted == 0
    ensures st == Noop <==> s.NothingMissing?
  {
    match s
    case Unsupported => Skipped
    case NothingMissing => Noop
    case TooOld => Skipped
    case Ran(_, inserted, _) => if inserted > 0 then Complete else Partial
  }

  datatype HealRun = HealRun(ohlcv: Store, summary: Result<HealSummary>)

  function Cap(recent: seq<Ts>): (r: seq<Ts>)
    ensures |r| == if |recent| < MaxCandlesPerRun then |recent| else MaxCandlesPerRun
    ensures r == recent[..|r|]
  {
    if |recent| <= MaxCandlesPerRun then recent else recent[..MaxCandlesPerRun]
  }

  /** `backfill_missing_candles`. */
  function BackfillMissingCandles(ohlcv: Store, table: HolidayTable, today: Day, vendor: Vendor, symbol: string,
                                  timeframe: string, missing: seq<Ts>): (r: HealRun)
    ensures timeframe !in Registry ==> r == HealRun(ohlcv, Ok(Unsupported))
    ensures timeframe in Registry && |missing| == 0 ==> r == HealRun(ohlcv, Ok(NothingMissing))
    ensures timeframe in Registry && |missing| > 0 && (forall t :: t in missing ==> !Recent(table, today, t)) ==>
              r == HealRun(ohlcv, Ok(TooOld))
    ensures r.summary.Ok? && r.summary.value.Ran? ==>
              var kept := |FilterRecentTradingDays(table, today, missing)|;
              && 0 < r.summary.value.attempted == (if kept < MaxCandlesPerRun then kept else MaxCandlesPerRun)
              && r.summary.value.skipped == |missing| - r.summary.value.attempted
    ensures r.summary.Ok? && SummaryStatus(r.summary.value) != Complete ==> r.ohlcv == ohlcv
    ensures forall k :: k in ohlcv ==> k in r.ohlcv && r.ohlcv[k] == ohlcv[k]
    ensures forall k :: k in r.ohlcv && k !in ohlcv ==> k.symbol == symbol && k.timeframe == timeframe
    ensures timeframe in Registry && r.summary.Ok? && r.summary.value.Ran? ==>
              var todo := Cap(FilterRecentTradingDays(table, today, missing));
              forall i :: 0 <= i < |todo| ==>
                CandleRecords(vendor, symbol, timeframe, todo[i]).Ok? &&
                Keyed(r.ohlcv, CandleRecords(vendor, symbol, timeframe, todo[i]).value)
  {
    if timeframe !in Registry then HealRun(ohlcv, Ok(Unsupported))
    else if |missing| == 0 then HealRun(ohlcv, Ok(NothingMissing))
    else
      var recent := FilterRecentTradingDays(table, today, missing);
      if |recent| == 0 then HealRun(ohlcv, Ok(TooOld))
      else
        var todo := Cap(recent);
        var p := HealEach(ohlcv, vendor, symbol, timeframe, todo, 0);
        if p.error.Some? then HealRun(p.ohlcv, Err(p.error.value))
        else
          HealEachStoresAll(ohlcv, vendor, symbol, timeframe, todo, 0);
          HealRun(p.ohlcv, Ok(Ran(|todo|, p.inserted, |missing| - |todo|)))
  }

  /** A run ends COMPLETE exactly when some attempted candle yielded a
      normalised record; a vendor row that normalisation drops does not count. Rows already in `ohlcv` still count as inserted,
      so COMPLETE does not promise new rows. */
  lemma CompleteIffSomeRecords(ohlcv: Store, table: HolidayTable, today: Day, vendor: Vendor, symbol: string,
                               timeframe: string, missing: seq<Ts>)
    requires timeframe in Registry
    requires BackfillMissingCandles(ohlcv, table, today, vendor, symbol, timeframe, missing).summary.Ok?
    requires BackfillMissingCandles(ohlcv, table, today, vendor, symbol, timeframe, missing).summary.value.Ran?
    ensures var todo := Cap(FilterRecentTradingDays(table, today, missing));
      SummaryStatus(BackfillMissingCandles(ohlcv, table, today, vendor, symbol, timeframe, missing).summary.value) == Complete
      <==> exists i :: 0 <= i < |todo| && CandleRecords(vendor, symbol, timeframe, todo[i]).Ok? &&
                       |CandleRecords(vendor, symbol, timeframe, todo[i]).value| > 0
  {
  }

  /** The `skipped` count covers both the candles the filter dropped and those
      beyond the cap of 200. */
  lemma SkippedCountsDroppedAndOverflow(ohlcv: Store, table: HolidayTable, today: Day, vendor: Vendor,
                                        symbol: string, timeframe: string, missing: seq<Ts>)
    requires BackfillMissingCandles(ohlcv, table, today, vendor, symbol, timeframe, missing).summary.Ok?
    requires BackfillMissingCandles(ohlcv, table, today, vendor, symbol, timeframe, missing).summary.value.Ran?
    ensures var kept := |FilterRecentTradingDays(table, today, missing)|;
      BackfillMissingCandles(ohlcv, table, today, vendor, symbol, timeframe, missing).summary.value.skipped
      == (|missing| - kept) + (kept - (if kept < MaxCandlesPerRun then kept else MaxCandlesPerRun))
  {
  }
}

=== FILE: job_registry.dfy ===
/** The static job table the scheduler runs from. */
module JobRegistry {
  import opened Wrappers
  import opened Timeframes

  datatype RunType = Eod | Intraday

  datatype JobConfig = JobConfig(timeframe: string, tier: int, retentionDays: Option<int>, runType: RunType)

  /** `JOB_REGISTRY`, whose timeframes are written in lower case. */
  const Jobs: map<string, JobConfig> := map[
    "daily_eod" := JobConfig("1d", 1, None, Eod),
    "intraday_15m" := JobConfig("15m", 2, Some(365), Intraday),
    "intraday_5m" := JobConfig("5m", 2, Some(180), Intraday),
    "intraday_1m" := JobConfig("1m", 3, Some(60), Intraday)
  ]

  /** `get_job_config`: a copy of the entry with its timeframe upper-cased;
      an unknown job raises KeyError. */
  function GetJobConfig(name: string): (r: Result<JobConfig>)
    ensures name !in Jobs <==> r == Err(KeyError)
    ensures r.Ok? ==> (r.value.tier == Jobs[name].tier && r.value.retentionDays == Jobs[name].retentionDays &&
                       r.value.runType == Jobs[name].runType)
    ensures r.Ok? ==> NoLowerAscii(r.value.timeframe) && Lower(r.value.timeframe) == Jobs[name].timeframe
    ensures r.Ok? ==> r.value.timeframe in Registry
  {
    if name !in Jobs then Err(KeyError)
    else
      var job := Jobs[name];
      UpperHasNoLower(job.timeframe);
      UpperJobTimeframes();
      Ok(job.(timeframe := Upper(job.timeframe)))
  }

  lemma UpperJobTimeframes()
    ensures Upper("1d") == "1D" && Upper("15m") == "15M" && Upper("5m") == "5M" && Upper("1m") == "1M"
  {
    assert Upper("1d") == "1D";
    assert Upper("15m") == "15M";
    assert Upper("5m") == "5M";
    assert Upper("1m") == "1M";
  }

  /** The four jobs resolve to 1D, 15M, 5M and 1M; only the daily job is EOD. */
  lemma JobTimeframes()
    ensures GetJobConfig("daily_eod") == Ok(JobConfig("1D", 1, None, Eod))
    ensures GetJobConfig("intraday_15m") == Ok(JobConfig("15M", 2, Some(365), Intraday))
    ensures GetJobConfig("intraday_5m") == Ok(JobConfig("5M", 2, Some(180), Intraday))
    ensures GetJobConfig("intraday_1m") == Ok(JobConfig("1M", 3, Some(60), Intraday))
  {
    UpperJobTimeframes();
  }

  /** A job runs intraday exactly when its timeframe is an intraday one. */
  lemma RunTypeMatchesTimeframe(name: string)
    requires name in Jobs
    ensures GetJobConfig(name).value.runType == Intraday <==> IsIntraday(GetJobConfig(name).value.timeframe)
  {
    JobTimeframes();
  }
}

=== FILE: job_runner.dfy ===
/** The scheduler's job wrapper: symbols in batches of three, with an
    adaptive pause between batches. Pauses are in tenths of a second. */
module JobRunner {
  import opened TimeframeGrid

  const BatchSize: int := 3

  const MinSleep: int := 5
  const MaxSleep: int := 100
  const SleepStep: int := 10
  const RecoveryStep: int := 5

  function Flatten<T>(cs: seq<seq<T>>): seq<T> {
    if |cs| == 0 then [] else cs[0] + Flatten(cs[1..])
  }

  lemma FlattenCons<T>(c: seq<T>, rest: seq<seq<T>>)
    ensures Flatten([c] + rest) == c + Flatten(rest)
  {
    assert ([c] + rest)[1..] == rest;
  }

  /** `chunked`: consecutive slices of `size`, the last one possibly shorter. */
  function Chunked<T>(lst: seq<T>, size: int): (cs: seq<seq<T>>)
    requires size > 0
    ensures Flatten(cs) == lst
    ensures forall i :: 0 <= i < |cs| ==> 0 < |cs[i]| <= size
    ensures forall i :: 0 <= i < |cs| - 1 ==> |cs[i]| == size
    ensures |cs| > 0 ==> |lst| == (|cs| - 1) * size + |cs[|cs| - 1]|
    ensures |lst| == 0 <==> |cs| == 0
    decreases |lst|
  {
    if |lst| == 0 then []
    else if |lst| <= size then
      assert Flatten([lst]) == lst + Flatten([lst][1..]);
      [lst]
    else
      var rest := Chunked(lst[size..], size);
      FlattenCons(lst[..size], rest);
      assert lst == lst[..size] + lst[size..];
      assert (|rest| + 1 - 1) * size == (|rest| - 1) * size + size;
      [lst[..size]] + rest
  }

  /** There are `ceil(n / size)` chunks. */
  lemma ChunkCount<T>(lst: seq<T>, size: int)
    requires size > 0
    ensures |Chunked(lst, size)| == (|lst| + size - 1) / size
  {
    var cs := Chunked(lst, size);
    var n := |cs|;
    if n == 0 {
      DivUnique(size - 1, size, 0, size - 1);
    } else {
      CeilOfChunks(|lst|, size, n, |cs[n - 1]|);
    }
  }

  /** `n` chunks whose last holds `tail` items cover `ceil(len / size)`. */
  lemma CeilOfChunks(len: int, size: int, n: int, tail: int)
    requires size > 0 && n > 0 && 0 < tail <= size && len == (n - 1) * size + tail
    ensures (len + size - 1) / size == n
  {
    assert n * size == (n - 1) * size + size;
    DivUnique(len + size - 1, size, n, tail - 1);
  }

  /** `batch_no * BATCH_SIZE < len(symbols)` holds for every batch but the last. */
  lemma SleepOnlyBetweenBatches<T>(lst: seq<T>, size: int, b: int)
    requires size > 0
    requires 1 <= b <= |Chunked(lst, size)|
    ensures b * size < |lst| <==> b < |Chunked(lst, size)|
  {
    var cs := Chunked(lst, size);
    var n := |cs|;
    BatchArithmetic(n, size, |lst|, |cs[n - 1]|, b);
  }

  lemma BatchArithmetic(n: int, size: int, len: int, tail: int, b: int)
    requires size > 0 && 0 < tail <= size && len == (n - 1) * size + tail
    requires 1 <= b <= n
    ensures b * size < len <==> b < n
  {
    if b < n {
      MulMonotone(b, n - 1, size);
    } else {
      assert b * size == (n - 1) * size + size;
    }
  }

  lemma MulMonotone(a: int, b: int, s: int)
    requires a <= b && s > 0
    ensures a * s <= b * s
  {
    assert b * s - a * s == (b - a) * s;
  }

  /** The throttle state of one `job_wrapper` run. */
  datatype Throttle = Throttle(sleep: int, errorStreak: nat)

  const InitialThrottle: Throttle := Throttle(MinSleep, 0)

  predicate ValidThrottle(t: Throttle) {
    MinSleep <= t.sleep <= MaxSleep
  }

  /** A batch that did not raise: the streak resets and the pause shrinks by
      the recovery step, never below the minimum. */
  function OnSuccess(t: Throttle): (r: Throttle)
    ensures r.errorStreak == 0
    ensures ValidThrottle(t) ==> ValidThrottle(r)
    ensures r.sleep <= t.sleep || r.sleep == MinSleep
    ensures t.sleep - r.sleep <= RecoveryStep
  {
    Throttle(if t.sleep - RecoveryStep > MinSleep then t.sleep - RecoveryStep else MinSleep, 0)
  }

  /** A batch that raised: the streak grows and the pause grows by the step
      times the new streak, never above the maximum. */
  function OnError(t: Throttle): (r: Throttle)
    ensures r.errorStreak == t.errorStreak + 1
    ensures ValidThrottle(t) ==> ValidThrottle(r)
    ensures ValidThrottle(t) ==> r.sleep >= t.sleep
    ensures r.sleep <= t.sleep + SleepStep * r.errorStreak && r.sleep <= MaxSleep
    ensures r.sleep == MaxSleep || r.sleep == t.sleep + SleepStep * r.errorStreak
  {
    var streak := t.errorStreak + 1;
    Throttle(if t.sleep + SleepStep * streak < MaxSleep then t.sleep + SleepStep * streak else MaxSleep, streak)
  }

  function Successes(t: Throttle, k: nat): Throttle
    decreases k
  {
    if k == 0 then t else Successes(OnSuccess(t), k - 1)
  }

  function Errors(t: Throttle, k: nat): Throttle
    decreases k
  {
    if k == 0 then t else Errors(OnError(t), k - 1)
  }

  /** `k` successes in a row take the pause down by `k` recovery steps, to
      the floor at the least. */
  lemma {:induction false} SuccessesRecover(t: Throttle, k: nat)
    requires ValidThrottle(t)
    decreases k
    ensures Successes(t, k).sleep == if t.sleep - k * RecoveryStep > MinSleep then t.sleep - k * RecoveryStep else MinSleep
    ensures ValidThrottle(Successes(t, k))
  {
    if k > 0 {
      SuccessesRecover(OnSuccess(t), k - 1);
    }
  }

  /** Whatever the pause, nineteen successes bring it back to the minimum. */
  lemma FullRecovery(t: Throttle)
    requires ValidThrottle(t)
    ensures Successes(t, 19).sleep == MinSleep
  {
    SuccessesRecover(t, 19);
  }

  /** `k` errors in a row add the step times each new streak value, so the
      pause grows by the step times `k * e + k * (k + 1) / 2` for a starting
      streak `e`, up to the ceiling. */
  lemma {:induction false} ErrorsBackOff(t: Throttle, k: nat)
    requires ValidThrottle(t)
    decreases k
    ensures Errors(t, k).errorStreak == t.errorStreak + k
    ensures var x := t.sleep + SleepStep * (k * t.errorStreak + k * (k + 1) / 2);
      Errors(t, k).sleep == if x < MaxSleep then x else MaxSleep
  {
    if k > 0 {
      var t1 := OnError(t);
      ErrorsBackOff(t1, k - 1);
      TriangleStep(k, t.errorStreak);
    }
  }

  /** The sum of the streaks `e + 1 .. e + k`, split after its first term. */
  lemma TriangleStep(k: int, e: int)
    requires k > 0 && e >= 0
    ensures (e + 1) + ((k - 1) * (e + 1) + (k - 1) * k / 2) == k * e + k * (k + 1) / 2
    ensures (k - 1) * (e + 1) + (k - 1) * k / 2 >= 0
  {
    assert k * (k + 1) == (k - 1) * k + 2 * k;
    assert (k - 1) * k / 2 + k == ((k - 1) * k + 2 * k) / 2;
    assert (k - 1) * (e + 1) == k * e + k - e - 1;
  }

  /** Four consecutive errors after a success reach the ceiling from any
      pause: the increments are 10, 20, 30 and 40 tenths. */
  lemma FourErrorsSaturate(t: Throttle)
    requires ValidThrottle(t) && t.errorStreak == 0
    ensures Errors(t, 4).sleep == MaxSleep
  {
    var t1 := OnError(t);
    var t2 := OnError(t1);
    var t3 := OnError(t2);
    var t4 := OnError(t3);
    assert Errors(t3, 1) == Errors(t4, 0) == t4;
    assert Errors(t, 4) == Errors(t1, 3) == Errors(t2, 2) == Errors(t3, 1);
  }

  /** The throttle after one batch that succeeded (`ok`) or raised. */
  function Update(t: Throttle, ok: bool): Throttle {
    if ok then OnSuccess(t) else OnError(t)
  }

  /** The throttle after the given batches, starting from the minimum pause
      and a zero streak: the state `job_wrapper` carries from batch to batch. */
  function Throttled(batches: seq<seq<string>>, run: seq<string> -> bool): (r: Throttle)
    ensures ValidThrottle(r)
    ensures |batches| == 0 ==> r == InitialThrottle
    ensures |batches| > 0 && run(batches[|batches| - 1]) ==> r.errorStreak == 0
    ensures |batches| > 0 && !run(batches[|batches| - 1]) ==> r.errorStreak > 0
  {
    if |batches| == 0 then InitialThrottle
    else Update(Throttled(batches[..|batches| - 1], run), run(batches[|batches| - 1]))
  }

  /** One more batch folds one more update into the throttle. */
  lemma ThrottledStep(batches: seq<seq<string>>, i: int, run: seq<string> -> bool)
    requires 0 <= i < |batches|
    ensures Throttled(batches[..i + 1], run) == Update(Throttled(batches[..i], run), run(batches[i]))
  {
    assert batches[..i + 1][..i] == batches[..i];
  }

  /** One batch of a run: the pause is the delay after the throttle update,
      and `slept` says whether the wrapper paused before the next batch. */
  datatype BatchRun = BatchRun(batch: seq<string>, succeeded: bool, pause: int, slept: bool)

  /** `job_wrapper`: every batch is attempted whatever happened to earlier
      ones; after each, the throttle is updated and, unless it was the last
      batch, the wrapper pauses for the current delay. `run` says whether the
      ingestion job for a batch completed without raising. */
  method JobWrapper(symbols: seq<string>, run: seq<string> -> bool) returns (log: seq<BatchRun>, last: Throttle)
    ensures |log| == |Chunked(symbols, BatchSize)|
    ensures forall i :: 0 <= i < |log| ==> log[i].batch == Chunked(symbols, BatchSize)[i] && log[i].succeeded == run(log[i].batch)
    ensures forall i :: 0 <= i < |log| ==> (log[i].slept <==> (i + 1) * BatchSize < |symbols|)
    ensures forall i :: 0 <= i < |log| ==> (log[i].slept <==> i < |log| - 1)
    ensures forall i :: 0 <= i < |log| ==> MinSleep <= log[i].pause <= MaxSleep
    ensures forall i :: 0 <= i < |log| ==> log[i].pause == Throttled(Chunked(symbols, BatchSize)[..i + 1], run).sleep
    ensures last == Throttled(Chunked(symbols, BatchSize), run)
    ensures ValidThrottle(last)
  {
    log, last := RunBatches(Chunked(symbols, BatchSize), run);
    forall j | 0 <= j < |log|
      ensures log[j].slept <==> (j + 1) * BatchSize < |symbols|
    {
      SleepOnlyBetweenBatches(symbols, BatchSize, j + 1);
    }
  }

  /** The entry `job_wrapper` logs for batch `j`: the pause is the delay
      after the throttle has seen batches `0 .. j`. */
  function Entry(batches: seq<seq<string>>, j: int, run: seq<string> -> bool): BatchRun
    requires 0 <= j < |batches|
  {
    BatchRun(batches[j], run(batches[j]), Throttled(batches[..j + 1], run).sleep, j < |batches| - 1)
  }

  /** The loop of `job_wrapper` over given batches. */
  method RunBatches(batches: seq<seq<string>>, run: seq<string> -> bool) returns (log: seq<BatchRun>, last: Throttle)
    ensures |log| == |batches|
    ensures forall i :: 0 <= i < |log| ==> log[i].batch == batches[i] && log[i].succeeded == run(batches[i])
    ensures forall i :: 0 <= i < |log| ==> (log[i].slept <==> i < |log| - 1)
    ensures forall i :: 0 <= i < |log| ==> MinSleep <= log[i].pause <= MaxSleep
    ensures forall i :: 0 <= i < |log| ==> log[i].pause == Throttled(batches[..i + 1], run).sleep
    ensures last == Throttled(batches, run)
    ensures ValidThrottle(last)
  {
    var t := InitialThrottle;
    log := [];
    var i := 0;
    while i < |batches|
      invariant 0 <= i <= |batches|
      invariant |log| == i
      invariant t == Throttled(batches[..i], run)
      invariant forall j :: 0 <= j < i ==> log[j] == Entry(batches, j, run)
    {
      var ok := run(batches[i]);
      ThrottledStep(batches, i, run);
      t := Update(t, ok);
      var entry := BatchRun(batches[i], ok, t.sleep, i < |batches| - 1);
      assert entry == Entry(batches, i, run);
      log := log + [entry];
      i := i + 1;
    }
    assert batches[..i] == batches;
    last := t;
  }
}

=== FILE: kite_client.dfy ===
/** The vendor client's historical fetch: request windows of at most 2000
    days, called in order, with provider failures passed to the caller. The
    provider call itself is a parameter. */
module KiteClient {
  import opened Wrappers
  import opened Clock
  import opened Timeframes
  import opened TimeframeGrid
  import opened SymbolResolver
  import opened CandleStore

  const MaxKiteDays: int := 2000
  const MaxSpan: int := Days(MaxKiteDays)

  datatype Window = Window(from: Ts, to: Ts)

  /** The provider's historical-data call: instrument token, window and
      interval name to rows or a failure. */
  type Provider = (int, Ts, Ts, string) -> Result<seq<Candle>>

  /** The request windows of the loop in `fetch_candles`. */
  function ChunkWindows(start: Ts, end: Ts): (w: seq<Window>)
    ensures start >= end ==> w == []
    ensures start < end ==> |w| > 0 && w[0].from == start && w[|w| - 1].to == end
    ensures forall i :: 0 <= i < |w| - 1 ==> w[i].to == w[i + 1].from
    ensures forall i :: 0 <= i < |w| ==> w[i].from < w[i].to <= w[i].from + MaxSpan
    decreases end - start
  {
    if start < end then
      var e := if start + MaxSpan < end then start + MaxSpan else end;
      [Window(start, e)] + ChunkWindows(e, end)
    else []
  }

  /** The number of requests is the span divided by 2000 days, rounded up. */
  lemma {:induction false} ChunkCount(start: Ts, end: Ts)
    ensures |ChunkWindows(start, end)| == if start < end then (end - start + MaxSpan - 1) / MaxSpan else 0
    decreases end - start
  {
    if start < end {
      var e := if start + MaxSpan < end then start + MaxSpan else end;
      ChunkCount(e, end);
      CeilStep(end - start, MaxSpan);
    }
  }

  /** Every instant of `[start, end)` lies in exactly one window. */
  lemma {:induction false} WindowsCover(start: Ts, end: Ts, t: Ts)
    requires start <= t < end
    ensures exists i :: 0 <= i < |ChunkWindows(start, end)| &&
              ChunkWindows(start, end)[i].from <= t < ChunkWindows(start, end)[i].to
    ensures var w := ChunkWindows(start, end);
      forall i, j :: 0 <= i < |w| && 0 <= j < |w| && w[i].from <= t < w[i].to && w[j].from <= t < w[j].to ==> i == j
    decreases end - start
  {
    var w := ChunkWindows(start, end);
    if t >= w[0].to {
      WindowsCover(w[0].to, end, t);
      var rest := ChunkWindows(w[0].to, end);
      assert w == [w[0]] + rest;
      var i :| 0 <= i < |rest| && rest[i].from <= t < rest[i].to;
      assert w[i + 1] == rest[i];
    }
    WindowsDisjoint(start, end, t);
  }

  /** No instant lies in two windows. */
  lemma WindowsDisjoint(start: Ts, end: Ts, t: Ts)
    ensures var w := ChunkWindows(start, end);
      forall i, j :: 0 <= i < |w| && 0 <= j < |w| && w[i].from <= t < w[i].to && w[j].from <= t < w[j].to ==> i == j
  {
    var w := ChunkWindows(start, end);
    forall i, j | 0 <= i < |w| && 0 <= j < |w| && w[i].from <= t < w[i].to && w[j].from <= t < w[j].to
      ensures i == j
    {
      if i < j {
        WindowsOrdered(start, end, i, j);
      } else if j < i {
        WindowsOrdered(start, end, j, i);
      }
    }
  }

  /** A later window starts no earlier than an earlier one ends. */
  lemma {:induction false} WindowsOrdered(start: Ts, end: Ts, i: nat, j: nat)
    requires i < j < |ChunkWindows(start, end)|
    ensures ChunkWindows(start, end)[i].to <= ChunkWindows(start, end)[j].from
    decreases j - i
  {
    if i + 1 < j {
      WindowsOrdered(start, end, i + 1, j);
    }
  }

  /** `get_kite_interval`: the registry's vendor name, or ValueError. */
  function GetKiteInterval(timeframe: string): (r: Result<string>)
    ensures r.Ok? <==> timeframe in KiteMap
    ensures r.Ok? ==> r.value == KiteMap[timeframe] && |r.value| > 0
    ensures r.Err? ==> r.error == ValueError
  {
    if timeframe in Registry then Ok(Registry[timeframe].kite) else Err(ValueError)
  }

  /** The request loop: windows are fetched in order, a failure is raised at
      once, and the rows of all windows are concatenated. */
  function FetchWindows(provider: Provider, token: int, interval: string, ws: seq<Window>): (r: Result<seq<Candle>>)
    ensures r.Err? <==> exists i :: 0 <= i < |ws| && provider(token, ws[i].from, ws[i].to, interval).Err?
    ensures r.Err? ==> exists i :: 0 <= i < |ws| && provider(token, ws[i].from, ws[i].to, interval) == Err(r.error) &&
                                   forall j :: 0 <= j < i ==> provider(token, ws[j].from, ws[j].to, interval).Ok?
    ensures r.Ok? ==> forall c :: c in r.value <==>
              exists i :: 0 <= i < |ws| && provider(token, ws[i].from, ws[i].to, interval).Ok? &&
                          c in provider(token, ws[i].from, ws[i].to, interval).value
    decreases |ws|
  {
    if |ws| == 0 then Ok([])
    else
      var first := provider(token, ws[0].from, ws[0].to, interval);
      var rest := FetchWindows(provider, token, interval, ws[1..]);
      assert forall i :: 1 <= i < |ws| ==> ws[i] == ws[1..][i - 1];
      if first.Err? then first
      else if rest.Err? then
        var i :| 0 <= i < |ws[1..]| && provider(token, ws[1..][i].from, ws[1..][i].to, interval) == Err(rest.error) &&
                 forall j :: 0 <= j < i ==> provider(token, ws[1..][j].from, ws[1..][j].to, interval).Ok?;
        assert provider(token, ws[i + 1].from, ws[i + 1].to, interval) == Err(rest.error);
        rest
      else
        Ok(first.value + rest.value)
  }

  /** The part of `fetch_candles` after the instrument is resolved: look up
      the interval, then run the request loop over the chunk windows. */
  function FetchByToken(provider: Provider, token: int, timeframe: string, start: Ts, end: Ts): (r: Result<seq<Candle>>)
    ensures timeframe !in Registry ==> r == Err(ValueError)
    ensures timeframe in Registry && start >= end ==> r == Ok([])
    ensures r.Err? && timeframe in Registry ==>
              exists w :: w in ChunkWindows(start, end) && provider(token, w.from, w.to, Registry[timeframe].kite) == Err(r.error)
    ensures r.Ok? ==> forall c :: c in r.value ==>
              exists w :: w in ChunkWindows(start, end) && provider(token, w.from, w.to, Registry[timeframe].kite).Ok? &&
                          c in provider(token, w.from, w.to, Registry[timeframe].kite).value
  {
    var interval :- GetKiteInterval(timeframe);
    var ws := ChunkWindows(start, end);
    WindowsProvenance(provider, token, interval, ws);
    FetchWindows(provider, token, interval, ws)
  }

  /** The outcome of the request loop, told by window rather than by index:
      an error is some window's error, a candle came from some window. */
  lemma WindowsProvenance(provider: Provider, token: int, interval: string, ws: seq<Window>)
    ensures var r := FetchWindows(provider, token, interval, ws);
      && (r.Err? ==> exists w :: w in ws && provider(token, w.from, w.to, interval) == Err(r.error))
      && (r.Ok? ==> forall c :: c in r.value ==>
            exists w :: w in ws && provider(token, w.from, w.to, interval).Ok? &&
                        c in provider(token, w.from, w.to, interval).value)
  {
    var r := FetchWindows(provider, token, interval, ws);
    if r.Ok? {
      forall c | c in r.value
        ensures exists w :: w in ws && provider(token, w.from, w.to, interval).Ok? &&
                            c in provider(token, w.from, w.to, interval).value
      {
        var i :| 0 <= i < |ws| && provider(token, ws[i].from, ws[i].to, interval).Ok? &&
                 c in provider(token, ws[i].from, ws[i].to, interval).value;
        assert ws[i] in ws;
      }
    } else {
      var i :| 0 <= i < |ws| && provider(token, ws[i].from, ws[i].to, interval) == Err(r.error) &&
               forall j :: 0 <= j < i ==> provider(token, ws[j].from, ws[j].to, interval).Ok?;
      assert ws[i] in ws;
    }
  }

  /** `KiteClient.fetch_candles`: the symbol is resolved on the default
      exchange first, so an unknown or ambiguous symbol fails before any
      request is made. */
  function FetchCandles(instruments: seq<Instrument>, provider: Provider, symbol: string, timeframe: string,
                        start: Ts, end: Ts): (r: Result<seq<Candle>>)
    ensures ResolveSymbol(instruments, symbol, DefaultExchange).Err? ==>
              r == Err(ResolveSymbol(instruments, symbol, DefaultExchange).error)
    ensures ResolveSymbol(instruments, symbol, DefaultExchange).Ok? ==>
              r == FetchByToken(provider, ResolveSymbol(instruments, symbol, DefaultExchange).value, timeframe, start, end)
  {
    var token :- ResolveSymbol(instruments, symbol, DefaultExchange);
    FetchByToken(provider, token, timeframe, start, end)
  }
}

=== FILE: normalize.dfy ===
/** `normalize_shoonya_candles`: turn the vendor's raw candles into records
    for the `ohlcv` table, skipping every candle that cannot be read. */
module Normalize {
  import opened Wrappers
  import opened Clock
  import opened CivilDate
  import opened CandleStore

  /** A numeric field of a raw candle: missing, present but not a number, or a number. */
  datatype Field = Absent | Malformed | Num(n: int)

  /** One vendor candle: `time`, `into`, `inth`, `intl`, `intc`, `intv`. */
  datatype RawCandle = RawCandle(time: Option<string>, open: Field, high: Field, low: Field, close: Field,
                                 volume: Field)

  /** The timestamp of a candle: `DD-MM-YYYY HH:MM:SS` when the text holds a
      dash, otherwise `HH:MM:SS` on the base date, which must then be given. */
  function ParseCandleTime(text: string, baseDate: Option<Day>): (r: Option<Ts>)
    ensures '-' !in text && baseDate.None? ==> r.None?
    ensures '-' !in text && r.Some? ==> DayOf(r.value) == baseDate.value
  {
    if '-' in text then
      if |text| != 19 || text[10] != ' ' then None
      else
        match (ParseDmy(text[..10], '-'), ParseHms(text[11..]))
        case (Some((d, m, y)), Some(secs)) => Some(At(DayNumber(y, m, d), secs))
        case _ => None
    else if baseDate.None? then None
    else
      match ParseHms(text)
      case Some(secs) =>
        DayOfAt(baseDate.value, secs);
        Some(At(baseDate.value, secs))
      case None => None
  }

  /** The loop body for one candle; `None` is a skipped candle. */
  function NormalizeOne(c: RawCandle, symbol: string, timeframe: string, baseDate: Option<Day>): (r: Option<OhlcvRecord>)
    ensures c.time.None? || c.time == Some("") ==> r.None?
    ensures !c.open.Num? || !c.high.Num? || !c.low.Num? || !c.close.Num? || c.volume.Malformed? ==> r.None?
    ensures r.Some? ==> r.value.symbol == symbol && r.value.timeframe == timeframe
    ensures r.Some? ==> r.value.bar.open == c.open.n && r.value.bar.high == c.high.n &&
                        r.value.bar.low == c.low.n && r.value.bar.close == c.close.n
    ensures r.Some? ==> r.value.bar.volume == if c.volume.Absent? then 0 else c.volume.n
    ensures r.Some? ==> Some(r.value.candleTs) == ParseCandleTime(c.time.value, baseDate)
  {
    if c.time.None? || c.time.value == "" then None
    else
      var ts := ParseCandleTime(c.time.value, baseDate);
      if ts.None? then None
      else if !c.open.Num? || !c.high.Num? || !c.low.Num? || !c.close.Num? then None
      else if c.volume.Malformed? then None
      else
        var volume := if c.volume.Absent? then 0 else c.volume.n;
        Some(OhlcvRecord(symbol, timeframe, ts.value, Bar(c.open.n, c.high.n, c.low.n, c.close.n, volume)))
  }

  /** `normalize_shoonya_candles`: the records of the candles that could be
      read, in input order; a bad candle never aborts the rest. */
  function NormalizeCandles(raw: seq<RawCandle>, symbol: string, timeframe: string, baseDate: Option<Day>)
    : (r: seq<OhlcvRecord>)
    ensures |r| <= |raw|
    ensures forall x :: x in r ==> x.symbol == symbol && x.timeframe == timeframe
    ensures forall x :: x in r ==> exists i :: 0 <= i < |raw| && NormalizeOne(raw[i], symbol, timeframe, baseDate) == Some(x)
    ensures forall i :: 0 <= i < |raw| && NormalizeOne(raw[i], symbol, timeframe, baseDate).Some? ==>
              NormalizeOne(raw[i], symbol, timeframe, baseDate).value in r
    decreases |raw|
  {
    if |raw| == 0 then []
    else
      var rest := NormalizeCandles(raw[1..], symbol, timeframe, baseDate);
      assert forall i :: 1 <= i < |raw| ==> raw[i] == raw[1..][i - 1];
      match NormalizeOne(raw[0], symbol, timeframe, baseDate)
      case Some(x) => [x] + rest
      case None => rest
  }

  /** Normalising two batches one after the other is normalising their concatenation. */
  lemma {:induction false} NormalizeAppend(a: seq<RawCandle>, b: seq<RawCandle>, symbol: string, timeframe: string,
                                           baseDate: Option<Day>)
    ensures NormalizeCandles(a + b, symbol, timeframe, baseDate)
         == NormalizeCandles(a, symbol, timeframe, baseDate) + NormalizeCandles(b, symbol, timeframe, baseDate)
    decreases |a|
  {
    if |a| > 0 {
      assert (a + b)[1..] == a[1..] + b;
      NormalizeAppend(a[1..], b, symbol, timeframe, baseDate);
    } else {
      assert a + b == b;
    }
  }

  /** A candle that cannot be read is dropped and the others are kept, in order. */
  lemma BadCandleSkipped(a: seq<RawCandle>, c: RawCandle, b: seq<RawCandle>, symbol: string, timeframe: string,
                         baseDate: Option<Day>)
    requires NormalizeOne(c, symbol, timeframe, baseDate).None?
    ensures NormalizeCandles(a + [c] + b, symbol, timeframe, baseDate)
         == NormalizeCandles(a + b, symbol, timeframe, baseDate)
  {
    var ac := a + [c];
    NormalizeAppend(ac, b, symbol, timeframe, baseDate);
    NormalizeAppend(a, [c], symbol, timeframe, baseDate);
    NormalizeAppend(a, b, symbol, timeframe, baseDate);
    assert [c][1..] == [];
    assert NormalizeCandles([c], symbol, timeframe, baseDate) == [];
    assert NormalizeCandles(ac, symbol, timeframe, baseDate) == NormalizeCandles(a, symbol, timeframe, baseDate);
    assert a + [c] + b == ac + b;
  }

  /** A time of day on a given base date becomes that instant. */
  lemma TimeOfDayOnBaseDate(h: nat, m: nat, s: nat, base: Day)
    requires h < 24 && m < 60 && s < 60
    ensures ParseCandleTime(FormatHms(h, m, s), Some(base)) == Some(At(base, h * 3600 + m * 60 + s))
  {
    var text := FormatHms(h, m, s);
    HmsRoundTrip(h, m, s);
    assert forall i :: 0 <= i < |text| ==> text[i] != '-';
  }

  /** A full `DD-MM-YYYY HH:MM:SS` stamp becomes that instant, whatever the base date. */
  lemma FullStampIgnoresBase(y: nat, mo: nat, d: nat, h: nat, mi: nat, s: nat, base: Option<Day>)
    requires ValidDate(y, mo, d) && h < 24 && mi < 60 && s < 60
    ensures ParseCandleTime(FormatDmy(y, mo, d, '-') + " " + FormatHms(h, mi, s), base)
         == Some(At(DayNumber(y, mo, d), h * 3600 + mi * 60 + s))
  {
    var text := FormatDmy(y, mo, d, '-') + " " + FormatHms(h, mi, s);
    assert text[2] == '-';
    assert text[..10] == FormatDmy(y, mo, d, '-');
    assert text[11..] == FormatHms(h, mi, s);
    DmyRoundTrip(y, mo, d, '-');
    HmsRoundTrip(h, mi, s);
  }
}

=== FILE: option_chain.dfy ===
/** The five-minute option-chain capture: the slot every quote of one run is
    filed under, the capture's own market-hours test, and the assembly of
    quote rows for `option_chain_intraday`. Broker calls and the instrument
    queries are parameters. */
module OptionChain {
  import opened Wrappers
  import opened Clock
  import opened Timeframes
  import opened TimeframeGrid
  import opened CandleStore
  import opened MarketGuards

  const IntervalMinutes: int := 5

  const Underlyings: seq<string> := ["NIFTY", "BANKNIFTY"]

  /** `round_to_5m`: the same hour, the minute floored to a multiple of five,
      seconds cleared. */
  function RoundTo5m(t: Ts): (r: Ts)
    ensures r <= t && t - r < Minutes(IntervalMinutes)
    ensures SecondOfMinute(r) == 0 && MinuteOfHour(r) % IntervalMinutes == 0
    ensures t - t % SecondsPerHour == r - r % SecondsPerHour
  {
    AlignFacts(t, IntervalMinutes);
    t - t % SecondsPerHour + ((MinuteOfHour(t) / IntervalMinutes) * IntervalMinutes) * SecondsPerMinute
  }

  /** The capture rounds exactly as the ingestor aligns the 5M timeframe. */
  lemma RoundTo5mIsAlign5M(t: Ts)
    ensures AlignToTimeframe(t, "5M") == Ok(RoundTo5m(t))
  {
  }

  lemma RoundTo5mIdempotent(t: Ts)
    ensures RoundTo5m(RoundTo5m(t)) == RoundTo5m(t)
  {
    RoundTo5mIsAlign5M(t);
    RoundTo5mIsAlign5M(RoundTo5m(t));
    AlignIdempotent(t, "5M");
  }

  /** The capture's `is_market_open`: 09:15 to 15:30 inclusive, on any day. */
  function ChainMarketOpen(now: Ts): (open: bool)
    ensures open <==> MarketOpen <= SecondOfDay(now) <= MarketClose
  {
    MarketOpen <= SecondOfDay(now) && SecondOfDay(now) <= MarketClose
  }

  /** Unlike the scheduler's guard, the capture runs on a weekend morning. */
  lemma ChainIgnoresWeekday(d: Day, s: int)
    requires IsWeekend(d) && MarketOpen <= s <= MarketClose
    ensures ChainMarketOpen(At(d, s)) && !IsMarketOpen(At(d, s))
  {
    DayOfAt(d, s);
  }

  /** On a weekday the two market-hours tests agree. */
  lemma ChainAgreesOnWeekdays(now: Ts)
    requires !IsWeekend(DayOf(now))
    ensures ChainMarketOpen(now) == IsMarketOpen(now)
  {
  }

  /** `get_spot_price`: the index quote symbol of an underlying. */
  function SpotSymbol(underlying: string): (r: Result<string>)
    ensures r.Ok? <==> underlying in Underlyings
    ensures r.Err? ==> r.error == ValueError
  {
    if underlying == "NIFTY" then Ok("NSE:NIFTY 50")
    else if underlying == "BANKNIFTY" then Ok("NSE:NIFTY BANK")
    else Err(ValueError)
  }

  datatype OptionInstrument = OptionInstrument(tradingsymbol: string, strike: int, optionType: string)

  /** One `ltp` answer: last price, and open interest and volume when sent. */
  datatype Quote = Quote(lastPrice: int, oi: Option<int>, volume: Option<int>)

  datatype ChainKey = ChainKey(ts: Ts, underlying: string, expiry: Day, strike: int, optionType: string)

  datatype ChainQuote = ChainQuote(ltp: int, oi: Option<int>, volume: Option<int>, spot: int)

  type ChainRow = Entry<ChainKey, ChainQuote>

  type ChainStore = map<ChainKey, ChainQuote>

  /** The quote key of a contract on the derivatives segment. */
  function QuoteKey(inst: OptionInstrument): string {
    "NFO:" + inst.tradingsymbol
  }

  function RowFor(ts: Ts, underlying: string, expiry: Day, inst: OptionInstrument, q: Quote, spot: int): ChainRow {
    Entry(ChainKey(ts, underlying, expiry, inst.strike, inst.optionType), ChainQuote(q.lastPrice, q.oi, q.volume, spot))
  }

  /** The row loop: one row per contract that received a quote, in contract
      order, all stamped with the same slot and spot price. */
  function BuildRows(ts: Ts, underlying: string, expiry: Day, instruments: seq<OptionInstrument>,
                     quotes: map<string, Quote>, spot: int): (rows: seq<ChainRow>)
    ensures |rows| <= |instruments|
    ensures forall row :: row in rows ==> row.key.ts == ts && row.key.underlying == underlying &&
                                          row.key.expiry == expiry && row.value.spot == spot
    ensures forall row :: row in rows <==>
              exists i :: 0 <= i < |instruments| && QuoteKey(instruments[i]) in quotes &&
                          row == RowFor(ts, underlying, expiry, instruments[i], quotes[QuoteKey(instruments[i])], spot)
    decreases |instruments|
  {
    if |instruments| == 0 then []
    else
      var rest := BuildRows(ts, underlying, expiry, instruments[1..], quotes, spot);
      assert forall i :: 1 <= i < |instruments| ==> instruments[i] == instruments[1..][i - 1];
      var inst := instruments[0];
      if QuoteKey(inst) in quotes then [RowFor(ts, underlying, expiry, inst, quotes[QuoteKey(inst)], spot)] + rest
      else rest
  }

  /** `insert_intraday_chain`: an empty list is a no-op; otherwise insert-if-absent
      on (ts, underlying, expiry, strike, option_type). */
  function InsertChain(store: ChainStore, rows: seq<ChainRow>): (r: ChainStore)
    ensures |rows| == 0 ==> r == store
    ensures r.Keys == store.Keys + KeysOf(rows)
    ensures forall k :: k in store ==> r[k] == store[k]
    ensures forall k :: k in r && k !in store ==> FirstValue(rows, k) == Some(r[k])
  {
    if |rows| == 0 then store else InsertIfAbsent(store, rows)
  }

  /** Capturing the same slot twice stores nothing new. */
  lemma InsertChainIdempotent(store: ChainStore, rows: seq<ChainRow>)
    ensures InsertChain(InsertChain(store, rows), rows) == InsertChain(store, rows)
  {
    if |rows| > 0 {
      InsertIdempotent(store, rows);
    }
  }

  /** What the capture reads for one underlying: its nearest expiry, the
      contracts of that expiry, their quotes and the index spot price. An
      empty quote is left out of `quotes`: the row loop's `if not q` skips it
      just as it skips a missing one. */
  datatype ChainSource = ChainSource(expiry: Option<Day>, instruments: seq<OptionInstrument>,
                                     quotes: map<string, Quote>, spot: int)

  /** The rows one underlying contributes to the slot `ts`: none without an
      expiry or without contracts. */
  function UnderlyingRows(ts: Ts, underlying: string, src: ChainSource): (rows: seq<ChainRow>)
    ensures forall row :: row in rows ==> row.key.ts == ts && row.key.underlying == underlying
    ensures forall i :: 0 <= i < |src.instruments| && src.expiry.Some? && QuoteKey(src.instruments[i]) in src.quotes ==>
              RowFor(ts, underlying, src.expiry.value, src.instruments[i], src.quotes[QuoteKey(src.instruments[i])],
                     src.spot) in rows
  {
    if src.expiry.None? || |src.instruments| == 0 then []
    else BuildRows(ts, underlying, src.expiry.value, src.instruments, src.quotes, src.spot)
  }

  /** Filing one underlying's rows adds only keys of that underlying and
      slot, and every one of its rows ends up keyed in the store. */
  lemma InsertUnderlying(store: ChainStore, ts: Ts, u: string, rows: seq<ChainRow>)
    requires forall row :: row in rows ==> row.key.ts == ts && row.key.underlying == u
    ensures forall k :: k in InsertChain(store, rows) && k !in store ==> k.ts == ts && k.underlying == u
    ensures forall row :: row in rows ==> row.key in InsertChain(store, rows)
  {
    var next := InsertChain(store, rows);
    forall k | k in next && k !in store
      ensures k.ts == ts && k.underlying == u
    {
      var i :| 0 <= i < |rows| && rows[i].key == k;
      assert rows[i] in rows;
    }
    forall row | row in rows
      ensures row.key in next
    {
      var i :| 0 <= i < |rows| && rows[i] == row;
      assert row.key in KeysOf(rows);
    }
  }

  /** What the capture leaves behind: the chain table, and the exception
      that ended the job, if any. */
  datatype Captured = Captured(store: ChainStore, error: Option<Error>)

  /** The reads of `underlyings[0]` to `underlyings[i]` all succeeded. */
  predicate ReadUpTo(underlyings: seq<string>, read: string -> Result<ChainSource>, i: int) {
    0 <= i < |underlyings| && forall j :: 0 <= j <= i ==> read(underlyings[j]).Ok?
  }

  /** The loop over the underlyings, in order. Each underlying's rows are
      inserted and committed before the next is read; a failing read (the
      expiry or contract query, `ltp`, or the spot quote) raises out of the
      loop, so the underlyings after it are never captured. */
  function CaptureEach(store: ChainStore, ts: Ts, underlyings: seq<string>, read: string -> Result<ChainSource>)
    : (r: Captured)
    ensures forall k :: k in store ==> k in r.store && r.store[k] == store[k]
    ensures r.error.None? <==> forall i :: 0 <= i < |underlyings| ==> read(underlyings[i]).Ok?
    ensures r.error.Some? ==>
              exists i :: 0 <= i < |underlyings| && read(underlyings[i]) == Err(r.error.value) &&
                          forall j :: 0 <= j < i ==> read(underlyings[j]).Ok?
    ensures forall k :: k in r.store && k !in store ==>
              k.ts == ts && exists i :: ReadUpTo(underlyings, read, i) && underlyings[i] == k.underlying
    ensures forall k :: k in r.store && k !in store ==>
              read(k.underlying).Ok? &&
              FirstValue(UnderlyingRows(ts, k.underlying, read(k.underlying).value), k) == Some(r.store[k])
    ensures forall i, row :: ReadUpTo(underlyings, read, i) && row in UnderlyingRows(ts, underlyings[i], read(underlyings[i]).value) ==>
              row.key in r.store
    decreases |underlyings|, 1
  {
    if |underlyings| == 0 then Captured(store, None)
    else
      match read(underlyings[0])
      case Err(e) => Captured(store, Some(e))
      case Ok(src) =>
        var next := InsertChain(store, UnderlyingRows(ts, underlyings[0], src));
        CaptureStepKeys(store, ts, underlyings, read);
        CaptureStepReads(store, ts, underlyings, read);
        CaptureEach(next, ts, underlyings[1..], read)
  }

  /** The first underlying's rows, filed before the rest of the loop runs. */
  function FirstFiled(store: ChainStore, ts: Ts, underlyings: seq<string>, read: string -> Result<ChainSource>): ChainStore
    requires |underlyings| > 0 && read(underlyings[0]).Ok?
  {
    InsertChain(store, UnderlyingRows(ts, underlyings[0], read(underlyings[0]).value))
  }

  /** One step of the loop, for the keys: what the first underlying adds
      and what the rest adds combine into the loop's key clauses. */
  lemma CaptureStepKeys(store: ChainStore, ts: Ts, underlyings: seq<string>, read: string -> Result<ChainSource>)
    requires |underlyings| > 0 && read(underlyings[0]).Ok?
    ensures var r := CaptureEach(FirstFiled(store, ts, underlyings, read), ts, underlyings[1..], read);
      && (forall k :: k in store ==> k in r.store && r.store[k] == store[k])
      && (forall k :: k in r.store && k !in store ==>
            k.ts == ts && exists i :: ReadUpTo(underlyings, read, i) && underlyings[i] == k.underlying)
      && (forall k :: k in r.store && k !in store ==>
            read(k.underlying).Ok? &&
            FirstValue(UnderlyingRows(ts, k.underlying, read(k.underlying).value), k) == Some(r.store[k]))
      && (forall i, row :: ReadUpTo(underlyings, read, i) && row in UnderlyingRows(ts, underlyings[i], read(underlyings[i]).value) ==>
            row.key in r.store)
    decreases |underlyings|, 0
  {
    var next := FirstFiled(store, ts, underlyings, read);
    InsertUnderlying(store, ts, underlyings[0], UnderlyingRows(ts, underlyings[0], read(underlyings[0]).value));
    ReadUpToShift(underlyings, read);
  }

  /** One step of the loop, for the error: the rest's error is the loop's. */
  lemma CaptureStepReads(store: ChainStore, ts: Ts, underlyings: seq<string>, read: string -> Result<ChainSource>)
    requires |underlyings| > 0 && read(underlyings[0]).Ok?
    ensures var r := CaptureEach(FirstFiled(store, ts, underlyings, read), ts, underlyings[1..], read);
      && (r.error.None? <==> forall i :: 0 <= i < |underlyings| ==> read(underlyings[i]).Ok?)
      && (r.error.Some? ==>
            exists i :: 0 <= i < |underlyings| && read(underlyings[i]) == Err(r.error.value) &&
                        forall j :: 0 <= j < i ==> read(underlyings[j]).Ok?)
    decreases |underlyings|, 0
  {
    var r := CaptureEach(FirstFiled(store, ts, underlyings, read), ts, underlyings[1..], read);
    ReadUpToShift(underlyings, read);
    if r.error.Some? {
      var i :| 0 <= i < |underlyings[1..]| && read(underlyings[1..][i]) == Err(r.error.value) &&
               forall j :: 0 <= j < i ==> read(underlyings[1..][j]).Ok?;
      assert read(underlyings[i + 1]) == Err(r.error.value);
      assert forall j :: 0 <= j < i + 1 ==> read(underlyings[j]).Ok? by {
        forall j | 0 <= j < i + 1 ensures read(underlyings[j]).Ok? {
          if j > 0 { assert underlyings[j] == underlyings[1..][j - 1]; }
        }
      }
    }
  }

  /** How the reads of a list split into its head and its tail. */
  lemma ReadUpToShift(underlyings: seq<string>, read: string -> Result<ChainSource>)
    requires |underlyings| > 0 && read(underlyings[0]).Ok?
    ensures forall i :: 0 <= i < |underlyings| - 1 ==>
              (ReadUpTo(underlyings[1..], read, i) <==> ReadUpTo(underlyings, read, i + 1))
    ensures ReadUpTo(underlyings, read, 0)
    ensures (forall i :: 0 <= i < |underlyings| ==> read(underlyings[i]).Ok?) <==>
              forall i :: 0 <= i < |underlyings[1..]| ==> read(underlyings[1..][i]).Ok?
  {
    assert forall i :: 1 <= i < |underlyings| ==> underlyings[i] == underlyings[1..][i - 1];
  }

  /** `capture_intraday_option_chain`: nothing outside market hours; otherwise
      NIFTY and then BANKNIFTY are filed under the current five-minute slot,
      without overwriting a row already captured. A failing read of NIFTY
      raises before anything is stored; a failing read of BANKNIFTY raises
      after the NIFTY rows are committed. */
  function CaptureChain(store: ChainStore, now: Ts, read: string -> Result<ChainSource>): (r: Captured)
    ensures !ChainMarketOpen(now) ==> r == Captured(store, None)
    ensures forall k :: k in store ==> k in r.store && r.store[k] == store[k]
    ensures forall k :: k in r.store && k !in store ==> k.ts == RoundTo5m(now) && k.underlying in Underlyings
    ensures forall k :: k in r.store && k !in store ==>
              read(k.underlying).Ok? &&
              FirstValue(UnderlyingRows(RoundTo5m(now), k.underlying, read(k.underlying).value), k) == Some(r.store[k])
    ensures ChainMarketOpen(now) && read("NIFTY").Err? ==> r == Captured(store, Some(read("NIFTY").error))
    ensures ChainMarketOpen(now) && read("NIFTY").Ok? ==>
              forall row :: row in UnderlyingRows(RoundTo5m(now), "NIFTY", read("NIFTY").value) ==> row.key in r.store
    ensures ChainMarketOpen(now) && read("NIFTY").Ok? && read("BANKNIFTY").Err? ==>
              r.error == Some(read("BANKNIFTY").error) &&
              forall k :: k in r.store && k !in store ==> k.underlying == "NIFTY"
    ensures ChainMarketOpen(now) && read("NIFTY").Ok? && read("BANKNIFTY").Ok? ==>
              r.error.None? &&
              forall row :: row in UnderlyingRows(RoundTo5m(now), "BANKNIFTY", read("BANKNIFTY").value) ==> row.key in r.store
  {
    if !ChainMarketOpen(now) then Captured(store, None)
    else
      var r := CaptureEach(store, RoundTo5m(now), Underlyings, read);
      assert ReadUpTo(Underlyings, read, 0) <==> read("NIFTY").Ok?;
      assert ReadUpTo(Underlyings, read, 1) <==> read("NIFTY").Ok? && read("BANKNIFTY").Ok?;
      r
  }
}

=== FILE: orchestrator.dfy ===
/** Incremental ingestion and the plain backfill runner.

    The candle fetch and "now" are parameters; the store passed in and
    returned is the `candles` table. */
module Orchestrator {
  import opened Wrappers
  import opened Clock
  import opened Timeframes
  import opened TimeframeGrid
  import opened CandleStore
  import opened GapDetector
  import opened Validator
  import opened JobRegistry
  import opened MarketGuards

  /** `fetch_candles(symbol, timeframe, start, end)`. */
  type Fetch = (string, string, Ts, Ts) -> Result<seq<Candle>>

  /** A window passed to the fetch. */
  datatype Request = Request(from: Ts, to: Ts)

  /** `DEFAULT_INTRADAY_LOOKBACK_MINUTES`: 10M has no entry. */
  const IntradayLookbackMinutes: map<string, int> := map["15M" := 7 * 24 * 60, "5M" := 3 * 24 * 60, "1M" := 24 * 60]

  /** `resolve_start_ts`: one step after the newest stored candle; without
      one, ten years back for 1D and the lookback table otherwise. */
  function ResolveStartTs(last: Option<Ts>, now: Ts, timeframe: string): (r: Result<Ts>)
    ensures last.Some? && timeframe in Registry ==> r == Ok(last.value + Minutes(Registry[timeframe].minutes))
    ensures last.Some? && timeframe !in Registry ==> r == Err(ValueError)
    ensures last.None? && timeframe == Daily ==> r == Ok(now - Days(3650))
    ensures last.None? && timeframe == "15M" ==> r == Ok(now - Days(7))
    ensures last.None? && timeframe == "5M" ==> r == Ok(now - Days(3))
    ensures last.None? && timeframe == "1M" ==> r == Ok(now - Days(1))
    ensures last.None? && timeframe != Daily && timeframe !in {"15M", "5M", "1M"} ==> r == Err(KeyError)
  {
    if last.Some? then
      var step :- TimeframeDelta(timeframe);
      Ok(last.value + step)
    else if timeframe == Daily then
      Ok(now - Days(365 * 10))
    else if timeframe !in IntradayLookbackMinutes then
      Err(KeyError)
    else
      Ok(now - Minutes(IntradayLookbackMinutes[timeframe]))
  }

  /** 10M is a registered timeframe, but its first run raises: the lookback
      table has no entry for it. */
  lemma TenMinuteFirstRunRaises(now: Ts)
    ensures "10M" in Registry
    ensures ResolveStartTs(None, now, "10M") == Err(KeyError)
  {
  }

  /** `get_safe_now`: three days back for 1D; otherwise three candles back,
      and at least five minutes. An unknown id raises KeyError. */
  function SafeEnd(timeframe: string, now: Ts): (r: Result<Ts>)
    ensures timeframe == Daily ==> r == Ok(now - Days(3))
    ensures timeframe !in Registry ==> r == Err(KeyError)
    ensures IsIntraday(timeframe) ==> r.Ok? && r.value <= now - 3 * StepOf(timeframe) && r.value <= now - Minutes(5)
    ensures IsIntraday(timeframe) ==> r.Ok? && (r.value == now - 3 * StepOf(timeframe) || r.value == now - Minutes(5))
  {
    if timeframe == Daily then Ok(now - Days(3))
    else if timeframe !in Registry then Err(KeyError)
    else
      var m := Registry[timeframe].minutes;
      var buffer := if m * 3 > 5 then m * 3 else 5;
      Ok(now - Minutes(buffer))
  }

  /** The buffers are 5, 15, 30 and 45 minutes for 1M, 5M, 10M and 15M. */
  lemma SafeEndBuffers(now: Ts)
    ensures SafeEnd("1M", now) == Ok(now - Minutes(5))
    ensures SafeEnd("5M", now) == Ok(now - Minutes(15))
    ensures SafeEnd("10M", now) == Ok(now - Minutes(30))
    ensures SafeEnd("15M", now) == Ok(now - Minutes(45))
  {
  }

  /** The aligned `[start, end)` of one incremental run. */
  function IngestWindow(store: Store, symbol: string, timeframe: string, now: Ts): (r: Result<Request>)
    ensures timeframe !in Registry ==> r.Err?
    ensures r.Ok? ==> AlignToTimeframe(r.value.from, timeframe) == Ok(r.value.from)
    ensures r.Ok? ==> AlignToTimeframe(r.value.to, timeframe) == Ok(r.value.to)
    ensures r.Ok? && LastTs(store, symbol, timeframe).Some? ==>
              r.value.from == AlignToTimeframe(LastTs(store, symbol, timeframe).value + Minutes(Registry[timeframe].minutes), timeframe).value
  {
    var start :- ResolveStartTs(LastTs(store, symbol, timeframe), now, timeframe);
    var safe :- SafeEnd(timeframe, now);
    var from := AlignToTimeframe(start, timeframe).value;
    var to := AlignToTimeframe(safe, timeframe).value;
    AlignIdempotent(start, timeframe);
    AlignIdempotent(safe, timeframe);
    Ok(Request(from, to))
  }

  function GapRequests(gaps: seq<Gap>): (rs: seq<Request>)
    ensures |rs| == |gaps|
    ensures forall i :: 0 <= i < |gaps| ==> rs[i] == Request(gaps[i].start, gaps[i].end)
  {
    seq(|gaps|, i requires 0 <= i < |gaps| => Request(gaps[i].start, gaps[i].end))
  }

  /** The gap loop: each gap is fetched once, a failing fetch raises, and
      the non-empty results are appended in gap order. */
  function FetchGaps(fetch: Fetch, symbol: string, timeframe: string, gaps: seq<Gap>): (r: Result<seq<Candle>>)
    ensures r.Err? <==> exists i :: 0 <= i < |gaps| && fetch(symbol, timeframe, gaps[i].start, gaps[i].end).Err?
    ensures r.Ok? ==> forall c :: c in r.value <==>
              exists i :: 0 <= i < |gaps| && fetch(symbol, timeframe, gaps[i].start, gaps[i].end).Ok? &&
                          c in fetch(symbol, timeframe, gaps[i].start, gaps[i].end).value
    decreases |gaps|
  {
    if |gaps| == 0 then Ok([])
    else
      var first := fetch(symbol, timeframe, gaps[0].start, gaps[0].end);
      var rest := FetchGaps(fetch, symbol, timeframe, gaps[1..]);
      assert forall i :: 1 <= i < |gaps| ==> gaps[i] == gaps[1..][i - 1];
      if first.Err? then Err(first.error)
      else if rest.Err? then Err(rest.error)
      else Ok(first.value + rest.value)
  }

  /** A candle that some request of `requests` returned. */
  predicate FetchedBy(fetch: Fetch, symbol: string, timeframe: string, requests: seq<Request>, c: Candle) {
    exists q :: q in requests && fetch(symbol, timeframe, q.from, q.to).Ok? && c in fetch(symbol, timeframe, q.from, q.to).value
  }

  /** The intraday tail of `ingest_symbol`: re-fetch each gap detected in the
      first frame, append, then drop repeated timestamps and sort. Returns
      the gap requests and the merged batch. */
  function MergeWithGaps(fetch: Fetch, symbol: string, timeframe: string, w: Request, df: seq<Candle>)
    : (r: Result<(seq<Request>, seq<Candle>)>)
    requires fetch(symbol, timeframe, w.from, w.to) == Ok(df)
    ensures r.Ok? ==> r.value.0 == GapRequests(DetectGaps(TsList(df), timeframe))
    ensures r.Ok? ==> forall i, j :: 0 <= i < j < |r.value.1| ==> r.value.1[i].ts < r.value.1[j].ts
    ensures r.Ok? ==> TsSet(df) <= TsSet(r.value.1)
    ensures r.Ok? ==> forall c :: c in r.value.1 ==> FetchedBy(fetch, symbol, timeframe, [w] + r.value.0, c)
    ensures var extra := FetchGaps(fetch, symbol, timeframe, DetectGaps(TsList(df), timeframe));
      && (r.Ok? <==> extra.Ok?)
      && (r.Ok? ==> TsSet(r.value.1) == TsSet(df) + TsSet(extra.value))
      && (r.Ok? ==> forall c :: c in r.value.1 ==> FirstWithTs(df + extra.value, c.ts) == Some(c))
  {
    var gaps := DetectGaps(TsList(df), timeframe);
    var extra :- FetchGaps(fetch, symbol, timeframe, gaps);
    var merged := ValidateCandles(df + extra);
    MergedProvenance(fetch, symbol, timeframe, w, df, gaps, extra);
    TsSetAppend(df, extra);
    Ok((GapRequests(gaps), merged))
  }

  lemma TsSetAppend(a: seq<Candle>, b: seq<Candle>)
    ensures TsSet(a + b) == TsSet(a) + TsSet(b)
  {
    assert forall c :: c in a + b <==> c in a || c in b;
  }

  lemma MergedProvenance(fetch: Fetch, symbol: string, timeframe: string, w: Request, df: seq<Candle>,
                         gaps: seq<Gap>, extra: seq<Candle>)
    requires fetch(symbol, timeframe, w.from, w.to) == Ok(df)
    requires FetchGaps(fetch, symbol, timeframe, gaps) == Ok(extra)
    ensures forall c :: c in ValidateCandles(df + extra) ==> FetchedBy(fetch, symbol, timeframe, [w] + GapRequests(gaps), c)
  {
    var merged := ValidateCandles(df + extra);
    forall c | c in merged
      ensures FetchedBy(fetch, symbol, timeframe, [w] + GapRequests(gaps), c)
    {
      var k :| 0 <= k < |merged| && merged[k] == c;
      assert FirstWithTs(df + extra, c.ts) == Some(c);
      CandleProvenance(fetch, symbol, timeframe, w, df, gaps, extra, c);
    }
  }

  lemma CandleProvenance(fetch: Fetch, symbol: string, timeframe: string, w: Request, df: seq<Candle>,
                         gaps: seq<Gap>, extra: seq<Candle>, c: Candle)
    requires fetch(symbol, timeframe, w.from, w.to) == Ok(df)
    requires FetchGaps(fetch, symbol, timeframe, gaps) == Ok(extra)
    requires c in df + extra
    ensures FetchedBy(fetch, symbol, timeframe, [w] + GapRequests(gaps), c)
  {
    var requests := [w] + GapRequests(gaps);
    if c in df {
      assert requests[0] == w;
      assert w in requests;
    } else {
      assert c in extra;
      var i :| 0 <= i < |gaps| && fetch(symbol, timeframe, gaps[i].start, gaps[i].end).Ok? &&
               c in fetch(symbol, timeframe, gaps[i].start, gaps[i].end).value;
      assert requests[i + 1] == Request(gaps[i].start, gaps[i].end);
      assert requests[i + 1] in requests;
    }
  }

  /** The window of an incremental run resolves and is not empty, so the
      first fetch is made. */
  predicate Fetching(store: Store, symbol: string, timeframe: string, now: Ts) {
    IngestWindow(store, symbol, timeframe, now).Ok? &&
    IngestWindow(store, symbol, timeframe, now).value.from < IngestWindow(store, symbol, timeframe, now).value.to
  }

  /** What one `ingest_symbol` call did: the store after it, the windows it
      fetched in order, and the batch it wrote (empty when it wrote none). */
  datatype Ingested = Ingested(store: Store, requests: seq<Request>, written: seq<Candle>)

  /** `ingest_symbol`: resolve and align the window; stop when it is empty;
      fetch; stop on an empty frame; for intraday timeframes re-fetch every
      detected gap once, then drop repeated timestamps and sort; write. Any
      failure along the way raises out of the call. */
  function IngestSymbol(store: Store, symbol: string, timeframe: string, now: Ts, fetch: Fetch): (r: Result<Ingested>)
    ensures IngestWindow(store, symbol, timeframe, now).Err? ==> r.Err?
    ensures IngestWindow(store, symbol, timeframe, now).Ok? &&
            IngestWindow(store, symbol, timeframe, now).value.from >= IngestWindow(store, symbol, timeframe, now).value.to
            ==> r == Ok(Ingested(store, [], []))
    ensures r.Ok? && r.value.requests != [] ==>
              r.value.requests[0] == IngestWindow(store, symbol, timeframe, now).value &&
              r.value.requests[0].from < r.value.requests[0].to
    ensures r.Ok? && timeframe == Daily ==> |r.value.requests| <= 1
    ensures r.Ok? && timeframe != Daily ==>
              forall i, j :: 0 <= i < j < |r.value.written| ==> r.value.written[i].ts < r.value.written[j].ts
    ensures r.Ok? ==> r.value.store == WriteCandles(store, symbol, timeframe, r.value.written)
    ensures r.Ok? ==> forall c :: c in r.value.written ==> FetchedBy(fetch, symbol, timeframe, r.value.requests, c)
    ensures Fetching(store, symbol, timeframe, now) ==>
              var w := IngestWindow(store, symbol, timeframe, now).value;
              var first := fetch(symbol, timeframe, w.from, w.to);
              && (first.Err? ==> r == Err(first.error))
              && (first == Ok([]) ==> r == Ok(Ingested(store, [w], [])))
              && (first.Ok? && |first.value| > 0 && timeframe == Daily ==>
                    r == Ok(Ingested(WriteCandles(store, symbol, timeframe, first.value), [w], first.value)))
              && (first.Ok? && |first.value| > 0 && timeframe != Daily ==>
                    var m := MergeWithGaps(fetch, symbol, timeframe, w, first.value);
                    && (r.Ok? <==> m.Ok?)
                    && (r.Ok? ==> r.value.requests == [w] + m.value.0 && r.value.written == m.value.1))
  {
    var w :- IngestWindow(store, symbol, timeframe, now);
    if w.from >= w.to then Ok(Ingested(store, [], []))
    else
      var df :- fetch(symbol, timeframe, w.from, w.to);
      if |df| == 0 then Ok(Ingested(store, [w], []))
      else if timeframe == Daily then
        assert forall c :: c in df ==> FetchedBy(fetch, symbol, timeframe, [w], c) by {
          forall c | c in df ensures FetchedBy(fetch, symbol, timeframe, [w], c) {
            assert w in [w];
          }
        }
        Ok(Ingested(WriteCandles(store, symbol, timeframe, df), [w], df))
      else
        var m :- MergeWithGaps(fetch, symbol, timeframe, w, df);
        Ok(Ingested(WriteCandles(store, symbol, timeframe, m.1), [w] + m.0, m.1))
  }

  /** One iteration of the symbol loop: a symbol whose ingest raises is
      logged and leaves the store as it was. */
  function IngestOrSkip(store: Store, symbol: string, timeframe: string, now: Ts, fetch: Fetch): (r: Store)
    ensures IngestSymbol(store, symbol, timeframe, now, fetch).Err? ==> r == store
    ensures IngestSymbol(store, symbol, timeframe, now, fetch).Ok? ==> r == IngestSymbol(store, symbol, timeframe, now, fetch).value.store
    ensures forall k :: k in store ==> k in r && r[k] == store[k]
    ensures forall k :: k in r && k !in store ==> k.symbol == symbol && k.timeframe == timeframe
  {
    match IngestSymbol(store, symbol, timeframe, now, fetch)
    case Ok(done) => done.store
    case Err(_) => store
  }

  /** A gap re-fetch that fails makes `ingest_symbol` raise, so the loop
      skips the symbol and nothing of its first fetch is written either. */
  lemma GapFailureSkipsSymbol(store: Store, symbol: string, timeframe: string, now: Ts, fetch: Fetch,
                              df: seq<Candle>, i: int)
    requires IngestWindow(store, symbol, timeframe, now).Ok?
    requires var w := IngestWindow(store, symbol, timeframe, now).value;
      w.from < w.to && fetch(symbol, timeframe, w.from, w.to) == Ok(df)
    requires |df| > 0 && timeframe != Daily
    requires var gaps := DetectGaps(TsList(df), timeframe);
      0 <= i < |gaps| && fetch(symbol, timeframe, gaps[i].start, gaps[i].end).Err?
    ensures IngestSymbol(store, symbol, timeframe, now, fetch).Err?
    ensures IngestOrSkip(store, symbol, timeframe, now, fetch) == store
  {
    var gaps := DetectGaps(TsList(df), timeframe);
    assert FetchGaps(fetch, symbol, timeframe, gaps).Err?;
  }

  /** The loop of `run_ingestion_job` over its symbols, in order. */
  function IngestAll(store: Store, symbols: seq<string>, timeframe: string, now: Ts, fetch: Fetch): (r: Store)
    ensures forall k :: k in store ==> k in r && r[k] == store[k]
    ensures forall k :: k in r && k !in store ==> k.symbol in symbols && k.timeframe == timeframe
    decreases |symbols|
  {
    if |symbols| == 0 then store
    else IngestAll(IngestOrSkip(store, symbols[0], timeframe, now, fetch), symbols[1..], timeframe, now, fetch)
  }

  /** Running two lists of symbols one after the other is running their
      concatenation. */
  lemma {:induction false} IngestAllAppend(store: Store, a: seq<string>, b: seq<string>, timeframe: string, now: Ts, fetch: Fetch)
    ensures IngestAll(store, a + b, timeframe, now, fetch)
         == IngestAll(IngestAll(store, a, timeframe, now, fetch), b, timeframe, now, fetch)
    decreases |a|
  {
    if |a| > 0 {
      assert (a + b)[0] == a[0];
      assert (a + b)[1..] == a[1..] + b;
      IngestAllAppend(IngestOrSkip(store, a[0], timeframe, now, fetch), a[1..], b, timeframe, now, fetch);
    } else {
      assert a + b == b;
    }
  }

  /** Every candle a symbol's ingest wrote, from the store the symbols
      before it left, is still keyed in the store after the whole loop. */
  lemma IngestAllWrites(store: Store, symbols: seq<string>, timeframe: string, now: Ts, fetch: Fetch, i: nat)
    requires i < |symbols|
    ensures var res := IngestSymbol(IngestAll(store, symbols[..i], timeframe, now, fetch), symbols[i], timeframe, now, fetch);
      res.Ok? ==> forall c :: c in res.value.written ==>
        Key(symbols[i], timeframe, c.ts) in IngestAll(store, symbols, timeframe, now, fetch)
  {
    var before := IngestAll(store, symbols[..i], timeframe, now, fetch);
    var mid := IngestOrSkip(before, symbols[i], timeframe, now, fetch);
    assert symbols == symbols[..i] + [symbols[i]] + symbols[i + 1..];
    IngestAllAppend(store, symbols[..i] + [symbols[i]], symbols[i + 1..], timeframe, now, fetch);
    IngestAllAppend(store, symbols[..i], [symbols[i]], timeframe, now, fetch);
    assert IngestAll(before, [symbols[i]], timeframe, now, fetch) == mid;
  }

  /** A symbol that raises does not stop the loop: the symbols after it are
      processed from the store the earlier ones left. */
  lemma FailureIsolated(store: Store, before: seq<string>, failing: string, after: seq<string>,
                        timeframe: string, now: Ts, fetch: Fetch)
    requires IngestSymbol(IngestAll(store, before, timeframe, now, fetch), failing, timeframe, now, fetch).Err?
    ensures IngestAll(store, before + [failing] + after, timeframe, now, fetch)
         == IngestAll(IngestAll(store, before, timeframe, now, fetch), after, timeframe, now, fetch)
  {
    var mid := IngestAll(store, before, timeframe, now, fetch);
    IngestAllAppend(store, before + [failing], after, timeframe, now, fetch);
    IngestAllAppend(store, before, [failing], timeframe, now, fetch);
    assert IngestAll(mid, [failing], timeframe, now, fetch) == IngestAll(mid, [], timeframe, now, fetch);
  }

  /** `run_ingestion_job`: look the job up (an unknown job raises KeyError);
      an intraday job outside market hours does nothing; otherwise every
      symbol is ingested at the job's timeframe, each in isolation. */
  function RunIngestionJob(store: Store, jobName: string, symbols: seq<string>, now: Ts, fetch: Fetch): (r: Result<Store>)
    ensures jobName !in Jobs <==> r == Err(KeyError)
    ensures jobName in Jobs && Jobs[jobName].runType == Intraday && !IsMarketOpen(now) ==> r == Ok(store)
    ensures r.Ok? ==> forall k :: k in store ==> k in r.value && r.value[k] == store[k]
    ensures r.Ok? ==> forall k :: k in r.value && k !in store ==>
              k.symbol in symbols && k.timeframe == GetJobConfig(jobName).value.timeframe
    ensures jobName in Jobs && (Jobs[jobName].runType == Intraday ==> IsMarketOpen(now)) ==>
              r == Ok(IngestAll(store, symbols, GetJobConfig(jobName).value.timeframe, now, fetch))
  {
    var job :- GetJobConfig(jobName);
    if job.runType == Intraday && !IsMarketOpen(now) then Ok(store)
    else Ok(IngestAll(store, symbols, job.timeframe, now, fetch))
  }

  /** `run_backfill`: align both ends; nothing when the window is empty; one
      fetch; nothing when it returns no rows; otherwise the rows are written
      as fetched. Returns the store and the windows fetched. */
  function RunBackfill(store: Store, symbol: string, timeframe: string, start: Ts, end: Ts, fetch: Fetch)
    : (r: Result<(Store, seq<Request>)>)
    ensures timeframe != Daily && timeframe !in Registry ==> r == Err(ValueError)
    ensures r.Ok? ==> |r.value.1| <= 1
    ensures r.Ok? && |r.value.1| == 1 ==>
              r.value.1[0] == Request(AlignToTimeframe(start, timeframe).value, AlignToTimeframe(end, timeframe).value) &&
              r.value.1[0].from < r.value.1[0].to
    ensures r.Ok? && r.value.1 == [] ==> r.value.0 == store
    ensures r.Ok? ==> forall k :: k in store ==> k in r.value.0 && r.value.0[k] == store[k]
    ensures r.Ok? ==> forall k :: k in r.value.0 && k !in store ==>
              k.symbol == symbol && k.timeframe == timeframe && |r.value.1| == 1 &&
              fetch(symbol, timeframe, r.value.1[0].from, r.value.1[0].to).Ok? &&
              Candle(k.ts, r.value.0[k]) in fetch(symbol, timeframe, r.value.1[0].from, r.value.1[0].to).value
    ensures var from := AlignToTimeframe(start, timeframe);
      var to := AlignToTimeframe(end, timeframe);
      from.Ok? && from.value < to.value ==>
        var df := fetch(symbol, timeframe, from.value, to.value);
        && (df.Err? ==> r == Err(df.error))
        && (df == Ok([]) ==> r == Ok((store, [Request(from.value, to.value)])))
        && (df.Ok? && |df.value| > 0 ==>
              r == Ok((WriteCandles(store, symbol, timeframe, df.value), [Request(from.value, to.value)])))
  {
    var from :- AlignToTimeframe(start, timeframe);
    var to := AlignToTimeframe(end, timeframe).value;
    if from >= to then Ok((store, []))
    else
      var w := Request(from, to);
      var df :- fetch(symbol, timeframe, from, to);
      if |df| == 0 then Ok((store, [w]))
      else
        var next := WriteCandles(store, symbol, timeframe, df);
        assert forall k :: k in next && k !in store ==> Candle(k.ts, next[k]) in df by {
          forall k | k in next && k !in store
            ensures Candle(k.ts, next[k]) in df
          {
            var i :| 0 <= i < |df| && df[i] == Candle(k.ts, next[k]);
            assert df[i] in df;
          }
        }
        Ok((next, [w]))
  }
}

=== FILE: qa_job.dfy ===
/** The standalone QA job: it reads a YAML configuration and checks candle
    completeness for a list of symbols over a date range. For the daily
    timeframe it counts the trading days with no candle. For an intraday
    timeframe it counts the missing session slots. The job passes only when
    nothing counted is missing. */
module QaJob {
  import opened Wrappers
  import opened Clock
  import opened Sorting
  import opened Timeframes
  import opened TimeframeGrid
  import opened CandleStore
  import opened TradingCalendar
  import opened CivilDate
  import DailyBackfill

  /** A value as `yaml.safe_load` produces it. */
  datatype Value =
    | Str(s: string)
    | Int(i: int)
    | Bool(b: bool)
    | Null
    | Date(d: Day)
    | DateTime(t: Ts)
    | List(items: seq<Value>)
    | Map(entries: map<string, Value>)

  type Config = map<string, Value>

  /** Python truthiness: empty strings and containers, zero, False and None
      are false; dates and datetimes are always true. */
  predicate Truthy(v: Value) {
    match v
    case Str(s) => s != ""
    case Int(i) => i != 0
    case Bool(b) => b
    case Null => false
    case List(items) => items != []
    case Map(m) => m != map[]
    case _ => true
  }

  // ------------------------------------------------------------------
  // Config helpers
  // ------------------------------------------------------------------

  /** `normalize_symbols`: a `symbols` entry wins and must be a list; a lone
      `symbol` gives a one-element list; with neither, ValueError. */
  function NormalizeSymbols(cfg: Config): (r: Result<seq<Value>>)
    ensures "symbols" in cfg ==> (r.Ok? <==> cfg["symbols"].List?)
    ensures "symbols" in cfg && r.Ok? ==> r.value == cfg["symbols"].items
    ensures "symbols" !in cfg && "symbol" in cfg ==> r == Ok([cfg["symbol"]])
    ensures r.Err? <==> ("symbols" in cfg && !cfg["symbols"].List?) || ("symbols" !in cfg && "symbol" !in cfg)
    ensures r.Err? ==> r.error == ValueError
  {
    if "symbols" in cfg then
      match cfg["symbols"]
      case List(items) => Ok(items)
      case _ => Err(ValueError)
    else if "symbol" in cfg then Ok([cfg["symbol"]])
    else Err(ValueError)
  }

  /** The symbol names, when every entry of the list is a string. */
  function StringSymbols(values: seq<Value>): (r: Option<seq<string>>)
    ensures r.Some? <==> forall i :: 0 <= i < |values| ==> values[i].Str?
    ensures r.Some? ==> |r.value| == |values| && forall i :: 0 <= i < |values| ==> r.value[i] == values[i].s
  {
    if |values| == 0 then Some([])
    else
      match values[0]
      case Str(s) =>
        var rest := StringSymbols(values[1..]);
        if rest.None? then None else Some([s] + rest.value)
      case _ => None
  }

  /** `cfg.get(a) or cfg.get(b)`: the first key's value when it is truthy,
      otherwise the second key's value, otherwise None. */
  function Pick(cfg: Config, a: string, b: string): (v: Value)
    ensures a in cfg && Truthy(cfg[a]) ==> v == cfg[a]
    ensures !(a in cfg && Truthy(cfg[a])) ==> v == (if b in cfg then cfg[b] else Null)
  {
    if a in cfg && Truthy(cfg[a]) then cfg[a]
    else if b in cfg then cfg[b]
    else Null
  }

  /** `parse_date`: a datetime gives its date, a date is returned as is, a
      string is read as YYYY-MM-DD; anything else raises ValueError. */
  function ParseDate(v: Value): (r: Result<Day>)
    ensures v.DateTime? ==> r == Ok(DayOf(v.t))
    ensures v.Date? ==> r == Ok(v.d)
    ensures v.Str? ==> (r.Ok? <==> ParseYmd(v.s).Some?)
    ensures !(v.DateTime? || v.Date? || v.Str?) ==> r == Err(ValueError)
    ensures r.Err? ==> r.error == ValueError
  {
    match v
    case DateTime(t) => Ok(DayOf(t))
    case Date(d) => Ok(d)
    case Str(s) =>
      var p := ParseYmd(s);
      if p.None? then Err(ValueError) else Ok(DayNumber(p.value.0, p.value.1, p.value.2))
    case _ => Err(ValueError)
  }

  /** A date written as YYYY-MM-DD parses back to that date. */
  lemma ParseDateRoundTrip(y: nat, m: nat, d: nat)
    requires ValidDate(y, m, d)
    ensures ParseDate(Str(FormatYmd(y, m, d))) == Ok(DayNumber(y, m, d))
  {
    YmdRoundTrip(y, m, d);
  }

  /** Every value `parse_date` accepts is truthy, so a parsed bound is never
      one the intraday check would report as missing. */
  lemma ParsedIsTruthy(v: Value)
    requires ParseDate(v).Ok?
    ensures Truthy(v)
  {
    if v.Str? {
      assert ParseYmd(v.s).Some?;
    }
  }

  /** `HH:MM` with zero-padded fields, as seconds of the day. */
  function ParseHm(s: string): (r: Option<int>)
    ensures r.Some? ==> 0 <= r.value < SecondsPerDay && r.value % 60 == 0
  {
    if |s| != 5 || s[2] != ':' then None
    else
      var h := Field(s, 0, 2);
      var m := Field(s, 3, 2);
      if h.None? || m.None? || h.value >= 24 || m.value >= 60 then None
      else Some(h.value * 3600 + m.value * 60)
  }

  function FormatHm(h: nat, m: nat): string {
    Padded(h, 2) + ":" + Padded(m, 2)
  }

  lemma HmRoundTrip(h: nat, m: nat)
    requires h < 24 && m < 60
    ensures ParseHm(FormatHm(h, m)) == Some(h * 3600 + m * 60)
  {
    var t := FormatHm(h, m);
    assert t[0..2] == Padded(h, 2);
    assert t[3..5] == Padded(m, 2);
    ParsePadded(h, 2);
    ParsePadded(m, 2);
  }

  /** `time.fromisoformat` on a session bound: `HH:MM` or `HH:MM:SS` as
      seconds of the day; a malformed string raises ValueError and a
      non-string TypeError. */
  function ParseTimeOfDay(v: Value): (r: Result<int>)
    ensures r.Ok? ==> v.Str? && 0 <= r.value < SecondsPerDay
    ensures v.Str? ==> (r.Ok? <==> ParseHm(v.s).Some? || ParseHms(v.s).Some?)
    ensures v.Str? && r.Err? ==> r.error == ValueError
    ensures !v.Str? ==> r == Err(TypeError)
  {
    match v
    case Str(s) =>
      if ParseHm(s).Some? then Ok(ParseHm(s).value)
      else if ParseHms(s).Some? then Ok(ParseHms(s).value)
      else Err(ValueError)
    case _ => Err(TypeError)
  }

  /** `cfg["market"][key]` read as a time of day. */
  function MarketTime(cfg: Config, key: string): (r: Result<int>)
    ensures "market" !in cfg ==> r == Err(KeyError)
    ensures "market" in cfg && !cfg["market"].Map? ==> r == Err(TypeError)
    ensures "market" in cfg && cfg["market"].Map? && key !in cfg["market"].entries ==> r == Err(KeyError)
    ensures r.Ok? ==> "market" in cfg && cfg["market"].Map? && key in cfg["market"].entries &&
                      r == ParseTimeOfDay(cfg["market"].entries[key])
  {
    if "market" !in cfg then Err(KeyError)
    else
      match cfg["market"]
      case Map(m) => if key !in m then Err(KeyError) else ParseTimeOfDay(m[key])
      case _ => Err(TypeError)
  }

  /** `cfg.get("checks", {})`: an absent entry reads as an empty mapping, and
      calling `.get` on anything but a mapping raises AttributeError. */
  function Checks(cfg: Config): (r: Result<map<string, Value>>)
    ensures "checks" !in cfg ==> r == Ok(map[])
    ensures "checks" in cfg ==> (r.Ok? <==> cfg["checks"].Map?)
    ensures r.Ok? && "checks" in cfg ==> r.value == cfg["checks"].entries
    ensures r.Err? ==> r.error == AttributeError
  {
    if "checks" !in cfg then Ok(map[])
    else
      match cfg["checks"]
      case Map(m) => Ok(m)
      case _ => Err(AttributeError)
  }

  /** `checks.get(key, default)` read for its truth value. */
  function Flag(checks: map<string, Value>, key: string, default: bool): bool {
    if key in checks then Truthy(checks[key]) else default
  }

  // ------------------------------------------------------------------
  // Daily QA
  // ------------------------------------------------------------------

  /** The trading days of [d, end] on which the symbol has no candle in
      [00:00, 00:00 + 1 day). */
  function DailyMissingDays(store: Store, table: HolidayTable, symbol: string, timeframe: string, d: Day, end: Day)
    : (n: nat)
    ensures d > end ==> n == 0
    ensures d <= end ==> n <= end - d + 1
    decreases end - d
  {
    if d > end then 0
    else
      var rest := DailyMissingDays(store, table, symbol, timeframe, d + 1, end);
      if IsTradingDay(table, DefaultExchange, d) &&
         ScanHalfOpen(store, symbol, timeframe, Midnight(d), Midnight(d) + SecondsPerDay) == []
      then 1 + rest
      else rest
  }

  /** The day window is empty exactly when no stored candle falls on that date. */
  lemma DayWindowEmptyIff(store: Store, symbol: string, timeframe: string, d: Day)
    ensures ScanHalfOpen(store, symbol, timeframe, Midnight(d), Midnight(d) + SecondsPerDay) == []
        <==> d !in DatesOf(store, symbol, timeframe)
  {
    var w := ScanHalfOpen(store, symbol, timeframe, Midnight(d), Midnight(d) + SecondsPerDay);
    if w != [] {
      assert w[0] in w;
      DayWindow(w[0], d);
    }
    if d in DatesOf(store, symbol, timeframe) {
      var t :| t in TsOf(store, symbol, timeframe) && DayOf(t) == d;
      DayWindow(t, d);
      assert t in w;
    }
  }

  /** The trading days of [lo, hi] with no candle on their date. */
  function DaysWithoutCandle(store: Store, table: HolidayTable, symbol: string, timeframe: string, lo: Day, hi: Day)
    : set<Day>
  {
    set d | lo <= d <= hi && IsTradingDay(table, DefaultExchange, d) && d !in DatesOf(store, symbol, timeframe)
  }

  /** The daily count is the number of trading days of the range with no
      candle on their date. */
  lemma {:induction false} DailyMissingDaysCounts(store: Store, table: HolidayTable, symbol: string, timeframe: string,
                                                  d: Day, end: Day)
    ensures DailyMissingDays(store, table, symbol, timeframe, d, end) == |DaysWithoutCandle(store, table, symbol, timeframe, d, end)|
    decreases end - d
  {
    var s := DaysWithoutCandle(store, table, symbol, timeframe, d, end);
    if d > end {
      assert s == {};
    } else {
      DailyMissingDaysCounts(store, table, symbol, timeframe, d + 1, end);
      DayWindowEmptyIff(store, symbol, timeframe, d);
      var rest := DaysWithoutCandle(store, table, symbol, timeframe, d + 1, end);
      if IsTradingDay(table, DefaultExchange, d) && d !in DatesOf(store, symbol, timeframe) {
        assert s == rest + {d};
        assert d !in rest;
      } else {
        assert s == rest;
      }
    }
  }

  /** A symbol passes the daily QA exactly when every trading day of the
      range has a candle on its date. */
  predicate DailyComplete(store: Store, table: HolidayTable, symbol: string, timeframe: string, start: Day, end: Day) {
    forall d :: start <= d <= end && IsTradingDay(table, DefaultExchange, d) ==> d in DatesOf(store, symbol, timeframe)
  }

  lemma DailyMissingDaysZeroIff(store: Store, table: HolidayTable, symbol: string, timeframe: string, start: Day, end: Day)
    ensures DailyMissingDays(store, table, symbol, timeframe, start, end) == 0
        <==> DailyComplete(store, table, symbol, timeframe, start, end)
  {
    DailyMissingDaysCounts(store, table, symbol, timeframe, start, end);
    var s := DaysWithoutCandle(store, table, symbol, timeframe, start, end);
    if !DailyComplete(store, table, symbol, timeframe, start, end) {
      var d :| start <= d <= end && IsTradingDay(table, DefaultExchange, d) && d !in DatesOf(store, symbol, timeframe);
      assert d in s;
    }
  }

  /** The QA count of a 1D pair equals the number of days the daily backfill
      agent finds missing over the same range. */
  lemma DailyQaAgreesWithBackfill(store: Store, table: HolidayTable, symbol: string, start: Day, end: Day)
    ensures DailyMissingDays(store, table, symbol, Daily, start, end)
         == |DailyBackfill.MissingTradingDays(store, table, symbol, start, end)|
  {
    var m := DailyBackfill.MissingTradingDays(store, table, symbol, start, end);
    DailyMissingDaysCounts(store, table, symbol, Daily, start, end);
    StrictlyIncreasingCard(m);
    assert (set x | x in m) == DaysWithoutCandle(store, table, symbol, Daily, start, end);
  }

  /** Every symbol's daily count, folded into one verdict. */
  function AllDailyPass(symbols: seq<string>, store: Store, table: HolidayTable, timeframe: string, start: Day, end: Day)
    : (ok: bool)
    ensures ok <==> forall i :: 0 <= i < |symbols| ==> DailyComplete(store, table, symbols[i], timeframe, start, end)
  {
    if |symbols| == 0 then true
    else
      DailyMissingDaysZeroIff(store, table, symbols[0], timeframe, start, end);
      var rest := AllDailyPass(symbols[1..], store, table, timeframe, start, end);
      assert forall i :: 1 <= i < |symbols| ==> symbols[i] == symbols[1..][i - 1];
      DailyMissingDays(store, table, symbols[0], timeframe, start, end) == 0 && rest
  }

  /** `run_daily_completeness_check` after the symbols and the timeframe are
      read: both range bounds must parse, then the job passes exactly when
      every symbol has a candle on every trading day of the range. */
  function DailyCheck(cfg: Config, symbols: seq<string>, timeframe: string, store: Store, table: HolidayTable)
    : (r: Result<bool>)
    ensures r.Ok? <==> ParseDate(Pick(cfg, "start_date", "start")).Ok? && ParseDate(Pick(cfg, "end_date", "end")).Ok?
    ensures r.Err? ==> r.error == ValueError
    ensures r.Ok? ==>
              var start := ParseDate(Pick(cfg, "start_date", "start")).value;
              var end := ParseDate(Pick(cfg, "end_date", "end")).value;
              (r.value <==> forall i :: 0 <= i < |symbols| ==> DailyComplete(store, table, symbols[i], timeframe, start, end))
  {
    var start :- ParseDate(Pick(cfg, "start_date", "start"));
    var end :- ParseDate(Pick(cfg, "end_date", "end"));
    Ok(AllDailyPass(symbols, store, table, timeframe, start, end))
  }

  // ------------------------------------------------------------------
  // Intraday QA
  // ------------------------------------------------------------------

  /** `expected_intraday_candles`: 1D is rejected with ValueError; the step
      comes from the registry (KeyError for an unknown id, TypeError for an
      unhashable one); the slots run from the open strictly below the close. */
  function ExpectedCandles(d: Day, timeframe: Value, open: int, close: int): (r: Result<seq<Ts>>)
    ensures timeframe == Str(Daily) ==> r == Err(ValueError)
    ensures timeframe.List? || timeframe.Map? ==> r == Err(TypeError)
    ensures r.Ok? <==> timeframe.Str? && IsIntraday(timeframe.s)
    ensures r.Err? ==> r.error == SessionError(timeframe, open, close)
    ensures r.Ok? && timeframe.Str? && IsIntraday(timeframe.s) ==>
              && StrictlyIncreasing(r.value)
              && (r.value == [] <==> open >= close)
              && forall t :: t in r.value <==> OnSessionGrid(t, d, StepOf(timeframe.s), open, close)
  {
    if timeframe == Str(Daily) then Err(ValueError)
    else if timeframe.List? || timeframe.Map? then Err(TypeError)
    else if !(timeframe.Str? && timeframe.s in Registry) then Err(KeyError)
    else
      var step := Minutes(Registry[timeframe.s].minutes);
      SessionGridMembers(d, step, open, close);
      Ok(SessionGrid(d, step, open, close))
  }

  /** The exception one trading day raises, when it raises: the timeframe
      lookup's, or IndexError for `expected[0]` of an empty session. */
  function SessionError(timeframe: Value, open: int, close: int): Error {
    if timeframe == Str(Daily) then ValueError
    else if timeframe.List? || timeframe.Map? then TypeError
    else if !(timeframe.Str? && IsIntraday(timeframe.s)) then KeyError
    else IndexError
  }

  /** `sorted(set(expected) - set(actual))` with `actual` fetched over
      [expected[0], close): the expected slots with no stored candle. */
  function MissingSlots(store: Store, symbol: string, timeframe: string, expected: seq<Ts>, closeTs: Ts): (m: seq<Ts>)
    requires |expected| > 0 && StrictlyIncreasing(expected)
    requires forall t :: t in expected ==> t < closeTs
    ensures StrictlyIncreasing(m)
    ensures forall t :: t in m <==> t in expected && t !in TsOf(store, symbol, timeframe)
    ensures m == [] <==> forall t :: t in expected ==> t in TsOf(store, symbol, timeframe)
    ensures |m| == |expected| <==> forall t :: t in expected ==> t !in TsOf(store, symbol, timeframe)
  {
    var actual := ScanHalfOpen(store, symbol, timeframe, expected[0], closeTs);
    FetchWindowCoversSlots(store, symbol, timeframe, expected, closeTs);
    SlotSetFacts(expected, TsOf(store, symbol, timeframe));
    Ascending(set t | t in expected && t !in actual)
  }

  /** Every expected slot lies in the fetch window, so "not fetched" and
      "not stored" agree on the slots. */
  lemma FetchWindowCoversSlots(store: Store, symbol: string, timeframe: string, expected: seq<Ts>, closeTs: Ts)
    requires |expected| > 0 && StrictlyIncreasing(expected)
    requires forall t :: t in expected ==> t < closeTs
    ensures (set t | t in expected && t !in ScanHalfOpen(store, symbol, timeframe, expected[0], closeTs))
         == (set t | t in expected && t !in TsOf(store, symbol, timeframe))
  {
    forall t | t in expected
      ensures expected[0] <= t
    {
      var i :| 0 <= i < |expected| && expected[i] == t;
    }
  }

  /** Removing stored times from a strictly increasing slot list leaves at
      most as many slots, and all of them only when none was stored. */
  lemma SlotSetFacts(expected: seq<Ts>, stored: set<Ts>)
    requires |expected| > 0 && StrictlyIncreasing(expected)
    ensures var gone := set t | t in expected && t !in stored;
      && |gone| <= |expected|
      && (gone == {} <==> forall t :: t in expected ==> t in stored)
      && (|gone| == |expected| <==> forall t :: t in expected ==> t !in stored)
  {
    var gone := set t | t in expected && t !in stored;
    var all := set t | t in expected;
    StrictlyIncreasingCard(expected);
    SubsetCard(gone, all);
    if !(forall t :: t in expected ==> t !in stored) {
      var t :| t in expected && t in stored;
      assert all == gone + (all - gone);
      assert t in all - gone;
    } else {
      assert gone == all;
    }
    if !(forall t :: t in expected ==> t in stored) {
      var t :| t in expected && t !in stored;
      assert t in gone;
    }
  }

  /** What one trading day adds to a symbol's total: nothing for a complete
      day, nothing for a wholly absent day when `allow_missing_days` is set,
      otherwise every missing slot. */
  function CountedMissing(missing: nat, expected: nat, allowMissingDays: bool): nat {
    if missing == 0 then 0
    else if allowMissingDays && missing == expected then 0
    else missing
  }

  /** The total missing-candle count of one symbol over the trading days of
      [d, end], or the exception the first trading day raises. */
  function SymbolTotal(store: Store, table: HolidayTable, symbol: string, timeframe: Value, d: Day, end: Day,
                       open: int, close: int, allowMissingDays: bool): (r: Result<nat>)
    ensures r.Err? <==> TradingDaysBetween(table, DefaultExchange, d, end) != [] &&
                        !(timeframe.Str? && IsIntraday(timeframe.s) && open < close)
    ensures r.Err? ==> r.error == SessionError(timeframe, open, close)
    decreases end - d
  {
    if d > end then Ok(0)
    else
      TradingDaysStep(table, d, end);
      if !IsTradingDay(table, DefaultExchange, d) then
        SymbolTotal(store, table, symbol, timeframe, d + 1, end, open, close, allowMissingDays)
      else
        var expected := ExpectedCandles(d, timeframe, open, close);
        if expected.Err? then Err(expected.error)
        else if |expected.value| == 0 then Err(IndexError)
        else
          // A day that raised nothing shows the later days raise nothing either.
          var rest := SymbolTotal(store, table, symbol, timeframe, d + 1, end, open, close, allowMissingDays);
          Ok(DayCount(store, symbol, timeframe.s, d, open, close, allowMissingDays) + rest.value)
  }

  /** [d, end] holds a trading day exactly when d is one or [d + 1, end] holds one. */
  lemma TradingDaysStep(table: HolidayTable, d: Day, end: Day)
    requires d <= end
    ensures TradingDaysBetween(table, DefaultExchange, d, end) != []
        <==> IsTradingDay(table, DefaultExchange, d) || TradingDaysBetween(table, DefaultExchange, d + 1, end) != []
  {
    var all := TradingDaysBetween(table, DefaultExchange, d, end);
    var later := TradingDaysBetween(table, DefaultExchange, d + 1, end);
    if all != [] {
      assert all[0] in all;
      if all[0] != d {
        assert all[0] in later;
      }
    }
    if IsTradingDay(table, DefaultExchange, d) {
      assert d in all;
    }
    if later != [] {
      assert later[0] in later;
      assert later[0] in all;
    }
  }

  /** One trading day is acceptable when every session slot has a candle or,
      with `allow_missing_days`, when none has. */
  ghost predicate DayAcceptable(store: Store, symbol: string, timeframe: string, d: Day, open: int, close: int,
                          allowMissingDays: bool)
    requires IsIntraday(timeframe)
  {
    || (forall t :: OnSessionGrid(t, d, StepOf(timeframe), open, close) ==> t in TsOf(store, symbol, timeframe))
    || (allowMissingDays &&
        forall t :: OnSessionGrid(t, d, StepOf(timeframe), open, close) ==> t !in TsOf(store, symbol, timeframe))
  }

  ghost predicate IntradayComplete(store: Store, table: HolidayTable, symbol: string, timeframe: string, start: Day, end: Day,
                             open: int, close: int, allowMissingDays: bool)
    requires IsIntraday(timeframe)
  {
    forall d :: start <= d <= end && IsTradingDay(table, DefaultExchange, d) ==>
      DayAcceptable(store, symbol, timeframe, d, open, close, allowMissingDays)
  }

  /** The count one trading day adds to the symbol's total: the expected
      slots, the missing ones among them, and `allow_missing_days` applied.
      It is zero exactly when the day is acceptable. */
  function DayCount(store: Store, symbol: string, timeframe: string, d: Day, open: int, close: int,
                    allowMissingDays: bool): (n: nat)
    requires IsIntraday(timeframe) && open < close
    ensures n == 0 <==> DayAcceptable(store, symbol, timeframe, d, open, close, allowMissingDays)
  {
    var expected := ExpectedCandles(d, Str(timeframe), open, close).value;
    var missing := MissingSlots(store, symbol, timeframe, expected, At(d, close));
    DayCountFacts(store, symbol, timeframe, d, open, close, allowMissingDays, expected, missing);
    CountedMissing(|missing|, |expected|, allowMissingDays)
  }

  lemma DayCountFacts(store: Store, symbol: string, timeframe: string, d: Day, open: int, close: int,
                      allowMissingDays: bool, expected: seq<Ts>, missing: seq<Ts>)
    requires IsIntraday(timeframe) && open < close
    requires expected == ExpectedCandles(d, Str(timeframe), open, close).value
    requires missing == MissingSlots(store, symbol, timeframe, expected, At(d, close))
    ensures CountedMissing(|missing|, |expected|, allowMissingDays) == 0 <==>
            DayAcceptable(store, symbol, timeframe, d, open, close, allowMissingDays)
  {
    var ts := TsOf(store, symbol, timeframe);
    var step := StepOf(timeframe);
    assert |expected| > 0;
    assert (forall t :: t in expected ==> t in ts) <==> (forall t :: OnSessionGrid(t, d, step, open, close) ==> t in ts);
    assert (forall t :: t in expected ==> t !in ts) <==> (forall t :: OnSessionGrid(t, d, step, open, close) ==> t !in ts);
    CountedZeroIff(expected, missing, ts, allowMissingDays);
  }

  /** The day's count is zero exactly when no slot is missing, or every slot
      is and missing days are allowed. */
  lemma CountedZeroIff(expected: seq<Ts>, missing: seq<Ts>, ts: set<Ts>, allowMissingDays: bool)
    requires |expected| > 0
    requires missing == [] <==> forall t :: t in expected ==> t in ts
    requires |missing| == |expected| <==> forall t :: t in expected ==> t !in ts
    ensures CountedMissing(|missing|, |expected|, allowMissingDays) == 0 <==>
            (forall t :: t in expected ==> t in ts) || (allowMissingDays && forall t :: t in expected ==> t !in ts)
  {
    assert expected[0] in expected;
  }

  /** A symbol's total is zero exactly when every trading day of the range
      is acceptable. */
  lemma {:induction false} SymbolTotalZeroIff(store: Store, table: HolidayTable, symbol: string, timeframe: string,
                                              d: Day, end: Day, open: int, close: int, allowMissingDays: bool)
    requires IsIntraday(timeframe) && open < close
    ensures SymbolTotal(store, table, symbol, Str(timeframe), d, end, open, close, allowMissingDays) == Ok(0)
        <==> IntradayComplete(store, table, symbol, timeframe, d, end, open, close, allowMissingDays)
    decreases end - d
  {
    if d <= end {
      SymbolTotalZeroIff(store, table, symbol, timeframe, d + 1, end, open, close, allowMissingDays);
      IntradayCompleteStep(store, table, symbol, timeframe, d, end, open, close, allowMissingDays);
      SymbolTotalUnfold(store, table, symbol, timeframe, d, end, open, close, allowMissingDays);
    }
  }

  /** One step of the day loop on a well-formed intraday configuration. */
  lemma SymbolTotalUnfold(store: Store, table: HolidayTable, symbol: string, timeframe: string, d: Day, end: Day,
                          open: int, close: int, allowMissingDays: bool)
    requires IsIntraday(timeframe) && open < close && d <= end
    ensures SymbolTotal(store, table, symbol, Str(timeframe), d + 1, end, open, close, allowMissingDays).Ok?
    ensures !IsTradingDay(table, DefaultExchange, d) ==>
              (SymbolTotal(store, table, symbol, Str(timeframe), d, end, open, close, allowMissingDays) ==
               SymbolTotal(store, table, symbol, Str(timeframe), d + 1, end, open, close, allowMissingDays))
    ensures IsTradingDay(table, DefaultExchange, d) ==>
              && SymbolTotal(store, table, symbol, Str(timeframe), d, end, open, close, allowMissingDays).Ok?
              && SymbolTotal(store, table, symbol, Str(timeframe), d, end, open, close, allowMissingDays).value
              == DayCount(store, symbol, timeframe, d, open, close, allowMissingDays)
                 + SymbolTotal(store, table, symbol, Str(timeframe), d + 1, end, open, close, allowMissingDays).value
  {
    if IsTradingDay(table, DefaultExchange, d) {
      var e := ExpectedCandles(d, Str(timeframe), open, close);
      assert e.Ok? && e.value != [];
    }
  }

  lemma IntradayCompleteStep(store: Store, table: HolidayTable, symbol: string, timeframe: string, d: Day, end: Day,
                             open: int, close: int, allowMissingDays: bool)
    requires IsIntraday(timeframe) && d <= end
    ensures IntradayComplete(store, table, symbol, timeframe, d, end, open, close, allowMissingDays)
        <==> (IsTradingDay(table, DefaultExchange, d) ==> DayAcceptable(store, symbol, timeframe, d, open, close, allowMissingDays))
             && IntradayComplete(store, table, symbol, timeframe, d + 1, end, open, close, allowMissingDays)
  {
  }

  /** Every symbol's intraday total, folded into one verdict; the first
      exception raised ends the job. */
  function AllIntradayPass(symbols: seq<string>, store: Store, table: HolidayTable, timeframe: Value, start: Day,
                           end: Day, open: int, close: int, allowMissingDays: bool): (r: Result<bool>)
    ensures r.Err? <==> |symbols| > 0 && TradingDaysBetween(table, DefaultExchange, start, end) != [] &&
                        !(timeframe.Str? && IsIntraday(timeframe.s) && open < close)
    ensures r.Err? ==> r.error == SessionError(timeframe, open, close)
    ensures r.Ok? && timeframe.Str? && IsIntraday(timeframe.s) && open < close ==>
              (r.value <==> forall i :: 0 <= i < |symbols| ==>
                 IntradayComplete(store, table, symbols[i], timeframe.s, start, end, open, close, allowMissingDays))
  {
    if |symbols| == 0 then Ok(true)
    else
      var total :- SymbolTotal(store, table, symbols[0], timeframe, start, end, open, close, allowMissingDays);
      var rest := AllIntradayPass(symbols[1..], store, table, timeframe, start, end, open, close, allowMissingDays);
      assert forall i :: 1 <= i < |symbols| ==> symbols[i] == symbols[1..][i - 1];
      assert timeframe.Str? && IsIntraday(timeframe.s) && open < close ==>
               (total == 0 <==>
                IntradayComplete(store, table, symbols[0], timeframe.s, start, end, open, close, allowMissingDays)) by {
        if timeframe.Str? && IsIntraday(timeframe.s) && open < close {
          SymbolTotalZeroIff(store, table, symbols[0], timeframe.s, start, end, open, close, allowMissingDays);
        }
      }
      Ok(total == 0 && rest.value)
  }

  // ------------------------------------------------------------------
  // The job
  // ------------------------------------------------------------------

  /** The configuration reaches the intraday branch: symbols and timeframe
      read, the timeframe is not 1D, and `checks` is a mapping. */
  predicate IntradayRoute(cfg: Config) {
    && NormalizeSymbols(cfg).Ok? && StringSymbols(NormalizeSymbols(cfg).value).Some?
    && "timeframe" in cfg && cfg["timeframe"] != Str(Daily)
    && Checks(cfg).Ok?
  }

  /** The intraday check is enabled and both bounds of the range are given. */
  predicate RangeGiven(cfg: Config) {
    && IntradayRoute(cfg) && Flag(Checks(cfg).value, "intraday_completeness", true)
    && Truthy(Pick(cfg, "start_date", "start")) && Truthy(Pick(cfg, "end_date", "end"))
  }

  /** Both bounds parse and both market times read. */
  predicate Readable(cfg: Config) {
    && ParseDate(Pick(cfg, "start_date", "start")).Ok? && ParseDate(Pick(cfg, "end_date", "end")).Ok?
    && MarketTime(cfg, "open").Ok? && MarketTime(cfg, "close").Ok?
  }

  /** `run_intraday_completeness_check` on an already loaded configuration:
      the symbol and timeframe errors, the route to the daily check, the
      switch that disables the intraday check, and the missing-range error. */
  function RunQa(cfg: Config, store: Store, table: HolidayTable): (r: Result<bool>)
    ensures NormalizeSymbols(cfg).Err? ==> r == Err(ValueError)
    ensures NormalizeSymbols(cfg).Ok? && "timeframe" !in cfg ==> r == Err(KeyError)
    ensures NormalizeSymbols(cfg).Ok? && "timeframe" in cfg && StringSymbols(NormalizeSymbols(cfg).value).None? ==>
              r == Err(TypeError)
    ensures NormalizeSymbols(cfg).Ok? && "timeframe" in cfg && cfg["timeframe"] == Str(Daily) &&
            StringSymbols(NormalizeSymbols(cfg).value).Some? ==>
              r == DailyCheck(cfg, StringSymbols(NormalizeSymbols(cfg).value).value, Daily, store, table)
    ensures NormalizeSymbols(cfg).Ok? && StringSymbols(NormalizeSymbols(cfg).value).Some? &&
            "timeframe" in cfg && cfg["timeframe"] != Str(Daily) && Checks(cfg).Err? ==>
              r == Err(AttributeError)
    ensures IntradayRoute(cfg) && !Flag(Checks(cfg).value, "intraday_completeness", true) ==> r == Ok(true)
    ensures IntradayRoute(cfg) && Flag(Checks(cfg).value, "intraday_completeness", true) &&
            (!Truthy(Pick(cfg, "start_date", "start")) || !Truthy(Pick(cfg, "end_date", "end"))) ==>
              r == Err(ValueError)
    ensures RangeGiven(cfg) && ParseDate(Pick(cfg, "start_date", "start")).Err? ==> r == Err(ValueError)
    ensures RangeGiven(cfg) && ParseDate(Pick(cfg, "start_date", "start")).Ok? &&
            ParseDate(Pick(cfg, "end_date", "end")).Err? ==>
              r == Err(ValueError)
    ensures RangeGiven(cfg) && ParseDate(Pick(cfg, "start_date", "start")).Ok? &&
            ParseDate(Pick(cfg, "end_date", "end")).Ok? && MarketTime(cfg, "open").Err? ==>
              r == Err(MarketTime(cfg, "open").error)
    ensures RangeGiven(cfg) && ParseDate(Pick(cfg, "start_date", "start")).Ok? &&
            ParseDate(Pick(cfg, "end_date", "end")).Ok? && MarketTime(cfg, "open").Ok? &&
            MarketTime(cfg, "close").Err? ==>
              r == Err(MarketTime(cfg, "close").error)
    ensures RangeGiven(cfg) && Readable(cfg) ==>
              r == AllIntradayPass(StringSymbols(NormalizeSymbols(cfg).value).value, store, table, cfg["timeframe"],
                                   ParseDate(Pick(cfg, "start_date", "start")).value,
                                   ParseDate(Pick(cfg, "end_date", "end")).value,
                                   MarketTime(cfg, "open").value, MarketTime(cfg, "close").value,
                                   Flag(Checks(cfg).value, "allow_missing_days", false))
  {
    var raw :- NormalizeSymbols(cfg);
    if "timeframe" !in cfg then Err(KeyError)
    else
      var timeframe := cfg["timeframe"];
      var names := StringSymbols(raw);
      if names.None? then Err(TypeError)
      else if timeframe == Str(Daily) then DailyCheck(cfg, names.value, Daily, store, table)
      else
        var checks :- Checks(cfg);
        if !Flag(checks, "intraday_completeness", true) then Ok(true)
        else
          var startRaw := Pick(cfg, "start_date", "start");
          var endRaw := Pick(cfg, "end_date", "end");
          if !Truthy(startRaw) || !Truthy(endRaw) then Err(ValueError)
          else
            var start :- ParseDate(startRaw);
            var end :- ParseDate(endRaw);
            var open :- MarketTime(cfg, "open");
            var close :- MarketTime(cfg, "close");
            AllIntradayPass(names.value, store, table, timeframe, start, end, open, close,
                            Flag(checks, "allow_missing_days", false))
  }

  /** With a well-formed intraday configuration, the job passes exactly when
      every symbol is complete on every trading day of the range. */
  lemma IntradayVerdict(cfg: Config, store: Store, table: HolidayTable, symbols: seq<string>, timeframe: string,
                        start: Day, end: Day, open: int, close: int)
    requires NormalizeSymbols(cfg).Ok? && StringSymbols(NormalizeSymbols(cfg).value) == Some(symbols)
    requires "timeframe" in cfg && cfg["timeframe"] == Str(timeframe) && IsIntraday(timeframe)
    requires Checks(cfg).Ok? && Flag(Checks(cfg).value, "intraday_completeness", true)
    requires ParseDate(Pick(cfg, "start_date", "start")) == Ok(start)
    requires ParseDate(Pick(cfg, "end_date", "end")) == Ok(end)
    requires MarketTime(cfg, "open") == Ok(open) && MarketTime(cfg, "close") == Ok(close) && open < close
    ensures RunQa(cfg, store, table).Ok?
    ensures RunQa(cfg, store, table).value <==>
              forall i :: 0 <= i < |symbols| ==>
                IntradayComplete(store, table, symbols[i], timeframe, start, end, open, close,
                                 Flag(Checks(cfg).value, "allow_missing_days", false))
  {
    ParsedIsTruthy(Pick(cfg, "start_date", "start"));
    ParsedIsTruthy(Pick(cfg, "end_date", "end"));
  }
}

=== FILE: reports.dfy ===
/** The `data_quality_reports` log: an append-only sequence of reports whose
    order is the order of `run_ts`, the newest-first selections read from it,
    the consecutive-PARTIAL streaks that drive escalation, and the per-symbol
    health summary of the dashboard. */
module QualityReports {
  import opened Wrappers
  import opened Clock

  datatype CheckType =
    | DailyCoverage
    | AutoBackfill
    | AutoBackfillAlert
    | Freshness
    | IntradayCompleteness
    | IntradayBackfill
    | IntradayBackfillAlert

  datatype Status = Pass | Fail | Complete | Partial | Raised | Acked | Resolved | Noop | Skipped

  /** The `details` object each kind of report carries, without the
      rounded percentages and lags. */
  datatype Details =
    | Coverage(expectedDays: nat, actualDays: nat, first: Day, last: Day)
    | DailyHeal(healedDays: seq<Day>, remaining: int, throttle: nat)
    | Escalation(streak: nat, threshold: nat, alertDate: Option<Day>)
    | Lag(lastTs: Ts, lagSeconds: int, thresholdMinutes: int)
    | Completeness(tradeDate: Day, expectedCount: nat, actualCount: nat, missingCount: nat)
    | IntradayHeal(reason: Option<string>, attempted: nat, inserted: nat, skipped: int)

  /** One row. `notes` holds the text keys the dashboard merges into
      `details` when a person acknowledges or resolves an alert. */
  datatype Report = Report(id: nat, symbol: string, timeframe: string, checkType: CheckType, status: Status,
                           details: Details, notes: map<string, string>)

  type Log = seq<Report>

  /** Ids are the `BIGSERIAL` sequence 1, 2, 3, … in insertion order. */
  predicate WellFormed(log: Log) {
    forall i :: 0 <= i < |log| ==> log[i].id == i + 1
  }

  /** `persist_report`: append one row with a fresh id and no notes. */
  function Persist(log: Log, symbol: string, timeframe: string, checkType: CheckType, status: Status,
                   details: Details): (r: Log)
    ensures |r| == |log| + 1 && r[..|log|] == log
    ensures r[|log|].symbol == symbol && r[|log|].timeframe == timeframe && r[|log|].checkType == checkType
    ensures r[|log|].status == status && r[|log|].details == details && r[|log|].notes == map[]
    ensures WellFormed(log) ==> WellFormed(r)
  {
    log + [Report(|log| + 1, symbol, timeframe, checkType, status, details, map[])]
  }

  /** A `WHERE` clause over the log: optional symbol and timeframe, one
      check type, and optionally a set of statuses. */
  datatype Selector = Selector(symbol: Option<string>, timeframe: Option<string>, checkType: CheckType,
                               statuses: Option<set<Status>>)

  predicate Matches(sel: Selector, r: Report) {
    && (sel.symbol.None? || r.symbol == sel.symbol.value)
    && (sel.timeframe.None? || r.timeframe == sel.timeframe.value)
    && r.checkType == sel.checkType
    && (sel.statuses.None? || r.status in sel.statuses.value)
  }

  /** The matching rows in log order. */
  function Filter(log: Log, sel: Selector): (r: Log)
    ensures |r| <= |log|
  {
    if |log| == 0 then []
    else if Matches(sel, log[0]) then [log[0]] + Filter(log[1..], sel)
    else Filter(log[1..], sel)
  }

  /** The filter keeps exactly the matching rows. */
  lemma {:induction false} FilterMembers(log: Log, sel: Selector)
    ensures forall x :: x in Filter(log, sel) <==> x in log && Matches(sel, x)
    decreases |log|
  {
    if |log| > 0 {
      FilterMembers(log[1..], sel);
      assert log == [log[0]] + log[1..];
    }
  }

  function Reverse<T>(s: seq<T>): (r: seq<T>)
    ensures |r| == |s|
    ensures forall i :: 0 <= i < |s| ==> r[i] == s[|s| - 1 - i]
  {
    if |s| == 0 then [] else Reverse(s[1..]) + [s[0]]
  }

  lemma ReverseMembers<T>(s: seq<T>)
    ensures forall x :: x in Reverse(s) <==> x in s
  {
    forall x | x in s
      ensures x in Reverse(s)
    {
      var i :| 0 <= i < |s| && s[i] == x;
      assert Reverse(s)[|s| - 1 - i] == x;
    }
  }

  function Take<T>(s: seq<T>, n: nat): (r: seq<T>)
    ensures |r| == if n < |s| then n else |s|
    ensures r == s[..|r|]
  {
    if n < |s| then s[..n] else s
  }

  /** `WHERE … ORDER BY run_ts DESC LIMIT n`: the newest matching rows first,
      walking the log from its end. */
  function Newest(log: Log, sel: Selector, limit: nat): (r: Log)
    ensures |r| <= limit
    ensures forall x :: x in r ==> x in log && Matches(sel, x)
    decreases |log|
  {
    if |log| == 0 || limit == 0 then []
    else
      var last := log[|log| - 1];
      if Matches(sel, last) then [last] + Newest(log[..|log| - 1], sel, limit - 1)
      else Newest(log[..|log| - 1], sel, limit)
  }

  lemma {:induction false} FilterSnoc(log: Log, x: Report, sel: Selector)
    ensures Filter(log + [x], sel) == Filter(log, sel) + (if Matches(sel, x) then [x] else [])
    decreases |log|
  {
    var l := log + [x];
    if |log| > 0 {
      assert l[0] == log[0];
      assert l[1..] == log[1..] + [x];
      FilterSnoc(log[1..], x, sel);
    } else {
      assert l[1..] == [];
    }
  }

  /** The filter of a log, split at its last row. */
  lemma FilterLast(log: Log, sel: Selector)
    requires |log| > 0
    ensures Filter(log, sel) ==
            Filter(log[..|log| - 1], sel) + (if Matches(sel, log[|log| - 1]) then [log[|log| - 1]] else [])
  {
    assert log == log[..|log| - 1] + [log[|log| - 1]];
    FilterSnoc(log[..|log| - 1], log[|log| - 1], sel);
  }

  lemma ReverseSnoc<T>(s: seq<T>, x: T)
    ensures Reverse(s + [x]) == [x] + Reverse(s)
  {
  }

  /** The newest-first walk is the reversed filter, cut at the limit. */
  lemma {:induction false} NewestIsReversedFilter(log: Log, sel: Selector, limit: nat)
    ensures Newest(log, sel, limit) == Take(Reverse(Filter(log, sel)), limit)
    decreases |log|
  {
    if |log| == 0 {
      assert Filter(log, sel) == [];
    } else if limit == 0 {
      assert Take(Reverse(Filter(log, sel)), limit) == [];
    } else {
      var init := log[..|log| - 1];
      if Matches(sel, log[|log| - 1]) {
        NewestIsReversedFilter(init, sel, limit - 1);
        NewestStepMatch(log, sel, limit);
      } else {
        NewestIsReversedFilter(init, sel, limit);
        NewestStepSkip(log, sel, limit);
      }
    }
  }

  /** The step of the walk over a matching last row: it heads the result. */
  lemma NewestStepMatch(log: Log, sel: Selector, limit: nat)
    requires |log| > 0 && limit > 0 && Matches(sel, log[|log| - 1])
    requires Newest(log[..|log| - 1], sel, limit - 1) == Take(Reverse(Filter(log[..|log| - 1], sel)), limit - 1)
    ensures Newest(log, sel, limit) == Take(Reverse(Filter(log, sel)), limit)
  {
    var init := log[..|log| - 1];
    var last := log[|log| - 1];
    var f := Filter(init, sel);
    calc {
      Newest(log, sel, limit);
    == { NewestUnfold(log, sel, limit); }
      [last] + Newest(init, sel, limit - 1);
    == { ConsOntoNewest(last, Newest(init, sel, limit - 1), f, limit); }
      Take(Reverse(f + [last]), limit);
    == { FilterLast(log, sel); }
      Take(Reverse(Filter(log, sel)), limit);
    }
  }

  /** The step of the walk over a last row that does not match: it is passed over. */
  lemma NewestStepSkip(log: Log, sel: Selector, limit: nat)
    requires |log| > 0 && limit > 0 && !Matches(sel, log[|log| - 1])
    requires Newest(log[..|log| - 1], sel, limit) == Take(Reverse(Filter(log[..|log| - 1], sel)), limit)
    ensures Newest(log, sel, limit) == Take(Reverse(Filter(log, sel)), limit)
  {
    calc {
      Newest(log, sel, limit);
    == { NewestUnfold(log, sel, limit); }
      Newest(log[..|log| - 1], sel, limit);
    ==
      Take(Reverse(Filter(log[..|log| - 1], sel)), limit);
    == { FilterLast(log, sel);
         assert Filter(log[..|log| - 1], sel) + [] == Filter(log[..|log| - 1], sel); }
      Take(Reverse(Filter(log, sel)), limit);
    }
  }

  /** Putting a newer row in front of the newest rows of `f` gives the
      newest rows of `f` extended by that row. */
  lemma ConsOntoNewest<T>(x: T, a: seq<T>, f: seq<T>, limit: nat)
    requires limit > 0 && a == Take(Reverse(f), limit - 1)
    ensures [x] + a == Take(Reverse(f + [x]), limit)
  {
    TakeCons(x, Reverse(f), limit);
    ReverseSnoc(f, x);
  }

  lemma TakeCons<T>(x: T, s: seq<T>, n: nat)
    requires n > 0
    ensures Take([x] + s, n) == [x] + Take(s, n - 1)
  {
    if n - 1 < |s| {
      assert ([x] + s)[..n] == [x] + s[..n - 1];
    }
  }

  /** A matching row is returned unless `limit` newer matching rows exist. */
  lemma NewestComplete(log: Log, sel: Selector, limit: nat, i: nat)
    requires i < |log| && Matches(sel, log[i])
    requires |Filter(log[i + 1..], sel)| < limit
    ensures log[i] in Newest(log, sel, limit)
  {
    FilterCount(log[i + 1..], sel);
    NewestCompleteByCount(log, sel, limit, i);
  }

  /** The number of matching rows, counted from the end of the log. */
  function MatchCount(log: Log, sel: Selector): nat
    decreases |log|
  {
    if |log| == 0 then 0
    else MatchCount(log[..|log| - 1], sel) + (if Matches(sel, log[|log| - 1]) then 1 else 0)
  }

  lemma {:induction false} FilterCount(log: Log, sel: Selector)
    ensures |Filter(log, sel)| == MatchCount(log, sel)
    decreases |log|
  {
    if |log| > 0 {
      var init := log[..|log| - 1];
      assert log == init + [log[|log| - 1]];
      FilterSnoc(init, log[|log| - 1], sel);
      FilterCount(init, sel);
    }
  }

  lemma {:induction false} NewestCompleteByCount(log: Log, sel: Selector, limit: nat, i: nat)
    requires i < |log| && Matches(sel, log[i])
    requires MatchCount(log[i + 1..], sel) < limit
    ensures log[i] in Newest(log, sel, limit)
    decreases |log|
  {
    var init := log[..|log| - 1];
    var last := log[|log| - 1];
    NewestUnfold(log, sel, limit);
    if i < |log| - 1 {
      var later := if Matches(sel, last) then limit - 1 else limit;
      assert log[i + 1..][..|log[i + 1..]| - 1] == init[i + 1..];
      assert init[i] == log[i];
      NewestCompleteByCount(init, sel, later, i);
    }
  }

  /** One step of the newest-first walk. */
  lemma NewestUnfold(log: Log, sel: Selector, limit: nat)
    requires |log| > 0 && limit > 0
    ensures Newest(log, sel, limit) ==
            if Matches(sel, log[|log| - 1]) then [log[|log| - 1]] + Newest(log[..|log| - 1], sel, limit - 1)
            else Newest(log[..|log| - 1], sel, limit)
  {
  }

  function StatusesOf(rows: Log): (r: seq<Status>)
    ensures |r| == |rows| && forall i :: 0 <= i < |rows| ==> r[i] == rows[i].status
  {
    seq(|rows|, i requires 0 <= i < |rows| => rows[i].status)
  }

  /** The counting loop of both streak counters: PARTIAL rows from the
      newest backwards until the first other status. */
  function LeadingPartials(s: seq<Status>): (n: nat)
    ensures n <= |s|
    ensures forall i :: 0 <= i < n ==> s[i] == Partial
    ensures n < |s| ==> s[n] != Partial
  {
    if |s| == 0 || s[0] != Partial then 0 else 1 + LeadingPartials(s[1..])
  }

  const MaxPartialDays: nat := 3
  const MaxIntradayPartialRuns: nat := 3

  /** The rows the daily counter reads: the symbol's `auto_backfill` rows of
      any timeframe. */
  function DailyHealSelector(symbol: string): Selector {
    Selector(Some(symbol), None, AutoBackfill, None)
  }

  function IntradayHealSelector(symbol: string, timeframe: string): Selector {
    Selector(Some(symbol), Some(timeframe), IntradayBackfill, None)
  }

  /** `_count_consecutive_partial_days`: the leading PARTIAL rows among the
      newest eight `auto_backfill` rows of the symbol. */
  function DailyPartialStreak(log: Log, symbol: string): (n: nat)
    ensures n <= MaxPartialDays + 5
    ensures n <= |Filter(log, DailyHealSelector(symbol))|
  {
    NewestIsReversedFilter(log, DailyHealSelector(symbol), MaxPartialDays + 5);
    LeadingPartials(StatusesOf(Newest(log, DailyHealSelector(symbol), MaxPartialDays + 5)))
  }

  /** `_count_intraday_partial_runs`: the same count over the newest five
      `intraday_backfill` rows of the pair. */
  function IntradayPartialStreak(log: Log, symbol: string, timeframe: string): (n: nat)
    ensures n <= MaxIntradayPartialRuns + 2
    ensures n <= |Filter(log, IntradayHealSelector(symbol, timeframe))|
  {
    NewestIsReversedFilter(log, IntradayHealSelector(symbol, timeframe), MaxIntradayPartialRuns + 2);
    LeadingPartials(StatusesOf(Newest(log, IntradayHealSelector(symbol, timeframe), MaxIntradayPartialRuns + 2)))
  }

  /** Appending a PARTIAL row starts or extends the streak by exactly one
      (up to the cap); appending any other status ends it. */
  lemma DailyStreakAfterAppend(log: Log, symbol: string, timeframe: string, status: Status, details: Details)
    ensures var after := Persist(log, symbol, timeframe, AutoBackfill, status, details);
      var n := DailyPartialStreak(log, symbol);
      && (status == Partial ==> DailyPartialStreak(after, symbol) == if n + 1 < MaxPartialDays + 5 then n + 1 else MaxPartialDays + 5)
      && (status != Partial ==> DailyPartialStreak(after, symbol) == 0)
  {
    var after := Persist(log, symbol, timeframe, AutoBackfill, status, details);
    var rows := Newest(after, DailyHealSelector(symbol), MaxPartialDays + 5);
    assert after[..|after| - 1] == log;
    assert rows[0].status == status;
    if status == Partial {
      assert after == log + [after[|log|]];
      StreakStep(log, DailyHealSelector(symbol), after[|log|], MaxPartialDays + 5);
    }
  }

  lemma IntradayStreakAfterAppend(log: Log, symbol: string, timeframe: string, status: Status, details: Details)
    ensures var after := Persist(log, symbol, timeframe, IntradayBackfill, status, details);
      var n := IntradayPartialStreak(log, symbol, timeframe);
      && (status == Partial ==>
            IntradayPartialStreak(after, symbol, timeframe) ==
            if n + 1 < MaxIntradayPartialRuns + 2 then n + 1 else MaxIntradayPartialRuns + 2)
      && (status != Partial ==> IntradayPartialStreak(after, symbol, timeframe) == 0)
  {
    var after := Persist(log, symbol, timeframe, IntradayBackfill, status, details);
    var rows := Newest(after, IntradayHealSelector(symbol, timeframe), MaxIntradayPartialRuns + 2);
    assert after[..|after| - 1] == log;
    assert rows[0].status == status;
    if status == Partial {
      assert after == log + [after[|log|]];
      StreakStep(log, IntradayHealSelector(symbol, timeframe), after[|log|], MaxIntradayPartialRuns + 2);
    }
  }

  /** The leading PARTIALs of a prefix are those of the whole, cut at the
      prefix's length. */
  lemma LeadingPrefix(s: seq<Status>, n: nat)
    requires n <= |s|
    ensures LeadingPartials(s[..n]) == if LeadingPartials(s) < n then LeadingPartials(s) else n
  {
    var a := LeadingPartials(s);
    var b := LeadingPartials(s[..n]);
    if b < n {
      assert s[b] != Partial;
    }
    if a < n {
      assert s[..n][a] != Partial;
    }
  }

  /** The newest-first walk with a smaller limit is a prefix of the walk
      with a larger one. */
  lemma NewestShorterLimit(log: Log, sel: Selector, limit: nat)
    requires limit > 0
    ensures Newest(log, sel, limit - 1) == Take(Newest(log, sel, limit), limit - 1)
  {
    NewestIsReversedFilter(log, sel, limit);
    NewestIsReversedFilter(log, sel, limit - 1);
  }

  /** A matching PARTIAL row on top of the log: the leading count over the
      newest `cap` rows goes up by one, but not past `cap`. */
  lemma StreakStep(log: Log, sel: Selector, x: Report, cap: nat)
    requires cap > 0 && Matches(sel, x) && x.status == Partial
    ensures var n := LeadingPartials(StatusesOf(Newest(log, sel, cap)));
      LeadingPartials(StatusesOf(Newest(log + [x], sel, cap))) == if n + 1 < cap then n + 1 else cap
  {
    var after := log + [x];
    assert after[..|after| - 1] == log;
    NewestUnfold(after, sel, cap);
    var big := Newest(log, sel, cap);
    var small := Newest(log, sel, cap - 1);
    NewestShorterLimit(log, sel, cap);
    var bs := StatusesOf(big);
    assert StatusesOf(small) == bs[..|small|];
    LeadingPrefix(bs, |small|);
    var t := StatusesOf([x] + small);
    assert t[0] == Partial;
    assert t[1..] == bs[..|small|];
  }

  /** Reports of other kinds or other symbols do not move the streak. */
  lemma DailyStreakIgnoresOtherRows(log: Log, symbol: string, x: Report)
    requires x.checkType != AutoBackfill || x.symbol != symbol
    ensures DailyPartialStreak(log + [x], symbol) == DailyPartialStreak(log, symbol)
  {
    assert (log + [x])[..|log|] == log;
  }

  /** `partial_days > MAX_PARTIAL_DAYS`. */
  predicate DailyEscalates(streak: nat) {
    streak > MaxPartialDays
  }

  /** `partial_runs >= MAX_INTRADAY_PARTIAL_RUNS`. */
  predicate IntradayEscalates(streak: nat) {
    streak >= MaxIntradayPartialRuns
  }

  /** The leading PARTIAL count over the first `cap` rows reaches `k` exactly
      when the first `k` rows exist and are all PARTIAL. */
  lemma StreakReaches(f: Log, cap: nat, k: nat)
    requires 0 < k <= cap
    ensures LeadingPartials(StatusesOf(Take(f, cap))) >= k <==> |f| >= k && forall i :: 0 <= i < k ==> f[i].status == Partial
  {
    var rows := Take(f, cap);
    var s := StatusesOf(rows);
    var n := LeadingPartials(s);
    assert forall i :: 0 <= i < |rows| ==> rows[i] == f[i];
    if |f| >= k && forall i :: 0 <= i < k ==> f[i].status == Partial {
      assert forall i :: 0 <= i < k ==> s[i] == Partial;
    }
  }

  /** A daily alert is due exactly when the four newest `auto_backfill` rows
      of the symbol are all PARTIAL. */
  lemma {:induction false} DailyEscalationIff(log: Log, symbol: string)
    ensures var f := Reverse(Filter(log, DailyHealSelector(symbol)));
      DailyEscalates(DailyPartialStreak(log, symbol)) <==>
        |f| >= 4 && forall i :: 0 <= i < 4 ==> f[i].status == Partial
  {
    var sel := DailyHealSelector(symbol);
    NewestIsReversedFilter(log, sel, MaxPartialDays + 5);
    StreakReaches(Reverse(Filter(log, sel)), MaxPartialDays + 5, MaxPartialDays + 1);
  }

  /** An intraday alert is due exactly when the three newest
      `intraday_backfill` rows of the pair are all PARTIAL. */
  lemma {:induction false} IntradayEscalationIff(log: Log, symbol: string, timeframe: string)
    ensures var f := Reverse(Filter(log, IntradayHealSelector(symbol, timeframe)));
      IntradayEscalates(IntradayPartialStreak(log, symbol, timeframe)) <==>
        |f| >= 3 && forall i :: 0 <= i < 3 ==> f[i].status == Partial
  {
    var sel := IntradayHealSelector(symbol, timeframe);
    NewestIsReversedFilter(log, sel, MaxIntradayPartialRuns + 2);
    StreakReaches(Reverse(Filter(log, sel)), MaxIntradayPartialRuns + 2, MaxIntradayPartialRuns);
  }

  /** The newest status of one (symbol, timeframe, check type) group, the
      `DISTINCT ON … ORDER BY run_ts DESC` row. */
  function LatestStatus(log: Log, symbol: string, timeframe: string, checkType: CheckType): (r: Option<Status>)
    ensures r.None? <==> forall i :: 0 <= i < |log| ==> !Matches(Selector(Some(symbol), Some(timeframe), checkType, None), log[i])
    ensures r.Some? ==> exists i :: 0 <= i < |log| && log[i].status == r.value &&
                          Matches(Selector(Some(symbol), Some(timeframe), checkType, None), log[i]) &&
                          forall j :: i < j < |log| ==> !Matches(Selector(Some(symbol), Some(timeframe), checkType, None), log[j])
    decreases |log|
  {
    if |log| == 0 then None
    else
      var last := log[|log| - 1];
      var init := log[..|log| - 1];
      if last.symbol == symbol && last.timeframe == timeframe && last.checkType == checkType then Some(last.status)
      else
        var r := LatestStatus(init, symbol, timeframe, checkType);
        assert forall i :: 0 <= i < |init| ==> init[i] == log[i];
        r
  }

  function Symbols(log: Log): set<string> {
    set r | r in log :: r.symbol
  }

  /** The timeframes in which `symbol` has a report of `checkType`. */
  function CheckTimeframes(log: Log, symbol: string, checkType: CheckType): set<string> {
    set r | r in log && r.symbol == symbol && r.checkType == checkType :: r.timeframe
  }

  /** The `check_type` text stored in the table. */
  function CheckName(c: CheckType): string {
    match c
    case DailyCoverage => "daily_coverage"
    case AutoBackfill => "auto_backfill"
    case AutoBackfillAlert => "auto_backfill_alert"
    case Freshness => "freshness"
    case IntradayCompleteness => "intraday_completeness"
    case IntradayBackfill => "intraday_backfill"
    case IntradayBackfillAlert => "intraday_backfill_alert"
  }

  /** Code-point order on text, the order of the `C` collation. */
  predicate StrLess(a: string, b: string) {
    if |a| == 0 then |b| > 0
    else if |b| == 0 then false
    else a[0] < b[0] || (a[0] == b[0] && StrLess(a[1..], b[1..]))
  }

  lemma {:induction false} StrLessIrreflexive(a: string)
    ensures !StrLess(a, a)
  {
    if |a| > 0 {
      StrLessIrreflexive(a[1..]);
    }
  }

  /** One row of the `latest` query: the newest status of a (symbol,
      timeframe, check type) group. */
  datatype GroupStatus = GroupStatus(symbol: string, timeframe: string, checkType: CheckType, status: Status)

  /** `ORDER BY symbol, timeframe, check_type`. */
  predicate GroupBefore(x: GroupStatus, y: GroupStatus) {
    || StrLess(x.symbol, y.symbol)
    || (x.symbol == y.symbol && StrLess(x.timeframe, y.timeframe))
    || (x.symbol == y.symbol && x.timeframe == y.timeframe && StrLess(CheckName(x.checkType), CheckName(y.checkType)))
  }

  /** `rows` is what the `DISTINCT ON` query returns for `log`: each row
      carries the newest status of its group, every group with a report has
      a row, and the rows come in the order of the `ORDER BY`. */
  predicate IsLatest(log: Log, rows: seq<GroupStatus>) {
    RowsNewest(log, rows) && RowsCover(log, rows) && RowsOrdered(rows)
  }

  predicate RowsNewest(log: Log, rows: seq<GroupStatus>) {
    forall i :: 0 <= i < |rows| ==>
      LatestStatus(log, rows[i].symbol, rows[i].timeframe, rows[i].checkType) == Some(rows[i].status)
  }

  predicate RowsCover(log: Log, rows: seq<GroupStatus>) {
    forall j :: 0 <= j < |log| ==>
      exists i :: 0 <= i < |rows| && rows[i].symbol == log[j].symbol && rows[i].timeframe == log[j].timeframe &&
                  rows[i].checkType == log[j].checkType
  }

  predicate RowsOrdered(rows: seq<GroupStatus>) {
    forall i, j :: 0 <= i < j < |rows| ==> GroupBefore(rows[i], rows[j])
  }

  /** The status of the last row of `symbol` and `checkType` (and of
      `timeframe`, when one is given). */
  function LastStatus(rows: seq<GroupStatus>, symbol: string, checkType: CheckType, timeframe: Option<string>)
    : (r: Option<Status>)
    ensures r.None? <==> forall i :: 0 <= i < |rows| ==> !RowOf(rows[i], symbol, checkType, timeframe)
    ensures r.Some? ==> exists i :: 0 <= i < |rows| && RowOf(rows[i], symbol, checkType, timeframe) &&
                          rows[i].status == r.value &&
                          forall j :: i < j < |rows| ==> !RowOf(rows[j], symbol, checkType, timeframe)
    decreases |rows|
  {
    if |rows| == 0 then None
    else
      var last := rows[|rows| - 1];
      var init := rows[..|rows| - 1];
      if RowOf(last, symbol, checkType, timeframe) then Some(last.status)
      else
        var r := LastStatus(init, symbol, checkType, timeframe);
        assert forall i :: 0 <= i < |init| ==> init[i] == rows[i];
        r
  }

  predicate RowOf(x: GroupStatus, symbol: string, checkType: CheckType, timeframe: Option<string>) {
    x.symbol == symbol && x.checkType == checkType && (timeframe.None? || x.timeframe == timeframe.value)
  }

  /** One entry of `/health/symbols`. */
  datatype SymbolHealth = SymbolHealth(dailyCoverage: Option<Status>, autoBackfill: Option<Status>,
                                       freshness: map<string, Status>)

  const EmptyHealth: SymbolHealth := SymbolHealth(None, None, map[])

  /** One pass of the loop: `setdefault` the symbol's entry, then set the
      field the row's check type names; other check types set nothing. */
  function Apply(h: map<string, SymbolHealth>, x: GroupStatus): map<string, SymbolHealth> {
    h[x.symbol := SetField(if x.symbol in h then h[x.symbol] else EmptyHealth, x)]
  }

  function SetField(e: SymbolHealth, x: GroupStatus): SymbolHealth {
    match x.checkType
    case DailyCoverage => e.(dailyCoverage := Some(x.status))
    case AutoBackfill => e.(autoBackfill := Some(x.status))
    case Freshness => e.(freshness := e.freshness[x.timeframe := x.status])
    case _ => e
  }

  function RowSymbols(rows: seq<GroupStatus>): set<string> {
    set i | 0 <= i < |rows| :: rows[i].symbol
  }

  function FreshRows(rows: seq<GroupStatus>, symbol: string): set<string> {
    set i | 0 <= i < |rows| && rows[i].symbol == symbol && rows[i].checkType == Freshness :: rows[i].timeframe
  }

  /** The entry of `s` reads the last rows of `s` in `rows`. */
  predicate EntryReads(rows: seq<GroupStatus>, s: string, e: SymbolHealth) {
    && e.dailyCoverage == LastStatus(rows, s, DailyCoverage, None)
    && e.autoBackfill == LastStatus(rows, s, AutoBackfill, None)
    && e.freshness.Keys == FreshRows(rows, s)
    && forall tf :: tf in e.freshness ==> Some(e.freshness[tf]) == LastStatus(rows, s, Freshness, Some(tf))
  }

  /** `get_symbol_health` over the rows of the query, in their order: a
      later row of a symbol overwrites the field an earlier one set, so each
      field holds the status of the last row that names it. */
  function Health(rows: seq<GroupStatus>): (h: map<string, SymbolHealth>)
    ensures h.Keys == RowSymbols(rows)
    ensures forall s :: s in h ==> EntryReads(rows, s, h[s])
    decreases |rows|
  {
    if |rows| == 0 then map[]
    else
      var init := rows[..|rows| - 1];
      var x := rows[|rows| - 1];
      var h := Health(init);
      HealthStep(init, x, h);
      SplitLast(rows);
      Apply(h, x)
  }

  lemma SplitLast<T>(xs: seq<T>)
    requires |xs| > 0
    ensures xs[..|xs| - 1] + [xs[|xs| - 1]] == xs
  {
  }

  /** Folding in one more row keeps the last-row reading of every entry. */
  lemma HealthStep(init: seq<GroupStatus>, x: GroupStatus, h: map<string, SymbolHealth>)
    requires h.Keys == RowSymbols(init)
    requires forall s :: s in h ==> EntryReads(init, s, h[s])
    ensures Apply(h, x).Keys == RowSymbols(init + [x])
    ensures forall s :: s in Apply(h, x) ==> EntryReads(init + [x], s, Apply(h, x)[s])
  {
    var rows := init + [x];
    var h1 := Apply(h, x);
    RowSymbolsAppend(init, x);
    forall s | s in h1
      ensures EntryReads(rows, s, h1[s])
    {
      if s in h {
        EntryStep(init, x, s, h[s]);
      } else {
        EmptyEntryReads(init, s);
        EntryStep(init, x, s, EmptyHealth);
      }
    }
  }

  lemma EmptyEntryReads(rows: seq<GroupStatus>, s: string)
    requires s !in RowSymbols(rows)
    ensures EntryReads(rows, s, EmptyHealth)
  {
    forall i | 0 <= i < |rows|
      ensures rows[i].symbol != s
    {
      assert rows[i].symbol in RowSymbols(rows);
    }
    assert FreshRows(rows, s) == {};
  }

  /** One row updates the entry of its symbol and no other. */
  lemma EntryStep(init: seq<GroupStatus>, x: GroupStatus, s: string, e: SymbolHealth)
    requires EntryReads(init, s, e)
    ensures EntryReads(init + [x], s, if x.symbol == s then SetField(e, x) else e)
  {
    LastStatusAppend(init, x, s, DailyCoverage, None);
    LastStatusAppend(init, x, s, AutoBackfill, None);
    FreshStep(init, x, s, e.freshness);
  }

  lemma FreshStep(init: seq<GroupStatus>, x: GroupStatus, s: string, f: map<string, Status>)
    requires f.Keys == FreshRows(init, s)
    requires forall tf :: tf in f ==> Some(f[tf]) == LastStatus(init, s, Freshness, Some(tf))
    ensures var f1 := if x.symbol == s && x.checkType == Freshness then f[x.timeframe := x.status] else f;
      && f1.Keys == FreshRows(init + [x], s)
      && forall tf :: tf in f1 ==> Some(f1[tf]) == LastStatus(init + [x], s, Freshness, Some(tf))
  {
    FreshRowsAppend(init, x, s);
    var f1 := if x.symbol == s && x.checkType == Freshness then f[x.timeframe := x.status] else f;
    forall tf | tf in f1
      ensures Some(f1[tf]) == LastStatus(init + [x], s, Freshness, Some(tf))
    {
      LastStatusAppend(init, x, s, Freshness, Some(tf));
    }
  }

  lemma LastStatusAppend(init: seq<GroupStatus>, x: GroupStatus, s: string, ct: CheckType, tf: Option<string>)
    ensures LastStatus(init + [x], s, ct, tf) == if RowOf(x, s, ct, tf) then Some(x.status) else LastStatus(init, s, ct, tf)
  {
    assert (init + [x])[..|init|] == init;
  }

  lemma FreshRowsAppend(init: seq<GroupStatus>, x: GroupStatus, s: string)
    ensures FreshRows(init + [x], s) == FreshRows(init, s) + (if x.symbol == s && x.checkType == Freshness then {x.timeframe} else {})
  {
    var rows := init + [x];
    assert rows[|init|] == x;
    forall tf | tf in FreshRows(init, s)
      ensures tf in FreshRows(rows, s)
    {
      var i :| 0 <= i < |init| && init[i].symbol == s && init[i].checkType == Freshness && init[i].timeframe == tf;
      assert rows[i] == init[i];
    }
    forall tf | tf in FreshRows(rows, s)
      ensures tf in FreshRows(init, s) + (if x.symbol == s && x.checkType == Freshness then {x.timeframe} else {})
    {
      var i :| 0 <= i < |rows| && rows[i].symbol == s && rows[i].checkType == Freshness && rows[i].timeframe == tf;
      if i < |init| {
        assert init[i] == rows[i];
      }
    }
  }

  lemma RowSymbolsAppend(init: seq<GroupStatus>, x: GroupStatus)
    ensures RowSymbols(init + [x]) == RowSymbols(init) + {x.symbol}
  {
    var rows := init + [x];
    assert rows[|init|].symbol == x.symbol;
    forall y | y in RowSymbols(init)
      ensures y in RowSymbols(rows)
    {
      var i :| 0 <= i < |init| && init[i].symbol == y;
      assert rows[i].symbol == y;
    }
  }

  /** For a symbol's daily coverage and auto-backfill the summary shows the
      newest status of the group whose timeframe sorts last among those with
      a report of that check: the one the loop visits last. */
  lemma LastTimeframeWins(log: Log, rows: seq<GroupStatus>, s: string, ct: CheckType)
    requires IsLatest(log, rows)
    ensures ShowsLastTimeframe(log, s, ct, LastStatus(rows, s, ct, None))
  {
    var r := LastStatus(rows, s, ct, None);
    if CheckTimeframes(log, s, ct) != {} {
      var tf :| tf in CheckTimeframes(log, s, ct);
      var i' := RowOfTimeframe(log, rows, s, ct, tf);
      assert RowOf(rows[i'], s, ct, None);
    }
    if r.Some? {
      var i :| 0 <= i < |rows| && RowOf(rows[i], s, ct, None) && rows[i].status == r.value &&
               forall j :: i < j < |rows| ==> !RowOf(rows[j], s, ct, None);
      LastRowShows(log, rows, s, ct, i);
    }
  }

  /** The last row of a symbol and check type names the greatest timeframe
      with such a report, and carries its group's newest status. */
  lemma LastRowShows(log: Log, rows: seq<GroupStatus>, s: string, ct: CheckType, i: int)
    requires IsLatest(log, rows) && 0 <= i < |rows| && RowOf(rows[i], s, ct, None)
    requires forall j :: i < j < |rows| ==> !RowOf(rows[j], s, ct, None)
    ensures rows[i].timeframe in CheckTimeframes(log, s, ct)
    ensures Some(rows[i].status) == LatestStatus(log, s, rows[i].timeframe, ct)
    ensures forall tf' :: tf' in CheckTimeframes(log, s, ct) && tf' != rows[i].timeframe ==> StrLess(tf', rows[i].timeframe)
  {
    GroupHasReport(log, rows, i);
    forall tf' | tf' in CheckTimeframes(log, s, ct) && tf' != rows[i].timeframe
      ensures StrLess(tf', rows[i].timeframe)
    {
      var i' := RowOfTimeframe(log, rows, s, ct, tf');
      LastRowLatest(rows, s, ct, i, i');
    }
  }

  /** Of the rows of one symbol and check type, the last has the greatest
      timeframe. */
  lemma LastRowLatest(rows: seq<GroupStatus>, s: string, ct: CheckType, i: int, i': int)
    requires RowsOrdered(rows) && 0 <= i < |rows| && 0 <= i' < |rows|
    requires RowOf(rows[i], s, ct, None) && RowOf(rows[i'], s, ct, None)
    requires forall j :: i < j < |rows| ==> !RowOf(rows[j], s, ct, None)
    requires rows[i'].timeframe != rows[i].timeframe
    ensures StrLess(rows[i'].timeframe, rows[i].timeframe)
  {
    assert i' < i;
    SameCheckBefore(rows[i'], rows[i]);
  }

  /** Every timeframe with a report has its row. */
  lemma RowOfTimeframe(log: Log, rows: seq<GroupStatus>, s: string, ct: CheckType, tf: string) returns (i: nat)
    requires RowsCover(log, rows) && tf in CheckTimeframes(log, s, ct)
    ensures i < |rows| && RowOf(rows[i], s, ct, Some(tf))
  {
    var k := ReportOfTimeframe(log, s, ct, tf);
    i :| 0 <= i < |rows| && rows[i].symbol == log[k].symbol && rows[i].timeframe == log[k].timeframe &&
         rows[i].checkType == log[k].checkType;
  }

  /** A row of the query names a group that has a report. */
  lemma GroupHasReport(log: Log, rows: seq<GroupStatus>, i: int)
    requires RowsNewest(log, rows) && 0 <= i < |rows|
    ensures rows[i].timeframe in CheckTimeframes(log, rows[i].symbol, rows[i].checkType)
    ensures rows[i].symbol in Symbols(log)
  {
    var x := rows[i];
    assert LatestStatus(log, x.symbol, x.timeframe, x.checkType).Some?;
    var k :| 0 <= k < |log| && Matches(Selector(Some(x.symbol), Some(x.timeframe), x.checkType, None), log[k]);
    assert log[k] in log;
  }

  lemma ReportOfTimeframe(log: Log, s: string, ct: CheckType, tf: string) returns (k: nat)
    requires tf in CheckTimeframes(log, s, ct)
    ensures k < |log| && log[k].symbol == s && log[k].checkType == ct && log[k].timeframe == tf
  {
    var r :| r in log && r.symbol == s && r.checkType == ct && r.timeframe == tf;
    k :| 0 <= k < |log| && log[k] == r;
  }

  /** Of two rows of one symbol and check type, the earlier has the smaller
      timeframe. */
  lemma SameCheckBefore(x: GroupStatus, y: GroupStatus)
    requires GroupBefore(x, y) && x.symbol == y.symbol && x.checkType == y.checkType
    ensures StrLess(x.timeframe, y.timeframe)
  {
    StrLessIrreflexive(x.symbol);
    StrLessIrreflexive(CheckName(x.checkType));
  }

  /** `v` is what the summary should show for a daily check `ct` of `s`:
      nothing when `s` has no such report, otherwise the newest status of
      the group whose timeframe sorts last among those with one. */
  predicate ShowsLastTimeframe(log: Log, s: string, ct: CheckType, v: Option<Status>) {
    && (v.None? <==> CheckTimeframes(log, s, ct) == {})
    && (v.Some? ==>
          exists tf :: tf in CheckTimeframes(log, s, ct) && v == LatestStatus(log, s, tf, ct) &&
                       forall tf' :: tf' in CheckTimeframes(log, s, ct) && tf' != tf ==> StrLess(tf', tf))
  }

  /** `get_symbol_health` on the query's rows: one entry per symbol with a
      report; freshness has one status per timeframe with a freshness report,
      the newest of that group; daily coverage and auto-backfill show the
      group whose timeframe sorts last. */
  lemma HealthOfLatest(log: Log, rows: seq<GroupStatus>)
    requires IsLatest(log, rows)
    ensures Health(rows).Keys == Symbols(log)
    ensures forall s :: s in Health(rows) ==> Health(rows)[s].freshness.Keys == CheckTimeframes(log, s, Freshness)
    ensures forall s, tf :: s in Health(rows) && tf in Health(rows)[s].freshness ==>
              Some(Health(rows)[s].freshness[tf]) == LatestStatus(log, s, tf, Freshness)
    ensures forall s :: s in Health(rows) ==> ShowsLastTimeframe(log, s, DailyCoverage, Health(rows)[s].dailyCoverage)
    ensures forall s :: s in Health(rows) ==> ShowsLastTimeframe(log, s, AutoBackfill, Health(rows)[s].autoBackfill)
  {
    var h := Health(rows);
    RowSymbolsOfLatest(log, rows);
    forall s | s in h
      ensures h[s].freshness.Keys == CheckTimeframes(log, s, Freshness)
      ensures forall tf :: tf in h[s].freshness ==> Some(h[s].freshness[tf]) == LatestStatus(log, s, tf, Freshness)
      ensures ShowsLastTimeframe(log, s, DailyCoverage, h[s].dailyCoverage)
      ensures ShowsLastTimeframe(log, s, AutoBackfill, h[s].autoBackfill)
    {
      EntryOfLatest(log, rows, s, h[s]);
    }
  }

  /** The last row of a group carries the group's newest status. */
  lemma LastRowIsNewest(log: Log, rows: seq<GroupStatus>, s: string, ct: CheckType, tf: string)
    requires RowsNewest(log, rows) && LastStatus(rows, s, ct, Some(tf)).Some?
    ensures LastStatus(rows, s, ct, Some(tf)) == LatestStatus(log, s, tf, ct)
  {
    var i :| 0 <= i < |rows| && RowOf(rows[i], s, ct, Some(tf)) && rows[i].status == LastStatus(rows, s, ct, Some(tf)).value &&
             forall j :: i < j < |rows| ==> !RowOf(rows[j], s, ct, Some(tf));
    assert LatestStatus(log, rows[i].symbol, rows[i].timeframe, rows[i].checkType) == Some(rows[i].status);
  }

  lemma RowSymbolsOfLatest(log: Log, rows: seq<GroupStatus>)
    requires IsLatest(log, rows)
    ensures RowSymbols(rows) == Symbols(log)
  {
    forall i | 0 <= i < |rows|
      ensures rows[i].symbol in Symbols(log)
    {
      GroupHasReport(log, rows, i);
    }
    forall s | s in Symbols(log)
      ensures s in RowSymbols(rows)
    {
      var r :| r in log && r.symbol == s;
      var k :| 0 <= k < |log| && log[k] == r;
      var i :| 0 <= i < |rows| && rows[i].symbol == log[k].symbol && rows[i].timeframe == log[k].timeframe &&
               rows[i].checkType == log[k].checkType;
    }
  }

  lemma EntryOfLatest(log: Log, rows: seq<GroupStatus>, s: string, e: SymbolHealth)
    requires IsLatest(log, rows) && EntryReads(rows, s, e)
    ensures e.freshness.Keys == CheckTimeframes(log, s, Freshness)
    ensures forall tf :: tf in e.freshness ==> Some(e.freshness[tf]) == LatestStatus(log, s, tf, Freshness)
    ensures ShowsLastTimeframe(log, s, DailyCoverage, e.dailyCoverage)
    ensures ShowsLastTimeframe(log, s, AutoBackfill, e.autoBackfill)
  {
    FreshKeysOfLatest(log, rows, s);
    forall tf | tf in e.freshness
      ensures Some(e.freshness[tf]) == LatestStatus(log, s, tf, Freshness)
    {
      LastRowIsNewest(log, rows, s, Freshness, tf);
    }
    LastTimeframeWins(log, rows, s, DailyCoverage);
    LastTimeframeWins(log, rows, s, AutoBackfill);
  }

  lemma FreshKeysOfLatest(log: Log, rows: seq<GroupStatus>, s: string)
    requires RowsNewest(log, rows) && RowsCover(log, rows)
    ensures FreshRows(rows, s) == CheckTimeframes(log, s, Freshness)
  {
    forall tf | tf in FreshRows(rows, s)
      ensures tf in CheckTimeframes(log, s, Freshness)
    {
      var i :| 0 <= i < |rows| && rows[i].symbol == s && rows[i].checkType == Freshness && rows[i].timeframe == tf;
      GroupHasReport(log, rows, i);
    }
    forall tf | tf in CheckTimeframes(log, s, Freshness)
      ensures tf in FreshRows(rows, s)
    {
      var i := RowOfTimeframe(log, rows, s, Freshness, tf);
    }
  }

  /** Rows of the kinds the summary does not show change nothing in it for
      a symbol it already lists. */
  lemma HealthIgnoresOtherChecks(rows: seq<GroupStatus>, x: GroupStatus)
    requires x.checkType !in {DailyCoverage, AutoBackfill, Freshness}
    requires x.symbol in Health(rows)
    ensures Health(rows + [x]) == Health(rows)
  {
    assert (rows + [x])[..|rows|] == rows;
  }
}

=== FILE: retention.dfy ===
/** The retention cutoff per timeframe. */
module Retention {
  import opened Wrappers
  import opened Clock
  import opened Timeframes

  /** `RETENTION_POLICY` as written: the intraday keys are lower case. */
  const RetentionPolicy: map<string, int> := map["1D" := 3650, "15m" := 180, "5m" := 90, "1m" := 30]

  /** `retention_cutoff` as written: the id is upper-cased and then looked up
      in a table whose intraday keys are lower case. */
  function RetentionCutoff(timeframe: string, now: Ts): (r: Result<Ts>)
    ensures Upper(timeframe) !in RetentionPolicy <==> r == Err(ValueError)
    ensures r.Ok? ==> Upper(timeframe) == Daily && r.value == now - Days(3650)
  {
    var tf := Upper(timeframe);
    if tf !in RetentionPolicy then Err(ValueError)
    else
      UpperHasNoLower(timeframe);
      assert "15m"[2] == 'm' && "5m"[1] == 'm' && "1m"[1] == 'm';
      assert tf == "1D";
      Ok(now - Days(RetentionPolicy[tf]))
  }

  /** No intraday timeframe, in either case, ever gets a cutoff: the
      upper-cased id never equals a lower-case key. */
  lemma IntradayRetentionRaises(timeframe: string, now: Ts)
    requires Upper(timeframe) in {"15M", "5M", "1M"}
    ensures RetentionCutoff(timeframe, now) == Err(ValueError)
  {
  }

  /** The concrete case: `retention_cutoff("15m", now)` raises instead of
      returning now minus 180 days. */
  lemma FifteenMinuteRetentionRaises(now: Ts)
    ensures RetentionCutoff("15m", now) == Err(ValueError)
    ensures RetentionCutoff("15M", now) == Err(ValueError)
  {
    assert Upper("15m") == "15M";
    assert Upper("15M") == "15M";
  }

  /** The policy with the keys written the way the lookup spells them. */
  const CorrectedRetentionPolicy: map<string, int> := map["1D" := 3650, "15M" := 180, "5M" := 90, "1M" := 30]

  /** The cutoff the policy table evidently intends: every listed timeframe,
      in either case, gets `now` minus its retention days. */
  function CorrectedRetentionCutoff(timeframe: string, now: Ts): (r: Result<Ts>)
    ensures Upper(timeframe) !in CorrectedRetentionPolicy <==> r == Err(ValueError)
    ensures r.Ok? ==> r.value == now - Days(CorrectedRetentionPolicy[Upper(timeframe)])
    ensures r.Ok? ==> r.value < now
  {
    var tf := Upper(timeframe);
    if tf !in CorrectedRetentionPolicy then Err(ValueError)
    else Ok(now - Days(CorrectedRetentionPolicy[tf]))
  }

  /** The corrected cutoff keeps 180, 90 and 30 days of 15M, 5M and 1M
      whatever the case of the id, and agrees with the written one on 1D. */
  lemma CorrectedRetentionCoversIntraday(now: Ts)
    ensures CorrectedRetentionCutoff("15m", now) == Ok(now - Days(180))
    ensures CorrectedRetentionCutoff("5M", now) == Ok(now - Days(90))
    ensures CorrectedRetentionCutoff("1m", now) == Ok(now - Days(30))
    ensures CorrectedRetentionCutoff("1d", now) == RetentionCutoff("1d", now) == Ok(now - Days(3650))
  {
    assert Upper("15m") == "15M";
    assert Upper("5M") == "5M";
    assert Upper("1m") == "1M";
    assert Upper("1d") == "1D";
  }
}

=== FILE: sorting.dfy ===
/** Ordering helpers shared by the ingestion and audit modules: a key-directed
    insertion sort over sequences, and minimum / maximum / ascending listing of
    finite integer sets. */
module Sorting {

  predicate SortedBy<T>(s: seq<T>, key: T -> int) {
    forall i, j :: 0 <= i < j < |s| ==> key(s[i]) <= key(s[j])
  }

  predicate Sorted(s: seq<int>) {
    forall i, j :: 0 <= i < j < |s| ==> s[i] <= s[j]
  }

  predicate StrictlyIncreasing(s: seq<int>) {
    forall i, j :: 0 <= i < j < |s| ==> s[i] < s[j]
  }

  function InsertBy<T>(x: T, s: seq<T>, key: T -> int): (r: seq<T>)
    requires SortedBy(s, key)
    ensures SortedBy(r, key)
    ensures multiset(r) == multiset(s) + multiset{x}
    ensures |r| == |s| + 1
    ensures r[0] == x || (|s| > 0 && r[0] == s[0])
  {
    if |s| == 0 then [x]
    else if key(x) <= key(s[0]) then [x] + s
    else
      var rest := InsertBy(x, s[1..], key);
      assert s == [s[0]] + s[1..];
      assert key(s[0]) <= key(rest[0]);
      [s[0]] + rest
  }

  /** Prepending an element no larger than any other keeps a sequence sorted. */
  lemma SortedByCons<T>(x: T, rest: seq<T>, key: T -> int)
    requires SortedBy(rest, key)
    requires forall y :: y in rest ==> key(x) <= key(y)
    ensures SortedBy([x] + rest, key)
  {
    var s := [x] + rest;
    forall i, j | 0 <= i < j < |s|
      ensures key(s[i]) <= key(s[j])
    {
      if i == 0 {
        assert s[j] == rest[j - 1];
        assert s[j] in rest;
      } else {
        assert s[i] == rest[i - 1] && s[j] == rest[j - 1];
      }
    }
  }

  /** The source sorts with pandas / `sorted`; only the resulting order by key matters here. */
  function SortBy<T>(s: seq<T>, key: T -> int): (r: seq<T>)
    ensures SortedBy(r, key)
    ensures multiset(r) == multiset(s)
    ensures |r| == |s|
  {
    if |s| == 0 then []
    else
      assert s == [s[0]] + s[1..];
      InsertBy(s[0], SortBy(s[1..], key), key)
  }

  function Identity(x: int): int { x }

  function SortInts(s: seq<int>): (r: seq<int>)
    ensures Sorted(r)
    ensures multiset(r) == multiset(s)
    ensures |r| == |s|
  {
    SortBy(s, Identity)
  }

  /** A sorted arrangement of a multiset of integers is unique. */
  lemma {:induction false} SortedPermutationUnique(a: seq<int>, b: seq<int>)
    requires Sorted(a) && Sorted(b)
    requires multiset(a) == multiset(b)
    ensures a == b
    decreases |a|
  {
    SortedPermutationHeads(a, b);
    if |a| > 0 {
      SortedTail(a);
      SortedTail(b);
      SortedPermutationUnique(a[1..], b[1..]);
      assert a == [a[0]] + a[1..] && b == [b[0]] + b[1..];
    }
  }

  /** Two sorted arrangements of one multiset have one length, one first
      element, and tails that are again arrangements of one multiset. */
  lemma SortedPermutationHeads(a: seq<int>, b: seq<int>)
    requires Sorted(a) && Sorted(b)
    requires multiset(a) == multiset(b)
    ensures |a| == |b|
    ensures |a| > 0 ==> a[0] == b[0] && multiset(a[1..]) == multiset(b[1..])
  {
    assert |a| == |multiset(a)| == |multiset(b)| == |b|;
    if |a| > 0 {
      assert a[0] in multiset(b) && b[0] in multiset(a);
      var i :| 0 <= i < |b| && b[i] == a[0];
      var j :| 0 <= j < |a| && a[j] == b[0];
      assert a[0] <= a[j];
      assert b[0] <= b[i];
      MultisetHeadTail(a);
      MultisetHeadTail(b);
      assert multiset(a[1..]) == multiset(a) - multiset{a[0]};
      assert multiset(b[1..]) == multiset(b) - multiset{b[0]};
    }
  }

  lemma SortedTail(a: seq<int>)
    requires Sorted(a) && |a| > 0
    ensures Sorted(a[1..])
  {
    assert forall i :: 0 <= i < |a[1..]| ==> a[1..][i] == a[i + 1];
  }

  lemma MultisetHeadTail(a: seq<int>)
    requires |a| > 0
    ensures multiset(a) == multiset{a[0]} + multiset(a[1..])
  {
    assert a == [a[0]] + a[1..];
  }

  /** Two strictly increasing sequences of one length with the same elements are equal. */
  lemma {:induction false} StrictlyIncreasingUnique(a: seq<int>, b: seq<int>)
    requires StrictlyIncreasing(a) && StrictlyIncreasing(b)
    requires |a| == |b|
    requires forall x :: x in a <==> x in b
    ensures a == b
    decreases |a|
  {
    if |a| > 0 {
      assert a[0] in a;
      assert b[0] in b;
      var i :| 0 <= i < |b| && b[i] == a[0];
      var j :| 0 <= j < |a| && a[j] == b[0];
      assert a[0] <= a[j];
      assert b[0] <= b[i];
      forall x | x in a[1..]
        ensures x in b[1..]
      {
        var k :| 0 <= k < |a[1..]| && a[1..][k] == x;
        assert a[0] < a[k + 1];
        assert x in b;
        var m :| 0 <= m < |b| && b[m] == x;
        assert m != 0;
        assert b[1..][m - 1] == x;
      }
      forall x | x in b[1..]
        ensures x in a[1..]
      {
        var k :| 0 <= k < |b[1..]| && b[1..][k] == x;
        assert b[0] < b[k + 1];
        assert x in a;
        var m :| 0 <= m < |a| && a[m] == x;
        assert m != 0;
        assert a[1..][m - 1] == x;
      }
      StrictlyIncreasingUnique(a[1..], b[1..]);
      assert a == [a[0]] + a[1..];
      assert b == [b[0]] + b[1..];
    }
  }

  /** A strictly increasing sequence has as many members as elements. */
  lemma {:induction false} StrictlyIncreasingCard(s: seq<int>)
    requires StrictlyIncreasing(s)
    ensures |set x | x in s| == |s|
  {
    if |s| > 0 {
      var rest := s[1..];
      assert StrictlyIncreasing(rest);
      StrictlyIncreasingCard(rest);
      SetOfCons(s);
      HeadBelowRest(s);
    }
  }

  lemma SetOfCons(s: seq<int>)
    requires |s| > 0
    ensures (set x | x in s) == (set x | x in s[1..]) + {s[0]}
  {
    assert s == [s[0]] + s[1..];
  }

  /** The head of a strictly increasing sequence does not occur again. */
  lemma HeadBelowRest(s: seq<int>)
    requires StrictlyIncreasing(s) && |s| > 0
    ensures s[0] !in (set x | x in s[1..])
  {
    forall j | 0 <= j < |s[1..]|
      ensures s[1..][j] != s[0]
    {
      assert s[1..][j] == s[j + 1];
    }
  }

  lemma SubsetCard(a: set<int>, b: set<int>)
    requires a <= b
    ensures |a| <= |b|
  {
    assert b == a + (b - a);
  }

  lemma NonEmptyHasElement(s: set<int>)
    requires s != {}
    ensures exists x :: x in s
  {
    if forall x :: x !in s {
      assert false;
    }
  }

  /** A least element of a finite non-empty set, by removing one element at a time. */
  lemma {:induction false} MinWitness(s: set<int>) returns (m: int)
    requires s != {}
    ensures m in s && forall y :: y in s ==> m <= y
    decreases |s|
  {
    NonEmptyHasElement(s);
    var x :| x in s;
    if s == {x} {
      m := x;
    } else {
      var n := MinWitness(s - {x});
      m := if x < n then x else n;
      forall y | y in s
        ensures m <= y
      {
        if y != x {
          assert y in s - {x};
        }
      }
    }
  }

  /** A greatest element of a finite non-empty set. */
  lemma {:induction false} MaxWitness(s: set<int>) returns (m: int)
    requires s != {}
    ensures m in s && forall y :: y in s ==> y <= m
    decreases |s|
  {
    NonEmptyHasElement(s);
    var x :| x in s;
    if s == {x} {
      m := x;
    } else {
      var n := MaxWitness(s - {x});
      m := if x > n then x else n;
      forall y | y in s
        ensures y <= m
      {
        if y != x {
          assert y in s - {x};
        }
      }
    }
  }

  lemma SetHasMin(s: set<int>)
    requires s != {}
    ensures exists m :: m in s && forall y :: y in s ==> m <= y
  {
    var m := MinWitness(s);
  }

  lemma SetHasMax(s: set<int>)
    requires s != {}
    ensures exists m :: m in s && forall y :: y in s ==> y <= m
  {
    var m := MaxWitness(s);
  }

  function SetMin(s: set<int>): (m: int)
    requires s != {}
    ensures m in s
    ensures forall y :: y in s ==> m <= y
  {
    SetHasMin(s);
    var m :| m in s && forall y :: y in s ==> m <= y;
    m
  }

  function SetMax(s: set<int>): (m: int)
    requires s != {}
    ensures m in s
    ensures forall y :: y in s ==> y <= m
  {
    SetHasMax(s);
    var m :| m in s && forall y :: y in s ==> y <= m;
    m
  }

  /** The elements of a finite set in ascending order, as an `ORDER BY` returns them. */
  function Ascending(s: set<int>): (r: seq<int>)
    ensures StrictlyIncreasing(r)
    ensures forall x :: x in r <==> x in s
    ensures |r| == |s|
    decreases |s|
  {
    if s == {} then []
    else
      var m := SetMin(s);
      var rest := Ascending(s - {m});
      [m] + rest
  }

  /** The elements of a finite set in descending order (`ORDER BY ... DESC`). */
  function Descending(s: set<int>): (r: seq<int>)
    ensures forall i, j :: 0 <= i < j < |r| ==> r[i] > r[j]
    ensures forall x :: x in r <==> x in s
    ensures |r| == |s|
    decreases |s|
  {
    if s == {} then []
    else
      var m := SetMax(s);
      var rest := Descending(s - {m});
      [m] + rest
  }

  /** The `n` largest members of `s`, largest first: every member left out
      is below all of them, and only a full prefix leaves any out. */
  function Largest(s: set<int>, n: nat): (r: seq<int>)
    ensures |r| <= n
    ensures forall i, j :: 0 <= i < j < |r| ==> r[i] > r[j]
    ensures forall x :: x in r ==> x in s
    ensures forall x :: x in s && x !in r ==> |r| == n && forall y :: y in r ==> x < y
  {
    var all := Descending(s);
    var m := if n < |all| then n else |all|;
    DescendingPrefixFacts(all, s, m);
    all[..m]
  }

  /** A prefix of a descending listing of `s` is descending, draws from `s`,
      and every member of `s` it leaves out lies below all of it. */
  lemma DescendingPrefixFacts(all: seq<int>, s: set<int>, m: nat)
    requires forall i, j :: 0 <= i < j < |all| ==> all[i] > all[j]
    requires (forall x :: x in all <==> x in s) && m <= |all|
    ensures forall i, j :: 0 <= i < j < |all[..m]| ==> all[..m][i] > all[..m][j]
    ensures forall x :: x in all[..m] ==> x in s
    ensures forall x :: x in s && x !in all[..m] ==> m < |all| && forall y :: y in all[..m] ==> x < y
  {
    forall x | x in s && x !in all[..m]
      ensures m < |all| && forall y :: y in all[..m] ==> x < y
    {
      DescendingPrefixAbove(all, m, x);
    }
  }

  /** A member of a descending sequence outside its first `m` members lies
      below all of them, and so there was more than `m` of them. */
  lemma DescendingPrefixAbove(all: seq<int>, m: nat, x: int)
    requires forall i, j :: 0 <= i < j < |all| ==> all[i] > all[j]
    requires m <= |all| && x in all && x !in all[..m]
    ensures m < |all|
    ensures forall y :: y in all[..m] ==> x < y
  {
    var k :| 0 <= k < |all| && all[k] == x;
    assert k >= m;
    forall y | y in all[..m]
      ensures x < y
    {
      var j :| 0 <= j < m && all[..m][j] == y;
      assert all[j] == y;
    }
  }
}

=== FILE: symbol_resolver.dfy ===
/** Trading-symbol to instrument-token resolution over the instrument list. */
module SymbolResolver {
  import opened Wrappers

  datatype Instrument = Instrument(tradingsymbol: string, exchange: string, token: int)

  /** The exchange `resolve_symbol` assumes when the caller names none. */
  const DefaultExchange: string := "NSE"

  predicate Matches(x: Instrument, symbol: string, exchange: string) {
    x.tradingsymbol == symbol && x.exchange == exchange
  }

  predicate NoMatch(xs: seq<Instrument>, symbol: string, exchange: string) {
    forall i :: 0 <= i < |xs| ==> !Matches(xs[i], symbol, exchange)
  }

  predicate TwoMatches(xs: seq<Instrument>, symbol: string, exchange: string) {
    exists i, j :: 0 <= i < j < |xs| && Matches(xs[i], symbol, exchange) && Matches(xs[j], symbol, exchange)
  }

  predicate HeadsWithMatch(m: seq<Instrument>, xs: seq<Instrument>, symbol: string, exchange: string) {
    |m| >= 1 ==> exists i :: 0 <= i < |xs| && Matches(xs[i], symbol, exchange) && m[0] == xs[i]
  }

  /** The rows selected by the equality filter on both columns, in list order. */
  function MatchesOf(instruments: seq<Instrument>, symbol: string, exchange: string): (m: seq<Instrument>)
    ensures |m| == 0 <==> forall i :: 0 <= i < |instruments| ==> !Matches(instruments[i], symbol, exchange)
    ensures |m| >= 2 <==> exists i, j :: 0 <= i < j < |instruments| &&
                            Matches(instruments[i], symbol, exchange) && Matches(instruments[j], symbol, exchange)
    ensures |m| >= 1 ==> exists i :: 0 <= i < |instruments| && Matches(instruments[i], symbol, exchange) &&
                            m[0] == instruments[i]
    decreases |instruments|
  {
    if |instruments| == 0 then []
    else
      var rest := MatchesOf(instruments[1..], symbol, exchange);
      var m := if Matches(instruments[0], symbol, exchange) then [instruments[0]] + rest else rest;
      MatchesStep(instruments, symbol, exchange, rest, m);
      m
  }

  /** One step of the filter: the facts about the rest of the list carry
      over to the whole list. */
  lemma MatchesStep(xs: seq<Instrument>, symbol: string, exchange: string, rest: seq<Instrument>, m: seq<Instrument>)
    requires |xs| > 0
    requires |rest| == 0 <==> NoMatch(xs[1..], symbol, exchange)
    requires |rest| >= 2 <==> TwoMatches(xs[1..], symbol, exchange)
    requires HeadsWithMatch(rest, xs[1..], symbol, exchange)
    requires m == if Matches(xs[0], symbol, exchange) then [xs[0]] + rest else rest
    ensures |m| == 0 <==> NoMatch(xs, symbol, exchange)
    ensures |m| >= 2 <==> TwoMatches(xs, symbol, exchange)
    ensures HeadsWithMatch(m, xs, symbol, exchange)
  {
    var tail := xs[1..];
    assert forall i :: 1 <= i < |xs| ==> xs[i] == tail[i - 1];
    if Matches(xs[0], symbol, exchange) {
      if |rest| >= 1 {
        var j :| 0 <= j < |tail| && Matches(tail[j], symbol, exchange);
        assert Matches(xs[0], symbol, exchange) && Matches(xs[j + 1], symbol, exchange);
      }
      if TwoMatches(xs, symbol, exchange) {
        var i, j :| 0 <= i < j < |xs| && Matches(xs[i], symbol, exchange) && Matches(xs[j], symbol, exchange);
        assert Matches(tail[j - 1], symbol, exchange);
      }
    } else {
      if |rest| >= 2 {
        var i, j :| 0 <= i < j < |tail| && Matches(tail[i], symbol, exchange) && Matches(tail[j], symbol, exchange);
        assert Matches(xs[i + 1], symbol, exchange) && Matches(xs[j + 1], symbol, exchange);
      }
      if TwoMatches(xs, symbol, exchange) {
        var i, j :| 0 <= i < j < |xs| && Matches(xs[i], symbol, exchange) && Matches(xs[j], symbol, exchange);
        assert Matches(tail[i - 1], symbol, exchange) && Matches(tail[j - 1], symbol, exchange);
      }
      if |rest| >= 1 {
        var i :| 0 <= i < |tail| && Matches(tail[i], symbol, exchange) && rest[0] == tail[i];
        assert xs[i + 1] == rest[0];
      }
    }
  }

  /** `resolve_symbol`: exactly one row with this trading symbol on this
      exchange yields its token; none raises ValueError and several raise
      RuntimeError. */
  function ResolveSymbol(instruments: seq<Instrument>, symbol: string, exchange: string): (r: Result<int>)
    ensures r == Err(ValueError) <==> forall i :: 0 <= i < |instruments| ==> !Matches(instruments[i], symbol, exchange)
    ensures r == Err(RuntimeError) <==> exists i, j :: 0 <= i < j < |instruments| &&
                                                  Matches(instruments[i], symbol, exchange) && Matches(instruments[j], symbol, exchange)
    ensures r.Ok? ==> exists i :: 0 <= i < |instruments| && Matches(instruments[i], symbol, exchange) &&
                                 r.value == instruments[i].token
  {
    var m := MatchesOf(instruments, symbol, exchange);
    if |m| == 0 then Err(ValueError)
    else if |m| > 1 then Err(RuntimeError)
    else Ok(m[0].token)
  }

  /** With a unique match the result is that instrument's token. */
  lemma ResolveUnique(instruments: seq<Instrument>, symbol: string, exchange: string, k: int)
    requires 0 <= k < |instruments| && Matches(instruments[k], symbol, exchange)
    requires forall j :: 0 <= j < |instruments| && j != k ==> !Matches(instruments[j], symbol, exchange)
    ensures ResolveSymbol(instruments, symbol, exchange) == Ok(instruments[k].token)
  {
    var r := ResolveSymbol(instruments, symbol, exchange);
    if r == Err(RuntimeError) {
      assert false;
    }
  }
}

=== FILE: timeframes.dfy ===
/** The timeframe registry (`TIMEFRAMES`) and its derived views.

    Also holds ASCII upper/lower-casing, which several callers apply to a
    timeframe id before looking it up. */
module Timeframes {

  datatype TimeframeMeta = TimeframeMeta(minutes: nat, db: string, kite: string)

  const Registry: map<string, TimeframeMeta> := map[
    "1M" := TimeframeMeta(1, "1minute", "minute"),
    "5M" := TimeframeMeta(5, "5minute", "5minute"),
    "10M" := TimeframeMeta(10, "10minute", "10minute"),
    "15M" := TimeframeMeta(15, "15minute", "15minute"),
    "1D" := TimeframeMeta(1440, "day", "day")
  ]

  /** The backward-compatible view `TIMEFRAME_MAP`: timeframe id to the vendor interval name. */
  const KiteMap: map<string, string> := map tf | tf in Registry :: Registry[tf].kite

  const Daily: string := "1D"

  /** The intraday ids: every registry key except the daily one. */
  predicate IsIntraday(tf: string) {
    tf in Registry && tf != Daily
  }

  lemma RegistryKeys()
    ensures Registry.Keys == {"1M", "5M", "10M", "15M", "1D"}
  {
  }

  lemma RegistryMinutes()
    ensures Registry["1M"].minutes == 1
    ensures Registry["5M"].minutes == 5
    ensures Registry["10M"].minutes == 10
    ensures Registry["15M"].minutes == 15
    ensures Registry["1D"].minutes == 1440
  {
  }

  /** Every intraday step divides an hour, so flooring the minute of the hour
      to the step is the same as flooring the instant to the step grid. */
  lemma IntradayMinutesDivideHour(tf: string)
    requires IsIntraday(tf)
    ensures 0 < Registry[tf].minutes && 60 % Registry[tf].minutes == 0
  {
  }

  lemma KiteMapMirrorsRegistry()
    ensures KiteMap.Keys == Registry.Keys
    ensures forall tf :: tf in KiteMap ==> KiteMap[tf] == Registry[tf].kite
  {
  }

  function UpperChar(c: char): (u: char)
    ensures 'a' <= c <= 'z' ==> u as int == c as int - 32
    ensures !('a' <= c <= 'z') ==> u == c
  {
    if 'a' <= c <= 'z' then (c as int - 32) as char else c
  }

  function LowerChar(c: char): (l: char)
    ensures 'A' <= c <= 'Z' ==> l as int == c as int + 32
    ensures !('A' <= c <= 'Z') ==> l == c
  {
    if 'A' <= c <= 'Z' then (c as int + 32) as char else c
  }

  /** `str.upper()` restricted to ASCII letters. */
  function Upper(s: string): (r: string)
    ensures |r| == |s|
    ensures forall i :: 0 <= i < |s| ==> r[i] == UpperChar(s[i])
  {
    seq(|s|, i requires 0 <= i < |s| => UpperChar(s[i]))
  }

  /** `str.lower()` restricted to ASCII letters. */
  function Lower(s: string): (r: string)
    ensures |r| == |s|
    ensures forall i :: 0 <= i < |s| ==> r[i] == LowerChar(s[i])
  {
    seq(|s|, i requires 0 <= i < |s| => LowerChar(s[i]))
  }

  /** An upper-cased string contains no lower-case ASCII letter. */
  predicate NoLowerAscii(s: string) {
    forall i :: 0 <= i < |s| ==> !('a' <= s[i] <= 'z')
  }

  lemma UpperHasNoLower(s: string)
    ensures NoLowerAscii(Upper(s))
  {
  }

  lemma UpperIdempotent(s: string)
    ensures Upper(Upper(s)) == Upper(s)
  {
  }

  /** Every registry key is already upper case, so upper-casing maps it to itself. */
  lemma RegistryKeysAreUpper(tf: string)
    requires tf in Registry
    ensures Upper(tf) == tf
  {
  }
}

=== FILE: validator.dfy ===
/** Batch hygiene: drop rows with a repeated timestamp, keeping the first, and
    order the rest by timestamp. The orchestrator's merge of a fetched batch
    with its gap re-fetches applies the same two steps. */
module Validator {
  import opened Wrappers
  import opened Clock
  import opened Sorting
  import opened CandleStore

  function TsSet(s: seq<Candle>): set<Ts> {
    set c | c in s :: c.ts
  }

  function TsList(s: seq<Candle>): (r: seq<Ts>)
    ensures |r| == |s|
    ensures forall i :: 0 <= i < |s| ==> r[i] == s[i].ts
  {
    seq(|s|, i requires 0 <= i < |s| => s[i].ts)
  }

  /** The first candle of `s` stamped `t`, if any. */
  function FirstWithTs(s: seq<Candle>, t: Ts): (r: Option<Candle>)
    ensures r.Some? <==> t in TsSet(s)
    ensures r.Some? ==> r.value in s && r.value.ts == t
  {
    if |s| == 0 then None
    else if s[0].ts == t then Some(s[0])
    else
      var r := FirstWithTs(s[1..], t);
      assert TsSet(s) == {s[0].ts} + TsSet(s[1..]) by {
        assert s == [s[0]] + s[1..];
      }
      r
  }

  /** `drop_duplicates(subset=["ts"])` scanning left to right, with `seen`
      the timestamps already kept. */
  function DedupFrom(s: seq<Candle>, seen: set<Ts>): (r: seq<Candle>)
    ensures |r| <= |s|
    ensures forall c :: c in r <==> c.ts !in seen && FirstWithTs(s, c.ts) == Some(c)
    decreases |s|
  {
    if |s| == 0 then []
    else
      assert s == [s[0]] + s[1..];
      if s[0].ts in seen then
        DedupFrom(s[1..], seen)
      else
        [s[0]] + DedupFrom(s[1..], seen + {s[0].ts})
  }

  function DropDuplicates(s: seq<Candle>): (r: seq<Candle>)
    ensures |r| <= |s|
    ensures forall c :: c in r <==> FirstWithTs(s, c.ts) == Some(c)
  {
    DedupFrom(s, {})
  }

  lemma {:induction false} TsSetCard(s: seq<Candle>)
    ensures |TsSet(s)| <= |s|
  {
    if |s| > 0 {
      assert s == [s[0]] + s[1..];
      assert TsSet(s) == {s[0].ts} + TsSet(s[1..]);
      TsSetCard(s[1..]);
    }
  }

  /** `validate_candles`: an empty batch is returned as is; otherwise the
      first row per timestamp survives and the survivors are ordered by
      timestamp. Ordering rows whose timestamps are pairwise distinct is
      the same as listing the distinct timestamps in ascending order and
      taking the row of each. */
  function ValidateCandles(s: seq<Candle>): (r: seq<Candle>)
    ensures |s| == 0 ==> r == s
    ensures forall i, j :: 0 <= i < j < |r| ==> r[i].ts < r[j].ts
    ensures forall i :: 0 <= i < |r| ==> FirstWithTs(s, r[i].ts) == Some(r[i])
    ensures TsSet(r) == TsSet(s)
    ensures |r| == |TsSet(s)| <= |s|
  {
    if |s| == 0 then s
    else
      var d := DropDuplicates(s);
      DropDuplicatesKeepsTs(s);
      var ks := Ascending(TsSet(d));
      var r := FirstOfEach(d, ks);
      FirstOfEachFacts(s, d, ks);
      TsSetCard(s);
      r
  }

  /** Dropping repeats loses no timestamp. */
  lemma DropDuplicatesKeepsTs(s: seq<Candle>)
    ensures TsSet(DropDuplicates(s)) == TsSet(s)
  {
    var d := DropDuplicates(s);
    forall t | t in TsSet(s)
      ensures t in TsSet(d)
    {
      var c := FirstWithTs(s, t).value;
      assert c in d;
    }
  }

  /** The first row of `d` for each timestamp of `ks`, in the order of `ks`. */
  function FirstOfEach(d: seq<Candle>, ks: seq<Ts>): (r: seq<Candle>)
    requires forall i :: 0 <= i < |ks| ==> ks[i] in TsSet(d)
    ensures |r| == |ks|
    ensures forall i :: 0 <= i < |r| ==> r[i].ts == ks[i] && r[i] in d
  {
    seq(|ks|, i requires 0 <= i < |ks| => FirstWithTs(d, ks[i]).value)
  }

  lemma FirstOfEachFacts(s: seq<Candle>, d: seq<Candle>, ks: seq<Ts>)
    requires d == DropDuplicates(s) && TsSet(d) == TsSet(s)
    requires StrictlyIncreasing(ks) && forall x :: x in ks <==> x in TsSet(d)
    ensures forall i :: 0 <= i < |ks| ==> ks[i] in TsSet(d)
    ensures var r := FirstOfEach(d, ks);
      && (forall i, j :: 0 <= i < j < |r| ==> r[i].ts < r[j].ts)
      && (forall i :: 0 <= i < |r| ==> FirstWithTs(s, r[i].ts) == Some(r[i]))
      && TsSet(r) == TsSet(s)
  {
    assert forall i :: 0 <= i < |ks| ==> ks[i] in ks;
    var r := FirstOfEach(d, ks);
    assert forall i :: 0 <= i < |r| ==> FirstWithTs(s, r[i].ts) == Some(r[i]) by {
      forall i | 0 <= i < |r|
        ensures FirstWithTs(s, r[i].ts) == Some(r[i])
      {
        assert r[i] in d;
      }
    }
    TsSetOfStamped(r, ks, TsSet(s));
  }

  /** Rows stamped in turn with the members of `ks` carry exactly the
      timestamps `ks` lists. */
  lemma TsSetOfStamped(r: seq<Candle>, ks: seq<Ts>, want: set<Ts>)
    requires |r| == |ks| && forall i :: 0 <= i < |r| ==> r[i].ts == ks[i]
    requires forall x :: x in ks <==> x in want
    ensures TsSet(r) == want
  {
    forall t | t in want
      ensures t in TsSet(r)
    {
      var i :| 0 <= i < |ks| && ks[i] == t;
      assert r[i] in r;
    }
  }

  lemma TsListMembers(s: seq<Candle>)
    ensures forall x :: x in TsList(s) <==> x in TsSet(s)
  {
    forall x | x in TsSet(s)
      ensures x in TsList(s)
    {
      var c :| c in s && c.ts == x;
      var j :| 0 <= j < |s| && s[j] == c;
      assert TsList(s)[j] == x;
    }
  }

  /** In a batch with strictly increasing timestamps the first row stamped
      `t` is the only one. */
  lemma FirstInStrictBatch(r: seq<Candle>, i: int)
    requires forall i, j :: 0 <= i < j < |r| ==> r[i].ts < r[j].ts
    requires 0 <= i < |r|
    ensures FirstWithTs(r, r[i].ts) == Some(r[i])
  {
    assert r[i] in r;
    var c := FirstWithTs(r, r[i].ts).value;
    var j :| 0 <= j < |r| && r[j] == c;
  }

  /** Validating a validated batch changes nothing. */
  lemma ValidateIdempotent(s: seq<Candle>)
    ensures ValidateCandles(ValidateCandles(s)) == ValidateCandles(s)
  {
    var r := ValidateCandles(s);
    SameStampsSameBatch(r, ValidateCandles(r));
  }

  /** Two strictly ordered batches with the same timestamps, the second
      taking each row from the first, are equal. */
  lemma SameStampsSameBatch(r: seq<Candle>, v: seq<Candle>)
    requires forall i, j :: 0 <= i < j < |r| ==> r[i].ts < r[j].ts
    requires forall i, j :: 0 <= i < j < |v| ==> v[i].ts < v[j].ts
    requires forall i :: 0 <= i < |v| ==> FirstWithTs(r, v[i].ts) == Some(v[i])
    requires TsSet(v) == TsSet(r) && |v| == |r|
    ensures v == r
  {
    var a := TsList(r);
    var b := TsList(v);
    TsListMembers(r);
    TsListMembers(v);
    assert StrictlyIncreasing(a);
    assert StrictlyIncreasing(b);
    StrictlyIncreasingUnique(a, b);
    forall i | 0 <= i < |v|
      ensures v[i] == r[i]
    {
      assert a[i] == b[i];
      FirstInStrictBatch(r, i);
    }
  }
}

=== FILE: wrappers.dfy ===
/** Failure-compatible wrappers shared by every module of the model.

    The Python source signals errors by raising; the model returns a `Result`
    whose failure side names the exception class that would have been raised. */
module Wrappers {

  datatype Option<+T> = None | Some(value: T) {
    predicate IsFailure() { None? }

    function PropagateFailure<U>(): Option<U>
      requires None?
    {
      None
    }

    function Extract(): T
      requires Some?
    {
      value
    }

    function GetOr(default: T): T {
      match this
      case Some(v) => v
      case None => default
    }
  }

  /** The exception classes raised by the modelled code. */
  datatype Error =
    | ValueError
    | KeyError
    | RuntimeError
    | IndexError
    | TypeError          // an operation applied to a value of the wrong kind
    | AttributeError     // a method looked up on a value that lacks it
    | StopIteration      // `next` on an exhausted iterator
    | ProviderError      // a failure reported by the external data source
    | RequestValidation  // a query parameter rejected before the handler runs

  datatype Result<+T> = Ok(value: T) | Err(error: Error) {
    predicate IsFailure() { Err? }

    function PropagateFailure<U>(): Result<U>
      requires Err?
    {
      Err(error)
    }

    function Extract(): T
      requires Ok?
    {
      value
    }
  }
}
